=== FILE: README.md ===
# acrostic, modelled in Dafny

This project models the core of **acrostic**, a Go program that lays out Japanese text in a grid of a given width so that a keyword reads down one column.

The program works in five stages:
1. It splits a paragraph into sentences.
2. It reads the output of the KNP dependency analyser, which gives phrases, basic phrases, predicates and case elements.
3. It enumerates the clause orders that keep each dependency edge.
4. For every basic phrase, it builds the surface variants: kanji, kana, polite and WordNet synonym forms.
5. It runs a backtracking search over the slots. The search picks one variant per slot so that the keyword's runes land one below the other in a single column.

Each Go source file of the core is one Dafny module, under the same name:

| module | file |
|---|---|
| `Runes` | the helper contracts of the `lgo/runes`, `strconv` and `algo` packages the core calls |
| `Kana` | `kana.go` |
| `Parts` | `part.go` |
| `WordNetParts` | `wordnet_part.go` |
| `WordNetLinks` | `wordnet_link.go` |
| `WordNets` | `wordnet.go` |
| `SystemUtil` | `system.go` |
| `CaseAnalysis` | `case_analysis.go` |
| `CaseElements` | `case_element.go` |
| `Predicates` | `predicate.go` |
| `Anaphora` | `anaphora.go` |
| `JumanKnp` | `jumanknp.go` |
| `Phrases` | `phrase.go` |
| `Sentences` | `sentence.go` |
| `Paragraphs` | `paragraph.go` |
| `BasicPhrases` | `basic_phrase.go` |
| `Patterns` | the route and dedup helpers of `pattern.go` |
| `Shuffles` | `Shuffle` in `pattern.go`: group compression, restore and reversal |
| `ArrangeMatrices` | `arrange_matrix.go`: the keyword-column search |
| `Arranges` | `arrange.go` |
| `Acrostics` | the option parsing and size rules of `acrostic.go` |

Modelling conventions:
- Values are immutable datatypes, and every operation is a pure function.
- A Go `error` return becomes a `Result` or `Option`.
- A panic, such as an index out of range or a `log.Fatal`, becomes `None` or a `Panic` outcome, so that the conditions under which the program crashes can be stated.
- Go strings are handled as rune sequences (`string` here is `seq<char>`), as the source does through `[]rune`.
- Go's integer division truncates toward zero, and it is written out where operands can be negative.
- The helpers from outside the repository are given definitions with the contracts the core relies on. These are `runes.Index`, `runes.Split`, `strconv.Atoi`, and `algo.Permutations`, `Combinations`, `Contains` and `Reverse`. The order in which Permutations and Combinations list their items is the model's own choice; only which items are listed, and how many, follows the library's promise.
- `algo.ValidateOrder` is taken as a predicate parameter.

The auto height in `acrostic.go` follows the code rather than the field's comment. The comment near `acrostic.go:58` describes characters divided by width, times 2. The code (lines 500-509) multiplies the rune count of the last text by its number of line feeds before dividing by the width. The model uses the code's formula.

## Model

| member | source | states |
|---|---|---|
| Runes.Index | src/acrostic/arrange_matrix.go:260 | -1, or a position at or after `from` where the needle occurs with no earlier such position |
| Runes.IndexFindsContains | src/acrostic/case_analysis.go:21-29 | the search from 0 succeeds iff the needle occurs somewhere |
| Runes.TagContentFormatted | src/acrostic/anaphora.go:110-119 | a tag written as `pre open value > post` reads back as the value |
| Runes.JoinSplit | src/acrostic/acrostic.go:346-378 | joining the pieces of a split with the separator gives back the text |
| Runes.SplitJoin | src/acrostic/acrostic.go:346-378 | splitting a join of separator-free pieces gives back the pieces |
| Runes.AtoiItoa | src/acrostic/acrostic.go:355 | every integer's decimal spelling parses back to it |
| Runes.ReverseReverse | src/acrostic/pattern.go:236-238 | reversing twice gives back the order |
| Runes.Permutations | src/acrostic/pattern.go:150 | n! orderings, each a rearrangement of the input |
| Runes.PermutationsComplete | src/acrostic/arrange.go:190 | every rearrangement of the input is enumerated |
| Runes.Combinations | src/acrostic/arrange.go:198-224 | one choice per element of the cartesian product, each picking one entry of every list |
| Runes.CombinationsComplete | src/acrostic/arrange.go:198-224 | every choice of one entry per list is enumerated |
| SystemUtil.Indent | src/acrostic/system.go:19-25 | the result is exactly 2·max(i, 0) spaces, so a level of zero or below gives the empty string |
| SystemUtil.IndentStep | src/acrostic/system.go:19-25 | one more level appends exactly two spaces: Indent(i + 1) == Indent(i) + "  " for i ≥ 0 |
| SystemUtil.MaybeYesCaseSensitive | src/acrostic/system.go:43-45 | the empty answer counts as yes, while "Yes" and "n" do not: the comparison is case-sensitive |
| CaseAnalysis.GetCaseAnalysisType | src/acrostic/case_analysis.go:20-35 | predicate side iff the predicate tag occurs; case-element side iff it does not and the analysed-case or connection tag occurs; none otherwise |
| CaseAnalysis.String | src/acrostic/case_analysis.go:37-46 | the predicate side prints 述語側, the case-element side 格要素側, every other value なし |
| CaseAnalysis.PredicateTagWins | src/acrostic/case_analysis.go:20-28 | a text with both the predicate tag and the case tag is on the predicate side, because that check comes first |
| CaseAnalysis.StringInjective | src/acrostic/case_analysis.go:37-46 | the three sides print as three different names |
| CaseElements.Analyze | src/acrostic/case_element.go:42-73 | success iff neither tag is left unclosed and at least one occurs; each flag is set iff its tag occurs, and the value is the text between the tag and the next '>' |
| CaseElements.AnalyzeFormattedCase | src/acrostic/case_element.go:46-55 | a line carrying one analysed-case tag with value v parses back to v with only the case flag set |
| CaseElements.AnalyzedIsCaseSide | src/acrostic/case_analysis.go:25-31 | every line the element parser accepts is classified as case-element side, unless a predicate tag comes first |
| CaseElements.CopyAsWritten | src/acrostic/case_element.go:32-39 | as written, every field is copied except the connection flag, which stays false |
| CaseElements.CopyAsWrittenDropsConnection | src/acrostic/case_element.go:32-39 | a connection-only element parsed from "<解析連絡:ノ>" has neither flag after the copy |
| CaseElements.Copy | src/acrostic/case_element.go:32-39 | the corrected copy equals the original in every field |
| Parts.String | src/acrostic/part.go:42-81 | every constant prints its Japanese name from the table; any other value prints 不明 |
| Parts.NewPart | src/acrostic/part.go:83-119 | the result is always a constant; unless it is UnknownPart, its name is the input |
| Parts.NewPartString | src/acrostic/part.go:42-119 | printing then parsing gives every constant back, UnknownPart included |
| Parts.NewPartStringOutside | src/acrostic/part.go:74-76 | a value outside the constants prints 不明 and parses back as UnknownPart |
| Parts.StringNewPart | src/acrostic/part.go:42-119 | parsing then printing gives every listed name back |
| Parts.ClassesPartition | src/acrostic/part.go:123-149 | each constant is exactly one of adjunct, suffix, special, independent or unknown; Prefix and Determine count as independent; a flection part is independent or adjunct |
| WordNetParts.String | src/acrostic/wordnet_part.go:14-29 | the code is v, a, n or r for the four real parts and "unknown" exactly for every other value |
| WordNetParts.NewWordNetPart | src/acrostic/wordnet_part.go:30-43 | the result is unknown exactly when the input is none of v, a, n, r |
| WordNetParts.NewWordNetPartString | src/acrostic/wordnet_part.go:14-43 | the four real parts round-trip through their code; every other value comes back unknown |
| WordNetParts.StringNewWordNetPart | src/acrostic/wordnet_part.go:14-43 | each of the four codes round-trips through the part |
| WordNetParts.ToWordNetPart | src/acrostic/wordnet_part.go:45-74 | verb, noun and adverb keep their class; adjective, adjectival verb and adnominal become adjective; everything else is unknown |
| WordNetParts.ToWordNetPartCode | src/acrostic/wordnet_part.go:45-74 | the code looked up for a converted part names that same part again |
| WordNetLinks.ConstantsConsecutive | src/acrostic/wordnet_link.go:21-68 | the declared link constants are 0, 1, … in order, and WNEnd equals their number, 22 |
| WordNetLinks.NewWordNetLink | src/acrostic/wordnet_link.go:8-19 | a link is returned exactly for "synonyms", "hype" and "hypo", and it lies below WNEnd; any other name is fatal |
| WordNetLinks.NewWordNetLinkDistinct | src/acrostic/wordnet_link.go:8-19 | two accepted names give the same link iff they are the same name |
| WordNets.AnswerString | src/acrostic/wordnet.go:27-38 | exactly the three answers print, as "", "all" and "synonyms"; any other value is fatal |
| WordNets.NewWordNetAnswer | src/acrostic/wordnet.go:40-50 | the result is always a valid answer; it is All iff the text is "all" and Synonyms iff it is "synonyms"; everything else, unknown text included, is None |
| WordNets.NewWordNetAnswerString | src/acrostic/wordnet.go:27-50 | every valid answer survives printing and parsing back |
| WordNets.Copy | src/acrostic/wordnet.go:76-89 | surface, link, language, part, kana and the inflection fields are copied; the four polite fields are left at their zero values |
| WordNets.CopyFaithful | src/acrostic/wordnet.go:76-89 | a result without polite forms survives the copy unchanged, and copying twice equals copying once |
| WordNets.GetWordNetLinkList | src/acrostic/wordnet.go:384-390 | the list has WNEnd entries with entry i equal to i, so every link kind occurs |
| WordNets.AcceptedLinkIsListed | src/acrostic/wordnet_link.go:8-19 | every name NewWordNetLink accepts is a valid index into the link list and names itself there |
| WordNets.VerbSurface | src/acrostic/wordnet.go:253-260 | "する" is appended exactly for a verb or adverb lookup whose synonym does not end in a u-row rune; otherwise the surface is unchanged |
| WordNets.VerbSurfaceEndsInU | src/acrostic/wordnet.go:253-260 | after the rule, a verb or adverb synonym always ends in a u-row rune |
| WordNets.SelectSynset | src/acrostic/wordnet.go:224-242 | a synset is skipped iff the list is in use, has an entry for the phrase, and records no answer for the synset; a recorded answer is used as is; otherwise the answer is None |
| WordNets.LinksFor | src/acrostic/wordnet.go:244-250 | a synonyms-only answer keeps exactly the WNSynonym links, as many as were asked for; any other answer keeps the links unchanged |
| WordNets.LinksForKeepsSynonym | src/acrostic/wordnet.go:244-250 | under a synonyms-only answer, WNSynonym is queried iff it was among the links asked for |
| Kana.ToHiraganaRune | src/acrostic/kana.go:54-60 | the rune found in KatakanaList becomes the hiragana at the same index, which is the reference hiragana image of the rune; other runes are unchanged |
| Kana.KatakanaToHiragana | src/acrostic/kana.go:50-62 | the length is preserved, and each rune is replaced by its hiragana image |
| Kana.Wide | src/acrostic/kana.go:110-116 | the rune is followed by one space exactly when it is in NumberList or AlphabetList; otherwise it stands alone |
| Kana.KatakanaToHiraganaIdempotent | src/acrostic/kana.go:10-24 | converting twice equals converting once, because the lists are aligned |
| Kana.KatakanaToHiraganaKeepsOthers | src/acrostic/kana.go:54-60 | a text without katakana letters is unchanged |
| Kana.HasOnlyKanaIsKanaClass | src/acrostic/kana.go:36-48 | HasOnlyKana holds iff every rune is in one of the six classes; the empty text qualifies |
| Kana.HasOnlyKanaKeptByConversion | src/acrostic/kana.go:36-62 | converting a kana-only text to hiragana keeps it kana-only |
| Kana.TablesAligned | src/acrostic/kana.go:10-24 | each HiraganaList entry is the hiragana image of the KatakanaList entry at the same index |
| Kana.KatakanaCovered | src/acrostic/kana.go:18-24 | every katakana letter U+30A1 to U+30F4 occurs in KatakanaList |
| Kana.AsciiTables | src/acrostic/kana.go:26-29 | NumberList is the ASCII digits and '-'; AlphabetList is the ASCII letters, '.', ',', ' ' and '%' |
| Kana.KatakanaListClass | src/acrostic/kana.go:18-24 | a rune is in KatakanaList iff it is in the katakana class |
| Kana.HiraganaListClass | src/acrostic/kana.go:10-17 | a rune is in HiraganaList iff it is in the hiragana class, '\n' included |
| Kana.ZenkakuListClass | src/acrostic/kana.go:27-34 | the full-width tables hold exactly the full-width letters, punctuation and digits |
| Kana.TablesClass | src/acrostic/kana.go:10-48 | a rune is in one of the six tables iff it is in the combined kana class |
| JumanKnp.Origin | src/acrostic/jumanknp.go:140-151 | the result is a proper prefix of the text; it is two runes shorter iff the last two runes occur in "する;ます", otherwise one rune shorter |
| JumanKnp.TwoRuneWindows | src/acrostic/jumanknp.go:142 | the two-rune windows of "する;ます" are exactly "する", "る;", ";ま" and "ます" |
| JumanKnp.OriginStripsEnding | src/acrostic/jumanknp.go:142-145 | a stem followed by "する", "ます", "る;" or ";ま" gives back the stem |
| JumanKnp.OriginDropsLastRune | src/acrostic/jumanknp.go:146-149 | with any other two-rune ending, only the last rune is dropped |
| JumanKnp.IsPastExactly | src/acrostic/jumanknp.go:240-242 | a form is past iff its last two runes are "タ形" |
| JumanKnp.IsInflectionPoliteExactly | src/acrostic/jumanknp.go:245-247 | a form is polite iff its first three runes are "デス列" |
| JumanKnp.Inflection | src/acrostic/jumanknp.go:185-207 | success iff the type is known, the form is in its table and the entry is not "*"; the inflected surface is then Origin(text) followed by the entry |
| JumanKnp.InflectionWalkVolitional | src/acrostic/jumanknp_test.go:75-84 | 歩く of type 子音動詞カ行 in 意志形 inflects to 歩こう |
| JumanKnp.InflectionPolite | src/acrostic/jumanknp.go:210-236 | success iff ます inflects into the form; the result is then the 基本連用形 (or the stem when that is missing) followed by that inflection |
| JumanKnp.InflectionPoliteFallback | src/acrostic/jumanknp.go:212-215 | without a 基本連用形 entry, the polite form is built on Origin(text) |
| Anaphora.AnalyzeGroup | src/acrostic/anaphora.go:43-60 | success iff the text is present, splits into exactly four '/'-fields, and the fourth field is an integer; the first three fields and the entity id are then those fields |
| Anaphora.GroupAfterAnalyze | src/acrostic/anaphora.go:163-169 | the group kept when its error is ignored: the parsed group on success, a bare group when the split fails, and always the original text |
| Anaphora.AnalyzeGroupFormatted | src/acrostic/anaphora.go:43-60 | four fields printed with '/' between them read back as those fields |
| Anaphora.CopyGroup | src/acrostic/anaphora.go:34-41 | the copy equals the original group |
| Anaphora.Copy | src/acrostic/anaphora.go:87-99 | the copy equals the original term, each case-element group included |
| Anaphora.SkipNonDigits | src/acrostic/anaphora.go:143-148 | the scan stops at the first digit at or after the start, or at the end |
| Anaphora.SkipDigits | src/acrostic/anaphora.go:151-157 | the scan stops at the first non-digit at or after the start, or at the end |
| Anaphora.ParseStructure | src/acrostic/anaphora.go:136-170 | success iff the struct text has a ':' and the digit run after it is an integer; the notation then has no ':' and the type has no digit |
| Anaphora.ParseStructureFormatted | src/acrostic/anaphora.go:136-170 | notation ':' type number, a separator and the groups parse back to those pieces, with the groups split on ';' |
| Anaphora.Analyze | src/acrostic/anaphora.go:101-175 | a missing entity-id tag is an error; on success the id is the integer inside the closed tag, and the term is available iff the struct tag occurs; without it there are no groups |
| Anaphora.AnalyzeEidOnly | src/acrostic/anaphora.go:109-130 | a line with an entity id and no struct tag gives exactly that id and nothing else |
| Predicates.CaseElementInt | src/acrostic/predicate.go:41-47 | the flag is set iff Atoi succeeds, with the parsed value; otherwise (false, 0) |
| Predicates.CaseElementIntToString | src/acrostic/predicate.go:176-182 | an absent value prints "-"; a present value prints as a text that Atoi reads back as the value |
| Predicates.CaseElementIntRoundTrip | src/acrostic/predicate.go:41-47 | printing then reading an optional integer gives it back; an absent one reads as (false, 0) |
| Predicates.AnalyzeGroup | src/acrostic/predicate.go:71-86 | success iff the text is present and splits into exactly six '/'-fields; the first three are kept verbatim and the last three read as optional integers |
| Predicates.AnalyzeGroupFormatted | src/acrostic/predicate.go:71-86 | a group printed with '/' between its six fields reads back as the values it was printed from |
| Predicates.AnalyzeGroups | src/acrostic/predicate.go:162-169 | success iff every group parses; the groups are then the parsed ones, in order; the first failure aborts |
| Predicates.CollectTagsAsWritten | src/acrostic/predicate.go:128-139 | as written, a begin tag missing or unclosed is an error, a single tag is collected once, and a line with two or more tags never leaves the loop |
| Predicates.CollectTagsAsWrittenLoops | src/acrostic/predicate.go:128-139 | on a line with two tags the loop as written does not end, while the corrected loop collects both tags |
| Predicates.CollectFrom | src/acrostic/predicate.go:129-139 | each collected piece starts with the begin tag and holds no '>', and at least one piece is collected |
| Predicates.CollectTags | src/acrostic/predicate.go:123-139 | a line without the begin tag is an error; otherwise every collected piece starts with the begin tag and holds no '>' |
| Predicates.CollectTagsFormatted | src/acrostic/predicate.go:123-139 | a line of tags after text without '<' yields exactly its tags, in order |
| Predicates.ScanDigits | src/acrostic/predicate.go:144-148 | the scan ends at the first end of a digit run; running off the end without one is the index panic |
| Predicates.FirstRunEnd | src/acrostic/predicate.go:142-148 | the position returned is the first end of a digit run, and there is none when the scan panics |
| Predicates.FirstRunEndAt | src/acrostic/predicate.go:142-148 | in a text of non-digits, then digits, then a non-digit, the first run ends where the non-digit begins |
| Predicates.ParseTag | src/acrostic/predicate.go:141-161 | a parsed tag's case-frame id is notation '/' type ':' number, cut at the first '/' and the first ':', and the groups are the rest split on ';' |
| Predicates.ParseTagFormatted | src/acrostic/predicate.go:141-161 | a tag printed as begin tag, notation, '/', type, ':', a number ending in digits and the groups parses back into those pieces |
| Predicates.ApplyTags | src/acrostic/predicate.go:141-170 | applying tags keeps the basic phrase and the earlier groups, and appends only groups of six fields |
| Predicates.Analyze | src/acrostic/predicate.go:121-174 | with the tag loop corrected: a line without the begin tag fails; on success the basic phrase is kept and every group has six fields |
| Predicates.AnalyzeAsWritten | src/acrostic/predicate.go:121-174 | as written, the analysis never ends exactly when a begin tag follows the first closed tag; whenever it ends it gives what the corrected Analyze gives; it hangs on every line the corrected loop reads two or more tags from |
| Predicates.AnalyzeAsWrittenHangs | src/acrostic/predicate.go:128-139 | a line of two tags makes the analysis as written hang |
| Predicates.AnalyzeOneTag | src/acrostic/predicate.go:121-174 | a line with one well-formed tag yields exactly that tag's notation, type, number and groups |
| Predicates.ApplyOneTag | src/acrostic/predicate.go:157-169 | applying one parsed tag to a fresh predicate sets the three case-frame fields and the parsed groups |
| Phrases.RunEnd | src/acrostic/phrase.go:83-89 | the scan stops at the first rune that is neither a digit nor '-'; running off the line is the index panic |
| Phrases.ParseHeader | src/acrostic/phrase.go:80-100 | the destination is the integer spelled by the digit and '-' run after the first space; the dependency type is the rune after that run; parallel iff that rune is P; a missing space or run end panics |
| Phrases.ParseHeaderFormatted | src/acrostic/phrase.go:80-100 | a header `head n t rest` parses to destination n with type t, parallel iff t is P |
| Phrases.ParseHeaderExample | src/acrostic/phrase.go:80-100 | "* 1D" has destination 1 and type D and is not parallel |
| Phrases.Analyze | src/acrostic/phrase.go:67-145 | at most two lines is an error; on success the first line starts with '*' and gives the header, the basic phrases are numbered begin, begin + 1, …, only the first inherits NewLine, and begin plus their count is returned |
| Phrases.AnalyzeGroupsLines | src/acrostic/phrase.go:103-138 | the basic phrases hold lines 1.. in order, each group opening at a '+' line, and the last group has at least two lines |
| Phrases.SurfaceConcat | src/acrostic/phrase.go:147-163 | the surface and the kana of two runs of basic phrases are the two runs' surfaces and kana joined |
| Phrases.SurfaceLength | src/acrostic/phrase.go:147-154 | the surface is as long as the basic phrases' surfaces together |
| Sentences.SplitFrom | src/acrostic/sentence.go:88-106 | the loop panics iff some remaining line is empty; it never errors otherwise |
| Sentences.Split | src/acrostic/sentence.go:79-116 | splitting panics iff some line is empty, and never fails otherwise |
| Sentences.SplitGroups | src/acrostic/sentence.go:79-116 | Split keeps exactly the non-EOS lines from the first '*' line on, in order, and every group begins with its '*' line |
| Sentences.SplitExample | src/acrostic/sentence.go:79-116 | a two-phrase output gives two groups; the line before the first '*' and the EOS line are dropped |
| Sentences.Relink | src/acrostic/sentence.go:154-175 | after relinking, n ends the list under d, key n is gone unless it is d, and the other keys keep their lists |
| Sentences.RelinkListed | src/acrostic/sentence.go:154-175 | the values listed after relinking are those listed before plus n |
| Sentences.RelinkUnique | src/acrostic/sentence.go:154-175 | relinking a number not yet listed keeps every value listed exactly once |
| Sentences.ParallelIndexListed | src/acrostic/sentence.go:135-178 | a number is listed in the parallel index iff it is the number of a parallel phrase |
| Sentences.ParallelIndexUnique | src/acrostic/sentence.go:135-178 | with increasing phrase numbers, every parallel phrase is listed exactly once |
| Sentences.ParallelIndexChain | src/acrostic/sentence.go:135-178 | the chain 0 → 1 → 2 of parallel phrases ends up as one list [0, 1, 2] under 2's destination |
| Sentences.SubIndex | src/acrostic/sentence.go:216-231 | each group is the key's list followed by the key, one group per key in the order the map is walked |
| Sentences.SubIndexDisjoint | src/acrostic/sentence.go:216-231 | with every value listed once, no phrase appears in two groups' lists or twice in one list |
| Sentences.BuildGraph | src/acrostic/sentence.go:186-214 | mat[i][j] holds iff phrase i is not parallel and points to j, or i = 0, j = 1 and the sentence opens with a full-width space; init holds the destinations; an out-of-range destination panics |
| Sentences.InvalidPairs | src/acrostic/sentence.go:261-281 | every recorded invalid pattern is a pair |
| Sentences.InvalidPairsMembers | src/acrostic/sentence.go:261-281 | a pair is recorded iff some available predicate term has an argument group that gives it |
| Sentences.SelectMembers | src/acrostic/sentence.go:282-295 | an order is selected iff it is an order whose flag is set |
| Sentences.FilterOrders | src/acrostic/sentence.go:282-295 | CaseAnalysisResults[i] holds iff order i passes ValidateOrder and, after a leading full-width space, starts with 0; CaseAnalysisPatterns lists exactly the flagged orders in order |
| Sentences.FilterOrdersMembers | src/acrostic/sentence.go:282-295 | an order is listed in CaseAnalysisPatterns iff it is an order and passes |
| Sentences.Found | src/acrostic/sentence.go:397-408 | found holds exactly the order's members that belong to the group, in the order's order |
| Sentences.FirstMatch | src/acrostic/sentence.go:419-428 | the first arrangement equal to found is chosen, and there is none iff found is not among them |
| Sentences.LastIndex | src/acrostic/sentence.go:423-425 | the place recorded for a value is its last position |
| Sentences.LocateSpec | src/acrostic/sentence.go:418-429 | a phrase is placed iff some matched group found it; its place is the last such group, that group's first matching arrangement, and its last rank there |
| Sentences.PhrasesAt | src/acrostic/sentence.go:434-453 | the row exists iff every position's phrase exists, and then it holds those phrases in order |
| Sentences.ParticleRow | src/acrostic/sentence.go:393-453 | a row has one phrase per position of the order |
| Sentences.FoundAll | src/acrostic/sentence.go:397-408 | found has one entry per sub-index group, each the group's members in the order's order |
| Sentences.ParticleRowPlain | src/acrostic/sentence.go:448-452 | with no group matched, every position keeps its own phrase |
| Sentences.PlacedAt | src/acrostic/sentence.go:419-428 | a member of a matched group, held by no later group, is placed at that group, the first matching arrangement and its last rank |
| Sentences.ParticleRowParallel | src/acrostic/sentence.go:437-446 | such a member takes the parallel copy at that group, arrangement and rank |
| Paragraphs.GetPunctuation | src/acrostic/paragraph.go:36-38 | the cut set has eight runes, the line feed and the full-width and ASCII stops among them, and not the comma 、 or the space |
| Paragraphs.TrimNonEmpty | src/acrostic/paragraph.go:83 | trimming the punctuation off a buffer leaves something iff the buffer has a rune outside the punctuation |
| Paragraphs.MarksChars | src/acrostic/paragraph.go:108-110 | the runes kept in the buffer are the text with its line feeds removed |
| Paragraphs.FirstMarkStartsLine | src/acrostic/paragraph.go:71-107 | the first rune that is not a line feed always begins a line, because foundnewline starts true |
| Paragraphs.SplitSentence | src/acrostic/paragraph.go:67-124 | the sentences are cut at each non-punctuation rune that follows punctuation, and each flag records whether a line begins inside its sentence; when the text holds a non-punctuation rune the sentences joined are exactly the text without line feeds, otherwise there is no sentence |
| Paragraphs.FlatSpells | src/acrostic/paragraph.go:83-90 | the first k sentences together spell the first runes of the text, in order |
| Paragraphs.SentenceClean | src/acrostic/paragraph.go:83-113 | no sentence holds a line feed, and each holds a rune outside the punctuation |
| Paragraphs.FirstFlagged | src/acrostic/paragraph.go:70-107 | the first sentence is always flagged, whatever `swap` is |
| Paragraphs.SpellsStrip | src/acrostic/paragraph.go:108-121 | a text holding a non-punctuation rune is spelt exactly by the sentences joined (the final buffer is always flushed then); a punctuation-only text gives no sentence |
| Paragraphs.SplitsFacts | src/acrostic/paragraph.go:67-124 | one flag per sentence; no line feed in a sentence; each holds a non-punctuation rune; the first is flagged; the sentences spell the whole text without line feeds, or there is none when the text is punctuation only |
| Paragraphs.FindRune | src/acrostic/paragraph.go:282-302 | the nested search finds the rune iff some variant of some slot from the current one on contains it |
| Paragraphs.CheckContainsKeyword | src/acrostic/paragraph.go:275-314 | true iff every rune of the keyword occurs in some variant of some slot of the paragraph |
| BasicPhrases.Piece | src/acrostic/basic_phrase.go:340-368 | one surface-order entry is defined iff its part is known and, for a particle or a used suffix, the list still has an entry at the cursor; the cursor advances as for that part alone |
| BasicPhrases.TailDefined | src/acrostic/basic_phrase.go:340-368 | the whole surface order assembles iff every part is known and the particle and suffix lists are long enough for the parts that consume them |
| BasicPhrases.TailSnoc | src/acrostic/basic_phrase.go:340-369 | adding a part to the order adds exactly its piece, taken at the cursor the earlier parts leave (the k-th particle part adds the k-th particle surface) |
| BasicPhrases.ContentAddsNothing | src/acrostic/basic_phrase.go:359-365 | noun, verb, adjective, prefix, adverb and demonstrative parts add nothing to the stem |
| BasicPhrases.Assemble | src/acrostic/basic_phrase.go:321-369 | a variant is the prefix (kanji or kana), then the stem, then the pieces; it exists iff the surface order assembles |
| BasicPhrases.HasKeyword | src/acrostic/basic_phrase.go:588-603 | true iff some rune of some keyword occurs in the text |
| BasicPhrases.AddVariant | src/acrostic/basic_phrase.go:370-411 | the variant is appended iff AllWordLength is on and its length is unseen, or it passes the keyword filter and is not yet listed; otherwise the list is unchanged; the length set grows exactly by the appended variant's length |
| BasicPhrases.AddVariantConsistent | src/acrostic/basic_phrase.go:370-411 | when the length set is exactly the set of listed lengths and the list has no duplicates, both stay so after an append |
| BasicPhrases.StartPatternAsWritten | src/acrostic/basic_phrase.go:683-688 | for a first UpdatePattern with no paraphrase table: with -kanji (UseKanji) the list starts with the surface but its length is not recorded; without it the list starts empty, as the corrected start does |
| BasicPhrases.StartPatternAsWrittenDuplicates | src/acrostic/basic_phrase.go:371-377 | with -kanji (UseKanji) and AllWordLength, a kana variant equal to the surface (これは) is listed twice |
| BasicPhrases.StartPattern | src/acrostic/basic_phrase.go:683-688 | for a first UpdatePattern with no paraphrase table: with -kanji (UseKanji) the corrected start lists the surface and records its length, without it the list starts empty; either way the bookkeeping is consistent from the start |
| BasicPhrases.KeptProps | src/acrostic/basic_phrase.go:613-622 | the first pass keeps exactly the variants that carry a keyword rune or equal the surface or the kana, in order |
| BasicPhrases.ExtraProps | src/acrostic/basic_phrase.go:623-630 | the second pass adds only variants of lengths not yet kept, at most one per length, and together with the kept ones every length of the list occurs |
| BasicPhrases.RemoveSameLengthPattern | src/acrostic/basic_phrase.go:610-633 | the two-pass loop computes the kept variants followed by one variant for each length still missing |
| BasicPhrases.RemoveSameLengthKeepsLengths | src/acrostic/basic_phrase.go:610-633 | pruning never loses a length: the lengths before and after are the same set |
| BasicPhrases.RemoveSameLengthIdempotent | src/acrostic/basic_phrase.go:610-633 | pruning an already pruned list changes nothing |
| BasicPhrases.MaxLength | src/acrostic/basic_phrase.go:809-817 | the result bounds every variant's length and is reached by one of them; 0 without variants |
| BasicPhrases.ColumnProps | src/acrostic/basic_phrase.go:827-840 | the list under one offset holds exactly the variants with the rune at that offset, ascending |
| BasicPhrases.PositionsAt | src/acrostic/basic_phrase.go:825-840 | an offset is a key iff some variant holds the rune there, and then its list is that column |
| BasicPhrases.MarkKeywordPos | src/acrostic/basic_phrase.go:819-823 | one map per rune of each keyword |
| BasicPhrases.MarkKeywordPosSpec | src/acrostic/basic_phrase.go:819-843 | variant m is listed under offset r for rune k of keyword i iff it holds that rune at r; each list ascends |
| BasicPhrases.FinishPattern | src/acrostic/basic_phrase.go:798-805 | a non-negative limit keeps the first `limit` variants (all of them when fewer), then the maximum length and the keyword index are recomputed on the survivors; a negative limit panics |
| BasicPhrases.FinishPatternIndexInRange | src/acrostic/basic_phrase.go:798-803 | every variant number in the recomputed index names a surviving variant |
| Patterns.AppendPattern | src/acrostic/pattern.go:246-257 | one row per pair of a `src` row and a `pat` row, so |src|·|pat| rows |
| Patterns.AppendPatternMembers | src/acrostic/pattern.go:246-257 | a row is produced iff it is a `src` row followed by a `pat` row |
| Patterns.AppendPatternAt | src/acrostic/pattern.go:248-254 | the rows come `src`-major: the join of src[s] and pat[p] sits at s·|pat|+p |
| Patterns.AppendPatternExample | src/acrostic/pattern.go:243-245 | the worked example of the comment: [[1 0 3] [1 3 0]] with [[2 4] [4 2]] gives the four joins in that order |
| Patterns.CopyArray | src/acrostic/pattern.go:259-267 | a single row of the requested length holding `src` and then -1 entries |
| Patterns.CopyArrayWhole | src/acrostic/pattern.go:259-267 | copying a row into its own length gives back that row |
| Patterns.Routes | src/acrostic/pattern.go:281-319 | at least one route; every route has the walk's length and agrees with it up to `depth` |
| Patterns.Predecessors | src/acrostic/pattern.go:289-313 | the scan's routes have the walk's length and extend it |
| Patterns.PredecessorsMembers | src/acrostic/pattern.go:289-313 | a route is found by the scan iff it continues through a predecessor that is reached before the scan meets a node already on the walk (the `break` at line 301) |
| Patterns.RoutesAreWalks | src/acrostic/pattern.go:281-319 | every route is a backward walk along edges of the matrix that never revisits a node |
| Patterns.RoutesBlocked | src/acrostic/pattern.go:315-317 | with no eligible predecessor the walk itself, padded, is the only route |
| Patterns.RoutesThrough | src/acrostic/pattern.go:289-318 | otherwise the routes are exactly the routes through the eligible predecessors |
| Patterns.LeafRoute | src/acrostic/pattern.go:289-317 | a walk whose last node has no incoming edge comes back unchanged |
| Patterns.RoutesExample | src/acrostic/pattern_test.go:52-68 | three nodes pointing into node 3 give the routes [3 0 -1 -1], [3 1 -1 -1], [3 2 -1 -1] |
| Patterns.Heads | src/acrostic/pattern.go:366-369 | the keys are the distinct first entries of the routes, largest first |
| Patterns.Starting | src/acrostic/pattern.go:361-365 | a key's list holds exactly the routes starting with it, in ascending position |
| Patterns.Sharing | src/acrostic/pattern.go:383-391 | the routes of a key grouped by their second entry: exactly those whose second entry is `fk` |
| Patterns.Shift | src/acrostic/pattern.go:395-402 | a route moved one place forward; the freed last place holds 0 (Go's zero value), not -1 |
| Patterns.Shifted | src/acrostic/pattern.go:395-402 | the shifted routes of a group, one per member, each still non-empty |
| Patterns.Cap | src/acrostic/pattern.go:421 | a slice built by n single appends from an empty one holds at least n and fewer than 2n entries |
| Patterns.SplitLoop | src/acrostic/pattern.go:411-425 | the list `t` is exactly the rows touching no route of the key, in order, with the capacity n single appends give it; the entry `newret` shares with `t`, if any, is never past the end of `t` |
| Patterns.UntouchedMembers | src/acrostic/pattern.go:413-421 | a row is kept iff it is one of the rows and touches no route of the key |
| Patterns.Partition | src/acrostic/pattern.go:411-427 | the rows kept for expansion are exactly the rows touching no route of the key, in order |
| Patterns.PartitionNone | src/acrostic/pattern.go:411-427 | when no row touches the key's routes the list carried forward is emptied and shares nothing with `t` |
| Patterns.CarriedLast | src/acrostic/pattern.go:411-427 | after the last touching row, the list carried forward is the untouched rows before it plus one row, which is the next untouched row when the touching row was written into spare room of `t` and another row followed, and the touching row otherwise; it still shares an entry with `t` exactly when it was written into spare room and nothing followed |
| Patterns.PartitionLast | src/acrostic/pattern.go:411-427 | the list carried forward is the untouched rows before the last touching row, then that row, or the row after it when `append(t, ...)` wrote into spare room of `t` that the next append to `t` overwrote; earlier touching rows are dropped |
| Patterns.PartitionOverwrites | src/acrostic/pattern.go:420-424 | three untouched rows, a touching one and an untouched one carry forward the four untouched rows: the touching row is overwritten in the shared array |
| Patterns.Cookie | src/acrostic/pattern.go:484-490 | the entries of a route before its first -1 |
| Patterns.Attach | src/acrostic/pattern.go:491-498 | a cookie is appended to a row, without its first entry when the row already holds that entry |
| Patterns.SpreadClosed | src/acrostic/pattern.go:449-474 | expanding a recursive result into the rows extends every row by its first order and adds, row-major, every row extended by each further order |
| Patterns.ExpandPermutation | src/acrostic/pattern.go:429-500 | expanding one permutation of a key's routes never hits an impossible state (only the recursion's fuel or an empty cookie stop it) |
| Patterns.CookieStep | src/acrostic/pattern.go:480-499 | a route with no shared second entry contributes its cookie to every row and the rest of the permutation continues from there |
| Patterns.ExpandFuel | src/acrostic/pattern.go:429-500 | without a recursive expansion the result does not depend on the recursion depth |
| Patterns.Dedup | src/acrostic/pattern.go:507-529 | the first occurrence of every row, in order of first occurrence, and no row twice |
| Patterns.Base | src/acrostic/pattern.go:354-530 | the candidate orders are exactly the orders the key loop builds, each kept once |
| Patterns.Covering | src/acrostic/pattern.go:333-346 | the rows kept are exactly those containing every node |
| Patterns.CalculatePattern | src/acrostic/pattern.go:321-348 | the calculation never fails with an error, and every returned order contains every node met on the routes |
| Patterns.CalculatePatternKeys | src/acrostic/pattern.go:321-348 | when orders are returned, the key loop succeeded and an order is returned iff the key loop produced it and it covers all nodes |
| Patterns.CalculatePatternExample | src/acrostic/pattern_test.go:137-154 | the routes [2 0 -1] and [2 1 -1] give the orders [2 0 1] and [2 1 0] |
| Shuffles.GroupOf | src/acrostic/pattern.go:77-99 | the group a node is compressed into is the first group listing it; no earlier group lists it, and None means no group does |
| Shuffles.CompressSpec | src/acrostic/pattern.go:75-106 | with each later group member placed at its own group's root, every node is placed at a root that represents it: itself, or the first member of its group |
| Shuffles.RootPositionAsWritten | src/acrostic/pattern.go:89-105 | as written, node 2 of the group {0, 2} over three nodes is placed at node 1's root, which is not in its group |
| Shuffles.RootPositionCorrected | src/acrostic/pattern.go:75-106 | corrected, node 2 is placed at its group's root, node 0 |
| Shuffles.ReduceSpec | src/acrostic/pattern.go:120-131 | the reduced matrix has an edge a→b iff some original edge joins a node placed at root a to one placed at root b |
| Shuffles.Ends | src/acrostic/pattern.go:161-174 | the terminal roots are exactly the roots with no outgoing edge, ascending |
| Shuffles.Seed | src/acrostic/pattern.go:177-181 | a route seed holds the end first and -1 everywhere else |
| Shuffles.EndRoutes | src/acrostic/pattern.go:176-184 | at least one route per end; every route has the matrix's size and starts at an end |
| Shuffles.RealizeRow | src/acrostic/pattern.go:197-204 | each root position of an order is replaced by the node at that root |
| Shuffles.Extend | src/acrostic/pattern.go:221-230 | a plain node is appended to every partial order, or starts the first order when there is none |
| Shuffles.UnfoldSpec | src/acrostic/pattern.go:205-233 | corrected, restoring a root order yields at least one order, and every order holds exactly the nodes the root order stands for (a group root stands for its whole group) |
| Shuffles.UnfoldAgrees | src/acrostic/pattern.go:205-233 | once a partial order exists, the loop as written and the corrected one agree |
| Shuffles.RestoreDropsLeadingGroup | src/acrostic/pattern.go:207-216 | as written, an order starting with a group root loses that group's nodes, since joining a group to no order yields none: the group alone restores to no order, and a plain node after it starts an order without the group; corrected, the group's permutations start the orders |
| Shuffles.RestoreAllSpec | src/acrostic/pattern.go:205-235 | every restored order holds exactly the nodes of some realized root order |
| Shuffles.ReverseAll | src/acrostic/pattern.go:236-238 | every order reversed in place, in the same positions |
| Shuffles.ReverseMultiset | src/acrostic/pattern.go:236-238 | reversing an order keeps its nodes |
| Shuffles.SubPatterns | src/acrostic/pattern.go:147-153 | group g gets |si[g]|! orderings, each a permutation of the group |
| Shuffles.SubPatternsComplete | src/acrostic/pattern.go:147-153 | every ordering of a group's nodes is among its sub-patterns |
| Shuffles.CompressWithin | src/acrostic/pattern.go:75-106 | as written and as corrected alike, every node visited gets the position of a root already listed, so the reduced matrix is indexed in range |
| Shuffles.Shuffle | src/acrostic/pattern.go:54-241 | as written (`corrected` false) and as corrected alike: a length that differs from the matrix's is the first error; the only other error is "no route"; on success the inputs are kept, the sub-patterns are every group's orderings, and the orders already present come back reversed, followed by the new ones |
| Shuffles.ShuffleNoRoutes | src/acrostic/pattern.go:161-187 | as written and as corrected alike, the shuffle fails with "Pattern.Routes length is 0" iff every root's nodes reach some root's nodes by an original edge |
| Shuffles.EndIffStays | src/acrostic/pattern.go:120-174 | as written and as corrected alike, a root is terminal in the reduced matrix iff its nodes reach no root's nodes |
| Shuffles.ShuffleOrders | src/acrostic/pattern.go:192-238 | for the corrected shuffle, every order it adds is the reversal of an order holding exactly the nodes of one root order, and that root order covers every root on the routes |
| ArrangeMatrices.SameLinear | src/acrostic/arrange_matrix.go:359-361 | two cells inside the row width with the same running cell number are the same cell |
| ArrangeMatrices.CellOf | src/acrostic/arrange_matrix.go:337-367 | the cell `n` writes after the start stays inside the row width, never above the start, and is exactly `n` cells further on |
| ArrangeMatrices.CellOfStep | src/acrostic/arrange_matrix.go:359-361 | counting from the next cell is counting one more from the current cell |
| ArrangeMatrices.Advance | src/acrostic/arrange_matrix.go:360-366 | the cursor step reports 3 iff it leaves the last cell of the last row, 1 iff it wraps to the next row otherwise, 0 else; without overflow it moves exactly one cell on |
| ArrangeMatrices.Start | src/acrostic/arrange_matrix.go:320-331 | a line-starting slot with the cursor past column 0 and a row free below begins at the start of the next row; otherwise it begins at the cursor |
| ArrangeMatrices.ProjectLands | src/acrostic/arrange_matrix.go:270-281 | the corrected projection is the cell the variant's rune `r` is actually written to, while that cell lies at most one row below the variant's first row |
| ArrangeMatrices.ProjectAsWrittenMisplaces | src/acrostic/arrange_matrix.go:273-320 | as written, a line-starting slot at column 0 sends the rune at offset 1 to (1, 1) although it is written at (0, 1) |
| ArrangeMatrices.CeilDiv | src/acrostic/arrange_matrix.go:163 | the rounded-up quotient: the least r with a <= r·b |
| ArrangeMatrices.ExpectedLine | src/acrostic/arrange_matrix.go:154-165 | the rows the remaining slots can fill are the rounded-up rows of their longest variants plus one per line start |
| ArrangeMatrices.HoldersOf | src/acrostic/arrange_matrix.go:746-760 | the scan for one rune is defined iff every remaining slot's index can be read; it lists exactly the slots with a non-empty entry, ascending, and flags a slot without an index for the keyword |
| ArrangeMatrices.TableOf | src/acrostic/arrange_matrix.go:742-769 | the table has one row per remaining rune, each listing exactly the slots indexing that rune; a rune with no holder and no unindexed slot makes it Missing |
| ArrangeMatrices.AnyNonDecreasing | src/acrostic/arrange_matrix.go:794-810 | true iff some enumerated choice never goes back to an earlier slot |
| ArrangeMatrices.EachMember | src/acrostic/arrange_matrix.go:774-789 | `each(k)` enumerates exactly the choices of one slot from each of the rows 0..k |
| ArrangeMatrices.CheckAfterKeywordSpec | src/acrostic/arrange_matrix.go:738-817 | whenever it does not crash, the test is true iff some non-decreasing choice of remaining slots meets the remaining keyword runes in order, each slot indexing its rune; an unindexed slot never holds a rune by itself |
| ArrangeMatrices.MissingInfeasible | src/acrostic/arrange_matrix.go:761-769 | a rune no remaining slot indexes makes the keyword unreachable |
| ArrangeMatrices.Numbered | src/acrostic/arrange_matrix.go:899-904 | every variant from the given number on, in order, each with its number |
| ArrangeMatrices.Listed | src/acrostic/arrange_matrix.go:869-879 | the listed variants, in the index's order, defined iff every number names a variant |
| ArrangeMatrices.Leftovers | src/acrostic/arrange_matrix.go:885-897 | the later variants are unsent, of lengths not tried yet, in ascending number and of pairwise different lengths |
| ArrangeMatrices.LeftoversMember | src/acrostic/arrange_matrix.go:885-897 | a variant is sent afterwards iff it is the first unsent variant of a length not yet tried |
| ArrangeMatrices.GetPattern | src/acrostic/arrange_matrix.go:846-908 | without a pending rune every variant in order; every offered variant is a variant of the slot with its own number |
| ArrangeMatrices.GetPatternTargeting | src/acrostic/arrange_matrix.go:851-897 | with a pending rune the variants indexed at the offset that reaches the anchor column come first, in index order; after them come exactly the first unsent variants of each length not yet tried |
| ArrangeMatrices.GetPatternDistinct | src/acrostic/arrange_matrix.go:846-908 | when the index was built by MarkKeywordPos, the order never crashes and never offers a variant twice |
| ArrangeMatrices.Fit | src/acrostic/arrange_matrix.go:702-718 | a fresh row of the grid's width holding the copied row and blanks after it |
| ArrangeMatrices.Overlay | src/acrostic/arrange_matrix.go:697-714 | cells from `lastpos` on are copied over the last row and the others kept; defined iff every copied cell is in range |
| ArrangeMatrices.Attach | src/acrostic/arrange_matrix.go:694-706 | a frame that continues the last row overwrites it from `lastpos` on, every other row becomes a fresh row; continuing an empty grid crashes |
| ArrangeMatrices.MergeFrom | src/acrostic/arrange_matrix.go:692-708 | walking the frames from the root down keeps the grid rectangular |
| ArrangeMatrices.MakeResult | src/acrostic/arrange_matrix.go:679-731 | the rebuilt grid is rectangular, and the result carries the chosen variants, branches and final cursor |
| ArrangeMatrices.Lay | src/acrostic/arrange_matrix.go:337-367 | writing a variant moves the cursor exactly its length on; the keyword row and index advance together by the runes consumed on the anchor column; without a found rune nothing is consumed and no mismatch occurs |
| ArrangeMatrices.LayKeywordRunes | src/acrostic/arrange_matrix.go:339-351 | when every rune is written, each rune on the anchor column below the found rune is the next keyword rune in turn; a mismatch means one such rune differs |
| ArrangeMatrices.Child | src/acrostic/arrange_matrix.go:444-456 | a child fills the next slot, and its stacks gain the variant number and the branch (0 match, 1 skip) |
| ArrangeMatrices.Evict | src/acrostic/arrange_matrix.go:664-675 | with WipeOut and WipeOutLength reached, the results are flushed and counted as wiped; otherwise nothing changes; results plus wiped are preserved |
| ArrangeMatrices.Gather | src/acrostic/arrange_matrix.go:475-476 | a child's results are appended to the parent's and its wiped count is added |
| ArrangeMatrices.GatherSound | src/acrostic/arrange_matrix.go:475-476 | results gathered from a child still extend the parent's choices |
| ArrangeMatrices.Search | src/acrostic/arrange_matrix.go:819-838 | a node not past the keyword whose remaining runes cannot be met in order yields nothing; every result extends the node's choices with one valid variant and branch per slot; without WipeOut nothing is wiped; under One at most one result comes back |
| ArrangeMatrices.SearchNormal | src/acrostic/arrange_matrix.go:910-932 | trying the variants in turn only yields results below the node and loses none it was given: each is kept or counted as wiped, and without WipeOut the earlier results stay first; under One, starting empty, at most one result comes back |
| ArrangeMatrices.SearchContext | src/acrostic/arrange_matrix.go:174-677 | a node is pruned with no new result when the remaining runes exceed the rows left, or under MatchLength when it is below row 0 without a pending rune, or past the anchor row at or right of its column; every result extends the node's choices; no earlier result is lost; under One, starting empty, at most one comes back |
| ArrangeMatrices.Occurrences | src/acrostic/arrange_matrix.go:258-519 | with no occurrence (or the keyword finished) the scan yields nothing; a rejected occurrence (wrong row under MatchLength, not the row below the anchor, or not the anchor column of the cell the as-written or the corrected projection names, as the setup selects) ends the scan at once; no earlier result is lost; under One, starting empty, the scan moves on to the skip branch only with no result and leaves with at most one |
| ArrangeMatrices.Skip | src/acrostic/arrange_matrix.go:536-676 | the skip branch never reports an error to its caller, only yields results below the node and loses none it was given; under One, starting empty, at most one comes back |
| ArrangeMatrices.SkipFrom | src/acrostic/arrange_matrix.go:571-676 | once the variant is written, recording at the last slot or searching the next one keeps every earlier result (flushed ones are counted as wiped) and yields only results below the node |
| ArrangeMatrices.KeepsGather | src/acrostic/arrange_matrix.go:664-676 | appending a child's results, then evicting, loses none of the parent's: each is kept or counted as wiped, and without WipeOut the parent's stay first |
| Arranges.SortedKeys | src/acrostic/arrange.go:142-146 | the keys of a sentence's basic phrases, ascending, each once |
| Arranges.ByNumber | src/acrostic/arrange.go:141-152 | the sentence's basic phrases listed by ascending number |
| Arranges.Gather | src/acrostic/arrange.go:100-136 | the loop over one sentence's orders crashes iff there are fewer case-analysis results than orders |
| Arranges.MakeSentence | src/acrostic/arrange.go:97-160 | a sentence always gets at least one candidate arrangement, unless the result list is too short, which is the crash |
| Arranges.FirstInOrder | src/acrostic/arrange.go:109-123 | the first list whose basic phrases are numbered consecutively from `begin`, and none before it is |
| Arranges.MakeSentenceSpec | src/acrostic/arrange.go:94-164 | the accepted orders in their own order, except that the first one in input order moves to the front; when there is none, the basic phrases by number go first |
| Arranges.MakeSentences | src/acrostic/arrange.go:94-164 | every sentence gets its candidates with the numbering offset by the basic phrases of the sentences before it; a crash comes from some sentence's own crash |
| Arranges.Normalize | src/acrostic/arrange.go:200-237 | after normalisation only the first basic phrase can start a line, and it does iff some basic phrase did; nothing else changes |
| Arranges.NormalizeIdempotent | src/acrostic/arrange.go:200-237 | normalising an arrangement twice is normalising it once, so the in-place flag changes do not affect later orders |
| Arranges.Choices | src/acrostic/arrange.go:191-224 | one choice per combination of arrangement numbers, each picking a real arrangement of every sentence |
| Arranges.ChoicePicks | src/acrostic/arrange.go:191-198 | a choice of one number per choice list is exactly a pick of one arrangement per sentence |
| Arranges.PickCountPermuted | src/acrostic/arrange.go:66-75 | taking the sentences in another order does not change the number of picks |
| Arranges.OrderCount | src/acrostic/arrange.go:198-214 | under any order of the sentences there is one text per choice of arrangements |
| Arranges.SentencePatternCount | src/acrostic/arrange.go:59-75 | the enumeration yields exactly as many texts as sentencePatternLength counts: n! orders when swapping, times the product of the arrangement counts |
| Arranges.SentencePatternMember | src/acrostic/arrange.go:179-244 | a text is produced iff it joins one arrangement per sentence in a permitted order (input order only, or any order when swapping) |
| Arranges.JoinedAsWritten | src/acrostic/arrange.go:198-211 | as written, a text is built iff every v[i] names an arrangement of sentence e[i], and then it is the intended text |
| Arranges.ForOrderAsWrittenSpec | src/acrostic/arrange.go:198-214 | for one order the texts as written are the intended ones when every choice fits, and the enumeration panics when one does not |
| Arranges.SentencePatternAsWrittenAgrees | src/acrostic/arrange.go:179-244 | the enumeration as written is the intended one without swapping, and with swapping when all sentences have equally many arrangements |
| Arranges.AsWrittenMisses | src/acrostic/arrange.go:191-211 | as written, the enumeration panics as soon as an order meets a choice that misses its sentences |
| Arranges.SentencePatternAsWrittenPanics | src/acrostic/arrange.go:190-211 | two sentences with two and one arrangements, swapped: the order (1, 0) asks for arrangement 1 of the second sentence and panics |
| Arranges.SentencePatternIntendedCount | src/acrostic/arrange.go:66-75 | for the same two sentences four texts are intended: two orders times two choices |
| Arranges.ArrangePattern | src/acrostic/arrange.go:328-363 | an empty keyword and an empty text are the errors of creating the root node; every result picks one valid variant and branch per slot of the text |
| Arranges.Arrange | src/acrostic/arrange.go:246-326 | the result is true iff some text recorded a wiped count or a result count above zero |
| Arranges.ArrangeFromPanic | src/acrostic/arrange.go:257-312 | from any correctly recorded prefix, the corrected loop panics only when the search of some remaining text panics |
| Arranges.ArrangeSpec | src/acrostic/arrange.go:257-312 | every text up to the last one searched has its count and wiped total recorded (and its results, when they are not written out at once); the run stops early only under One, right after a text with results; it panics only when the search of some text panics |
| Arranges.ArrangeAsWrittenPanics | src/acrostic/arrange.go:290-361 | as written, with output-each off the wiped list is indexed although that mode never grows it, so the first search that returns panics |
| Arranges.ArrangeOutputEachAgrees | src/acrostic/arrange.go:259-282 | with the results written out at once, the bookkeeping as written is the corrected one |
| Arranges.Output | src/acrostic/arrange.go:365-377 | one total per text, crashing iff the wiped list is shorter than the count list |
| Arranges.OutputTotal | src/acrostic/arrange.go:368-377 | the grand total is the kept count plus the wiped count plus what the writer reports |
| Arranges.Variants | src/acrostic/arrange.go:170-172 | a slot contributes its number of variants, or 1 when it has none |
| Arranges.VariantProduct | src/acrostic/arrange.go:168-175 | the product is at least 1 and at least any one slot's variant count |
| Arranges.VariantProductOne | src/acrostic/arrange.go:166-177 | the product is 1 iff no slot has two or more variants |
| Arranges.VariantProductPermuted | src/acrostic/arrange.go:169 | the product does not depend on the order the slots are visited in, so Go's random map order is immaterial |
| Arranges.BpPatternLengthSlots | src/acrostic/arrange.go:166-177 | bpPatternLength is the product of the non-zero variant counts over all slots of all sentences, visited in any order |
| Arranges.BpPatternLengthOne | src/acrostic/arrange.go:166-177 | the length is 1 iff no slot of any sentence has two or more variants |
| Acrostics.ModeLoop | src/acrostic/acrostic.go:382-388 | the loop succeeds iff every remaining mode is juman, mecab or kakasi; it records them in order and as a set; its only error is the mode error |
| Acrostics.ParseKanaMode | src/acrostic/acrostic.go:372-390 | an empty option gives no modes; otherwise it succeeds iff at most one mode is given or juman comes first, and every mode is known; the order is the comma-split option and the set holds exactly its modes; the fallback error comes first |
| Acrostics.ParseKanaModeJoin | src/acrostic/acrostic.go:372-390 | any permitted list of modes, written with commas and parsed, comes back as the same order with exactly those modes in the set |
| Acrostics.ParseKanaModeSplit | src/acrostic/acrostic.go:378-388 | a non-empty option is recovered by joining the parsed order with commas |
| Acrostics.Items | src/acrostic/acrostic.go:360-367 | the items of one entry are stored iff each is a single `left=right` pair; other positions stay as they were; the only error is the pair error |
| Acrostics.WordError | src/acrostic/acrostic.go:351-364 | a malformed entry raises the colon, position or pair error |
| Acrostics.Entries | src/acrostic/acrostic.go:346-368 | the entry loop succeeds iff every entry is empty or `position:items` with a number before the colon and well-formed items; the error is the first malformed entry's |
| Acrostics.ParseSynset | src/acrostic/acrostic.go:342-370 | an empty text leaves the list unset; otherwise it parses iff every entry is well formed, and then every stored position has an answer and UseSynsetList is set iff anything was stored |
| Acrostics.ParseSynsetFormat | src/acrostic/acrostic.go:342-370 | writing a list of entries as `pos:synset=answer,...;...` and parsing it gives back the list, the last entry for a position and the last answer for a synset winning |
| Acrostics.WidthsFrom | src/acrostic/acrostic.go:549 | the widths from `w` up to `last`, one apart |
| Acrostics.Widths | src/acrostic/acrostic.go:443-445 | with MaxWidth -1 only Width is tried; otherwise exactly the widths from Width to MaxWidth, ascending |
| Acrostics.GoDiv | src/acrostic/acrostic.go:508 | Go's integer quotient: for a non-negative dividend the floor bounds hold for either sign of the divisor |
| Acrostics.LineFeeds | src/acrostic/acrostic.go:502-507 | the number of line feeds in the last text |
| Acrostics.AutoHeight | src/acrostic/acrostic.go:500-509 | a given height is kept; -1 becomes twice the quotient of (runes · line feeds) by Width, which is even and bounded as a truncating division is; a zero Width is the division panic |
| Acrostics.LinkLoop | src/acrostic/acrostic.go:397-399 | defined iff every name is one NewWordNetLink accepts, and then the i-th link is the one the i-th name asks for |
| Acrostics.ParseWordNetLink | src/acrostic/acrostic.go:392-401 | an empty option asks for no link; every link parsed is a valid index below WNEnd |
| Acrostics.LinkName | src/acrostic/wordnet_link.go:8-16 | the name NewWordNetLink maps to the given link |
| Acrostics.ParseWordNetLinkJoin | src/acrostic/acrostic.go:392-401 | the comma-joined names of any list of accepted links parse back to that list |
| Acrostics.ParseWordNetLinkSplit | src/acrostic/acrostic.go:392-401 | a non-empty text that parses is exactly the comma-joined names of the links it gives |

## Left out

- File, flag and terminal I/O: reading the text and synset files, stripping newlines, `readFileA1`, the writer and its flush, the progress display, and GC and heap statistics. The text and option strings are parameters.
- Localised messages and logging: only the conditions under which the program stops are kept.
- The external analysers: juman, KNP, MeCab, kakasi, and the SQLite WordNet database. Their output is an input string, or a parameter for the database lookups.
- Concurrency: `SearchParallel`, goroutines and channels. The parallel fan-out is modelled by the sequential `Search`, whose result list it is meant to reproduce.
- `Paragraph.Analyze`, `Paragraph.Generate` and `Sentence.Analyze` are glue that calls the analysers and the modelled steps in turn. The steps themselves are modelled.
- Results are deduplicated by CRC32 checksum in the source. The model deduplicates by exact content, because a checksum collision is an accident, not a behaviour.
- Go map iteration order is unspecified. Two places are affected:
  - `Sentences.SubIndex` takes the walk order of the parallel index as a parameter `keys`.
  - The slots of `bpPatternLength` are taken by ascending number. `Arranges.VariantProductPermuted` shows that the count does not depend on that order.
- `algo.ValidateOrder` is a parameter, because its source is not part of this model.
- ArrangeMatrices.ExpectedLine: the source rounds up a float64 quotient. The model uses exact integer ceiling division, which agrees while the operands fit in 53 bits.
- Runes.Factorial: does not model int64 overflow, because the counts it feeds are small for real inputs.
- Arranges.BpPatternLength: does not model int64 overflow. Neither does the count of `sentencePatternLength`, whose formula `Arranges.SentencePatternCount` states.
- Patterns.Base: `calculatePatternBase` recurses on shifted routes with no measure Dafny can see. The model bounds the recursion by a `fuel` argument, and running out of fuel is a separate outcome, not a result. The contracts hold for whatever the fuel yields. The worked examples hold for every fuel. No lemma shows that each candidate order follows the routes' edges; its partner is the key loop it deduplicates, and CalculatePattern states coverage of the nodes.
- Patterns.Cap: Go's `append` doubles the capacity of a full slice of slices up to 512 entries, which the model follows. Beyond that the runtime grows by less, and by a rule that changed between Go releases. The model keeps doubling, so for a key with more than 512 untouched rows the shared-entry case may be decided differently.
- Shuffles.ShuffleOrders: is stated for the corrected shuffle only. As written, a later group member is placed at the wrong root (Shuffles.RootPositionAsWritten) and a leading group is lost on restore (Shuffles.RestoreDropsLeadingGroup), so an added order need not hold the nodes of any root order. The model keeps both behaviours behind the `corrected` flag of Shuffles.Shuffle, and the error lemmas hold for both settings.
- BasicPhrases.StartPatternAsWritten: does not model `AppendParaphrase(Surface)` (basic_phrase.go:688), which under -kanji adds the paraphrase of the surface when the table rewrites it, because the paraphrase table is not part of this model; so the start list may hold a second entry the model does not show. It also starts the length set empty, while PatternLengthMap is made once (basic_phrase.go:183), shared by Copy (basic_phrase.go:202) and never reset, so a second UpdatePattern on a copy (sentence.go:348) starts from the lengths already recorded.
- BasicPhrases.StartPattern: the same two gaps as StartPatternAsWritten: no paraphrase entry, and a fresh length set rather than the shared, never-reset PatternLengthMap.
- Runes.Permutations: the enumeration order is assumed, not taken from the library: `algo.Permutations` of lgo is a channel generator that is not part of this model. The model lists permutations lexicographically by chosen position. The set of permutations and their count are what the contracts promise. The order decides the row order of Patterns.Base, which row the shared slot of Patterns.PartitionLast keeps, and the order of the texts of Arranges.SentencePattern, and so which text stops a run under One.
- Runes.Combinations: the enumeration order is assumed, not taken from the library: `algo.Combinations` of lgo is not part of this model. The model lists the cartesian product with the first list varying slowest. The set of choices and their count are what the contracts promise. The order decides the order of the texts of Arranges.SentencePattern, and so which text stops a run under One.
- Runes.IsDigit: accepts only the ASCII and the full-width decimal digits. Go's `unicode.IsDigit` accepts every rune of Unicode category Nd, such as the Arabic-Indic digits. A digit from another script counts as a non-digit in the model, so such a rune ends a number instead of extending it.
- Runes.Atoi: does not model the range error of `strconv.Atoi`. A decimal spelling outside the 64-bit range parses to its exact value instead of failing. Runes.AtoiItoa is stated for every integer, and Go's `int` is 64 bits.
- ArrangeMatrices.Search: no lemma shows that each result's matrix is the layout `Lay` writes for its chosen variants, with every keyword rune on the anchor column; the contracts promise the choices each result encodes, the pruning, the results kept and the One bound, not the grid. Likewise the acceptance rule at the last slot (`Accepts`) and the keyword state passed to a match or skip child are stated as definitions inside `Occurrences` and `Skip`. No separate lemma restates them per result.
- ArrangeMatrices.SearchNormal: states soundness of choices, conservation of results and the One bound; the grid of each result is not related to the variants, as for Search.
- ArrangeMatrices.SearchContext: as for SearchNormal; the order in which results arrive is not stated beyond the earlier ones staying first.
- ArrangeMatrices.Occurrences: the projection of a found rune is chosen by the setup's `corrected` flag; the layout written after an accepted occurrence is not related to the result's grid, as for Search.
- ArrangeMatrices.Skip: as for SearchNormal; that the skip child inherits the node's keyword state is a definition, not a separate lemma.
- ArrangeMatrices.SkipFrom: as for Skip.

## Findings

Each finding names the input that shows it, which Dafny proves about the as-written member. None of them was observed by running the program.

| source | as written | input that shows it | evidently intended | confidence | as-written member | corrected member |
|---|---|---|---|---|---|---|
| src/acrostic/arrange_matrix.go:273-276 | the expected cell of a keyword rune moves to the next row whenever the slot starts a line and `col + r != 0` | a line-starting slot with the cursor at (0, 0), the rune at offset 1, width 4, height 2: expected at (1, 1) but written at (0, 1), so the match is rejected | a slot starting a line moves down only when the cursor is past column 0, as the writer does at line 320 | not executed | ArrangeMatrices.ProjectAsWrittenMisplaces | ArrangeMatrices.ProjectLands |
| src/acrostic/arrange.go:190-211 | with swap on, the product of order indices is built in input sentence order but indexes `array[e[i]][v[i]]` in permuted order | two sentences with 2 and 1 orders: under permutation (1, 0) the choice v = (1, 0) reads order 1 of sentence 1, which has only one | the i-th choice indexes the orders of sentence `e[i]` | not executed | Arranges.SentencePatternAsWrittenPanics | Arranges.SentencePatternIntendedCount |
| src/acrostic/arrange.go:290-296 | `WipedLength` grows only when `OutputEachPattern` is set, but `ArrangePattern` (line 361) writes `WipedLength[bpai]` in every mode | any input with at least one candidate and `OutputEachPattern` false: the first completed search indexes an empty slice | every candidate has a wiped counter | not executed | Arranges.ArrangeAsWrittenPanics | Arranges.ArrangeSpec |
| src/acrostic/case_element.go:32-39 | `Copy` assigns `HasAnalysisCase` twice and never `HasAnalysisConnection` | an element with only `<解析連絡:…>`: its copy has no connection flag | the copy keeps both flags | not executed | CaseElements.CopyAsWrittenDropsConnection | CaseElements.Copy |
| src/acrostic/predicate.go:128-139 | the inner `begin :=` shadows the loop variable, so the scan never advances | text with two `<格解析結果::…>` tags: the loop collects the first tag forever | each tag is collected once, in order | not executed | Predicates.CollectTagsAsWrittenLoops | Predicates.CollectTagsFormatted |
| src/acrostic/pattern.go:89-105 | a group member other than the root gets the position of the most recent root, not of its own group's root | group {0, 2} over three nodes: node 2 is mapped to position 1, which is node 1's root | every member maps to its own group's root | not executed | Shuffles.RootPositionAsWritten | Shuffles.CompressSpec |
| src/acrostic/pattern.go:207-216 | joining a group's permutations to an empty list of partial orders yields no order | a reduced order whose first root stands for a group: the group's nodes are missing from the orders it restores to (the group alone restores to none, the group then a plain node y to just [y]) | the group's permutations start the orders | not executed | Shuffles.RestoreDropsLeadingGroup | Shuffles.UnfoldSpec |
| src/acrostic/basic_phrase.go:371-377 | the surface is appended without recording its length, so with AllWordLength a variant of the same length is appended without a duplicate check | with -kanji (UseKanji, off by default) and AllWordLength, a phrase whose kana equals its surface (これは) lists これは twice | the surface's length is recorded like every other variant's | not executed | BasicPhrases.StartPatternAsWrittenDuplicates | BasicPhrases.AddVariantConsistent |

=== FILE: acrostic.dfy ===
/**
 * The option handling of acrostic.go that decides what the generator is
 * asked to do: the kana-mode list, the synset answer list, the default
 * maximum width, the widths Generate tries, and the automatic height.
 * Flag parsing and file reading are not modelled; their results are the
 * parameters here.
 */
module Acrostics {
  import opened Runes
  import W = WordNets
  import L = WordNetLinks

  // ---------------------------------------------------------------------
  // parseKanaMode
  // ---------------------------------------------------------------------

  /** KanaModeList (the modes switched on) and KanaModeOrder (the fallback order). */
  datatype KanaModes = KanaModes(list: set<string>, order: seq<string>)

  const FallbackError: string := "kana-mode: only fallback is valid for juman"
  const ModeError: string := "kana-mode: only juman, mecab or kakasi"

  predicate IsKanaMode(m: string)
  {
    m == "juman" || m == "mecab" || m == "kakasi"
  }

  /** Only juman may come first when there is a fallback. */
  predicate FallbackOk(modes: seq<string>)
  {
    |modes| < 2 || modes[0] == "juman"
  }

  predicate AllModes(modes: seq<string>)
  {
    forall k :: 0 <= k < |modes| ==> IsKanaMode(modes[k])
  }

  /** The loop over the modes from `i` on, with the list and order built so far. */
  function ModeLoop(modes: seq<string>, i: nat, acc: KanaModes): (r: Result<KanaModes>)
    requires i <= |modes|
    ensures r.Ok? <==> forall k :: i <= k < |modes| ==> IsKanaMode(modes[k])
    ensures r.Ok? ==> r.value.order == acc.order + modes[i..]
    ensures r.Ok? ==> r.value.list == acc.list + set k | i <= k < |modes| :: modes[k]
    ensures r.Err? ==> r.message == ModeError
    decreases |modes| - i
  {
    if i == |modes| then Ok(acc)
    else if !IsKanaMode(modes[i]) then Err(ModeError)
    else
      var r := ModeLoop(modes, i + 1, KanaModes(acc.list + {modes[i]}, acc.order + [modes[i]]));
      assert modes[i..] == [modes[i]] + modes[i + 1..];
      assert (set k | i <= k < |modes| :: modes[k]) == {modes[i]} + set k | i + 1 <= k < |modes| :: modes[k];
      r
  }

  /** parseKanaMode: the comma-separated -kana-mode value. */
  function ParseKanaMode(kanaMode: string): (r: Result<KanaModes>)
    ensures kanaMode == "" ==> r == Ok(KanaModes({}, []))
    ensures kanaMode != "" ==>
      (r.Ok? <==> FallbackOk(Split(kanaMode, ',')) && AllModes(Split(kanaMode, ',')))
    ensures kanaMode != "" && r.Ok? ==> r.value.order == Split(kanaMode, ',')
    ensures r.Ok? ==> forall m :: m in r.value.list <==> m in r.value.order
    ensures r.Err? ==> (r.message == FallbackError <==> !FallbackOk(Split(kanaMode, ',')))
    ensures r.Err? ==> r.message == FallbackError || r.message == ModeError
  {
    if kanaMode == "" then Ok(KanaModes({}, []))
    else
      var modes := Split(kanaMode, ',');
      if !FallbackOk(modes) then Err(FallbackError)
      else
        var r := ModeLoop(modes, 0, KanaModes({}, []));
        assert modes[0..] == modes;
        assert r.Ok? ==> forall m :: m in r.value.list <==> m in r.value.order by {
          if r.Ok? {
            forall m ensures m in r.value.list <==> m in r.value.order {
              if m in r.value.order {
                var k :| 0 <= k < |modes| && modes[k] == m;
              }
            }
          }
        }
        r
  }

  /** A comma-joined list of valid modes, juman first when there is a fallback, parses back to itself. */
  lemma ParseKanaModeJoin(modes: seq<string>)
    requires |modes| >= 1 && FallbackOk(modes) && AllModes(modes)
    ensures ParsedAs(ParseKanaMode(Join(modes, ',')), modes)
  {
    JoinModes(modes);
    ParseKanaModeOf(Join(modes, ','), modes);
  }

  /** A value that splits into valid modes parses to exactly those modes. */
  lemma ParseKanaModeOf(s: string, modes: seq<string>)
    requires s != "" && Split(s, ',') == modes && FallbackOk(modes) && AllModes(modes)
    ensures ParsedAs(ParseKanaMode(s), modes)
  {
  }

  /** The parse succeeded with fallback order `modes`, switching on exactly the modes listed. */
  predicate ParsedAs(r: Result<KanaModes>, modes: seq<string>)
  {
    r.Ok? && r.value.order == modes && r.value.list == set m | m in modes
  }

  lemma JoinModes(modes: seq<string>)
    requires |modes| >= 1 && AllModes(modes)
    ensures Join(modes, ',') != "" && Split(Join(modes, ','), ',') == modes
  {
    assert forall k :: 0 <= k < |modes| ==> ',' !in modes[k] by {
      forall k | 0 <= k < |modes| ensures ',' !in modes[k] {
        KanaModeText(modes[k]);
      }
    }
    SplitJoin(modes, ',');
    JoinHead(modes, ',');
    KanaModeText(modes[0]);
  }

  lemma KanaModeText(m: string)
    requires IsKanaMode(m)
    ensures ',' !in m && |m| >= 5
  {
  }

  lemma JoinHead(parts: seq<string>, sep: char)
    requires |parts| >= 1
    ensures |Join(parts, sep)| >= |parts[0]| && |Join(parts, sep)| >= |parts| - 1
  {
    if |parts| > 1 {
      JoinHead(parts[1..], sep);
    }
  }

  /** Any successful parse is undone by joining the order with commas. */
  lemma ParseKanaModeSplit(kanaMode: string)
    requires ParseKanaMode(kanaMode).Ok?
    ensures var order := ParseKanaMode(kanaMode).value.order;
      kanaMode != "" ==> |order| >= 1 && Join(order, ',') == kanaMode
  {
    if kanaMode != "" {
      JoinSplit(kanaMode, ',');
    }
  }

  // ---------------------------------------------------------------------
  // parseSynset
  // ---------------------------------------------------------------------

  /** SynsetList: basic phrase position to (synset to the recorded answer). */
  type SynsetList = map<int, map<string, W.WordNetAnswer>>

  /** SynsetList (None while it stays nil) and UseSynsetList. */
  datatype Synsets = Synsets(list: Option<SynsetList>, use: bool)

  const ColonError: string := "there must be exactly one colon in one BasicPhrase"
  const PositionError: string := "cannot convert BasicPhrase position number to int"
  const PairError: string := "left=right format error"

  /** An item `synset=answer`. */
  predicate WellFormedItem(item: string)
  {
    |Split(item, '=')| == 2
  }

  /** A `;`-separated word: empty, or `position:item,item,...`. */
  predicate WellFormedWord(word: string)
  {
    word == "" ||
    (var syns := Split(word, ':');
     |syns| == 2 && Atoi(syns[0]).Some? &&
     forall j :: 0 <= j < |Split(syns[1], ',')| ==> WellFormedItem(Split(syns[1], ',')[j]))
  }

  /** The synsets and answers of one word, already in the list under `pos`. */
  predicate Filled(list: SynsetList, use: bool)
  {
    (use <==> list != map[]) && forall p :: p in list ==> list[p] != map[]
  }

  /** The inner loop over the items of one word, storing into `list[pos]`. */
  function Items(items: seq<string>, j: nat, list: SynsetList, pos: int): (r: Result<SynsetList>)
    requires j <= |items| && pos in list
    ensures r.Ok? <==> forall k :: j <= k < |items| ==> WellFormedItem(items[k])
    ensures r.Ok? ==> pos in r.value && r.value.Keys == list.Keys
    ensures r.Ok? ==> forall p :: p in list && p != pos ==> r.value[p] == list[p]
    ensures r.Ok? && j < |items| ==> r.value[pos] != map[]
    ensures r.Ok? && list[pos] != map[] ==> r.value[pos] != map[]
    ensures r.Err? ==> r.message == PairError
    decreases |items| - j
  {
    if j == |items| then Ok(list)
    else
      var lr := Split(items[j], '=');
      if |lr| != 2 then Err(PairError)
      else
        assert lr[0] in list[pos][lr[0] := W.NewWordNetAnswer(lr[1])];
        Items(items, j + 1, list[pos := list[pos][lr[0] := W.NewWordNetAnswer(lr[1])]], pos)
  }

  /** The error one malformed word raises. */
  function WordError(word: string): (m: string)
    ensures m == ColonError || m == PositionError || m == PairError
  {
    var syns := Split(word, ':');
    if |syns| != 2 then ColonError
    else if Atoi(syns[0]).None? then PositionError
    else PairError
  }

  /** The outer loop over the `;`-separated words from `i` on. */
  function Entries(words: seq<string>, i: nat, list: SynsetList, use: bool): (r: Result<(SynsetList, bool)>)
    requires i <= |words|
    ensures r.Ok? <==> forall k :: i <= k < |words| ==> WellFormedWord(words[k])
    ensures r.Ok? && Filled(list, use) ==> Filled(r.value.0, r.value.1)
    ensures r.Err? ==> exists k :: i <= k < |words| && !WellFormedWord(words[k]) && r.message == WordError(words[k])
    decreases |words| - i
  {
    if i == |words| then Ok((list, use))
    else if words[i] == "" then Entries(words, i + 1, list, use)
    else
      var syns := Split(words[i], ':');
      if |syns| != 2 then Err(ColonError)
      else
        var pos := Atoi(syns[0]);
        if pos.None? then Err(PositionError)
        else
          var items := Split(syns[1], ',');
          var stored := Items(items, 0, list[pos.value := map[]], pos.value);
          if stored.Err? then Err(PairError)
          else Entries(words, i + 1, stored.value, true)
  }

  /** Every `;`-separated word is empty or a well-formed entry. */
  predicate AllWellFormed(words: seq<string>)
  {
    forall k :: 0 <= k < |words| ==> WellFormedWord(words[k])
  }

  /** The outer loop succeeds exactly when every word is well formed, and fails with one of the word errors. */
  lemma EntriesVerdict(words: seq<string>, r: Result<(SynsetList, bool)>)
    requires r == Entries(words, 0, map[], false)
    ensures r.Ok? <==> AllWellFormed(words)
    ensures r.Ok? ==> Filled(r.value.0, r.value.1)
    ensures r.Err? ==> r.message == ColonError || r.message == PositionError || r.message == PairError
  {
    if r.Err? {
      var k :| 0 <= k < |words| && !WellFormedWord(words[k]) && r.message == WordError(words[k]);
    }
  }

  /** parseSynset on the -synset-string text (or the file's text with its newlines removed). */
  function ParseSynset(text: string): (r: Result<Synsets>)
    ensures text == "" ==> r == Ok(Synsets(None, false))
    ensures text != "" ==> (r.Ok? <==> AllWellFormed(Split(text, ';')))
    ensures r.Ok? && text != "" ==> r.value.list.Some? && Filled(r.value.list.value, r.value.use)
    ensures r.Err? ==> r.message == ColonError || r.message == PositionError || r.message == PairError
  {
    if text == "" then Ok(Synsets(None, false))
    else
      var words := Split(text, ';');
      var e := Entries(words, 0, map[], false);
      EntriesVerdict(words, e);
      if e.Err? then Err(e.message)
      else Ok(Synsets(Some(e.value.0), e.value.1))
  }

  // The reference: a list of entries written out and read back.

  /** One `position:synset=answer,...` entry. */
  datatype Entry = Entry(pos: int, items: seq<(string, string)>)

  /** The answers of one entry; a later synset overrides an earlier one. */
  function ItemsMap(items: seq<(string, string)>): (r: map<string, W.WordNetAnswer>)
    ensures |items| > 0 ==> r != map[]
  {
    if |items| == 0 then map[]
    else
      var last := items[|items| - 1];
      var r := ItemsMap(items[..|items| - 1])[last.0 := W.NewWordNetAnswer(last.1)];
      assert last.0 in r;
      r
  }

  /** The list the entries describe; a later entry for a position replaces an earlier one. */
  function Build(es: seq<Entry>): (r: SynsetList)
  {
    if |es| == 0 then map[]
    else Build(es[..|es| - 1])[es[|es| - 1].pos := ItemsMap(es[|es| - 1].items)]
  }

  function FormatItems(items: seq<(string, string)>): (r: seq<string>)
    ensures |r| == |items|
  {
    seq(|items|, k requires 0 <= k < |items| => items[k].0 + "=" + items[k].1)
  }

  function FormatEntry(e: Entry): (r: string)
    requires |e.items| >= 1
  {
    Itoa(e.pos) + ":" + Join(FormatItems(e.items), ',')
  }

  /** No separator of the synset syntax occurs in `s`. */
  predicate Plain(s: string)
  {
    ';' !in s && ':' !in s && ',' !in s && '=' !in s
  }

  predicate PlainItems(items: seq<(string, string)>)
  {
    forall k :: 0 <= k < |items| ==> Plain(items[k].0) && Plain(items[k].1)
  }

  predicate Writable(es: seq<Entry>)
  {
    forall i :: 0 <= i < |es| ==> |es[i].items| >= 1 && PlainItems(es[i].items)
  }

  function Words(es: seq<Entry>): (r: seq<string>)
    requires Writable(es)
    ensures |r| == |es|
    ensures forall i :: 0 <= i < |es| ==> r[i] == FormatEntry(es[i])
  {
    seq(|es|, i requires 0 <= i < |es| && |es[i].items| >= 1 => FormatEntry(es[i]))
  }

  function FormatSynsets(es: seq<Entry>): (r: string)
    requires |es| >= 1 && Writable(es)
  {
    Join(Words(es), ';')
  }

  lemma {:induction false} JoinFree(parts: seq<string>, sep: char, c: char)
    requires |parts| >= 1 && c != sep
    requires forall i :: 0 <= i < |parts| ==> c !in parts[i]
    ensures c !in Join(parts, sep)
  {
    if |parts| > 1 {
      JoinFree(parts[1..], sep, c);
    }
  }

  lemma ItoaPlain(n: int)
    ensures Plain(Itoa(n))
  {
  }

  lemma PairSplit(a: string, b: string, sep: char)
    requires sep !in a && sep !in b
    ensures Split(a + [sep] + b, sep) == [a, b]
  {
    SplitJoin([a, b], sep);
    assert Join([a, b], sep) == a + [sep] + b by {
      assert [a, b][1..] == [b];
    }
  }

  /** The items of an entry read back as themselves. */
  lemma ItemsRead(items: seq<(string, string)>)
    requires |items| >= 1
    requires PlainItems(items)
    ensures Split(Join(FormatItems(items), ','), ',') == FormatItems(items)
    ensures forall k :: 0 <= k < |items| ==> Split(FormatItems(items)[k], '=') == [items[k].0, items[k].1]
  {
    var f := FormatItems(items);
    forall k | 0 <= k < |items|
      ensures ',' !in f[k] && Split(f[k], '=') == [items[k].0, items[k].1]
    {
      PairSplit(items[k].0, items[k].1, '=');
    }
    SplitJoin(f, ',');
  }

  /** The inner loop over well-formed items stores exactly ItemsMap. */
  lemma {:induction false} ItemsBuild(items: seq<(string, string)>, j: nat, list: SynsetList, pos: int)
    requires j <= |items| && pos in list && list[pos] == ItemsMap(items[..j])
    requires forall k :: 0 <= k < |items| ==> Split(FormatItems(items)[k], '=') == [items[k].0, items[k].1]
    ensures Items(FormatItems(items), j, list, pos) == Ok(list[pos := ItemsMap(items)])
    decreases |items| - j
  {
    if j == |items| {
      assert items[..j] == items;
      assert list[pos := ItemsMap(items)] == list;
    } else {
      var a, b := items[j].0, items[j].1;
      ItemsStep(FormatItems(items), j, list, pos, a, b);
      ItemsMapSnoc(items, j);
      var next := list[pos := list[pos][a := W.NewWordNetAnswer(b)]];
      ItemsBuild(items, j + 1, next, pos);
      Overwrite(list, pos, list[pos][a := W.NewWordNetAnswer(b)], ItemsMap(items));
    }
  }

  /** One well-formed `synset=answer` item is stored and the inner loop moves on. */
  lemma ItemsStep(fs: seq<string>, j: nat, list: SynsetList, pos: int, a: string, b: string)
    requires j < |fs| && pos in list && Split(fs[j], '=') == [a, b]
    ensures Items(fs, j, list, pos) == Items(fs, j + 1, list[pos := list[pos][a := W.NewWordNetAnswer(b)]], pos)
  {
  }

  lemma ItemsMapSnoc(items: seq<(string, string)>, j: nat)
    requires j < |items|
    ensures ItemsMap(items[..j + 1]) == ItemsMap(items[..j])[items[j].0 := W.NewWordNetAnswer(items[j].1)]
  {
    assert items[..j + 1][..j] == items[..j];
  }

  lemma Overwrite<V>(m: map<int, V>, k: int, x: V, y: V)
    ensures m[k := x][k := y] == m[k := y]
  {
  }

  /** One written entry is a well-formed word whose parts read back. */
  lemma EntryRead(e: Entry)
    requires |e.items| >= 1
    requires PlainItems(e.items)
    ensures Plain(Itoa(e.pos)) && ';' !in FormatEntry(e)
    ensures Split(FormatEntry(e), ':') == [Itoa(e.pos), Join(FormatItems(e.items), ',')]
    ensures Atoi(Itoa(e.pos)) == Some(e.pos)
    ensures Split(Join(FormatItems(e.items), ','), ',') == FormatItems(e.items)
    ensures forall k :: 0 <= k < |e.items| ==> Split(FormatItems(e.items)[k], '=') == [e.items[k].0, e.items[k].1]
  {
    var f := FormatItems(e.items);
    ItoaPlain(e.pos);
    AtoiItoa(e.pos);
    forall k | 0 <= k < |f| ensures ':' !in f[k] && ';' !in f[k] {
      assert f[k] == e.items[k].0 + "=" + e.items[k].1;
    }
    JoinFree(f, ',', ':');
    JoinFree(f, ',', ';');
    PairSplit(Itoa(e.pos), Join(f, ','), ':');
    ItemsRead(e.items);
  }

  /** The outer loop over written entries builds exactly Build. */
  lemma {:induction false} EntriesBuild(es: seq<Entry>, words: seq<string>, i: nat)
    requires Writable(es) && |words| == |es| && i <= |es|
    requires forall k :: 0 <= k < |es| ==> |es[k].items| >= 1 && words[k] == FormatEntry(es[k])
    ensures Entries(words, i, Build(es[..i]), i > 0) == Ok((Build(es), i > 0 || |es| > 0))
    decreases |es| - i
  {
    if i == |es| {
      assert es[..i] == es;
    } else {
      EntriesStep(words, i, Build(es[..i]), i > 0, es[i]);
      BuildSnoc(es, i);
      EntriesBuild(es, words, i + 1);
    }
  }

  /** A written entry is read as one step of the outer loop that stores its answers. */
  lemma EntriesStep(words: seq<string>, i: nat, list: SynsetList, use: bool, e: Entry)
    requires |e.items| >= 1 && PlainItems(e.items) && i < |words| && words[i] == FormatEntry(e)
    ensures Entries(words, i, list, use) == Entries(words, i + 1, list[e.pos := ItemsMap(e.items)], true)
  {
    EntryRead(e);
    assert words[i] != "" by {
      assert |Split(words[i], ':')| == 2;
    }
    var start := list[e.pos := map[]];
    assert e.items[..0] == [];
    ItemsBuild(e.items, 0, start, e.pos);
    Overwrite(list, e.pos, map[], ItemsMap(e.items));
  }

  lemma BuildSnoc(es: seq<Entry>, i: nat)
    requires i < |es|
    ensures Build(es[..i + 1]) == Build(es[..i])[es[i].pos := ItemsMap(es[i].items)]
  {
    assert es[..i + 1][..i] == es[..i];
  }

  /** Entries written out with `:`, `,`, `=` and `;` parse back to the list they describe. */
  lemma ParseSynsetFormat(es: seq<Entry>)
    requires |es| >= 1 && Writable(es)
    ensures ParseSynset(FormatSynsets(es)) == Ok(Synsets(Some(Build(es)), true))
  {
    var words := Words(es);
    forall k | 0 <= k < |es| ensures ';' !in words[k] {
      EntryRead(es[k]);
    }
    SplitJoin(words, ';');
    EntryRead(es[0]);
    assert FormatSynsets(es) != "" by {
      JoinHead(words, ';');
      assert |words[0]| >= 1 by {
        assert words[0] == FormatEntry(es[0]);
      }
    }
    assert es[..0] == [];
    EntriesBuild(es, words, 0);
  }

  // ---------------------------------------------------------------------
  // parseWordNetLink
  // ---------------------------------------------------------------------

  /** The links the names from `i` on ask for, or None at the first unknown name (fatal in the source). */
  function LinkLoop(names: seq<string>, i: nat): (r: Option<seq<L.WordNetLink>>)
    requires i <= |names|
    ensures r.Some? <==> forall k :: i <= k < |names| ==> L.NewWordNetLink(names[k]).Some?
    ensures r.Some? ==> |r.value| == |names| - i
    ensures r.Some? ==> forall k :: 0 <= k < |r.value| ==> L.NewWordNetLink(names[i + k]) == Some(r.value[k])
    decreases |names| - i
  {
    if i == |names| then Some([])
    else match L.NewWordNetLink(names[i])
      case None => None
      case Some(l) =>
        match LinkLoop(names, i + 1)
        case None => None
        case Some(rest) => Some([l] + rest)
  }

  /**
   * parseWordNetLink: no text asks for no link; otherwise each
   * comma-separated name becomes its link, in order, and an unknown name
   * stops the program.
   */
  function ParseWordNetLink(text: string): (r: Option<seq<L.WordNetLink>>)
    ensures text == "" ==> r == Some([])
    ensures r.Some? ==> forall k :: 0 <= k < |r.value| ==> 0 <= r.value[k] < L.WNEnd
  {
    if text == "" then Some([]) else LinkLoop(Split(text, ','), 0)
  }

  /** The option name of each link NewWordNetLink accepts. */
  function LinkName(l: L.WordNetLink): (t: string)
    requires l == L.WNSynonym || l == L.WNHype || l == L.WNHypo
    ensures L.NewWordNetLink(t) == Some(l)
  {
    if l == L.WNSynonym then "synonyms" else if l == L.WNHype then "hype" else "hypo"
  }

  predicate Nameable(links: seq<L.WordNetLink>)
  {
    forall k :: 0 <= k < |links| ==> links[k] == L.WNSynonym || links[k] == L.WNHype || links[k] == L.WNHypo
  }

  function LinkNames(links: seq<L.WordNetLink>): (r: seq<string>)
    requires Nameable(links)
    ensures |r| == |links| && forall k :: 0 <= k < |r| ==> r[k] == LinkName(links[k])
  {
    seq(|links|, k requires 0 <= k < |links| => LinkName(links[k]))
  }

  /** Writing the links out by name, comma-separated, and parsing the text gives the links back. */
  lemma ParseWordNetLinkJoin(links: seq<L.WordNetLink>)
    requires |links| >= 1 && Nameable(links)
    ensures ParseWordNetLink(Join(LinkNames(links), ',')) == Some(links)
  {
    var names := LinkNames(links);
    forall k | 0 <= k < |names| ensures ',' !in names[k] {
      assert names[k] == LinkName(links[k]);
    }
    SplitJoin(names, ',');
    JoinHead(names, ',');
    assert |names[0]| >= 4;
    var r := LinkLoop(names, 0);
    assert r.Some?;
    assert r.value == links;
  }

  /** A parse that succeeds is undone by writing the links out by name. */
  lemma ParseWordNetLinkSplit(text: string)
    requires text != "" && ParseWordNetLink(text).Some?
    ensures Nameable(ParseWordNetLink(text).value)
    ensures |ParseWordNetLink(text).value| >= 1
    ensures Join(LinkNames(ParseWordNetLink(text).value), ',') == text
  {
    var names := Split(text, ',');
    var links := LinkLoop(names, 0).value;
    forall k | 0 <= k < |links|
      ensures (links[k] == L.WNSynonym || links[k] == L.WNHype || links[k] == L.WNHypo) && LinkName(links[k]) == names[k]
    {
      LinkNameOf(names[k], links[k]);
    }
    assert LinkNames(links) == names;
    JoinSplit(text, ',');
  }

  /** The name NewWordNetLink accepts for a link is that link's option name. */
  lemma LinkNameOf(t: string, l: L.WordNetLink)
    requires L.NewWordNetLink(t) == Some(l)
    ensures (l == L.WNSynonym || l == L.WNHype || l == L.WNHypo) && LinkName(l) == t
  {
  }

  // ---------------------------------------------------------------------
  // Widths and height
  // ---------------------------------------------------------------------

  /** NewVertical: a MaxWidth of -1 stands for Width. */
  function MaxWidth(width: int, maxWidth: int): (r: int)
  {
    if maxWidth == -1 then width else maxWidth
  }

  /** The widths `w := Width; w <= MaxWidth; w++` of Generate, from `w` on. */
  function WidthsFrom(w: int, last: int): (r: seq<int>)
    ensures |r| == if last < w then 0 else last - w + 1
    ensures forall i :: 0 <= i < |r| ==> r[i] == w + i
    decreases last - w
  {
    if w > last then [] else [w] + WidthsFrom(w + 1, last)
  }

  /** The widths Generate tries for each keyword. */
  function Widths(width: int, maxWidth: int): (r: seq<int>)
    ensures maxWidth == -1 ==> r == [width]
    ensures maxWidth != -1 ==> (forall w :: w in r <==> width <= w <= maxWidth)
    ensures forall i, j :: 0 <= i < j < |r| ==> r[i] < r[j]
  {
    var r := WidthsFrom(width, MaxWidth(width, maxWidth));
    assert forall w :: width <= w <= MaxWidth(width, maxWidth) ==> w in r by {
      forall w | width <= w <= MaxWidth(width, maxWidth) ensures w in r {
        assert r[w - width] == w;
      }
    }
    r
  }

  /** Go's `/` on int: the quotient truncated toward zero. */
  function GoDiv(a: int, b: int): (q: int)
    requires b != 0
    ensures b > 0 && a >= 0 ==> q * b <= a < (q + 1) * b
    ensures b < 0 && a >= 0 ==> q * b <= a < (q - 1) * b
  {
    if (a >= 0) == (b > 0) then
      (if a >= 0 then a / b else (-a) / (-b))
    else
      -((if a >= 0 then a else -a) / (if b > 0 then b else -b))
  }

  /** The number of line feeds in `text`, counted rune by rune. */
  method LineFeeds(text: string) returns (n: nat)
    ensures n == multiset(text)['\n']
    ensures n <= |text|
  {
    n := 0;
    var i := 0;
    while i < |text|
      invariant 0 <= i <= |text|
      invariant n == multiset(text[..i])['\n']
      invariant n <= i
    {
      assert text[..i + 1] == text[..i] + [text[i]];
      if text[i] == '\n' {
        n := n + 1;
      }
      i := i + 1;
    }
    assert text[..i] == text;
  }

  /**
   * ReadText: a Height of -1 becomes ((runes · line feeds) / Width) · 2 of
   * the last text read; a zero Width is Go's division panic (None).
   */
  method AutoHeight(height: int, text: string, width: int) returns (r: Option<int>)
    ensures height != -1 ==> r == Some(height)
    ensures r.None? <==> height == -1 && width == 0
    ensures height == -1 && width > 0 ==>
      r.Some? && r.value % 2 == 0 && r.value >= 0 &&
      (r.value / 2) * width <= |text| * multiset(text)['\n'] < (r.value / 2 + 1) * width
    ensures height == -1 && width < 0 ==>
      r.Some? && r.value % 2 == 0 && r.value <= 0 &&
      (r.value / 2) * width <= |text| * multiset(text)['\n'] < (r.value / 2 - 1) * width
  {
    if height != -1 {
      return Some(height);
    }
    if width == 0 {
      return None;
    }
    var lf := LineFeeds(text);
    var q := GoDiv(|text| * lf, width);
    r := Some(q * 2);
    assert (q * 2) / 2 == q;
  }
}

=== FILE: anaphora.dfy ===
/**
 * Anaphora-resolution output (anaphora.go): the `<EID:…>` entity id and the
 * `<項構造:…>` predicate-argument structure of a basic-phrase line.
 */
module Anaphora {
  import opened Runes

  /** One argument group of the structure: case, flag, notation and entity id. */
  datatype CaseElementGroup = CaseElementGroup(
    text: string,
    caseType: string,
    flag: string,
    notation: string,
    entityId: int)

  datatype PredicateTerm = PredicateTerm(
    text: string,
    entityId: int,
    isAvailable: bool,
    representativeNotation: string,
    proverbsType: string,
    caseFrameNumber: int,
    groups: seq<CaseElementGroup>)

  function NewCaseElementGroup(text: string): CaseElementGroup
  {
    CaseElementGroup(text, "", "", "", 0)
  }

  /**
   * AnaphoraCaseElementGroup.Analyze: a nil text, a text that does not split
   * into exactly four '/'-fields, or a fourth field that is not an integer is
   * an error.
   */
  function AnalyzeGroup(text: Option<string>): (r: Result<CaseElementGroup>)
    ensures r.Ok? <==> text.Some? && |Split(text.value, '/')| == 4 && Atoi(Split(text.value, '/')[3]).Some?
    ensures r.Ok? ==> (r.value.text == text.value
      && Join([r.value.caseType, r.value.flag, r.value.notation, Itoa(r.value.entityId)], '/') ==
         Join(Split(text.value, '/')[..3] + [Itoa(Atoi(Split(text.value, '/')[3]).value)], '/'))
  {
    if text.None? then Err("AnaphoraCaseElementGroup.Text is null")
    else
      var v := Split(text.value, '/');
      if |v| != 4 then Err("cannot split AnaphoraCaseElementGroup.Text by 4")
      else
        match Atoi(v[3])
        case None => Err("cannot convert AnaphoraCaseElementGroup.EntityID []rune to int")
        case Some(eid) =>
          assert v[..3] + [Itoa(eid)] == [v[0], v[1], v[2], Itoa(eid)];
          Ok(CaseElementGroup(text.value, v[0], v[1], v[2], eid))
  }

  /**
   * The group as it stands after Analyze when the error is ignored, as
   * PredicateTerm.Analyze does: the fields assigned before the failing step
   * are kept.
   */
  function GroupAfterAnalyze(text: string): (g: CaseElementGroup)
    ensures AnalyzeGroup(Some(text)).Ok? ==> g == AnalyzeGroup(Some(text)).value
    ensures |Split(text, '/')| != 4 ==> g == NewCaseElementGroup(text)
    ensures g.text == text
  {
    var v := Split(text, '/');
    if |v| != 4 then NewCaseElementGroup(text)
    else
      var e := Atoi(v[3]);
      CaseElementGroup(text, v[0], v[1], v[2], if e.Some? then e.value else 0)
  }

  /** A group printed as four '/'-separated fields reads back as those fields. */
  lemma AnalyzeGroupFormatted(caseType: string, flag: string, notation: string, eid: int)
    requires '/' !in caseType && '/' !in flag && '/' !in notation
    ensures var t := Join([caseType, flag, notation, Itoa(eid)], '/');
      AnalyzeGroup(Some(t)) == Ok(CaseElementGroup(t, caseType, flag, notation, eid))
  {
    var parts := [caseType, flag, notation, Itoa(eid)];
    assert '/' !in Itoa(eid) by {
      forall k | 0 <= k < |Itoa(eid)| ensures Itoa(eid)[k] != '/' {
      }
    }
    SplitJoin(parts, '/');
    AtoiItoa(eid);
  }

  function CopyGroup(a: CaseElementGroup): (r: CaseElementGroup)
    ensures r == a
  {
    var g := NewCaseElementGroup(a.text);
    g.(caseType := a.caseType, flag := a.flag, notation := a.notation, entityId := a.entityId)
  }

  /** PredicateTerm.Copy: every field, each group copied in turn. */
  function Copy(a: PredicateTerm): (r: PredicateTerm)
    ensures r == a
  {
    var groups := seq(|a.groups|, i requires 0 <= i < |a.groups| => CopyGroup(a.groups[i]));
    assert groups == a.groups;
    PredicateTerm(a.text, a.entityId, a.isAvailable, a.representativeNotation, a.proverbsType,
      a.caseFrameNumber, groups)
  }

  // ---------------------------------------------------------------- structure

  const EidTag := "<EID:"
  const StructTag := "<項構造:"

  /** The first position at or after `i` holding a digit, or the end. */
  function SkipNonDigits(s: string, i: nat): (r: nat)
    requires i <= |s|
    ensures i <= r <= |s| && (r < |s| ==> IsDigit(s[r]))
    ensures forall k :: i <= k < r ==> !IsDigit(s[k])
    decreases |s| - i
  {
    if i == |s| || IsDigit(s[i]) then i else SkipNonDigits(s, i + 1)
  }

  /** The first position at or after `i` not holding a digit, or the end. */
  function SkipDigits(s: string, i: nat): (r: nat)
    requires i <= |s|
    ensures i <= r <= |s| && (r < |s| ==> !IsDigit(s[r]))
    ensures forall k :: i <= k < r ==> IsDigit(s[k])
    decreases |s| - i
  {
    if i == |s| || !IsDigit(s[i]) then i else SkipDigits(s, i + 1)
  }

  /** The parts of the structure tag. */
  datatype Structure = Structure(representativeNotation: string, proverbsType: string,
                                 caseFrameNumber: int, groups: seq<CaseElementGroup>)

  /**
   * The inside of `<項構造:…>`: the notation before the first ':', the type
   * up to the first digit, the case-frame number as the digit run, then,
   * after one separator rune, the ';'-separated groups with their errors
   * ignored. A missing ':' or a number that is not an integer is an error.
   */
  function ParseStructure(stru: string): (r: Result<Structure>)
    ensures r.Ok? <==> (Contains(stru, ":")
      && var colon := Index(stru, ":", 0); var i := SkipNonDigits(stru, colon + 1);
         Atoi(stru[i..SkipDigits(stru, i)]).Some?)
    ensures r.Ok? ==> (':' !in r.value.representativeNotation
      && forall k :: 0 <= k < |r.value.proverbsType| ==> !IsDigit(r.value.proverbsType[k]))
  {
    IndexFindsContains(stru, ":");
    var colon := Index(stru, ":", 0);
    if colon == -1 then Err("Anaphora.Analyze cannot find colon in struct tag")
    else
      assert ':' !in stru[..colon] by {
        forall m | 0 <= m < colon ensures stru[m] != ':' {
          OccursAtRune(stru, ':', m);
        }
      }
      StructureFrom(stru, colon)
  }

  /** The rest of ParseStructure once the first colon is found at `colon`. */
  function StructureFrom(stru: string, colon: nat): (r: Result<Structure>)
    requires colon < |stru|
    ensures r.Ok? <==> (var i := SkipNonDigits(stru, colon + 1); Atoi(stru[i..SkipDigits(stru, i)]).Some?)
    ensures r.Ok? ==> (r.value.representativeNotation == stru[..colon]
      && forall k :: 0 <= k < |r.value.proverbsType| ==> !IsDigit(r.value.proverbsType[k]))
  {
    var i := SkipNonDigits(stru, colon + 1);
    var k := SkipDigits(stru, i);
    match Atoi(stru[i..k])
    case None => Err("cannot convert CaseFrameNumber from []rune to int")
    case Some(n) =>
      Ok(Structure(stru[..colon], stru[colon + 1..i], n, GroupsAfter(stru, k)))
  }

  /** The groups after the separator rune that follows the digit run ending at `k`. */
  function GroupsAfter(stru: string, k: nat): seq<CaseElementGroup>
    requires k <= |stru|
  {
    if k + 1 < |stru| then GroupsAfterAnalyze(Split(stru[k + 1..], ';')) else []
  }

  function GroupsAfterAnalyze(texts: seq<string>): (r: seq<CaseElementGroup>)
    ensures |r| == |texts| && forall k :: 0 <= k < |texts| ==> r[k] == GroupAfterAnalyze(texts[k])
  {
    if texts == [] then [] else [GroupAfterAnalyze(texts[0])] + GroupsAfterAnalyze(texts[1..])
  }

  /** ParseStructure once the colon and the digit run are located. */
  lemma ParseStructureAt(stru: string, colon: nat, i: nat, k: nat, n: int)
    requires colon == Index(stru, ":", 0) && i == SkipNonDigits(stru, colon + 1) && k == SkipDigits(stru, i)
    requires Atoi(stru[i..k]) == Some(n)
    ensures ParseStructure(stru) == Ok(Structure(stru[..colon], stru[colon + 1..i], n,
      GroupsAfter(stru, k)))
  {
    ParseStructureFound(stru, colon);
    StructureFromAt(stru, colon, i, k, n);
  }

  lemma ParseStructureFound(stru: string, colon: nat)
    requires colon == Index(stru, ":", 0)
    ensures colon < |stru| && ParseStructure(stru) == StructureFrom(stru, colon)
  {
    IndexFindsContains(stru, ":");
  }

  lemma StructureFromAt(stru: string, colon: nat, i: nat, k: nat, n: int)
    requires colon < |stru| && i == SkipNonDigits(stru, colon + 1) && k == SkipDigits(stru, i)
    requires Atoi(stru[i..k]) == Some(n)
    ensures StructureFrom(stru, colon) == Ok(Structure(stru[..colon], stru[colon + 1..i], n,
      GroupsAfter(stru, k)))
  {
  }

  /** Where the colon and the digit run of a printed structure are found. */
  lemma StructurePositions(stru: string, rep: string, kind: string, digits: string, tail: string)
    requires stru == rep + ":" + kind + digits + tail
    requires ':' !in rep && forall k :: 0 <= k < |kind| ==> !IsDigit(kind[k])
    requires |digits| >= 1 && AllAsciiDigits(digits)
    requires |tail| >= 1 && !IsDigit(tail[0])
    ensures var colon := |rep|; var i := colon + 1 + |kind|; var k := i + |digits|;
      Index(stru, ":", 0) == colon && SkipNonDigits(stru, colon + 1) == i && SkipDigits(stru, i) == k
      && stru[..colon] == rep && stru[colon + 1..i] == kind && stru[i..k] == digits && stru[k + 1..] == tail[1..]
  {
    Slices5(rep, ":", kind, digits, tail);
    var colon := |rep|;
    var i := colon + 1 + |kind|;
    var k := i + |digits|;
    ColonFirst(stru, rep);
    SkipNonDigitsOver(stru, colon + 1, kind, digits);
    SkipDigitsOver(stru, i, digits, tail);
    assert stru[k + 1..] == stru[k..][1..];
  }

  lemma ColonFirst(s: string, rep: string)
    requires |rep| < |s| && s[..|rep| + 1] == rep + ":" && ':' !in rep
    ensures Index(s, ":", 0) == |rep| && s[..|rep|] == rep
  {
    assert s[|rep|] == s[..|rep| + 1][|rep|] == ':';
    assert s[..|rep|] == s[..|rep| + 1][..|rep|] == rep;
    IndexOfRune(s, ':', |rep|);
  }

  lemma SkipNonDigitsOver(s: string, from: nat, kind: string, digits: string)
    requires from + |kind| + |digits| <= |s|
    requires s[from..from + |kind|] == kind && s[from + |kind|..from + |kind| + |digits|] == digits
    requires forall k :: 0 <= k < |kind| ==> !IsDigit(kind[k])
    requires |digits| >= 1 && AllAsciiDigits(digits)
    ensures SkipNonDigits(s, from) == from + |kind|
  {
    var to := from + |kind|;
    assert s[to] == digits[0];
    forall m | from <= m < to
      ensures !IsDigit(s[m])
    {
      assert s[m] == kind[m - from];
    }
    SkipNonDigitsAt(s, from, to);
  }

  lemma SkipDigitsOver(s: string, from: nat, digits: string, tail: string)
    requires from + |digits| <= |s|
    requires s[from..from + |digits|] == digits && s[from + |digits|..] == tail
    requires AllAsciiDigits(digits) && |tail| >= 1 && !IsDigit(tail[0])
    ensures SkipDigits(s, from) == from + |digits|
  {
    var to := from + |digits|;
    assert s[to] == tail[0];
    forall m | from <= m < to
      ensures IsDigit(s[m])
    {
      assert s[m] == digits[m - from];
    }
    SkipDigitsAt(s, from, to);
  }

  /** A structure printed as notation ':' type number, a separator and groups parses back. */
  lemma ParseStructureFormatted(rep: string, kind: string, n: nat, sep: char, rest: string)
    requires ':' !in rep
    requires forall k :: 0 <= k < |kind| ==> !IsDigit(kind[k])
    requires !IsDigit(sep)
    ensures ParseStructure(rep + ":" + kind + Itoa(n) + ([sep] + rest))
      == Ok(Structure(rep, kind, n, if |rest| >= 1 then GroupsAfterAnalyze(Split(rest, ';')) else []))
  {
    var digits := Itoa(n);
    var tail := [sep] + rest;
    var stru := rep + ":" + kind + digits + tail;
    StructurePositions(stru, rep, kind, digits, tail);
    AtoiItoa(n);
    assert tail[1..] == rest;
    var k := |rep| + 1 + |kind| + |digits|;
    assert |stru| == k + 1 + |rest|;
    ParseStructureAt(stru, |rep|, |rep| + 1 + |kind|, k, n);
    assert GroupsAfter(stru, k)
      == (if |rest| >= 1 then GroupsAfterAnalyze(Split(rest, ';')) else []);
  }

  lemma {:induction false} SkipNonDigitsAt(s: string, i: nat, j: nat)
    requires i <= j < |s| && IsDigit(s[j]) && forall k :: i <= k < j ==> !IsDigit(s[k])
    ensures SkipNonDigits(s, i) == j
    decreases j - i
  {
    if i < j {
      SkipNonDigitsAt(s, i + 1, j);
    }
  }

  lemma {:induction false} SkipDigitsAt(s: string, i: nat, j: nat)
    requires i <= j < |s| && !IsDigit(s[j]) && forall k :: i <= k < j ==> IsDigit(s[k])
    ensures SkipDigits(s, i) == j
    decreases j - i
  {
    if i < j {
      SkipDigitsAt(s, i + 1, j);
    }
  }

  /**
   * PredicateTerm.Analyze: the entity id must be present, closed and an
   * integer; the structure is optional, but once present it must be closed
   * and well formed.
   */
  function Analyze(text: string): (r: Result<PredicateTerm>)
    ensures !Contains(text, EidTag) ==> r.Err?
    ensures r.Ok? ==> r.value.text == text
    ensures r.Ok? ==> (r.value.isAvailable <==> Contains(text, StructTag))
    ensures r.Ok? ==> exists e :: TagContent(text, EidTag) == Closed(e) && Atoi(e) == Some(r.value.entityId)
    ensures r.Ok? && !r.value.isAvailable ==> r.value.groups == [] && r.value.caseFrameNumber == 0
  {
    match TagContent(text, EidTag)
    case Absent => Err("Anaphora.Analyze cannot find begin of eid tag")
    case Unclosed => Err("Anaphora.Analyze cannot find end of eid tag")
    case Closed(eid) =>
      match Atoi(eid)
      case None => Err("cannot convert Anaphora.EntityID from []rune to int")
      case Some(id) =>
        var base := PredicateTerm(text, id, false, "", "", 0, []);
        match TagContent(text, StructTag)
        case Absent => Ok(base)
        case Unclosed => Err("Anaphora.Analyze cannot find end of struct tag")
        case Closed(stru) =>
          match ParseStructure(stru)
          case Err(m) => Err(m)
          case Ok(s) =>
            Ok(base.(isAvailable := true, representativeNotation := s.representativeNotation,
              proverbsType := s.proverbsType, caseFrameNumber := s.caseFrameNumber, groups := s.groups))
  }

  /** A line with an entity id and no structure gives that id and nothing else. */
  lemma AnalyzeEidOnly(pre: string, eid: int, post: string)
    requires '<' !in pre && !Contains(pre + EidTag + Itoa(eid) + ">" + post, StructTag)
    ensures Analyze(pre + EidTag + Itoa(eid) + ">" + post)
      == Ok(PredicateTerm(pre + EidTag + Itoa(eid) + ">" + post, eid, false, "", "", 0, []))
  {
    assert '>' !in Itoa(eid) by {
      forall k | 0 <= k < |Itoa(eid)| ensures Itoa(eid)[k] != '>' {
      }
    }
    TagContentFormatted(pre, EidTag, Itoa(eid), post);
    AtoiItoa(eid);
  }
}

=== FILE: arrange.dfy ===
// Arrange (arrange.go): the candidate sentences built from the case
// analysis, the enumeration of whole-text orderings fed to the search, the
// run over every ordering and the result totals.

module Arranges {
  import opened Runes
  import B = BasicPhrases
  import Ph = Phrases
  import Pt = Patterns
  import AM = ArrangeMatrices

  // ---------------------------------------------------------------- makeSentences

  /**
   * The parts of a sentence this step reads: its basic phrases by number,
   * whether each case-analysis order passed, and the phrases of each order.
   */
  datatype Sentence = Sentence(basicPhrases: map<int, B.BasicPhrase>, caseAnalysisResults: seq<bool>,
                               caseAnalysisPhrases: seq<seq<Ph.Phrase>>)

  /** The basic phrases of an order, phrase after phrase. */
  function Flatten(p: seq<Ph.Phrase>): (r: seq<B.BasicPhrase>)
  {
    if |p| == 0 then [] else Flatten(p[..|p| - 1]) + p[|p| - 1].basicPhrases
  }

  /** The basic phrases carry the ids `begin`, `begin + 1`, …: the order of the input text. */
  predicate InOrder(t: seq<B.BasicPhrase>, begin: int)
  {
    forall i :: 0 <= i < |t| ==> t[i].id == i + begin
  }

  lemma LeastExists(ks: set<int>)
    requires ks != {}
    ensures exists m :: m in ks && forall k :: k in ks ==> m <= k
    decreases |ks|
  {
    assert (forall y :: y !in ks) ==> ks == {};
    var x :| x in ks;
    var rest := ks - {x};
    if rest == {} {
      assert forall k :: k in ks ==> k == x || k in rest;
      assert forall k :: k in ks ==> x <= k;
    } else {
      LeastExists(rest);
      var m :| m in rest && forall k :: k in rest ==> m <= k;
      var least := if x < m then x else m;
      assert forall k :: k in ks ==> k == x || k in rest;
      assert least in ks && forall k :: k in ks ==> least <= k;
    }
  }

  function Least(ks: set<int>): (m: int)
    requires ks != {}
    ensures m in ks && forall k :: k in ks ==> m <= k
  {
    LeastExists(ks);
    var m :| m in ks && forall k :: k in ks ==> m <= k; m
  }

  /** The keys in ascending order, as `sort.Ints` leaves them. */
  function SortedKeys(ks: set<int>): (r: seq<int>)
    ensures |r| == |ks| && Ascending(r)
    ensures forall k :: k in ks <==> k in r
    decreases |ks|
  {
    if ks == {} then []
    else
      var m := Least(ks);
      var rest := SortedKeys(ks - {m});
      assert forall i :: 0 <= i < |rest| ==> m < rest[i] by {
        forall i | 0 <= i < |rest| ensures m < rest[i] {
          assert rest[i] in ks - {m};
        }
      }
      [m] + rest
  }

  /** The sentence's basic phrases by ascending number: the input order. */
  function ByNumber(m: map<int, B.BasicPhrase>): (r: seq<B.BasicPhrase>)
    ensures |r| == |m.Keys|
    ensures forall i :: 0 <= i < |r| ==> SortedKeys(m.Keys)[i] in m && r[i] == m[SortedKeys(m.Keys)[i]]
  {
    var keys := SortedKeys(m.Keys);
    SortedKeysIn(m.Keys);
    seq(|keys|, i requires 0 <= i < |keys| => m[keys[i]])
  }

  lemma SortedKeysIn(ks: set<int>)
    ensures forall i :: 0 <= i < |SortedKeys(ks)| ==> SortedKeys(ks)[i] in ks
  {
    var r := SortedKeys(ks);
    forall i | 0 <= i < |r| ensures r[i] in ks {
      assert r[i] in r;
    }
  }

  /**
   * The loop of makeSentences over one sentence's orders: an order that
   * failed the case analysis is dropped, the first order in input order is
   * put in front, every other order is appended. None is the index panic
   * on a result list shorter than the order list.
   */
  function Gather(s: Sentence, pi: nat, begin: int, found: bool, acc: seq<seq<B.BasicPhrase>>)
    : (r: Option<(seq<seq<B.BasicPhrase>>, bool)>)
    requires pi <= |s.caseAnalysisPhrases|
    ensures r.None? <==> |s.caseAnalysisResults| < |s.caseAnalysisPhrases|
    decreases |s.caseAnalysisPhrases| - pi
  {
    if pi == |s.caseAnalysisPhrases| then
      if |s.caseAnalysisResults| < |s.caseAnalysisPhrases| then None else Some((acc, found))
    else if pi >= |s.caseAnalysisResults| then
      None
    else if !s.caseAnalysisResults[pi] then
      Gather(s, pi + 1, begin, found, acc)
    else
      var t := Flatten(s.caseAnalysisPhrases[pi]);
      if !found && InOrder(t, begin) then Gather(s, pi + 1, begin, true, [t] + acc)
      else Gather(s, pi + 1, begin, found, acc + [t])
  }

  /**
   * The candidate arrangements of one sentence whose first basic phrase has
   * id `begin`: the input order first (taken from the case analysis when an
   * accepted order has it, else built from the basic phrases by number),
   * then the other accepted orders.
   */
  function MakeSentence(s: Sentence, begin: int): (r: Option<seq<seq<B.BasicPhrase>>>)
    ensures r.None? <==> |s.caseAnalysisResults| < |s.caseAnalysisPhrases|
    ensures r.Some? ==> |r.value| >= 1
  {
    match Gather(s, 0, begin, false, [])
    case None => None
    case Some((acc, found)) =>
      if found then
        GatherFound(s, 0, begin, false, []);
        Some(acc)
      else Some([ByNumber(s.basicPhrases)] + acc)
  }

  lemma {:induction false} GatherFound(s: Sentence, pi: nat, begin: int, found: bool, acc: seq<seq<B.BasicPhrase>>)
    requires pi <= |s.caseAnalysisPhrases| && (found ==> |acc| >= 1)
    ensures match Gather(s, pi, begin, found, acc)
      case Some((a, f)) => f ==> |a| >= 1
      case None => true
    decreases |s.caseAnalysisPhrases| - pi
  {
    if pi < |s.caseAnalysisPhrases| && pi < |s.caseAnalysisResults| {
      if !s.caseAnalysisResults[pi] {
        GatherFound(s, pi + 1, begin, found, acc);
      } else {
        var t := Flatten(s.caseAnalysisPhrases[pi]);
        if !found && InOrder(t, begin) {
          GatherFound(s, pi + 1, begin, true, [t] + acc);
        } else {
          GatherFound(s, pi + 1, begin, found, acc + [t]);
        }
      }
    }
  }

  /** The accepted orders among the first `n`, flattened: the reference list. */
  function Accepted(s: Sentence, n: nat): (r: seq<seq<B.BasicPhrase>>)
    requires n <= |s.caseAnalysisPhrases| && n <= |s.caseAnalysisResults|
  {
    if n == 0 then []
    else Accepted(s, n - 1) + (if s.caseAnalysisResults[n - 1] then [Flatten(s.caseAnalysisPhrases[n - 1])] else [])
  }

  /** The position of the first list in input order. */
  function FirstInOrder(ts: seq<seq<B.BasicPhrase>>, begin: int): (r: Option<nat>)
    ensures r.Some? ==> (r.value < |ts| && InOrder(ts[r.value], begin)
      && forall j :: 0 <= j < r.value ==> !InOrder(ts[j], begin))
    ensures r.None? ==> forall j :: 0 <= j < |ts| ==> !InOrder(ts[j], begin)
  {
    if |ts| == 0 then None
    else match FirstInOrder(ts[..|ts| - 1], begin)
      case Some(j) => Some(j)
      case None => if InOrder(ts[|ts| - 1], begin) then Some(|ts| - 1) else None
  }

  /** `ts` with the list at `j` moved to the front. */
  function ToFront(ts: seq<seq<B.BasicPhrase>>, j: nat): (r: seq<seq<B.BasicPhrase>>)
    requires j < |ts|
  {
    [ts[j]] + ts[..j] + ts[j + 1..]
  }

  /** What the loop has gathered after the first `pi` orders. */
  predicate GatherInv(s: Sentence, pi: nat, begin: int, found: bool, acc: seq<seq<B.BasicPhrase>>)
    requires pi <= |s.caseAnalysisPhrases| && pi <= |s.caseAnalysisResults|
  {
    match FirstInOrder(Accepted(s, pi), begin)
    case Some(j) => found && acc == ToFront(Accepted(s, pi), j)
    case None => !found && acc == Accepted(s, pi)
  }

  lemma GatherInvStep(s: Sentence, pi: nat, begin: int, found: bool, acc: seq<seq<B.BasicPhrase>>)
    requires pi < |s.caseAnalysisPhrases| && pi < |s.caseAnalysisResults|
    requires GatherInv(s, pi, begin, found, acc)
    ensures !s.caseAnalysisResults[pi] ==> GatherInv(s, pi + 1, begin, found, acc)
    ensures s.caseAnalysisResults[pi] ==> var t := Flatten(s.caseAnalysisPhrases[pi]);
      if !found && InOrder(t, begin) then GatherInv(s, pi + 1, begin, true, [t] + acc)
      else GatherInv(s, pi + 1, begin, found, acc + [t])
  {
    var a := Accepted(s, pi);
    var a' := Accepted(s, pi + 1);
    if s.caseAnalysisResults[pi] {
      var t := Flatten(s.caseAnalysisPhrases[pi]);
      assert a' == a + [t];
      assert a'[..|a'| - 1] == a;
      match FirstInOrder(a, begin)
      case Some(j) =>
        assert FirstInOrder(a', begin) == Some(j);
        assert ToFront(a', j) == ToFront(a, j) + [t];
      case None =>
        if InOrder(t, begin) {
          assert FirstInOrder(a', begin) == Some(|a|);
          assert ToFront(a', |a|) == [t] + a;
        } else {
          assert FirstInOrder(a', begin) == None;
        }
    } else {
      assert a' == a;
    }
  }

  lemma {:induction false} GatherSpec(s: Sentence, pi: nat, begin: int, found: bool, acc: seq<seq<B.BasicPhrase>>)
    requires pi <= |s.caseAnalysisPhrases| <= |s.caseAnalysisResults|
    requires GatherInv(s, pi, begin, found, acc)
    ensures Gather(s, pi, begin, found, acc).Some?
    ensures GatherInv(s, |s.caseAnalysisPhrases|, begin, Gather(s, pi, begin, found, acc).value.1,
                      Gather(s, pi, begin, found, acc).value.0)
    decreases |s.caseAnalysisPhrases| - pi
  {
    if pi < |s.caseAnalysisPhrases| {
      var found', acc' := GatherNext(s, pi, begin, found, acc);
      GatherSpec(s, pi + 1, begin, found', acc');
    }
  }

  /** One round of the gathering loop keeps its invariant. */
  lemma GatherNext(s: Sentence, pi: nat, begin: int, found: bool, acc: seq<seq<B.BasicPhrase>>)
    returns (found': bool, acc': seq<seq<B.BasicPhrase>>)
    requires pi < |s.caseAnalysisPhrases| <= |s.caseAnalysisResults|
    requires GatherInv(s, pi, begin, found, acc)
    ensures Gather(s, pi, begin, found, acc) == Gather(s, pi + 1, begin, found', acc')
    ensures GatherInv(s, pi + 1, begin, found', acc')
  {
    GatherInvStep(s, pi, begin, found, acc);
    if !s.caseAnalysisResults[pi] {
      found', acc' := found, acc;
    } else {
      var t := Flatten(s.caseAnalysisPhrases[pi]);
      if !found && InOrder(t, begin) {
        found', acc' := true, [t] + acc;
      } else {
        found', acc' := found, acc + [t];
      }
    }
  }

  /**
   * makeSentences for one sentence against the reference: the accepted
   * orders in their own order, except that the first one in input order
   * moves to the front; when none is, the basic phrases by number go first.
   */
  lemma MakeSentenceSpec(s: Sentence, begin: int)
    requires |s.caseAnalysisPhrases| <= |s.caseAnalysisResults|
    ensures var a := Accepted(s, |s.caseAnalysisPhrases|);
      MakeSentence(s, begin) == Some(match FirstInOrder(a, begin)
                                     case Some(j) => ToFront(a, j)
                                     case None => [ByNumber(s.basicPhrases)] + a)
  {
    assert Accepted(s, 0) == [];
    GatherSpec(s, 0, begin, false, []);
  }

  /** The id of the first basic phrase of sentence `k`: the sizes of the sentences before it. */
  function Offset(ss: seq<Sentence>, k: nat): (r: int)
    requires k <= |ss|
  {
    if k == 0 then 0 else Offset(ss, k - 1) + |ss[k - 1].basicPhrases.Keys|
  }

  /** Entry `c` is what makeSentences builds for sentence `i`. */
  predicate Built(ss: seq<Sentence>, i: nat, c: seq<seq<B.BasicPhrase>>)
    requires i < |ss|
  {
    MakeSentence(ss[i], Offset(ss, i)) == Some(c)
  }

  /** makeSentences: the candidate arrangements of every sentence, numbering the basic phrases across sentences. */
  function MakeSentences(ss: seq<Sentence>, k: nat, acc: seq<seq<seq<B.BasicPhrase>>>)
    : (r: Option<seq<seq<seq<B.BasicPhrase>>>>)
    requires k <= |ss| && |acc| == k
    requires forall i :: 0 <= i < k ==> Built(ss, i, acc[i])
    ensures r.Some? ==> (|r.value| == |ss| && forall i :: 0 <= i < |ss| ==> Built(ss, i, r.value[i]))
    ensures r.None? ==> exists i :: k <= i < |ss| && MakeSentence(ss[i], Offset(ss, i)).None?
    decreases |ss| - k
  {
    if k == |ss| then Some(acc)
    else match MakeSentence(ss[k], Offset(ss, k))
      case None => None
      case Some(c) => MakeSentences(ss, k + 1, acc + [c])
  }

  // ---------------------------------------------------------------- sentencePattern

  /** One candidate arrangement of a sentence, or a whole text laid out as basic phrases. */
  type Arrangement = seq<B.BasicPhrase>

  /** 0, 1, …, n - 1. */
  function Iota(n: nat): (r: seq<int>)
    ensures |r| == n && forall i :: 0 <= i < n ==> r[i] == i
  {
    if n == 0 then [] else Iota(n - 1) + [n - 1]
  }

  predicate HasNewLine(a: Arrangement)
  {
    exists i :: 0 <= i < |a| && a[i].newLine
  }

  /**
   * The line-break normalisation applied to an arrangement before it is
   * placed: when any of its basic phrases starts a line, its first one
   * does and no other.
   */
  function Normalize(a: Arrangement): (r: Arrangement)
    ensures |r| == |a|
    ensures HasNewLine(r) <==> HasNewLine(a)
    ensures forall i :: 0 <= i < |a| ==> r[i].newLine == (i == 0 && HasNewLine(a))
    ensures forall i :: 0 <= i < |a| ==> r[i] == a[i].(newLine := r[i].newLine)
  {
    if HasNewLine(a) then
      var r := seq(|a|, i requires 0 <= i < |a| => a[i].(newLine := i == 0));
      assert r[0].newLine;
      r
    else a
  }

  /**
   * sentencePattern clears and sets the flags in the arrangement lists
   * themselves; normalising twice changes nothing, so every later ordering
   * sees the same arrangements as the first.
   */
  lemma NormalizeIdempotent(a: Arrangement)
    ensures Normalize(Normalize(a)) == Normalize(a)
  {
    var n := Normalize(a);
    var nn := Normalize(n);
    forall i | 0 <= i < |a| ensures nn[i] == n[i] {
      assert nn[i] == n[i].(newLine := nn[i].newLine);
    }
  }

  /** `e` names each sentence once. */
  predicate IsOrder(e: seq<int>, n: nat)
  {
    multiset(e) == multiset(Iota(n))
  }

  lemma OrderInRange(e: seq<int>, n: nat)
    requires IsOrder(e, n)
    ensures |e| == n && forall i :: 0 <= i < |e| ==> 0 <= e[i] < n
  {
    assert |e| == |multiset(e)| == |multiset(Iota(n))| == n;
    forall i | 0 <= i < |e| ensures 0 <= e[i] < n {
      assert e[i] in multiset(e);
      assert e[i] in Iota(n);
    }
  }

  /** The number of arrangements of sentence `x`; none for a number that names no sentence. */
  function Len(groups: seq<seq<Arrangement>>, x: int): (r: nat)
  {
    if 0 <= x < |groups| then |groups[x]| else 0
  }

  /** The arrangement numbers to choose from for the sentences in order `e`. */
  function Lists(groups: seq<seq<Arrangement>>, e: seq<int>): (r: seq<seq<int>>)
    ensures |r| == |e| && forall i :: 0 <= i < |e| ==> r[i] == Iota(Len(groups, e[i]))
  {
    seq(|e|, i requires 0 <= i < |e| => Iota(Len(groups, e[i])))
  }

  /** `v` takes an existing arrangement of each sentence of order `e`. */
  predicate Picks(groups: seq<seq<Arrangement>>, e: seq<int>, v: seq<int>)
  {
    |v| == |e| && forall i :: 0 <= i < |v| ==> 0 <= v[i] < Len(groups, e[i])
  }

  lemma ChoicePicks(groups: seq<seq<Arrangement>>, e: seq<int>, v: seq<int>)
    ensures IsChoice(v, Lists(groups, e)) <==> Picks(groups, e, v)
  {
    if IsChoice(v, Lists(groups, e)) {
      forall i | 0 <= i < |v| ensures 0 <= v[i] < Len(groups, e[i]) {
        assert v[i] in Iota(Len(groups, e[i]));
      }
    }
    if Picks(groups, e, v) {
      forall i | 0 <= i < |v| ensures v[i] in Lists(groups, e)[i] {
        assert Iota(Len(groups, e[i]))[v[i]] == v[i];
      }
    }
  }

  /** The text laid out by taking arrangement v[i] of sentence e[i], in turn. */
  function Joined(groups: seq<seq<Arrangement>>, e: seq<int>, v: seq<int>): (r: Arrangement)
    requires Picks(groups, e, v)
  {
    if |v| == 0 then [] else Normalize(groups[e[0]][v[0]]) + Joined(groups, e[1..], v[1..])
  }

  /** Every text for order `e`, the last sentence's arrangement varying fastest. */
  function ForOrder(groups: seq<seq<Arrangement>>, e: seq<int>, vs: seq<seq<int>>): (r: seq<Arrangement>)
    requires forall k :: 0 <= k < |vs| ==> Picks(groups, e, vs[k])
    ensures |r| == |vs|
    ensures forall k :: 0 <= k < |vs| ==> r[k] == Joined(groups, e, vs[k])
  {
    if |vs| == 0 then [] else [Joined(groups, e, vs[0])] + ForOrder(groups, e, vs[1..])
  }

  /** The choices for order `e`, in the order algo.Combinations yields them. */
  function Choices(groups: seq<seq<Arrangement>>, e: seq<int>): (r: seq<seq<int>>)
    ensures |r| == ProductOfLengths(Lists(groups, e))
    ensures forall k :: 0 <= k < |r| ==> Picks(groups, e, r[k])
  {
    var r := Combinations(Lists(groups, e));
    forall k | 0 <= k < |r| ensures Picks(groups, e, r[k]) {
      assert r[k] in r;
      ChoicePicks(groups, e, r[k]);
    }
    r
  }

  /** The sentence orders: every permutation when sentences are swapped, else the input order alone. */
  function Orders(n: nat, swap: bool): (r: seq<seq<int>>)
  {
    if swap then Permutations(Iota(n)) else [Iota(n)]
  }

  /** The texts for the orders from `k` on. */
  function OverOrders(groups: seq<seq<Arrangement>>, orders: seq<seq<int>>, k: nat): (r: seq<Arrangement>)
    requires k <= |orders|
    decreases |orders| - k
  {
    if k == |orders| then []
    else ForOrder(groups, orders[k], Choices(groups, orders[k])) + OverOrders(groups, orders, k + 1)
  }

  /**
   * sentencePattern: every whole text the search is run on, one
   * arrangement per sentence, the sentences in input order or, when
   * swapped, in every order.
   */
  function SentencePattern(groups: seq<seq<Arrangement>>, swap: bool): (r: seq<Arrangement>)
  {
    OverOrders(groups, Orders(|groups|, swap), 0)
  }

  /** The number of arrangement choices for the sentences taken in order `e`. */
  function PickCount(groups: seq<seq<Arrangement>>, e: seq<int>): (r: nat)
  {
    if |e| == 0 then 1 else Len(groups, e[0]) * PickCount(groups, e[1..])
  }

  lemma {:induction false} ListsCount(groups: seq<seq<Arrangement>>, e: seq<int>)
    ensures ProductOfLengths(Lists(groups, e)) == PickCount(groups, e)
  {
    if |e| > 0 {
      assert Lists(groups, e)[1..] == Lists(groups, e[1..]);
      ListsCount(groups, e[1..]);
    }
  }

  lemma MulAssoc(a: nat, b: nat, c: nat)
    ensures a * (b * c) == (a * b) * c && a * b == b * a
  {
  }

  lemma {:induction false} PickCountConcat(groups: seq<seq<Arrangement>>, a: seq<int>, b: seq<int>)
    ensures PickCount(groups, a + b) == PickCount(groups, a) * PickCount(groups, b)
  {
    if |a| > 0 {
      assert (a + b)[1..] == a[1..] + b;
      PickCountConcat(groups, a[1..], b);
      MulAssoc(Len(groups, a[0]), PickCount(groups, a[1..]), PickCount(groups, b));
    } else {
      assert a + b == b;
    }
  }

  lemma PickCountRemove(groups: seq<seq<Arrangement>>, f: seq<int>, j: nat)
    requires j < |f|
    ensures PickCount(groups, f) == Len(groups, f[j]) * PickCount(groups, f[..j] + f[j + 1..])
  {
    assert f == f[..j] + ([f[j]] + f[j + 1..]);
    PickCountConcat(groups, f[..j], [f[j]] + f[j + 1..]);
    PickCountConcat(groups, f[..j], f[j + 1..]);
    assert ([f[j]] + f[j + 1..])[1..] == f[j + 1..];
    assert PickCount(groups, [f[j]] + f[j + 1..]) == Len(groups, f[j]) * PickCount(groups, f[j + 1..]);
    MulAssoc(PickCount(groups, f[..j]), Len(groups, f[j]), PickCount(groups, f[j + 1..]));
    MulAssoc(Len(groups, f[j]), PickCount(groups, f[..j]), PickCount(groups, f[j + 1..]));
  }

  lemma MultisetRemove<T>(e: seq<T>, f: seq<T>, j: nat)
    requires |e| > 0 && j < |f| && f[j] == e[0] && multiset(e) == multiset(f)
    ensures multiset(e[1..]) == multiset(f[..j] + f[j + 1..])
  {
    assert e == [e[0]] + e[1..];
    assert multiset(e) == multiset{e[0]} + multiset(e[1..]);
    assert f == f[..j] + [f[j]] + f[j + 1..];
    assert multiset(f) == multiset(f[..j]) + multiset{f[j]} + multiset(f[j + 1..]);
    var a, b := multiset(e[1..]), multiset(f[..j] + f[j + 1..]);
    assert b == multiset(f[..j]) + multiset(f[j + 1..]);
    assert a + multiset{e[0]} == multiset(e);
    assert b + multiset{e[0]} == multiset(f[..j]) + multiset{f[j]} + multiset(f[j + 1..]);
    assert a + multiset{e[0]} == b + multiset{e[0]};
    forall y ensures a[y] == b[y] {
      assert (a + multiset{e[0]})[y] == (b + multiset{e[0]})[y];
    }
  }

  /** Taking the sentences in another order does not change the count. */
  lemma {:induction false} PickCountPermuted(groups: seq<seq<Arrangement>>, e: seq<int>, f: seq<int>)
    requires multiset(e) == multiset(f)
    ensures PickCount(groups, e) == PickCount(groups, f)
    decreases |e|
  {
    assert |f| == |multiset(f)| == |multiset(e)| == |e|;
    if |e| > 0 {
      assert e[0] in multiset(f);
      var j :| 0 <= j < |f| && f[j] == e[0];
      PickCountRemove(groups, f, j);
      MultisetRemove(e, f, j);
      PickCountPermuted(groups, e[1..], f[..j] + f[j + 1..]);
    }
  }

  /** The product of the numbers of arrangements of the first `n` sentences. */
  function ArrangementProduct(groups: seq<seq<Arrangement>>, n: nat): (r: nat)
    requires n <= |groups|
  {
    if n == 0 then 1 else ArrangementProduct(groups, n - 1) * |groups[n - 1]|
  }

  lemma {:induction false} IotaCount(groups: seq<seq<Arrangement>>, n: nat)
    requires n <= |groups|
    ensures PickCount(groups, Iota(n)) == ArrangementProduct(groups, n)
  {
    if n > 0 {
      IotaCount(groups, n - 1);
      PickCountConcat(groups, Iota(n - 1), [n - 1]);
    }
  }

  /** sentencePatternLength: the number of texts, the factorial of the sentence count when swapped. */
  function SentencePatternLength(groups: seq<seq<Arrangement>>, swap: bool): (r: nat)
  {
    (if swap then Factorial(|groups|) else 1) * ArrangementProduct(groups, |groups|)
  }

  /** `a` blocks of `p` texts each. */
  function Blocks(a: nat, p: nat): (r: nat)
  {
    if a == 0 then 0 else p + Blocks(a - 1, p)
  }

  lemma {:induction false} BlocksMul(a: nat, p: nat)
    ensures Blocks(a, p) == a * p
  {
    if a > 0 {
      BlocksMul(a - 1, p);
      assert a * p == p + (a - 1) * p;
    }
  }

  /** Under any order, one text per choice of arrangements. */
  lemma OrderCount(groups: seq<seq<Arrangement>>, e: seq<int>)
    requires IsOrder(e, |groups|)
    ensures |ForOrder(groups, e, Choices(groups, e))| == ArrangementProduct(groups, |groups|)
  {
    IotaCount(groups, |groups|);
    ListsCount(groups, e);
    PickCountPermuted(groups, e, Iota(|groups|));
  }

  /** Every sequence in `orders` is an order of `n` sentences. */
  predicate AllOrders(orders: seq<seq<int>>, n: nat)
  {
    forall j :: 0 <= j < |orders| ==> IsOrder(orders[j], n)
  }

  /** When every order from `k` on yields `p` texts, the orders from `k` on yield that many blocks of `p`. */
  lemma {:induction false} OverOrdersBlocks(groups: seq<seq<Arrangement>>, orders: seq<seq<int>>, k: nat, p: nat)
    requires k <= |orders|
    requires forall j :: k <= j < |orders| ==> |ForOrder(groups, orders[j], Choices(groups, orders[j]))| == p
    ensures |OverOrders(groups, orders, k)| == Blocks(|orders| - k, p)
    decreases |orders| - k
  {
    if k < |orders| {
      OverOrdersBlocks(groups, orders, k + 1, p);
    }
  }

  lemma OverOrdersCount(groups: seq<seq<Arrangement>>, orders: seq<seq<int>>, k: nat)
    requires k <= |orders| && AllOrders(orders, |groups|)
    ensures |OverOrders(groups, orders, k)| == Blocks(|orders| - k, ArrangementProduct(groups, |groups|))
  {
    var p := ArrangementProduct(groups, |groups|);
    forall j | k <= j < |orders|
      ensures |ForOrder(groups, orders[j], Choices(groups, orders[j]))| == p
    {
      OrderCount(groups, orders[j]);
    }
    OverOrdersBlocks(groups, orders, k, p);
  }

  /** The enumeration yields exactly as many texts as sentencePatternLength counts. */
  lemma SentencePatternCount(groups: seq<seq<Arrangement>>, swap: bool)
    ensures |SentencePattern(groups, swap)| == SentencePatternLength(groups, swap)
  {
    var orders := Orders(|groups|, swap);
    OrdersAreOrders(|groups|, swap);
    OverOrdersCount(groups, orders, 0);
    BlocksMul(|orders|, ArrangementProduct(groups, |groups|));
  }

  /** Text `x` comes from choice `v` for order `e`. */
  predicate Yields(groups: seq<seq<Arrangement>>, e: seq<int>, v: seq<int>, x: Arrangement)
  {
    Picks(groups, e, v) && x == Joined(groups, e, v)
  }

  /** Text `x` is enumerated from choice `v` under the `j`-th order. */
  predicate Among(groups: seq<seq<Arrangement>>, orders: seq<seq<int>>, j: int, v: seq<int>, x: Arrangement)
  {
    0 <= j < |orders| && v in Combinations(Lists(groups, orders[j])) && Yields(groups, orders[j], v, x)
  }

  lemma ForOrderMember(groups: seq<seq<Arrangement>>, orders: seq<seq<int>>, k: nat, x: Arrangement)
    requires k < |orders|
    ensures x in ForOrder(groups, orders[k], Choices(groups, orders[k])) <==> exists v :: Among(groups, orders, k, v, x)
  {
    var vs := Choices(groups, orders[k]);
    var here := ForOrder(groups, orders[k], vs);
    if x in here {
      var i :| 0 <= i < |here| && here[i] == x;
      assert vs[i] in Combinations(Lists(groups, orders[k]));
      assert Among(groups, orders, k, vs[i], x);
    }
    if exists v :: Among(groups, orders, k, v, x) {
      var v :| Among(groups, orders, k, v, x);
      var i :| 0 <= i < |vs| && vs[i] == v;
      assert here[i] == x;
    }
  }

  lemma {:induction false} OverOrdersMember(groups: seq<seq<Arrangement>>, orders: seq<seq<int>>, k: nat, x: Arrangement)
    requires k <= |orders|
    ensures x in OverOrders(groups, orders, k) <==> exists j, v :: k <= j && Among(groups, orders, j, v, x)
    decreases |orders| - k
  {
    if k < |orders| {
      OverOrdersMember(groups, orders, k + 1, x);
      ForOrderMember(groups, orders, k, x);
      var here := ForOrder(groups, orders[k], Choices(groups, orders[k]));
      assert OverOrders(groups, orders, k) == here + OverOrders(groups, orders, k + 1);
      if exists j, v :: k <= j && Among(groups, orders, j, v, x) {
        var j, v :| k <= j && Among(groups, orders, j, v, x);
        if j == k { assert x in here; }
      }
    }
  }

  /** The orders the texts are built under. */
  predicate Permitted(e: seq<int>, n: nat, swap: bool)
  {
    if swap then IsOrder(e, n) else e == Iota(n)
  }

  /**
   * Every text is a choice of one arrangement per sentence in a permitted
   * order, and every such choice is enumerated.
   */
  lemma SentencePatternMember(groups: seq<seq<Arrangement>>, swap: bool, x: Arrangement)
    ensures x in SentencePattern(groups, swap) <==>
      exists e, v :: Permitted(e, |groups|, swap) && Yields(groups, e, v, x)
  {
    var orders := Orders(|groups|, swap);
    OverOrdersMember(groups, orders, 0, x);
    if x in SentencePattern(groups, swap) {
      var j, v :| 0 <= j && Among(groups, orders, j, v, x);
      if swap { assert orders[j] in Permutations(Iota(|groups|)); }
      assert Permitted(orders[j], |groups|, swap);
    }
    if exists e, v :: Permitted(e, |groups|, swap) && Yields(groups, e, v, x) {
      var e, v :| Permitted(e, |groups|, swap) && Yields(groups, e, v, x);
      var j: nat := 0;
      if swap {
        PermutationsComplete(Iota(|groups|), e);
        j :| 0 <= j < |orders| && orders[j] == e;
      }
      ChoicePicks(groups, e, v);
      CombinationsComplete(Lists(groups, e), v);
      assert Among(groups, orders, j, v, x);
    }
  }

  // ---------------------------------------------------------------- sentencePattern as written

  /**
   * As written, the swapped enumeration builds its choice lists from the
   * sentences in input order (comb[i] counts the arrangements of sentence
   * i) but indexes sentence e[i] with v[i]; an index past that sentence's
   * arrangements panics inside the enumerating goroutine.
   */
  function JoinedAsWritten(groups: seq<seq<Arrangement>>, e: seq<int>, v: seq<int>): (r: Option<Arrangement>)
    requires |v| == |e|
    ensures r.Some? <==> Picks(groups, e, v)
    ensures r.Some? ==> r.value == Joined(groups, e, v)
  {
    if |v| == 0 then Some([])
    else if !(0 <= v[0] < Len(groups, e[0])) then None
    else match JoinedAsWritten(groups, e[1..], v[1..])
      case None => None
      case Some(t) => Some(Normalize(groups[e[0]][v[0]]) + t)
  }

  /** Every choice and every order name one entry per sentence. */
  predicate Shaped(orders: seq<seq<int>>, vs: seq<seq<int>>, n: nat)
  {
    (forall j :: 0 <= j < |orders| ==> |orders[j]| == n) && forall k :: 0 <= k < |vs| ==> |vs[k]| == n
  }

  function ForOrderAsWritten(groups: seq<seq<Arrangement>>, e: seq<int>, vs: seq<seq<int>>): (r: Option<seq<Arrangement>>)
    requires forall k :: 0 <= k < |vs| ==> |vs[k]| == |e|
  {
    if |vs| == 0 then Some([])
    else match JoinedAsWritten(groups, e, vs[0])
      case None => None
      case Some(t) =>
        match ForOrderAsWritten(groups, e, vs[1..])
        case None => None
        case Some(rest) => Some([t] + rest)
  }

  lemma ForOrderAsWrittenSpec(groups: seq<seq<Arrangement>>, e: seq<int>, vs: seq<seq<int>>)
    requires forall k :: 0 <= k < |vs| ==> |vs[k]| == |e|
    ensures (forall k :: 0 <= k < |vs| ==> Picks(groups, e, vs[k]))
        ==> ForOrderAsWritten(groups, e, vs) == Some(ForOrder(groups, e, vs))
    ensures (exists k :: 0 <= k < |vs| && !Picks(groups, e, vs[k])) ==> ForOrderAsWritten(groups, e, vs).None?
  {
    if forall k :: 0 <= k < |vs| ==> Picks(groups, e, vs[k]) {
      ForOrderAsWrittenFits(groups, e, vs);
    }
    if exists k :: 0 <= k < |vs| && !Picks(groups, e, vs[k]) {
      var k :| 0 <= k < |vs| && !Picks(groups, e, vs[k]);
      ForOrderAsWrittenPanics(groups, e, vs, k);
    }
  }

  /** When every choice fits the order, the texts as written are the intended ones. */
  lemma {:induction false} ForOrderAsWrittenFits(groups: seq<seq<Arrangement>>, e: seq<int>, vs: seq<seq<int>>)
    requires forall k :: 0 <= k < |vs| ==> |vs[k]| == |e|
    requires forall k :: 0 <= k < |vs| ==> Picks(groups, e, vs[k])
    ensures ForOrderAsWritten(groups, e, vs) == Some(ForOrder(groups, e, vs))
  {
    if |vs| > 0 {
      forall k | 0 <= k < |vs| - 1 ensures Picks(groups, e, vs[1..][k]) {
        assert vs[1..][k] == vs[k + 1];
      }
      ForOrderAsWrittenFits(groups, e, vs[1..]);
    }
  }

  /** A choice `k` that does not fit the order makes the enumeration panic. */
  lemma {:induction false} ForOrderAsWrittenPanics(groups: seq<seq<Arrangement>>, e: seq<int>, vs: seq<seq<int>>, k: nat)
    requires forall k :: 0 <= k < |vs| ==> |vs[k]| == |e|
    requires k < |vs| && !Picks(groups, e, vs[k])
    ensures ForOrderAsWritten(groups, e, vs).None?
  {
    if k > 0 {
      assert vs[1..][k - 1] == vs[k];
      ForOrderAsWrittenPanics(groups, e, vs[1..], k - 1);
    }
  }

  function OverOrdersAsWritten(groups: seq<seq<Arrangement>>, orders: seq<seq<int>>, k: nat, vs: seq<seq<int>>)
    : (r: Option<seq<Arrangement>>)
    requires k <= |orders| && Shaped(orders, vs, |groups|)
    decreases |orders| - k
  {
    if k == |orders| then Some([])
    else match ForOrderAsWritten(groups, orders[k], vs)
      case None => None
      case Some(t) =>
        match OverOrdersAsWritten(groups, orders, k + 1, vs)
        case None => None
        case Some(rest) => Some(t + rest)
  }

  lemma OrdersShaped(groups: seq<seq<Arrangement>>, swap: bool)
    ensures Shaped(Orders(|groups|, swap), Choices(groups, Iota(|groups|)), |groups|)
  {
    var orders := Orders(|groups|, swap);
    OrdersAreOrders(|groups|, swap);
    forall j | 0 <= j < |orders| ensures |orders[j]| == |groups| {
      OrderInRange(orders[j], |groups|);
    }
  }

  /** Every order tried, kept or permuted, is an order of the `n` sentences. */
  lemma OrdersAreOrders(n: nat, swap: bool)
    ensures AllOrders(Orders(n, swap), n)
  {
    var orders := Orders(n, swap);
    forall j | 0 <= j < |orders| ensures IsOrder(orders[j], n) {
      if swap { assert orders[j] in Permutations(Iota(n)); }
    }
  }

  /** sentencePattern as written: the choices for every order are those of the input order. */
  function SentencePatternAsWritten(groups: seq<seq<Arrangement>>, swap: bool): (r: Option<seq<Arrangement>>)
  {
    OrdersShaped(groups, swap);
    OverOrdersAsWritten(groups, Orders(|groups|, swap), 0, Choices(groups, Iota(|groups|)))
  }

  /** When every sentence has as many arrangements, the choices agree whatever the order. */
  predicate Uniform(groups: seq<seq<Arrangement>>)
  {
    forall i, j :: 0 <= i < |groups| && 0 <= j < |groups| ==> |groups[i]| == |groups[j]|
  }

  /** Where every order's own choices are `vs`, the enumeration as written yields the intended texts. */
  lemma {:induction false} OverOrdersAgree(groups: seq<seq<Arrangement>>, orders: seq<seq<int>>, k: nat, vs: seq<seq<int>>)
    requires k <= |orders| && Shaped(orders, vs, |groups|)
    requires forall j :: k <= j < |orders| ==> Choices(groups, orders[j]) == vs
    ensures OverOrdersAsWritten(groups, orders, k, vs) == Some(OverOrders(groups, orders, k))
    decreases |orders| - k
  {
    if k < |orders| {
      var e := orders[k];
      assert Choices(groups, e) == vs;
      assert forall j :: 0 <= j < |vs| ==> Picks(groups, e, vs[j]);
      ForOrderAsWrittenSpec(groups, e, vs);
      var t := ForOrder(groups, e, vs);
      assert ForOrderAsWritten(groups, e, vs) == Some(t);
      OverOrdersAgree(groups, orders, k + 1, vs);
      var rest := OverOrders(groups, orders, k + 1);
      assert OverOrdersAsWritten(groups, orders, k + 1, vs) == Some(rest);
      assert OverOrders(groups, orders, k) == t + rest;
    }
  }

  lemma UniformLists(groups: seq<seq<Arrangement>>, e: seq<int>)
    requires Uniform(groups) && IsOrder(e, |groups|)
    ensures Lists(groups, e) == Lists(groups, Iota(|groups|))
  {
    OrderInRange(e, |groups|);
    var n := |groups|;
    var l, m := Lists(groups, e), Lists(groups, Iota(n));
    forall i | 0 <= i < n
      ensures l[i] == m[i]
    {
      UniformLen(groups, e[i], i);
    }
  }

  /** In a uniform group list every sentence has as many arrangements as every other. */
  lemma UniformLen(groups: seq<seq<Arrangement>>, x: int, y: int)
    requires Uniform(groups) && 0 <= x < |groups| && 0 <= y < |groups|
    ensures Len(groups, x) == Len(groups, y)
  {
  }

  /**
   * The enumeration as written agrees with the intended one when the
   * sentences are kept in input order, and also when every sentence has as
   * many arrangements as every other.
   */
  lemma SentencePatternAsWrittenAgrees(groups: seq<seq<Arrangement>>, swap: bool)
    requires !swap || Uniform(groups)
    ensures SentencePatternAsWritten(groups, swap) == Some(SentencePattern(groups, swap))
  {
    var orders := Orders(|groups|, swap);
    forall j | 0 <= j < |orders|
      ensures IsOrder(orders[j], |groups|) && |orders[j]| == |groups|
      ensures Choices(groups, orders[j]) == Choices(groups, Iota(|groups|))
    {
      if swap {
        assert orders[j] in Permutations(Iota(|groups|));
        UniformLists(groups, orders[j]);
      }
      OrderInRange(orders[j], |groups|);
    }
    OrdersShaped(groups, swap);
    OverOrdersAgree(groups, orders, 0, Choices(groups, Iota(|groups|)));
  }

  /** The enumeration as written panics as soon as some order meets a choice that misses its sentences. */
  lemma AsWrittenMisses(groups: seq<seq<Arrangement>>, swap: bool, j: nat, k: nat)
    requires j < |Orders(|groups|, swap)| && k < |Choices(groups, Iota(|groups|))|
    requires !Picks(groups, Orders(|groups|, swap)[j], Choices(groups, Iota(|groups|))[k])
    ensures SentencePatternAsWritten(groups, swap).None?
  {
    var orders := Orders(|groups|, swap);
    var vs := Choices(groups, Iota(|groups|));
    OrdersShaped(groups, swap);
    ForOrderAsWrittenSpec(groups, orders[j], vs);
    assert ForOrderAsWritten(groups, orders[j], vs).None?;
    OverOrdersAsWrittenNone(groups, orders, 0, j, vs);
  }

  /**
   * Two sentences, the first with two arrangements and the second with
   * one: swapped, the order (1, 0) asks for arrangement 1 of the second
   * sentence and the enumeration panics.
   */
  lemma SentencePatternAsWrittenPanics(groups: seq<seq<Arrangement>>)
    requires |groups| == 2 && |groups[0]| == 2 && |groups[1]| == 1
    ensures SentencePatternAsWritten(groups, true).None?
  {
    var e: seq<int> := [1, 0];
    var j := SwapListed();
    var k := SwapChosen(groups);
    assert !Picks(groups, e, e) by { assert Len(groups, e[0]) == 1; }
    AsWrittenMisses(groups, true, j, k);
  }

  /** The swapped order (1, 0) is among the orders of two sentences. */
  lemma SwapListed() returns (j: nat)
    ensures j < |Orders(2, true)| && Orders(2, true)[j] == [1, 0]
  {
    assert Iota(2) == [0, 1];
    j := PermutationIndex(Iota(2), [1, 0]);
  }

  /** With two arrangements for the first sentence, the choice (1, 0) is enumerated. */
  lemma SwapChosen(groups: seq<seq<Arrangement>>) returns (k: nat)
    requires |groups| == 2 && |groups[0]| == 2 && |groups[1]| == 1
    ensures k < |Choices(groups, Iota(2))| && Choices(groups, Iota(2))[k] == [1, 0]
  {
    var e: seq<int> := [1, 0];
    assert Picks(groups, Iota(2), e) by { assert Iota(2) == [0, 1]; }
    ChoicePicks(groups, Iota(2), e);
    k := CombinationIndex(Lists(groups, Iota(2)), e);
  }

  /** For the same two sentences four texts are intended: two orders times two choices. */
  lemma SentencePatternIntendedCount(groups: seq<seq<Arrangement>>)
    requires |groups| == 2 && |groups[0]| == 2 && |groups[1]| == 1
    ensures |SentencePattern(groups, true)| == 4
  {
    SentencePatternCount(groups, true);
    ProductTwoByOne(groups);
    FactorialTwo(|groups|);
  }

  lemma ProductTwoByOne(groups: seq<seq<Arrangement>>)
    requires |groups| == 2 && |groups[0]| == 2 && |groups[1]| == 1
    ensures ArrangementProduct(groups, |groups|) == 2
  {
    assert ArrangementProduct(groups, 1) == 2;
  }

  lemma FactorialTwo(n: nat)
    requires n == 2
    ensures Factorial(n) == 2
  {
    assert Factorial(n - 1) == 1;
  }

  lemma {:induction false} OverOrdersAsWrittenNone(groups: seq<seq<Arrangement>>, orders: seq<seq<int>>, k: nat, j: nat,
                                                   vs: seq<seq<int>>)
    requires k <= j < |orders| && Shaped(orders, vs, |groups|)
    requires ForOrderAsWritten(groups, orders[j], vs).None?
    ensures OverOrdersAsWritten(groups, orders, k, vs).None?
    decreases |orders| - k
  {
    if k == j {
      OverOrdersStepNone(groups, orders, k, vs);
    } else {
      OverOrdersAsWrittenNone(groups, orders, k + 1, j, vs);
      OverOrdersStepNone(groups, orders, k, vs);
    }
  }

  /** A panic for order `k`, or for a later one, is a panic for the loop from `k`. */
  lemma OverOrdersStepNone(groups: seq<seq<Arrangement>>, orders: seq<seq<int>>, k: nat, vs: seq<seq<int>>)
    requires k < |orders| && Shaped(orders, vs, |groups|)
    requires ForOrderAsWritten(groups, orders[k], vs).None? || OverOrdersAsWritten(groups, orders, k + 1, vs).None?
    ensures OverOrdersAsWritten(groups, orders, k, vs).None?
  {
  }

  // ---------------------------------------------------------------- ArrangePattern, Arrange, Output

  /** The root of the search tree for one text: slot 0, the cursor at the top left, no anchor yet. */
  const Root: AM.Node := AM.Node(0, AM.Pos(0, 0), 0, AM.Pos(0, 0), false, false, [AM.Frame([], 0, false)], [], [])

  /**
   * ArrangePattern: the search over one text. The errors are those of
   * NewArrangeMatrix for the root: no keyword rune, or no basic phrase.
   */
  function ArrangePattern(base: AM.Setup, bpa: seq<B.BasicPhrase>): (r: Pt.Run<AM.Acc>)
    ensures |base.keyword| == 0 ==> r == Pt.Error("keywordindex 0 >= len(keyword) 0")
    ensures |base.keyword| > 0 && |bpa| == 0 ==> r == Pt.Error("bpindex 0 >= len(s) 0")
    ensures r.Value? ==> forall k :: 0 <= k < |r.value.results| ==>
      AM.Chosen(base.(phrases := bpa), r.value.results[k].patternStack, r.value.results[k].branchStack, |bpa|)
    ensures !r.OutOfFuel?
  {
    var s := base.(phrases := bpa);
    if |s.keyword| == 0 then Pt.Error("keywordindex 0 >= len(keyword) 0")
    else if |bpa| == 0 then Pt.Error("bpindex 0 >= len(s) 0")
    else if s.width < 1 then Pt.Panic
    else
      var r := AM.Search(s, Root);
      if r.Value? then
        assert forall k :: 0 <= k < |r.value.results| ==> AM.Below(s, Root, r.value.results[k]);
        r
      else r
  }

  /** What Arrange keeps per text: the results (kept only when not written out at once), the counts and the wiped totals. */
  datatype Tally = Tally(results: seq<seq<AM.MatrixResult>>, count: seq<int>, wiped: seq<int>)

  /**
   * The loop of Arrange over the texts from `k` on. With `outputEach` the
   * results are handed to the writer (not modelled) and only counted;
   * otherwise they are kept. `asWritten` selects the source's bookkeeping,
   * where the wiped list grows only in the first mode.
   */
  function ArrangeFrom(outputEach: bool, asWritten: bool, base: AM.Setup, texts: seq<seq<B.BasicPhrase>>,
                       k: nat, t: Tally): (r: Pt.Run<Tally>)
    requires k <= |texts|
    decreases |texts| - k
  {
    if k == |texts| then Pt.Value(t)
    else
      var t1 := Opened(outputEach, asWritten, t);
      match ArrangePattern(base, texts[k])
      case Error(m) => Pt.Error(m)
      case Panic => Pt.Panic
      case OutOfFuel => Pt.OutOfFuel
      case Value(acc) =>
        if k >= |t1.wiped| || (outputEach && k >= |t1.count|) then Pt.Panic
        else
          var t3 := Recorded(outputEach, t1, k, acc);
          if base.one && |acc.results| > 0 then Pt.Value(t3)
          else ArrangeFrom(outputEach, asWritten, base, texts, k + 1, t3)
  }

  /**
   * The tally as a text's search starts: a zero slot for the text in the
   * wiped list, and in the count list under `outputEach`. As written, the
   * wiped list grows only under `outputEach`.
   */
  function Opened(outputEach: bool, asWritten: bool, t: Tally): (r: Tally)
    ensures |r.wiped| == |t.wiped| + (if outputEach || !asWritten then 1 else 0)
    ensures |r.count| == |t.count| + (if outputEach then 1 else 0) && r.results == t.results
  {
    if outputEach then t.(wiped := t.wiped + [0], count := t.count + [0])
    else if asWritten then t
    else t.(wiped := t.wiped + [0])
  }

  /**
   * The tally after text `k`'s search: its wiped count in slot `k`, its
   * result count in slot `k` under `outputEach`, else its results and their
   * count appended.
   */
  function Recorded(outputEach: bool, t1: Tally, k: nat, acc: AM.Acc): (r: Tally)
    requires k < |t1.wiped| && (outputEach ==> k < |t1.count|)
    ensures r.wiped == t1.wiped[k := acc.wiped]
    ensures outputEach ==> r.count == t1.count[k := |acc.results|] && r.results == t1.results
    ensures !outputEach ==> r.count == t1.count + [|acc.results|] && r.results == t1.results + [acc.results]
  {
    var t2 := t1.(wiped := t1.wiped[k := acc.wiped]);
    if outputEach then t2.(count := t2.count[k := |acc.results|])
    else t2.(results := t2.results + [acc.results], count := t2.count + [|acc.results|])
  }

  /** Some text found an arrangement, kept or wiped. */
  predicate AnyFound(t: Tally)
  {
    (exists i :: 0 <= i < |t.wiped| && t.wiped[i] > 0) || (exists i :: 0 <= i < |t.count| && t.count[i] > 0)
  }

  /** Arrange: every text of sentencePattern searched in turn; true when anything was found. */
  function Arrange(outputEach: bool, asWritten: bool, base: AM.Setup, texts: seq<seq<B.BasicPhrase>>): (r: Pt.Run<(bool, Tally)>)
    ensures r.Value? ==> (r.value.0 <==> AnyFound(r.value.1))
  {
    match ArrangeFrom(outputEach, asWritten, base, texts, 0, Tally([], [], []))
    case Value(t) =>
      var found := (exists i :: 0 <= i < |t.wiped| && t.wiped[i] > 0) || (exists i :: 0 <= i < |t.count| && t.count[i] > 0);
      Pt.Value((found, t))
    case Error(m) => Pt.Error(m)
    case Panic => Pt.Panic
    case OutOfFuel => Pt.OutOfFuel
  }

  /** Entry `i` of the tally holds text i's search outcome. */
  predicate Records(outputEach: bool, base: AM.Setup, texts: seq<seq<B.BasicPhrase>>, t: Tally, i: nat)
    requires i < |texts| && i < |t.count| && i < |t.wiped|
  {
    var r := ArrangePattern(base, texts[i]);
    r.Value? && t.count[i] == |r.value.results| && t.wiped[i] == r.value.wiped
    && (!outputEach ==> i < |t.results| && t.results[i] == r.value.results)
  }

  /** The tally after the first `k` texts. */
  predicate TallyInv(outputEach: bool, base: AM.Setup, texts: seq<seq<B.BasicPhrase>>, t: Tally, k: nat)
    requires k <= |texts|
  {
    |t.count| == k && |t.wiped| == k && (if outputEach then t.results == [] else |t.results| == k)
    && forall i :: 0 <= i < k ==> Records(outputEach, base, texts, t, i)
  }

  /** The run ended after `n` texts: all of them, or under One the last had results. */
  predicate Finished(outputEach: bool, base: AM.Setup, texts: seq<seq<B.BasicPhrase>>, t: Tally, n: int)
  {
    0 <= n <= |texts| && TallyInv(outputEach, base, texts, t, n)
    && (n < |texts| ==> base.one && n >= 1 && t.count[n - 1] > 0)
  }

  /** A text whose search succeeds is recorded, and the loop stops or moves on to the next text. */
  lemma ArrangeFromNext(outputEach: bool, base: AM.Setup, texts: seq<seq<B.BasicPhrase>>, k: nat, t: Tally)
    returns (t3: Tally)
    requires k < |texts| && TallyInv(outputEach, base, texts, t, k) && ArrangePattern(base, texts[k]).Value?
    ensures TallyInv(outputEach, base, texts, t3, k + 1)
    ensures ArrangeFrom(outputEach, false, base, texts, k, t)
      == if base.one && |ArrangePattern(base, texts[k]).value.results| > 0 then Pt.Value(t3)
         else ArrangeFrom(outputEach, false, base, texts, k + 1, t3)
  {
    var acc := ArrangePattern(base, texts[k]).value;
    t3 := Recorded(outputEach, Opened(outputEach, false, t), k, acc);
    RecordedKeeps(outputEach, base, texts, k, t, acc);
    ArrangeFromUnfold(outputEach, base, texts, k, t, acc);
  }

  lemma ArrangeFromUnfold(outputEach: bool, base: AM.Setup, texts: seq<seq<B.BasicPhrase>>, k: nat, t: Tally, acc: AM.Acc)
    requires k < |texts| && |t.wiped| == k && |t.count| == k && ArrangePattern(base, texts[k]) == Pt.Value(acc)
    ensures ArrangeFrom(outputEach, false, base, texts, k, t)
      == if base.one && |acc.results| > 0 then Pt.Value(Recorded(outputEach, Opened(outputEach, false, t), k, acc))
         else ArrangeFrom(outputEach, false, base, texts, k + 1, Recorded(outputEach, Opened(outputEach, false, t), k, acc))
  {
  }

  lemma RecordedKeeps(outputEach: bool, base: AM.Setup, texts: seq<seq<B.BasicPhrase>>, k: nat, t: Tally, acc: AM.Acc)
    requires k < |texts| && TallyInv(outputEach, base, texts, t, k) && ArrangePattern(base, texts[k]) == Pt.Value(acc)
    ensures TallyInv(outputEach, base, texts, Recorded(outputEach, Opened(outputEach, false, t), k, acc), k + 1)
  {
    var t3 := Recorded(outputEach, Opened(outputEach, false, t), k, acc);
    assert |t3.count| == k + 1 && |t3.wiped| == k + 1;
    forall i | 0 <= i < k ensures Records(outputEach, base, texts, t3, i) {
      RecordsFrame(outputEach, base, texts, t, t3, i);
    }
    assert Records(outputEach, base, texts, t3, k);
  }

  /** An entry of the tally that a later text leaves alone still records its text. */
  lemma RecordsFrame(outputEach: bool, base: AM.Setup, texts: seq<seq<B.BasicPhrase>>, t: Tally, t3: Tally, i: nat)
    requires i < |texts| && i < |t.count| && i < |t.wiped| && Records(outputEach, base, texts, t, i)
    requires i < |t3.count| && i < |t3.wiped| && t3.count[i] == t.count[i] && t3.wiped[i] == t.wiped[i]
    requires !outputEach ==> i < |t3.results| && t3.results[i] == t.results[i]
    ensures Records(outputEach, base, texts, t3, i)
  {
  }

  lemma {:induction false} ArrangeFromSpec(outputEach: bool, base: AM.Setup, texts: seq<seq<B.BasicPhrase>>, k: nat, t: Tally)
    requires k <= |texts| && TallyInv(outputEach, base, texts, t, k)
    ensures var r := ArrangeFrom(outputEach, false, base, texts, k, t);
      r.Value? ==> exists n :: k <= n && Finished(outputEach, base, texts, r.value, n)
    decreases |texts| - k
  {
    if k == |texts| {
      assert Finished(outputEach, base, texts, t, k);
    } else {
      match ArrangePattern(base, texts[k])
      case Value(acc) =>
        var t3 := ArrangeFromNext(outputEach, base, texts, k, t);
        if !(base.one && |acc.results| > 0) {
          ArrangeFromSpec(outputEach, base, texts, k + 1, t3);
        } else {
          assert Finished(outputEach, base, texts, t3, k + 1);
        }
      case Error(_) =>
      case Panic =>
      case OutOfFuel =>
    }
  }

  /** The corrected loop panics only when the search of some remaining text does. */
  lemma {:induction false} ArrangeFromPanic(outputEach: bool, base: AM.Setup, texts: seq<seq<B.BasicPhrase>>, k: nat, t: Tally)
    requires k <= |texts| && TallyInv(outputEach, base, texts, t, k)
    ensures ArrangeFrom(outputEach, false, base, texts, k, t).Panic?
      ==> exists i :: k <= i < |texts| && ArrangePattern(base, texts[i]).Panic?
    decreases |texts| - k
  {
    if k < |texts| {
      match ArrangePattern(base, texts[k])
      case Value(acc) =>
        var t3 := ArrangeFromNext(outputEach, base, texts, k, t);
        if !(base.one && |acc.results| > 0) {
          ArrangeFromPanic(outputEach, base, texts, k + 1, t3);
        }
      case Error(_) =>
      case Panic =>
      case OutOfFuel =>
    }
  }

  /**
   * Arrange with the wiped list kept in step: every text up to the last
   * one searched has its count and wiped total recorded (and its results
   * when they are not written out at once); the run stops early only under
   * One, right after a text with results.
   */
  lemma ArrangeSpec(outputEach: bool, base: AM.Setup, texts: seq<seq<B.BasicPhrase>>)
    ensures var r := Arrange(outputEach, false, base, texts);
      r.Value? ==> exists n :: Finished(outputEach, base, texts, r.value.1, n)
    ensures Arrange(outputEach, false, base, texts).Panic?
      ==> exists i :: 0 <= i < |texts| && ArrangePattern(base, texts[i]).Panic?
  {
    ArrangeFromSpec(outputEach, base, texts, 0, Tally([], [], []));
    ArrangeFromPanic(outputEach, base, texts, 0, Tally([], [], []));
  }

  /**
   * As written, keeping the results (output-each off) indexes the wiped
   * list, which that mode never grows, as soon as the first search returns.
   */
  lemma ArrangeAsWrittenPanics(base: AM.Setup, texts: seq<seq<B.BasicPhrase>>)
    requires |texts| >= 1 && ArrangePattern(base, texts[0]).Value?
    ensures Arrange(false, true, base, texts) == Pt.Panic
  {
  }

  /** With the results written out at once the source's bookkeeping is the corrected one. */
  lemma {:induction false} ArrangeOutputEachAgrees(base: AM.Setup, texts: seq<seq<B.BasicPhrase>>, k: nat, t: Tally)
    requires k <= |texts|
    ensures ArrangeFrom(true, true, base, texts, k, t) == ArrangeFrom(true, false, base, texts, k, t)
    decreases |texts| - k
  {
    if k < |texts| {
      var t1 := t.(wiped := t.wiped + [0], count := t.count + [0]);
      match ArrangePattern(base, texts[k])
      case Value(acc) =>
        if k < |t1.wiped| && k < |t1.count| {
          var t2 := t1.(wiped := t1.wiped[k := acc.wiped]);
          ArrangeOutputEachAgrees(base, texts, k + 1, t2.(count := t2.count[k := |acc.results|]));
        }
      case Error(_) =>
      case Panic =>
      case OutOfFuel =>
    }
  }

  function Sum(xs: seq<int>): (r: int)
  {
    if |xs| == 0 then 0 else Sum(xs[..|xs| - 1]) + xs[|xs| - 1]
  }

  /** The first `n` entries of `xs`, zero where `xs` is shorter. */
  function Padded(xs: seq<int>, n: nat): (r: seq<int>)
    ensures |r| == n && forall i :: 0 <= i < n ==> r[i] == (if i < |xs| then xs[i] else 0)
  {
    seq(n, i requires 0 <= i < n => if i < |xs| then xs[i] else 0)
  }

  /**
   * Output's totals: per text the kept results, the wiped ones and what the
   * writer reports, and their sum. None is the index panic on a wiped list
   * shorter than the count list.
   */
  function Output(count: seq<int>, wiped: seq<int>, ocount: seq<int>): (r: Option<(seq<int>, int)>)
    ensures r.None? <==> |wiped| < |count|
    ensures r.Some? ==> |r.value.0| == |count|
  {
    if |wiped| < |count| then None
    else
      var per := seq(|count|, i requires 0 <= i < |count| => count[i] + wiped[i] + (if |ocount| > i then ocount[i] else 0));
      Some((per, Sum(per)))
  }

  lemma {:induction false} SumAdd3(a: seq<int>, b: seq<int>, c: seq<int>, d: seq<int>)
    requires |a| == |b| == |c| == |d| && forall i :: 0 <= i < |a| ==> d[i] == a[i] + b[i] + c[i]
    ensures Sum(d) == Sum(a) + Sum(b) + Sum(c)
  {
    var n := |a|;
    if n > 0 {
      SumAdd3(a[..n - 1], b[..n - 1], c[..n - 1], d[..n - 1]);
    }
  }

  /** The grand total is the kept count, plus the wiped count, plus what the writer reports. */
  lemma OutputTotal(count: seq<int>, wiped: seq<int>, ocount: seq<int>)
    requires |wiped| >= |count|
    ensures Output(count, wiped, ocount).Some?
    ensures Output(count, wiped, ocount).value.1
         == Sum(count) + Sum(wiped[..|count|]) + Sum(Padded(ocount, |count|))
  {
    var per := Output(count, wiped, ocount).value.0;
    SumAdd3(count, wiped[..|count|], Padded(ocount, |count|), per);
  }

  // ---------------------------------------------------------------------
  // bpPatternLength: the number of variant combinations over all slots
  // ---------------------------------------------------------------------

  /** A slot's contribution: its number of variants, or 1 when it has none. */
  function Variants(b: B.BasicPhrase): (r: nat)
    ensures r >= 1
    ensures |b.pattern| != 0 ==> r == |b.pattern|
  {
    if |b.pattern| != 0 then |b.pattern| else 1
  }

  lemma MulAtLeast(a: nat, b: nat)
    requires a >= 1 && b >= 1
    ensures a * b >= a && a * b >= b
    ensures a * b == 1 <==> a == 1 && b == 1
  {
    assert a * b == a + a * (b - 1);
    assert a * b == b + (a - 1) * b;
  }

  /** The product of the non-zero variant counts of the slots `bs`. */
  function VariantProduct(bs: seq<B.BasicPhrase>): (r: nat)
    ensures r >= 1
    ensures forall i :: 0 <= i < |bs| ==> |bs[i].pattern| <= r
  {
    if |bs| == 0 then 1
    else
      var rest := VariantProduct(bs[1..]);
      MulAtLeast(Variants(bs[0]), rest);
      assert forall i :: 1 <= i < |bs| ==> bs[i] == bs[1..][i - 1];
      Variants(bs[0]) * rest
  }

  /** The product is 1 exactly when no slot has two or more variants. */
  lemma {:induction false} VariantProductOne(bs: seq<B.BasicPhrase>)
    ensures VariantProduct(bs) == 1 <==> forall i :: 0 <= i < |bs| ==> |bs[i].pattern| <= 1
  {
    if |bs| > 0 {
      VariantProductOne(bs[1..]);
      MulAtLeast(Variants(bs[0]), VariantProduct(bs[1..]));
      assert forall i :: 1 <= i < |bs| ==> bs[i] == bs[1..][i - 1];
    }
  }

  lemma {:induction false} VariantProductConcat(a: seq<B.BasicPhrase>, b: seq<B.BasicPhrase>)
    ensures VariantProduct(a + b) == VariantProduct(a) * VariantProduct(b)
  {
    if |a| > 0 {
      assert (a + b)[1..] == a[1..] + b;
      VariantProductConcat(a[1..], b);
      MulAssoc(Variants(a[0]), VariantProduct(a[1..]), VariantProduct(b));
    } else {
      assert a + b == b;
    }
  }

  lemma VariantProductRemove(f: seq<B.BasicPhrase>, j: nat)
    requires j < |f|
    ensures VariantProduct(f) == Variants(f[j]) * VariantProduct(f[..j] + f[j + 1..])
  {
    SplitAround(f, j);
    VariantProductMiddle(f[..j], f[j], f[j + 1..]);
  }

  lemma SplitAround(f: seq<B.BasicPhrase>, j: nat)
    requires j < |f|
    ensures f == f[..j] + ([f[j]] + f[j + 1..])
  {
  }

  lemma VariantProductMiddle(a: seq<B.BasicPhrase>, x: B.BasicPhrase, c: seq<B.BasicPhrase>)
    ensures VariantProduct(a + ([x] + c)) == Variants(x) * VariantProduct(a + c)
  {
    VariantProductConcat(a, [x] + c);
    VariantProductConcat(a, c);
    assert ([x] + c)[1..] == c;
    var pa, vx, pc := VariantProduct(a), Variants(x), VariantProduct(c);
    assert VariantProduct([x] + c) == vx * pc;
    MulAssoc(pa, vx, pc);
    MulAssoc(vx, pa, pc);
  }

  /**
   * The product does not depend on the order the slots are visited in, so
   * Go's random map iteration order is immaterial and the ascending order
   * of ByNumber is as good as any.
   */
  lemma {:induction false} VariantProductPermuted(e: seq<B.BasicPhrase>, f: seq<B.BasicPhrase>)
    requires multiset(e) == multiset(f)
    ensures VariantProduct(e) == VariantProduct(f)
    decreases |e|
  {
    assert |f| == |multiset(f)| == |multiset(e)| == |e|;
    if |e| > 0 {
      assert e[0] in multiset(f);
      var j :| 0 <= j < |f| && f[j] == e[0];
      VariantProductRemove(f, j);
      MultisetRemove(e, f, j);
      VariantProductPermuted(e[1..], f[..j] + f[j + 1..]);
    }
  }

  /** bpPatternLength: the product over every slot of every sentence. */
  function BpPatternLength(ss: seq<Sentence>): (r: nat)
    ensures r >= 1
  {
    if |ss| == 0 then 1
    else
      var here, rest := VariantProduct(ByNumber(ss[0].basicPhrases)), BpPatternLength(ss[1..]);
      MulAtLeast(here, rest);
      here * rest
  }

  /** All slots of all sentences, sentence by sentence, each by number. */
  function AllSlots(ss: seq<Sentence>): (r: seq<B.BasicPhrase>)
  {
    if |ss| == 0 then [] else ByNumber(ss[0].basicPhrases) + AllSlots(ss[1..])
  }

  /**
   * bpPatternLength is the product of the non-zero variant counts over all
   * slots of all sentences, visited in any order.
   */
  lemma {:induction false} BpPatternLengthSlots(ss: seq<Sentence>, order: seq<B.BasicPhrase>)
    requires multiset(order) == multiset(AllSlots(ss))
    ensures BpPatternLength(ss) == VariantProduct(order)
  {
    BpPatternLengthAll(ss);
    VariantProductPermuted(order, AllSlots(ss));
  }

  lemma {:induction false} BpPatternLengthAll(ss: seq<Sentence>)
    ensures BpPatternLength(ss) == VariantProduct(AllSlots(ss))
  {
    if |ss| > 0 {
      BpPatternLengthAll(ss[1..]);
      VariantProductConcat(ByNumber(ss[0].basicPhrases), AllSlots(ss[1..]));
    }
  }

  /** The length is 1 exactly when no slot of any sentence has two or more variants. */
  lemma BpPatternLengthOne(ss: seq<Sentence>)
    ensures BpPatternLength(ss) == 1 <==> forall b :: b in AllSlots(ss) ==> |b.pattern| <= 1
  {
    BpPatternLengthAll(ss);
    VariantProductOne(AllSlots(ss));
  }
}

=== FILE: arrange_matrix.dfy ===
/**
 * The keyword-column search of arrange_matrix.go: a backtracking walk over
 * the phrase slots of one candidate sentence. Each node places one variant
 * of its slot on a grid `width` cells wide, either hitting the next keyword
 * rune on the keyword column (the match branch) or passing over it (the skip
 * branch), and hands the rest of the slots to a child node.
 */
module ArrangeMatrices {
  import opened Runes
  import B = BasicPhrases
  import Pt = Patterns

  // ---------------------------------------------------------------- grid geometry

  /** A grid position: row, then column. */
  datatype Pos = Pos(row: int, col: int)

  /** The cell number of a position when rows are `width` cells long. */
  function Linear(p: Pos, width: int): int
  {
    p.row * width + p.col
  }

  /** Two positions inside the row width with the same cell number are equal. */
  lemma SameLinear(a: Pos, b: Pos, width: int)
    requires 0 <= a.col < width && 0 <= b.col < width
    requires Linear(a, width) == Linear(b, width)
    ensures a == b
  {
    var d := a.row - b.row;
    assert d * width == b.col - a.col by {
      assert a.row * width == b.row * width + d * width;
    }
    if d >= 1 {
      MulAtLeast(d, width);
      assert false;
    } else if d <= -1 {
      MulAtLeast(-d, width);
      assert false;
    }
  }

  lemma MulAtLeast(d: int, w: int)
    requires d >= 1 && w >= 1
    ensures d * w >= w
  {
  }

  /** The cell `n` cells after `start`, wrapping at the row width. */
  function CellOf(start: Pos, n: int, width: int): (q: Pos)
    requires width >= 1
    ensures 0 <= q.col < width
    ensures 0 <= start.col && 0 <= n ==> q.row >= start.row
    ensures Linear(q, width) == Linear(start, width) + n
  {
    var q := Pos(start.row + (start.col + n) / width, (start.col + n) % width);
    assert Linear(q, width) == start.row * width + ((start.col + n) / width) * width + (start.col + n) % width;
    q
  }

  /** One cell on from the cell after `p` is one cell further from `p`. */
  lemma CellOfStep(p: Pos, q: Pos, n: int, width: int)
    requires width >= 1 && 0 <= p.col < width && 0 <= q.col < width
    requires Linear(q, width) == Linear(p, width) + 1
    ensures CellOf(q, n, width) == CellOf(p, n + 1, width)
  {
    SameLinear(CellOf(q, n, width), CellOf(p, n + 1, width), width);
  }

  /**
   * One step of the `algo.SliceAdderR` odometer over `[height, width]`:
   * flag 0 moves along the row, flag 1 wraps to the start of the next row,
   * flag 3 reports that the grid is full.
   */
  datatype Tick = Tick(pos: Pos, flag: int)

  function Advance(p: Pos, height: int, width: int): (t: Tick)
    ensures t.flag == 0 || t.flag == 1 || t.flag == 3
    ensures t.flag == 3 <==> p.col + 1 >= width && p.row + 1 >= height
    ensures t.flag == 1 <==> p.col + 1 >= width && p.row + 1 < height
    ensures 0 <= p.col < width && t.flag != 3 ==>
      0 <= t.pos.col < width && Linear(t.pos, width) == Linear(p, width) + 1
  {
    if p.col + 1 < width then Tick(Pos(p.row, p.col + 1), 0)
    else if p.row + 1 < height then
      assert (p.row + 1) * width == p.row * width + width;
      Tick(Pos(p.row + 1, 0), 1)
    else Tick(Pos(0, 0), 3)
  }

  /**
   * Where a variant starts writing: a slot that begins a line moves to the
   * start of the next row unless it already stands at a row start, provided
   * the grid has a row left (the skip branch treats a full grid as fatal).
   */
  predicate MovesDown(at: Pos, newLine: bool, height: int)
  {
    at.col != 0 && newLine && height > at.row + 1
  }

  function Start(at: Pos, newLine: bool, height: int): (q: Pos)
    ensures MovesDown(at, newLine, height) ==> q == Pos(at.row + 1, 0)
    ensures !MovesDown(at, newLine, height) ==> q == at
  {
    if MovesDown(at, newLine, height) then Pos(at.row + 1, 0) else at
  }

  /**
   * Where the source expects the keyword rune found at offset `r` of the
   * variant: a line-starting slot puts it on the next row at column `r`, an
   * offset past the row end wraps once onto the next row.
   */
  function ProjectAsWritten(at: Pos, r: int, newLine: bool, width: int): Pos
    requires width >= 1
  {
    if at.col + r != 0 && newLine then Pos(at.row + 1, r)
    else if at.col + r >= width then Pos(at.row + 1, (at.col + r) % width)
    else Pos(at.row, at.col + r)
  }

  /** The projection with the line-start test asked of the cursor column alone. */
  function Project(at: Pos, r: int, newLine: bool, width: int): Pos
    requires width >= 1
  {
    if at.col != 0 && newLine then Pos(at.row + 1, r)
    else if at.col + r >= width then Pos(at.row + 1, (at.col + r) % width)
    else Pos(at.row, at.col + r)
  }

  /**
   * The corrected projection names the cell the variant's rune `r` is
   * written to, as long as that cell lies at most one row below the first
   * row of the variant.
   */
  lemma ProjectLands(at: Pos, r: int, newLine: bool, height: int, width: int)
    requires width >= 1 && 0 <= at.col < width && 0 <= r
    requires at.col != 0 && newLine ==> height > at.row + 1
    requires Start(at, newLine, height).col + r < (if MovesDown(at, newLine, height) then width else 2 * width)
    ensures Project(at, r, newLine, width) == CellOf(Start(at, newLine, height), r, width)
  {
    if MovesDown(at, newLine, height) {
      LandsBelow(at.row + 1, r, width);
    } else if at.col + r >= width {
      LandsWrapped(at, r, width);
    } else {
      LandsSameRow(at, r, width);
    }
  }

  lemma LandsBelow(row: int, r: int, width: int)
    requires 0 <= r < width
    ensures Pos(row, r) == CellOf(Pos(row, 0), r, width)
  {
    SameLinear(Pos(row, r), CellOf(Pos(row, 0), r, width), width);
  }

  lemma LandsWrapped(at: Pos, r: int, width: int)
    requires width >= 1 && 0 <= at.col < width && width <= at.col + r < 2 * width
    ensures Pos(at.row + 1, (at.col + r) % width) == CellOf(at, r, width)
  {
    var c := at.col + r - width;
    ModOnce(at.col + r, width);
    assert Linear(Pos(at.row + 1, c), width) == at.row * width + width + c;
    SameLinear(Pos(at.row + 1, c), CellOf(at, r, width), width);
  }

  lemma ModOnce(x: int, w: int)
    requires w >= 1 && w <= x < 2 * w
    ensures x % w == x - w
  {
  }

  lemma LandsSameRow(at: Pos, r: int, width: int)
    requires width >= 1 && 0 <= at.col && 0 <= r && at.col + r < width
    ensures Pos(at.row, at.col + r) == CellOf(at, r, width)
  {
    SameLinear(Pos(at.row, at.col + r), CellOf(at, r, width), width);
  }

  /**
   * As written, a line-starting slot that already stands at a row start
   * still sends an occurrence past offset 0 to the next row, although the
   * rune is written on the current one.
   */
  lemma ProjectAsWrittenMisplaces()
    ensures ProjectAsWritten(Pos(0, 0), 1, true, 4) == Pos(1, 1)
    ensures CellOf(Start(Pos(0, 0), true, 2), 1, 4) == Pos(0, 1)
    ensures Project(Pos(0, 0), 1, true, 4) == Pos(0, 1)
  {
    assert Start(Pos(0, 0), true, 2) == Pos(0, 0);
    assert 1 / 4 == 0 && 1 % 4 == 1;
  }

  // ---------------------------------------------------------------- capacity

  /** The rounded-up quotient of `a` by a positive `b`. */
  function CeilDiv(a: int, b: int): (r: int)
    requires b >= 1
    ensures (r - 1) * b < a <= r * b
  {
    var q := (a + b - 1) / b;
    assert (a + b - 1) == q * b + (a + b - 1) % b;
    q
  }

  /** The longest variant lengths of the slots from `from` on, summed. */
  function MaxRemaining(phrases: seq<B.BasicPhrase>, from: nat): int
    decreases |phrases| - from
  {
    if from >= |phrases| then 0 else phrases[from].patternMaxLength + MaxRemaining(phrases, from + 1)
  }

  /** The slots from `from` on that begin a line. */
  function LineStarts(phrases: seq<B.BasicPhrase>, from: nat): (r: nat)
    ensures r <= |phrases| - from || from >= |phrases|
    decreases |phrases| - from
  {
    if from >= |phrases| then 0 else (if phrases[from].newLine then 1 else 0) + LineStarts(phrases, from + 1)
  }

  /**
   * expectedLine: the rows the remaining slots can fill at most, the
   * rounded-up rows of their longest variants plus one per line start.
   */
  function ExpectedLine(phrases: seq<B.BasicPhrase>, from: nat, width: int): (r: int)
    requires width >= 1
    ensures (r - LineStarts(phrases, from) - 1) * width < MaxRemaining(phrases, from)
    ensures MaxRemaining(phrases, from) <= (r - LineStarts(phrases, from)) * width
  {
    CeilDiv(MaxRemaining(phrases, from), width) + LineStarts(phrases, from)
  }

  // ---------------------------------------------------------------- CheckAfterKeyword

  /** Slot `b` indexes rune `k` of keyword `kn` at some offset. */
  predicate Lists(b: B.BasicPhrase, kn: int, k: int)
  {
    0 <= kn < |b.keywordPos| && 0 <= k < |b.keywordPos[kn]| && |b.keywordPos[kn][k]| != 0
  }

  /**
   * Looking rune `k` of keyword `kn` up in slot `b` does not index out of
   * range: the source guards the keyword number from above only.
   */
  predicate Readable(b: B.BasicPhrase, kn: int, k: int)
  {
    kn < |b.keywordPos| ==> 0 <= kn && 0 <= k < |b.keywordPos[kn]|
  }

  /** Slot `b` has no index for keyword `kn` at all (the case the source marks FIXME). */
  predicate Unindexed(b: B.BasicPhrase, kn: int)
  {
    kn >= |b.keywordPos|
  }

  /**
   * One row of the feasibility table: the slots in `[from, upto)` that index
   * rune `k`, and whether some slot there had no index for the keyword.
   */
  datatype Holders = Holders(slots: seq<int>, unindexed: bool)

  function HoldersOf(phrases: seq<B.BasicPhrase>, kn: int, k: int, from: nat, upto: nat): (r: Option<Holders>)
    requires from <= upto <= |phrases|
    ensures r.Some? <==> forall i :: from <= i < upto ==> Readable(phrases[i], kn, k)
    ensures r.Some? ==> forall x :: x in r.value.slots <==> from <= x < upto && Lists(phrases[x], kn, k)
    ensures r.Some? ==> forall a, b :: 0 <= a < b < |r.value.slots| ==> r.value.slots[a] < r.value.slots[b]
    ensures r.Some? ==> (r.value.unindexed <==> exists i :: from <= i < upto && Unindexed(phrases[i], kn))
    decreases upto
  {
    if upto == from then Some(Holders([], false))
    else
      var prev := HoldersOf(phrases, kn, k, from, upto - 1);
      var b := phrases[upto - 1];
      if prev.None? then None
      else if kn < |b.keywordPos| then
        if !(0 <= kn && 0 <= k < |b.keywordPos[kn]|) then None
        else if |b.keywordPos[kn][k]| != 0 then
          assert forall a :: 0 <= a < |prev.value.slots| ==> prev.value.slots[a] in prev.value.slots;
          Some(prev.value.(slots := prev.value.slots + [upto - 1]))
        else prev
      else Some(prev.value.(unindexed := true))
  }

  /** No slot from `from` on indexes rune `k`. */
  predicate Unheld(phrases: seq<B.BasicPhrase>, kn: int, k: int, from: nat)
  {
    forall x :: from <= x < |phrases| ==> !Lists(phrases[x], kn, k)
  }

  /** The feasibility table, or the verdict that some rune is held nowhere. */
  datatype Table = Rows(rows: seq<seq<int>>) | Missing

  /**
   * The rows of the table for runes `lo` to `hi - 1`. A rune with no holder
   * and no unindexed slot ends the scan; a lookup out of range is a crash.
   */
  function TableOf(phrases: seq<B.BasicPhrase>, kn: int, lo: int, hi: int, from: nat): (r: Option<Table>)
    requires from <= |phrases|
    ensures r == Some(Missing) ==> exists k :: lo <= k < hi && Unheld(phrases, kn, k, from)
    ensures r.Some? && r.value.Rows? ==> |r.value.rows| == (if hi > lo then hi - lo else 0)
    ensures r.Some? && r.value.Rows? ==> forall j :: 0 <= j < |r.value.rows| ==> RowOf(phrases, kn, lo + j, from, r.value.rows[j])
    decreases hi - lo
  {
    if lo >= hi then Some(Rows([]))
    else
      var h := HoldersOf(phrases, kn, lo, from, |phrases|);
      if h.None? then None
      else if |h.value.slots| == 0 && !h.value.unindexed then
        assert forall x :: x !in h.value.slots;
        assert Unheld(phrases, kn, lo, from);
        Some(Missing)
      else
        match TableOf(phrases, kn, lo + 1, hi, from)
        case None => None
        case Some(Missing) => Some(Missing)
        case Some(Rows(t)) =>
          RowsCons(phrases, kn, lo, from, h.value.slots, t);
          Some(Rows([h.value.slots] + t))
  }

  /** `row` lists exactly the slots from `from` on that index rune `k`. */
  ghost predicate RowOf(phrases: seq<B.BasicPhrase>, kn: int, k: int, from: nat, row: seq<int>)
  {
    forall x :: x in row <==> Holds(phrases, kn, k, from, x)
  }

  /** The row of rune `lo` put before the rows from rune `lo + 1` on. */
  lemma RowsCons(phrases: seq<B.BasicPhrase>, kn: int, lo: int, from: nat, slots: seq<int>, t: seq<seq<int>>)
    requires RowOf(phrases, kn, lo, from, slots)
    requires forall j :: 0 <= j < |t| ==> RowOf(phrases, kn, lo + 1 + j, from, t[j])
    ensures forall j :: 0 <= j < |[slots] + t| ==> RowOf(phrases, kn, lo + j, from, ([slots] + t)[j])
  {
    var rows := [slots] + t;
    forall j | 0 <= j < |rows| ensures RowOf(phrases, kn, lo + j, from, rows[j]) {
      if j > 0 {
        var i := j - 1;
        assert rows[j] == t[i] && lo + 1 + i == lo + j;
      }
    }
  }

  /** Every entry is at most the next one. */
  predicate NonDecreasing(d: seq<int>)
  {
    forall k :: 0 <= k < |d| - 1 ==> d[k] <= d[k + 1]
  }

  /** Each list of `es` with `x` appended. */
  function SnocAll(es: seq<seq<int>>, x: int): (r: seq<seq<int>>)
    ensures |r| == |es| && forall i :: 0 <= i < |es| ==> r[i] == es[i] + [x]
  {
    if |es| == 0 then [] else [es[0] + [x]] + SnocAll(es[1..], x)
  }

  /** For each entry of `xs` in turn, every list of `es` with that entry appended. */
  function Extend(xs: seq<int>, es: seq<seq<int>>): seq<seq<int>>
  {
    if |xs| == 0 then [] else SnocAll(es, xs[0]) + Extend(xs[1..], es)
  }

  /**
   * The `each` closure of CheckAfterKeyword: the choices of one entry from
   * each of the rows `0..k`, the last row varying slowest.
   */
  function Each(rows: seq<seq<int>>, k: nat): seq<seq<int>>
    requires k < |rows|
  {
    if k == 0 then Extend(rows[0], [[]])
    else Extend(rows[k], Each(rows, k - 1))
  }

  /** Some list of `ds` is non-decreasing: the final loop of CheckAfterKeyword. */
  function AnyNonDecreasing(ds: seq<seq<int>>): (r: bool)
    ensures r <==> exists d :: d in ds && NonDecreasing(d)
  {
    if |ds| == 0 then false
    else
      assert forall d :: d in ds[1..] ==> d in ds;
      assert forall d :: d in ds ==> d == ds[0] || d in ds[1..];
      NonDecreasing(ds[0]) || AnyNonDecreasing(ds[1..])
  }

  /**
   * CheckAfterKeyword: can the keyword runes from `ki` on still be met in
   * order by the slots from `from` on? None is a crash on an index lookup.
   */
  function CheckAfterKeyword(phrases: seq<B.BasicPhrase>, kn: int, keyword: string, ki: int, from: nat): Option<bool>
    requires from <= |phrases|
  {
    match TableOf(phrases, kn, ki, |keyword|, from)
    case None => None
    case Some(Missing) => Some(false)
    case Some(Rows(t)) =>
      if |t| == 0 then None
      else Some(AnyNonDecreasing(Each(t, |t| - 1)))
  }

  /**
   * `c` picks, for each keyword rune from `ki` on, a slot from `from` on that
   * indexes that rune, never going back to an earlier slot.
   */
  ghost predicate Chain(phrases: seq<B.BasicPhrase>, kn: int, keyword: string, ki: int, from: nat, c: seq<int>)
  {
    |c| == |keyword| - ki && NonDecreasing(c)
    && forall j :: 0 <= j < |c| ==> from <= c[j] < |phrases| && Lists(phrases[c[j]], kn, ki + j)
  }

  ghost predicate Feasible(phrases: seq<B.BasicPhrase>, kn: int, keyword: string, ki: int, from: nat)
  {
    exists c :: Chain(phrases, kn, keyword, ki, from, c)
  }

  lemma SnocAllMember(es: seq<seq<int>>, x: int, v: seq<int>)
    ensures v in SnocAll(es, x) <==> |v| >= 1 && v[|v| - 1] == x && v[..|v| - 1] in es
  {
    var r := SnocAll(es, x);
    if v in r {
      var i :| 0 <= i < |r| && r[i] == v;
      assert v[..|v| - 1] == es[i];
    }
    if |v| >= 1 && v[|v| - 1] == x && v[..|v| - 1] in es {
      var i :| 0 <= i < |es| && es[i] == v[..|v| - 1];
      assert r[i] == v;
    }
  }

  lemma {:induction false} ExtendMember(xs: seq<int>, es: seq<seq<int>>, v: seq<int>)
    ensures v in Extend(xs, es) <==> |v| >= 1 && v[|v| - 1] in xs && v[..|v| - 1] in es
  {
    if |xs| > 0 {
      SnocAllMember(es, xs[0], v);
      ExtendMember(xs[1..], es, v);
      assert forall y :: y in xs <==> y == xs[0] || y in xs[1..];
    }
  }

  /** A choice over the rows `0..k` is a choice over the rows before `k` and an entry of row `k`. */
  lemma ChoiceSnoc(rows: seq<seq<int>>, k: nat, v: seq<int>)
    requires k < |rows| && |v| >= 1
    ensures IsChoice(v, rows[..k + 1]) <==> IsChoice(v[..|v| - 1], rows[..k]) && v[|v| - 1] in rows[k]
  {
    var init := v[..|v| - 1];
    if IsChoice(v, rows[..k + 1]) {
      assert v[|v| - 1] in rows[..k + 1][k];
      forall i | 0 <= i < |init| ensures init[i] in rows[..k][i] {
        assert init[i] == v[i] && v[i] in rows[..k + 1][i];
      }
    }
    if IsChoice(init, rows[..k]) && v[|v| - 1] in rows[k] {
      forall i | 0 <= i < |v| ensures v[i] in rows[..k + 1][i] {
        if i < |v| - 1 {
          assert v[i] == init[i] && init[i] in rows[..k][i];
        }
      }
    }
  }

  lemma EachFirstMember(rows: seq<seq<int>>, v: seq<int>)
    requires 0 < |rows|
    ensures v in Each(rows, 0) <==> IsChoice(v, rows[..1])
  {
    ExtendMember(rows[0], [[]], v);
    if |v| == 1 {
      assert v[..0] == [];
      assert v[0] in rows[..1][0] <==> v[0] in rows[0];
    }
  }

  /** `each(k)` enumerates exactly the choices of one entry from each of the rows `0..k`. */
  lemma {:induction false} EachMember(rows: seq<seq<int>>, k: nat, v: seq<int>)
    requires k < |rows|
    ensures v in Each(rows, k) <==> IsChoice(v, rows[..k + 1])
  {
    if k == 0 {
      EachFirstMember(rows, v);
    } else {
      ExtendMember(rows[k], Each(rows, k - 1), v);
      if |v| >= 1 {
        EachMember(rows, k - 1, v[..|v| - 1]);
        ChoiceSnoc(rows, k, v);
      }
    }
  }

  /**
   * CheckAfterKeyword answers, whenever it does not crash, whether some
   * non-decreasing choice of slots meets the remaining keyword runes in
   * order; slots without an index for the keyword never count as holders.
   */
  lemma CheckAfterKeywordSpec(phrases: seq<B.BasicPhrase>, kn: int, keyword: string, ki: int, from: nat)
    requires from <= |phrases|
    ensures CheckAfterKeyword(phrases, kn, keyword, ki, from).Some? ==>
      (CheckAfterKeyword(phrases, kn, keyword, ki, from).value <==> Feasible(phrases, kn, keyword, ki, from))
  {
    match TableOf(phrases, kn, ki, |keyword|, from)
    case None =>
    case Some(Missing) =>
      MissingInfeasible(phrases, kn, keyword, ki, from);
    case Some(Rows(t)) =>
      if |t| > 0 {
        RowsFeasible(phrases, kn, keyword, ki, from, t);
      }
  }

  lemma MissingInfeasible(phrases: seq<B.BasicPhrase>, kn: int, keyword: string, ki: int, from: nat)
    requires from <= |phrases|
    requires TableOf(phrases, kn, ki, |keyword|, from) == Some(Missing)
    ensures !Feasible(phrases, kn, keyword, ki, from)
  {
    var k :| ki <= k < |keyword| && Unheld(phrases, kn, k, from);
    forall c | |c| == |keyword| - ki && forall j :: 0 <= j < |c| ==> from <= c[j] < |phrases|
      ensures !Chain(phrases, kn, keyword, ki, from, c)
    {
      assert !Lists(phrases[c[k - ki]], kn, ki + (k - ki));
    }
  }

  lemma RowsFeasible(phrases: seq<B.BasicPhrase>, kn: int, keyword: string, ki: int, from: nat, t: seq<seq<int>>)
    requires from <= |phrases|
    requires TableOf(phrases, kn, ki, |keyword|, from) == Some(Rows(t)) && |t| > 0
    ensures AnyNonDecreasing(Each(t, |t| - 1)) <==> Feasible(phrases, kn, keyword, ki, from)
  {
    assert |t| == |keyword| - ki;
    assert Tabulates(t, phrases, kn, ki, from);
    if c :| Chain(phrases, kn, keyword, ki, from, c) {
      ChainEnumerated(phrases, kn, keyword, ki, from, t, c);
    }
    if AnyNonDecreasing(Each(t, |t| - 1)) {
      var d :| d in Each(t, |t| - 1) && NonDecreasing(d);
      EachChoice(t, d);
      EnumeratedChain(phrases, kn, keyword, ki, from, t, d);
    }
  }

  /** Row `j` of `t` holds exactly the slots from `from` on that index rune `ki + j`. */
  ghost predicate Tabulates(t: seq<seq<int>>, phrases: seq<B.BasicPhrase>, kn: int, ki: int, from: nat)
  {
    forall j :: 0 <= j < |t| ==> RowOf(phrases, kn, ki + j, from, t[j])
  }

  /** Slot `x`, from `from` on, indexes rune `k`. */
  predicate Holds(phrases: seq<B.BasicPhrase>, kn: int, k: int, from: nat, x: int)
  {
    from <= x < |phrases| && Lists(phrases[x], kn, k)
  }

  /** The full enumeration over all rows is the set of choices over them. */
  lemma EachChoice(t: seq<seq<int>>, d: seq<int>)
    requires |t| > 0
    ensures d in Each(t, |t| - 1) <==> IsChoice(d, t)
  {
    var k := |t| - 1;
    TakeAll(t, k);
    EachMember(t, k, d);
  }

  lemma TakeAll(t: seq<seq<int>>, k: nat)
    requires k + 1 == |t|
    ensures t[..k + 1] == t
  {
  }

  lemma ChainEnumerated(phrases: seq<B.BasicPhrase>, kn: int, keyword: string, ki: int, from: nat,
                        t: seq<seq<int>>, c: seq<int>)
    requires |t| > 0 && |t| == |keyword| - ki && Tabulates(t, phrases, kn, ki, from)
    requires Chain(phrases, kn, keyword, ki, from, c)
    ensures c in Each(t, |t| - 1) && NonDecreasing(c)
  {
    assert IsChoice(c, t) by {
      forall j | 0 <= j < |c| ensures c[j] in t[j] {
        assert RowOf(phrases, kn, ki + j, from, t[j]);
        assert Holds(phrases, kn, ki + j, from, c[j]);
      }
    }
    EachChoice(t, c);
  }

  lemma EnumeratedChain(phrases: seq<B.BasicPhrase>, kn: int, keyword: string, ki: int, from: nat,
                        t: seq<seq<int>>, d: seq<int>)
    requires |t| == |keyword| - ki && Tabulates(t, phrases, kn, ki, from)
    requires IsChoice(d, t) && NonDecreasing(d)
    ensures Chain(phrases, kn, keyword, ki, from, d)
  {
    forall j | 0 <= j < |d| ensures from <= d[j] < |phrases| && Lists(phrases[d[j]], kn, ki + j) {
      TabulatesAt(t, phrases, kn, ki, from, j, d[j]);
    }
  }

  lemma TabulatesAt(t: seq<seq<int>>, phrases: seq<B.BasicPhrase>, kn: int, ki: int, from: nat, j: int, x: int)
    requires Tabulates(t, phrases, kn, ki, from) && 0 <= j < |t| && x in t[j]
    ensures from <= x < |phrases| && Lists(phrases[x], kn, ki + j)
  {
    assert RowOf(phrases, kn, ki + j, from, t[j]);
  }

  // ---------------------------------------------------------------- getPattern

  /** One variant handed to SearchContext: its number within the slot and its text. */
  datatype Variant = Variant(index: int, text: string)

  /** The variant names a real variant of `pattern` by its number. */
  predicate Names(pattern: seq<string>, v: Variant)
  {
    0 <= v.index < |pattern| && v.text == pattern[v.index]
  }

  /** The variant numbers of `vs`, in order. */
  function Indices(vs: seq<Variant>): (r: seq<int>)
    ensures |r| == |vs| && forall k :: 0 <= k < |vs| ==> r[k] == vs[k].index
  {
    if |vs| == 0 then [] else [vs[0].index] + Indices(vs[1..])
  }

  lemma IndicesConcat(a: seq<Variant>, b: seq<Variant>)
    ensures Indices(a + b) == Indices(a) + Indices(b)
  {
  }

  /** No number occurs twice. */
  predicate Distinct(s: seq<int>)
  {
    forall p, q :: 0 <= p < q < |s| ==> s[p] != s[q]
  }

  /** The variants of `pattern` from number `from` on, in order. */
  function Numbered(pattern: seq<string>, from: nat): (r: seq<Variant>)
    ensures |r| == if from <= |pattern| then |pattern| - from else 0
    ensures forall i :: 0 <= i < |r| ==> r[i] == Variant(from + i, pattern[from + i])
    decreases |pattern| - from
  {
    if from >= |pattern| then [] else [Variant(from, pattern[from])] + Numbered(pattern, from + 1)
  }

  /**
   * The offset in the slot's variant that would land on the anchor column:
   * the anchor column itself when the slot starts a line, otherwise the
   * distance from the cursor, wrapping round the row.
   */
  function Diff(newLine: bool, at: Pos, anchor: Pos, width: int): int
  {
    if newLine then anchor.col
    else
      var d := anchor.col - at.col;
      if d < 0 then d + width else d
  }

  /** The variants listed by number in `idx`; None when a number is out of range (a crash). */
  function Listed(pattern: seq<string>, idx: seq<int>): (r: Option<seq<Variant>>)
    ensures r.Some? <==> forall i :: 0 <= i < |idx| ==> 0 <= idx[i] < |pattern|
    ensures r.Some? ==> (|r.value| == |idx|
      && forall i :: 0 <= i < |idx| ==> r.value[i] == Variant(idx[i], pattern[idx[i]]))
  {
    if |idx| == 0 then Some([])
    else if !(0 <= idx[0] < |pattern|) then None
    else
      match Listed(pattern, idx[1..])
      case None => None
      case Some(rest) => Some([Variant(idx[0], pattern[idx[0]])] + rest)
  }

  /** The numbers in `s`, as a set. */
  function Members(s: seq<int>): (r: set<int>)
    ensures forall x :: x in r <==> x in s
  {
    set x | x in s
  }

  /** The lengths of the texts of `vs`. */
  function LengthsOf(vs: seq<Variant>): set<int>
  {
    set i | 0 <= i < |vs| :: |vs[i].text|
  }

  /**
   * The unsent variants from number `i` on, each only when no variant of
   * its length was sent or emitted before it.
   */
  function Leftovers(pattern: seq<string>, i: nat, sent: set<int>, seen: set<int>): (r: seq<Variant>)
    ensures forall k :: 0 <= k < |r| ==>
      (Names(pattern, r[k]) && i <= r[k].index && r[k].index !in sent && |r[k].text| !in seen)
    ensures forall a, b :: 0 <= a < b < |r| ==> r[a].index < r[b].index && |r[a].text| != |r[b].text|
    decreases |pattern| - i
  {
    if i >= |pattern| then []
    else if i !in sent && |pattern[i]| !in seen then
      [Variant(i, pattern[i])] + Leftovers(pattern, i + 1, sent, seen + {|pattern[i]|})
    else Leftovers(pattern, i + 1, sent, seen)
  }

  /**
   * Variant `j` is unsent, of a length not seen, and no earlier unsent
   * variant from `i` on has its length.
   */
  ghost predicate FirstOfLength(pattern: seq<string>, i: nat, sent: set<int>, seen: set<int>, j: int)
  {
    i <= j < |pattern| && j !in sent && |pattern[j]| !in seen
    && forall j' :: i <= j' < j && j' !in sent ==> |pattern[j']| != |pattern[j]|
  }

  /** Exactly the first unsent variant of each unseen length is left over. */
  lemma {:induction false} LeftoversMember(pattern: seq<string>, i: nat, sent: set<int>, seen: set<int>, j: int)
    ensures j in Indices(Leftovers(pattern, i, sent, seen)) <==> FirstOfLength(pattern, i, sent, seen, j)
    decreases |pattern| - i
  {
    var r := Leftovers(pattern, i, sent, seen);
    if i < |pattern| {
      if i !in sent && |pattern[i]| !in seen {
        var seen' := seen + {|pattern[i]|};
        var rest := Leftovers(pattern, i + 1, sent, seen');
        IndicesConcat([Variant(i, pattern[i])], rest);
        LeftoversMember(pattern, i + 1, sent, seen', j);
        if j != i {
          FirstOfLengthTaken(pattern, i, sent, seen, j);
        }
      } else {
        LeftoversMember(pattern, i + 1, sent, seen, j);
        if j != i {
          FirstOfLengthSkipped(pattern, i, sent, seen, j);
        }
      }
    }
  }

  lemma FirstOfLengthTaken(pattern: seq<string>, i: nat, sent: set<int>, seen: set<int>, j: int)
    requires i < |pattern| && i !in sent && |pattern[i]| !in seen && j != i
    ensures FirstOfLength(pattern, i, sent, seen, j) <==> FirstOfLength(pattern, i + 1, sent, seen + {|pattern[i]|}, j)
  {
  }

  lemma FirstOfLengthSkipped(pattern: seq<string>, i: nat, sent: set<int>, seen: set<int>, j: int)
    requires i < |pattern| && (i in sent || |pattern[i]| in seen) && j != i
    ensures FirstOfLength(pattern, i, sent, seen, j) <==> FirstOfLength(pattern, i + 1, sent, seen, j)
  {
  }

  /** The variant numbers the keyword index lists for rune `ki` at offset `diff`. */
  function Hits(b: B.BasicPhrase, kn: int, ki: int, diff: int): seq<int>
    requires 0 <= kn < |b.keywordPos| && 0 <= ki < |b.keywordPos[kn]|
  {
    if diff in b.keywordPos[kn][ki] then b.keywordPos[kn][ki][diff] else []
  }

  /**
   * getPattern: the order in which a node tries the variants of its slot.
   * Without a pending keyword rune every variant in turn; with one, first
   * the variants holding the rune at the offset that reaches the anchor
   * column, then one unsent variant of each length not yet tried. None is
   * a crash on an index lookup.
   */
  function GetPattern(b: B.BasicPhrase, kn: int, ki: int, at: Pos, anchor: Pos, targeting: bool, width: int)
    : (r: Option<seq<Variant>>)
    ensures !targeting ==> r == Some(Numbered(b.pattern, 0))
    ensures r.Some? ==> forall k :: 0 <= k < |r.value| ==> Names(b.pattern, r.value[k])
  {
    if !targeting then Some(Numbered(b.pattern, 0))
    else if !(0 <= kn < |b.keywordPos| && 0 <= ki < |b.keywordPos[kn]|) then None
    else
      var first := Hits(b, kn, ki, Diff(b.newLine, at, anchor, width));
      match Listed(b.pattern, first)
      case None => None
      case Some(f) => Some(f + Leftovers(b.pattern, 0, Members(first), LengthsOf(f)))
  }

  /**
   * With a pending rune, the indexed hits come first in index order, and a
   * variant comes after them exactly when it is the first unsent variant of
   * a length none of the hits has.
   */
  lemma GetPatternTargeting(b: B.BasicPhrase, kn: int, ki: int, at: Pos, anchor: Pos, width: int, j: int)
    requires 0 <= kn < |b.keywordPos| && 0 <= ki < |b.keywordPos[kn]|
    requires GetPattern(b, kn, ki, at, anchor, true, width).Some?
    ensures var r := GetPattern(b, kn, ki, at, anchor, true, width).value;
      var first := Hits(b, kn, ki, Diff(b.newLine, at, anchor, width));
      |first| <= |r| && Indices(r)[..|first|] == first
      && (j in Indices(r)[|first|..] <==> FirstOfLength(b.pattern, 0, Members(first), LengthsOf(r[..|first|]), j))
  {
    var first := Hits(b, kn, ki, Diff(b.newLine, at, anchor, width));
    var f := Listed(b.pattern, first).value;
    var rest := Leftovers(b.pattern, 0, Members(first), LengthsOf(f));
    var r := f + rest;
    assert r[..|first|] == f;
    IndicesConcat(f, rest);
    assert Indices(r)[|first|..] == Indices(rest);
    LeftoversMember(b.pattern, 0, Members(first), LengthsOf(f), j);
  }

  /**
   * When the slot's keyword index was built by MarkKeywordPos, getPattern
   * never crashes and never offers the same variant twice.
   */
  lemma GetPatternDistinct(b: B.BasicPhrase, kn: int, ki: int, at: Pos, anchor: Pos, targeting: bool, width: int)
    requires b.keywordPos == B.MarkKeywordPos(b.keywords, b.pattern)
    requires 0 <= kn < |b.keywords| && 0 <= ki < |b.keywords[kn]|
    ensures GetPattern(b, kn, ki, at, anchor, targeting, width).Some?
    ensures Distinct(Indices(GetPattern(b, kn, ki, at, anchor, targeting, width).value))
  {
    if targeting {
      var diff := Diff(b.newLine, at, anchor, width);
      var first := Hits(b, kn, ki, diff);
      B.MarkKeywordPosSpec(b.keywords, b.pattern, kn, ki, diff);
      assert forall i :: 0 <= i < |first| ==> first[i] in first;
      assert Listed(b.pattern, first).Some?;
      var f := Listed(b.pattern, first).value;
      var rest := Leftovers(b.pattern, 0, Members(first), LengthsOf(f));
      HitsThenLeftovers(first, f, rest, Members(first));
    }
  }

  lemma HitsThenLeftovers(first: seq<int>, f: seq<Variant>, rest: seq<Variant>, sent: set<int>)
    requires forall a, b :: 0 <= a < b < |first| ==> first[a] < first[b]
    requires |f| == |first| && forall i :: 0 <= i < |f| ==> f[i].index == first[i]
    requires forall x :: x in sent <==> x in first
    requires forall k :: 0 <= k < |rest| ==> rest[k].index !in sent
    requires forall a, b :: 0 <= a < b < |rest| ==> rest[a].index < rest[b].index
    ensures Distinct(Indices(f + rest))
  {
    var r := f + rest;
    IndicesConcat(f, rest);
    forall p, q | 0 <= p < q < |r| ensures r[p].index != r[q].index {
      if p < |f| && q < |f| {
        assert r[p].index == first[p] && r[q].index == first[q];
      } else if p < |f| {
        assert r[p].index == first[p] && first[p] in first;
        assert r[q] == rest[q - |f|];
      } else {
        assert r[p] == rest[p - |f|] && r[q] == rest[q - |f|];
      }
    }
  }

  // ---------------------------------------------------------------- makeResult

  /** The zero rune the source fills fresh rows with. */
  const Blank: char := '\0'

  function Blanks(n: nat): (r: string)
    ensures |r| == n && forall c :: 0 <= c < n ==> r[c] == Blank
  {
    if n == 0 then "" else Blanks(n - 1) + [Blank]
  }

  /** A fresh row of `width` cells with `row` copied into its start. */
  function Fit(row: string, width: nat): (r: string)
    ensures |r| == width
    ensures forall c :: 0 <= c < width ==> r[c] == (if c < |row| then row[c] else Blank)
  {
    if |row| >= width then row[..width] else row + Blanks(width - |row|)
  }

  function FitAll(rows: seq<string>, width: nat): (r: seq<string>)
    ensures |r| == |rows| && forall n :: 0 <= n < |rows| ==> r[n] == Fit(rows[n], width)
  {
    if |rows| == 0 then [] else [Fit(rows[0], width)] + FitAll(rows[1..], width)
  }

  /**
   * The rows a node was handed (its Matrix), the column its cursor stood in
   * afterwards, and whether that text started a fresh line.
   */
  datatype Frame = Frame(rows: seq<string>, col: int, newLine: bool)

  /** Cells `from` up to the end of `row` copied over `last`; None when a cell is out of range. */
  function Overlay(last: string, row: string, from: int): (r: Option<string>)
    ensures r.Some? <==> from >= |row| || (0 <= from && |row| <= |last|)
    ensures r.Some? ==> (|r.value| == |last|
      && forall c :: 0 <= c < |last| ==> r.value[c] == (if from <= c < |row| then row[c] else last[c]))
  {
    if from >= |row| then Some(last)
    else if from < 0 || |row| > |last| then None
    else Some(last[..from] + row[from..] + last[|row|..])
  }

  /** The frame's first row continues the previous text on the last row of the grid. */
  predicate Continues(lastpos: int, f: Frame)
  {
    |f.rows| > 0 && lastpos != 0 && !f.newLine
  }

  /**
   * One frame of makeResult's walk: its first row overwrites the grid's
   * last row from column `lastpos` on when it continues that row, every
   * other row becomes a fresh row of the grid.
   */
  function Attach(mat: seq<string>, lastpos: int, f: Frame, width: nat): (r: Option<seq<string>>)
    ensures Continues(lastpos, f) && |mat| == 0 ==> r.None?
    ensures r.Some? && !Continues(lastpos, f) ==> Fresh(mat, f.rows, width, r.value)
    ensures r.Some? && Continues(lastpos, f) ==> Continued(mat, lastpos, f.rows, width, r.value)
  {
    if |f.rows| == 0 then Some(mat)
    else if Continues(lastpos, f) then
      if |mat| == 0 then None
      else
        match Overlay(mat[|mat| - 1], f.rows[0], lastpos)
        case None => None
        case Some(row) =>
          var r := mat[..|mat| - 1] + [row] + FitAll(f.rows[1..], width);
          ContinuedRows(mat, row, f.rows, width, r);
          Some(r)
    else
      var r := mat + FitAll(f.rows, width);
      FreshRows(mat, f.rows, width, r);
      Some(r)
  }

  /** `r` is `mat` followed by the rows fitted to the width. */
  predicate Fresh(mat: seq<string>, rows: seq<string>, width: nat, r: seq<string>)
  {
    |r| == |mat| + |rows| && r[..|mat|] == mat
    && forall n :: 0 <= n < |rows| ==> r[|mat| + n] == Fit(rows[n], width)
  }

  /**
   * `r` is `mat` with its last row overlaid by the first of `rows` from
   * column `lastpos` on, followed by the other rows fitted to the width.
   */
  predicate Continued(mat: seq<string>, lastpos: int, rows: seq<string>, width: nat, r: seq<string>)
  {
    |mat| > 0 && |rows| > 0 && |r| == |mat| + |rows| - 1 && r[..|mat| - 1] == mat[..|mat| - 1]
    && Overlay(mat[|mat| - 1], rows[0], lastpos) == Some(r[|mat| - 1])
    && forall n :: 1 <= n < |rows| ==> r[|mat| - 1 + n] == Fit(rows[n], width)
  }

  lemma FreshRows(mat: seq<string>, rows: seq<string>, width: nat, r: seq<string>)
    requires r == mat + FitAll(rows, width)
    ensures Fresh(mat, rows, width, r)
  {
  }

  lemma ContinuedRows(mat: seq<string>, row: string, rows: seq<string>, width: nat, r: seq<string>)
    requires |mat| > 0 && |rows| > 0 && r == mat[..|mat| - 1] + [row] + FitAll(rows[1..], width)
    ensures |r| == |mat| + |rows| - 1 && r[..|mat| - 1] == mat[..|mat| - 1] && r[|mat| - 1] == row
    ensures forall n :: 1 <= n < |rows| ==> r[|mat| - 1 + n] == Fit(rows[n], width)
  {
    var m := |mat| - 1;
    forall n | 1 <= n < |rows|
      ensures r[m + n] == Fit(rows[n], width)
    {
      assert r[m + n] == FitAll(rows[1..], width)[n - 1];
    }
  }

  /** Every row has `width` cells. */
  predicate Rectangular(mat: seq<string>, width: nat)
  {
    forall n :: 0 <= n < |mat| ==> |mat[n]| == width
  }

  /** makeResult's walk over the frames from the root down, continuing at `lastpos`. */
  function MergeFrom(mat: seq<string>, lastpos: int, frames: seq<Frame>, width: nat): (r: Option<seq<string>>)
    ensures r.Some? && Rectangular(mat, width) ==> Rectangular(r.value, width)
    decreases |frames|
  {
    if |frames| == 0 then Some(mat)
    else
      match Attach(mat, lastpos, frames[0], width)
      case None => None
      case Some(m) => MergeFrom(m, frames[0].col, frames[1..], width)
  }

  /**
   * One arrangement found by the search: the full grid, the final cursor,
   * the anchor of the node that found it, and the variant number and
   * branch (0 match, 1 skip) chosen at each slot.
   */
  datatype MatrixResult = MatrixResult(matrix: seq<string>, pos: Pos, anchor: Pos,
                                       patternStack: seq<int>, branchStack: seq<int>)

  /**
   * makeResult: the grid of the whole chain of nodes from the root down,
   * followed by the rows just written. None is a crash on an index.
   */
  function MakeResult(frames: seq<Frame>, rows: seq<string>, pos: Pos, newLine: bool, anchor: Pos,
                      stack: seq<int>, bstack: seq<int>, width: nat): (r: Option<MatrixResult>)
    ensures r.Some? ==> Rectangular(r.value.matrix, width)
    ensures r.Some? ==> r.value.patternStack == stack && r.value.branchStack == bstack && r.value.pos == pos
  {
    match MergeFrom([], 0, frames + [Frame(rows, 0, newLine)], width)
    case None => None
    case Some(mat) => Some(MatrixResult(mat, pos, anchor, stack, bstack))
  }

  // ---------------------------------------------------------------- the search

  /**
   * What stays fixed during one search: the options it reads, the keyword
   * and its number, the slots of the candidate sentence, and the grid size
   * (`height` is the option Height, `width` the width being tried).
   * `corrected` picks the projection of a found keyword rune: false is the
   * source's ProjectAsWritten, true the repaired Project.
   */
  datatype Setup = Setup(matchLength: bool, one: bool, wipeOut: bool, wipeOutLength: int,
                         keyword: string, keywordNumber: int, phrases: seq<B.BasicPhrase>,
                         width: int, height: int, corrected: bool)

  /** The cell the search expects the keyword rune at offset `r` in. */
  function Locate(s: Setup, at: Pos, r: int, newLine: bool): (q: Pos)
    requires s.width >= 1
    ensures s.corrected ==> q == Project(at, r, newLine, s.width)
    ensures !s.corrected ==> q == ProjectAsWritten(at, r, newLine, s.width)
  {
    if s.corrected then Project(at, r, newLine, s.width) else ProjectAsWritten(at, r, newLine, s.width)
  }

  /**
   * The rune-writing loop's state: the rows written so far, the cursor, and
   * in the match branch the row of the last keyword rune met and its index.
   */
  datatype Laying = Laying(rows: seq<string>, pos: Pos, keywordRow: int, keywordIndex: int)

  /**
   * How the loop ended: every rune written, a rune on the anchor column that
   * is not the next keyword rune (SearchContext returns at once), or a
   * fatal stop of the program.
   */
  datatype Laid = Written(l: Laying) | Mismatch | Fatal

  /** The cell lies on the anchor column below the row of the found rune. */
  predicate Crosses(c: Pos, target: Option<Pos>)
  {
    target.Some? && c.col == target.value.col && c.row > target.value.row
  }

  /**
   * The loop that writes a variant's runes from the cursor on, row by row.
   * In the match branch (`target` holds the found rune's cell) every rune
   * that lands on the anchor column below it must be the next keyword rune;
   * past the keyword's end that is fatal under MatchLength.
   */
  function Lay(s: Setup, text: string, i: nat, st: Laying, matline: int, target: Option<Pos>): (r: Laid)
    requires s.width >= 1 && i <= |text| && 0 <= st.pos.col < s.width
    ensures target.None? ==> !r.Mismatch?
    ensures r.Written? ==> r.l.pos == CellOf(st.pos, |text| - i, s.width)
    ensures r.Written? ==> r.l.keywordRow - st.keywordRow == r.l.keywordIndex - st.keywordIndex >= 0
    ensures r.Written? && st.keywordIndex < |s.keyword| ==> r.l.keywordIndex < |s.keyword|
    ensures r.Written? && target.None? ==> r.l.keywordIndex == st.keywordIndex
    decreases |text| - i
  {
    if i == |text| then Written(st)
    else
      var cross := Crosses(st.pos, target);
      var consume := cross && |s.keyword| > st.keywordIndex + 1;
      if consume && st.keywordIndex + 1 < 0 then Fatal
      else if consume && s.keyword[st.keywordIndex + 1] != text[i] then Mismatch
      else if cross && !consume && s.matchLength then Fatal
      else
        var line := st.pos.row - matline;
        if !(0 <= line < |st.rows| && st.pos.col < |st.rows[line]|) then Fatal
        else
          var rows := st.rows[line := st.rows[line][st.pos.col := text[i]]];
          var t := Advance(st.pos, s.height, s.width);
          if t.flag == 3 then Fatal
          else
            CellOfStep(st.pos, t.pos, |text| - i - 1, s.width);
            var rows' := if t.flag == 1 && |text| > i + 1 then rows + [Blanks(s.width)] else rows;
            var st' := if consume then Laying(rows', t.pos, st.keywordRow + 1, st.keywordIndex + 1)
                       else Laying(rows', t.pos, st.keywordRow, st.keywordIndex);
            Lay(s, text, i + 1, st', matline, target)
  }

  /** The row a node's anchor must be met in, and where its text may end, under MatchLength. */
  predicate Accepts(s: Setup, pos: Pos, anchor: Pos)
  {
    !s.matchLength || (if pos.col >= anchor.col then pos.row == anchor.row else pos.row == anchor.row + 1)
  }

  /**
   * One search node (an ArrangeMatrix): the slot it fills, the cursor, the
   * index of the keyword rune it looks for, the anchor (KeywordEnd), the
   * flags IsTargeting and FinishedSearch, the frames of the chain from the
   * root down to it, and the variant numbers and branches chosen so far.
   */
  datatype Node = Node(slot: int, pos: Pos, keywordIndex: int, anchor: Pos, targeting: bool, finished: bool,
                       frames: seq<Frame>, patternStack: seq<int>, branchStack: seq<int>)

  /** The stacks name a real variant and a branch for each slot before `slot`. */
  predicate Chosen(s: Setup, stack: seq<int>, bstack: seq<int>, upto: int)
  {
    0 <= upto <= |s.phrases| && |stack| == upto && |bstack| == upto
    && forall j :: 0 <= j < upto ==> 0 <= stack[j] < |s.phrases[j].pattern| && (bstack[j] == 0 || bstack[j] == 1)
  }

  /** What NewArrangeMatrix and the search maintain for every node. */
  predicate NodeOk(s: Setup, n: Node)
  {
    s.width >= 1 && 0 <= n.slot < |s.phrases| && 0 <= n.keywordIndex < |s.keyword|
    && 0 <= n.pos.col < s.width && Chosen(s, n.patternStack, n.branchStack, n.slot)
  }

  /** A node's gathered results and the number it flushed to the writer. */
  datatype Acc = Acc(results: seq<MatrixResult>, wiped: int)

  /** A result below node `n`: it extends n's choices to one variant and branch per slot. */
  predicate Below(s: Setup, n: Node, res: MatrixResult)
  {
    Chosen(s, res.patternStack, res.branchStack, |s.phrases|)
    && |n.patternStack| <= |s.phrases| && |n.branchStack| <= |s.phrases|
    && res.patternStack[..|n.patternStack|] == n.patternStack
    && res.branchStack[..|n.branchStack|] == n.branchStack
  }

  predicate Sound(s: Setup, n: Node, acc: Acc)
  {
    acc.wiped >= 0 && forall k :: 0 <= k < |acc.results| ==> Below(s, n, acc.results[k])
  }

  /** The child of `n` that fills the next slot after `n` placed variant `v` on branch `branch`. */
  function Child(n: Node, v: Variant, branch: int, pos: Pos, keywordIndex: int, anchor: Pos, targeting: bool,
                 finished: bool, rows: seq<string>, newLine: bool): (c: Node)
    ensures c.slot == n.slot + 1 && c.patternStack == n.patternStack + [v.index]
      && c.branchStack == n.branchStack + [branch]
      && c.frames == n.frames + [Frame(rows, pos.col, newLine)]
  {
    Node(n.slot + 1, pos, keywordIndex, anchor, targeting, finished,
         n.frames + [Frame(rows, pos.col, newLine)], n.patternStack + [v.index], n.branchStack + [branch])
  }

  /** The eviction counter: a full result list is flushed to the writer and counted as wiped. */
  function Evict(s: Setup, acc: Acc): (r: Acc)
    ensures |r.results| + r.wiped == |acc.results| + acc.wiped
    ensures s.wipeOut && s.wipeOutLength <= |acc.results| ==> r.results == [] && r.wiped == acc.wiped + |acc.results|
    ensures !(s.wipeOut && s.wipeOutLength <= |acc.results|) ==> r == acc
  {
    if s.wipeOut && s.wipeOutLength <= |acc.results| then Acc([], acc.wiped + |acc.results|) else acc
  }

  /** Results of a child appended to the parent's. */
  function Gather(acc: Acc, more: Acc): (r: Acc)
    ensures r.results == acc.results + more.results && r.wiped == acc.wiped + more.wiped
  {
    Acc(acc.results + more.results, acc.wiped + more.wiped)
  }

  lemma GatherSound(s: Setup, n: Node, c: Node, acc: Acc, more: Acc, x: int, branch: int)
    requires Sound(s, n, acc) && Sound(s, c, more)
    requires c.patternStack == n.patternStack + [x] && c.branchStack == n.branchStack + [branch]
    ensures Sound(s, n, Gather(acc, more))
  {
    var g := Gather(acc, more);
    forall k | 0 <= k < |g.results| ensures Below(s, n, g.results[k]) {
      if k >= |acc.results| {
        var res := more.results[k - |acc.results|];
        assert Below(s, c, res);
        assert res.patternStack[..|n.patternStack|] == res.patternStack[..|c.patternStack|][..|n.patternStack|];
        assert res.branchStack[..|n.branchStack|] == res.branchStack[..|c.branchStack|][..|n.branchStack|];
      }
    }
  }

  /**
   * No result is lost between `acc` and `r`: each is kept or counted as
   * wiped, and without WipeOut the earlier results stay first and nothing
   * is wiped.
   */
  predicate Keeps(s: Setup, acc: Acc, r: Acc)
  {
    |r.results| + r.wiped >= |acc.results| + acc.wiped
    && (!s.wipeOut ==> r.wiped == acc.wiped && |acc.results| <= |r.results| && r.results[..|acc.results|] == acc.results)
  }

  /** Under One, a search that starts without results ends with at most one. */
  predicate AtMostOne(s: Setup, acc: Acc, r: Acc)
  {
    s.one && acc.results == [] ==> |r.results| <= 1
  }

  lemma KeepsTrans(s: Setup, a: Acc, b: Acc, c: Acc)
    requires Keeps(s, a, b) && Keeps(s, b, c)
    ensures Keeps(s, a, c)
  {
    if !s.wipeOut {
      assert c.results[..|a.results|] == c.results[..|b.results|][..|a.results|];
    }
  }

  /** Gathering a sub-search's results, then evicting, keeps every result. */
  lemma KeepsGather(s: Setup, acc: Acc, more: Acc)
    requires more.wiped >= 0 && (!s.wipeOut ==> more.wiped == 0)
    ensures Keeps(s, acc, Gather(acc, more)) && Keeps(s, acc, Evict(s, Gather(acc, more)))
  {
    assert Gather(acc, more).results[..|acc.results|] == acc.results;
  }

  /** How the scan over one variant's occurrences went on: to the next occurrence, or out of SearchContext. */
  datatype Step = Next(acc: Acc) | Leave(acc: Acc, failed: bool)

  /**
   * Search: a node not yet past the keyword gives up when the remaining
   * runes cannot be met in order; otherwise it tries its slot's variants.
   */
  function Search(s: Setup, n: Node): (r: Pt.Run<Acc>)
    requires NodeOk(s, n)
    ensures r.Value? || r.Panic?
    ensures r.Value? ==> Sound(s, n, r.value)
    ensures r.Value? && !s.wipeOut ==> r.value.wiped == 0
    ensures r.Value? && s.one ==> |r.value.results| <= 1
    ensures !n.finished && CheckAfterKeyword(s.phrases, s.keywordNumber, s.keyword, n.keywordIndex, n.slot) == Some(false)
      ==> r == Pt.Value(Acc([], 0))
    decreases |s.phrases| - n.slot, 3, 0
  {
    var check := if n.finished then Some(true)
                 else CheckAfterKeyword(s.phrases, s.keywordNumber, s.keyword, n.keywordIndex, n.slot);
    if check.None? then Pt.Panic
    else if !check.value then Pt.Value(Acc([], 0))
    else
      var b := s.phrases[n.slot];
      match GetPattern(b, s.keywordNumber, n.keywordIndex, n.pos, n.anchor, n.targeting, s.width)
      case None => Pt.Panic
      case Some(vs) => SearchNormal(s, n, vs, 0, Acc([], 0))
  }

  /** SearchNormal: SearchContext on each variant in turn, stopping at an error or, under One, at a result. */
  function SearchNormal(s: Setup, n: Node, vs: seq<Variant>, k: nat, acc: Acc): (r: Pt.Run<Acc>)
    requires NodeOk(s, n) && k <= |vs| && Sound(s, n, acc)
    requires forall i :: 0 <= i < |vs| ==> Names(s.phrases[n.slot].pattern, vs[i])
    ensures r.Value? || r.Panic?
    ensures r.Value? ==> Sound(s, n, r.value)
    ensures r.Value? ==> Keeps(s, acc, r.value) && AtMostOne(s, acc, r.value)
    decreases |s.phrases| - n.slot, 2, |vs| - k
  {
    if k == |vs| then Pt.Value(acc)
    else
      var c := SearchContext(s, n, vs[k], acc);
      if !c.Value? then Pt.Panic
      else
        var (acc', failed) := c.value;
        if failed || (s.one && |acc'.results| > 0) then Pt.Value(acc')
        else
          var rest := SearchNormal(s, n, vs, k + 1, acc');
          if rest.Value? then KeepsTrans(s, acc, acc', rest.value); rest else rest
  }

  /** The pruning rules that end SearchContext before any branch is tried. */
  predicate Pruned(s: Setup, n: Node)
    requires s.width >= 1 && n.slot >= 0
  {
    |s.keyword| - n.keywordIndex - 1 > ExpectedLine(s.phrases, n.slot, s.width)
    || (s.matchLength && n.pos.row > 0 && !n.targeting)
    || (s.matchLength && n.pos.row > n.anchor.row && n.pos.col >= n.anchor.col)
  }

  /**
   * SearchContext for one variant: unless pruned, the match branch for each
   * occurrence of the keyword rune, then the skip branch, then eviction.
   * The flag reports an error that ends the caller's loop.
   */
  function SearchContext(s: Setup, n: Node, v: Variant, acc: Acc): (r: Pt.Run<(Acc, bool)>)
    requires NodeOk(s, n) && Names(s.phrases[n.slot].pattern, v) && Sound(s, n, acc)
    ensures r.Value? || r.Panic?
    ensures r.Value? ==> Sound(s, n, r.value.0)
    ensures r.Value? ==> Keeps(s, acc, r.value.0) && AtMostOne(s, acc, r.value.0)
    ensures Pruned(s, n) ==> r == Pt.Value((acc, false))
    decreases |s.phrases| - n.slot, 1, 0
  {
    if Pruned(s, n) then Pt.Value((acc, false))
    else
      var k := s.keyword[n.keywordIndex..n.keywordIndex + 1];
      var r := if !n.finished then Index(v.text, k, 0) else -1;
      var m := Occurrences(s, n, v, k, r, acc);
      if !m.Value? then Pt.Panic
      else match m.value
        case Leave(acc', failed) => Pt.Value((acc', failed))
        case Next(acc') =>
          var rest := Skip(s, n, v, acc');
          if rest.Value? then KeepsTrans(s, acc, acc', rest.value.0); rest else rest
  }

  /** The cell the rune found at offset `r` is expected in, and whether it may be taken. */
  predicate Rejected(s: Setup, n: Node, at: Pos)
  {
    (s.matchLength && at.row != n.keywordIndex)
    || (n.targeting && n.anchor.row + 1 != at.row)
    || (n.targeting && n.anchor.col != at.col)
  }

  /**
   * The match branch for the occurrence of keyword rune `k` at offset `r`
   * of the variant and every later one. A rejected occurrence ends the
   * scan (the source breaks out of its loop).
   */
  function Occurrences(s: Setup, n: Node, v: Variant, k: string, r: int, acc: Acc): (res: Pt.Run<Step>)
    requires NodeOk(s, n) && Names(s.phrases[n.slot].pattern, v) && Sound(s, n, acc)
    requires r == -1 || 0 <= r <= |v.text|
    ensures res.Value? || res.Panic?
    ensures res.Value? ==> Sound(s, n, res.value.acc)
    ensures res.Value? ==> Keeps(s, acc, res.value.acc) && AtMostOne(s, acc, res.value.acc)
    ensures res.Value? && res.value.Next? && s.one && acc.results == [] ==> res.value.acc.results == []
    ensures r == -1 ==> res == Pt.Value(Next(acc))
    ensures r != -1 && Rejected(s, n, Locate(s, n.pos, r, s.phrases[n.slot].newLine)) ==> res == Pt.Value(Next(acc))
    decreases |s.phrases| - n.slot, 0, if r == -1 then 0 else |v.text| + 1 - r
  {
    if r == -1 then Pt.Value(Next(acc))
    else
      var b := s.phrases[n.slot];
      var at := Locate(s, n.pos, r, b.newLine);
      if Rejected(s, n, at) then Pt.Value(Next(acc))
      else
        var start := Start(n.pos, b.newLine, s.height);
        var newLine := MovesDown(n.pos, b.newLine, s.height);
        var laid := Lay(s, v.text, 0, Laying([Blanks(s.width)], start, at.row, n.keywordIndex), start.row, Some(at));
        if laid.Fatal? then Pt.Panic
        else if laid.Mismatch? then Pt.Value(Leave(acc, false))
        else
          var l := laid.l;
          var anchor := Pos(l.keywordRow, at.col);
          var finished := l.keywordIndex + 1 >= |s.keyword| && at.row + 1 >= |s.keyword|;
          var next := Index(v.text, k, r + 1);
          if anchor.row < l.keywordIndex then Pt.Panic
          else if n.slot + 1 >= |s.phrases| then
            if finished && Accepts(s, l.pos, anchor) then
              match Record(s, n, l, newLine, v.index, 0, acc)
              case None => Pt.Panic
              case Some(acc') =>
                if s.one then Pt.Value(Leave(acc', false))
                else
                  var rest := Occurrences(s, n, v, k, next, acc');
                  if rest.Value? then KeepsTrans(s, acc, acc', rest.value.acc); rest else rest
            else Occurrences(s, n, v, k, next, acc)
          else if !finished && l.keywordIndex + 1 >= |s.keyword| then Pt.Value(Leave(acc, true))
          else
            var c := Child(n, v, 0, l.pos, if finished then l.keywordIndex else l.keywordIndex + 1, anchor,
                           !finished, finished, l.rows, newLine);
            ChildOk(s, n, c, v.index, 0);
            var sub := Search(s, c);
            if !sub.Value? then Pt.Panic
            else
              GatherSound(s, n, c, acc, sub.value, v.index, 0);
              KeepsGather(s, acc, sub.value);
              var acc' := Gather(acc, sub.value);
              if s.one && |acc'.results| > 0 then Pt.Value(Leave(acc', false))
              else
                var rest := Occurrences(s, n, v, k, next, acc');
                if rest.Value? then KeepsTrans(s, acc, acc', rest.value.acc); rest else rest
  }

  /**
   * At the last slot: the arrangement the node completes with variant `x`
   * on branch `branch` is added to the results; None when makeResult
   * crashes.
   */
  function Record(s: Setup, n: Node, l: Laying, newLine: bool, x: int, branch: int, acc: Acc): (r: Option<Acc>)
    requires NodeOk(s, n) && n.slot + 1 == |s.phrases| && Sound(s, n, acc)
    requires 0 <= x < |s.phrases[n.slot].pattern| && (branch == 0 || branch == 1)
    ensures r.Some? ==> Sound(s, n, r.value) && r.value.wiped == acc.wiped
    ensures r.Some? ==> |r.value.results| == |acc.results| + 1 && r.value.results[..|acc.results|] == acc.results
  {
    match MakeResult(n.frames, l.rows, l.pos, newLine, n.anchor, n.patternStack + [x], n.branchStack + [branch], s.width)
    case None => None
    case Some(found) =>
      ResultBelow(s, n, found, x, branch);
      var r := acc.(results := acc.results + [found]);
      assert r.results[..|acc.results|] == acc.results;
      Some(r)
  }

  lemma EvictSound(s: Setup, n: Node, acc: Acc)
    requires Sound(s, n, acc)
    ensures Sound(s, n, Evict(s, acc))
  {
  }

  /** The child that fills the next slot is a node the search maintains. */
  lemma ChildOk(s: Setup, n: Node, c: Node, x: int, branch: int)
    requires NodeOk(s, n) && n.slot + 1 < |s.phrases|
    requires 0 <= x < |s.phrases[n.slot].pattern| && (branch == 0 || branch == 1)
    requires c.slot == n.slot + 1 && c.patternStack == n.patternStack + [x] && c.branchStack == n.branchStack + [branch]
    requires 0 <= c.pos.col < s.width && 0 <= c.keywordIndex < |s.keyword|
    ensures NodeOk(s, c)
  {
  }

  lemma ResultBelow(s: Setup, n: Node, found: MatrixResult, x: int, branch: int)
    requires NodeOk(s, n) && n.slot + 1 == |s.phrases|
    requires 0 <= x < |s.phrases[n.slot].pattern| && (branch == 0 || branch == 1)
    requires found.patternStack == n.patternStack + [x] && found.branchStack == n.branchStack + [branch]
    ensures Below(s, n, found)
  {
    assert found.patternStack[..|n.patternStack|] == n.patternStack;
    assert found.branchStack[..|n.branchStack|] == n.branchStack;
  }

  /**
   * The skip branch: the variant is written without meeting a keyword
   * rune, the next slot inherits the node's keyword state, and the node's
   * results are evicted once they reach WipeOutLength.
   */
  function Skip(s: Setup, n: Node, v: Variant, acc: Acc): (r: Pt.Run<(Acc, bool)>)
    requires NodeOk(s, n) && Names(s.phrases[n.slot].pattern, v) && Sound(s, n, acc)
    ensures r.Value? || r.Panic?
    ensures r.Value? ==> Sound(s, n, r.value.0) && !r.value.1
    ensures r.Value? ==> Keeps(s, acc, r.value.0) && AtMostOne(s, acc, r.value.0)
    decreases |s.phrases| - n.slot, 0, 1
  {
    var b := s.phrases[n.slot];
    if n.pos.col != 0 && b.newLine && s.height <= n.pos.row + 1 then Pt.Panic
    else
      var start := Start(n.pos, b.newLine, s.height);
      var laid := Lay(s, v.text, 0, Laying([Blanks(s.width)], start, 0, 0), start.row, None);
      if !laid.Written? then Pt.Panic
      else SkipFrom(s, n, v, laid.l, MovesDown(n.pos, b.newLine, s.height), acc)
  }

  /** The skip branch once the variant is written: record at the last slot, else search the next one. */
  function SkipFrom(s: Setup, n: Node, v: Variant, l: Laying, newLine: bool, acc: Acc): (r: Pt.Run<(Acc, bool)>)
    requires NodeOk(s, n) && Names(s.phrases[n.slot].pattern, v) && Sound(s, n, acc)
    requires 0 <= l.pos.col < s.width
    ensures r.Value? || r.Panic?
    ensures r.Value? ==> Sound(s, n, r.value.0) && !r.value.1
    ensures r.Value? ==> Keeps(s, acc, r.value.0) && AtMostOne(s, acc, r.value.0)
    decreases |s.phrases| - n.slot, 0, 0
  {
    if n.slot + 1 >= |s.phrases| then
      if Accepts(s, l.pos, n.anchor) && n.finished then
        match Record(s, n, l, newLine, v.index, 1, acc)
        case None => Pt.Panic
        case Some(acc') =>
          if s.one then Pt.Value((acc', false))
          else EvictSound(s, n, acc'); KeepsTrans(s, acc, acc', Evict(s, acc')); Pt.Value((Evict(s, acc'), false))
      else EvictSound(s, n, acc); Pt.Value((Evict(s, acc), false))
    else
      var c := Child(n, v, 1, l.pos, n.keywordIndex, n.anchor, n.targeting, n.finished, l.rows, newLine);
      ChildOk(s, n, c, v.index, 1);
      var sub := Search(s, c);
      if !sub.Value? then Pt.Panic
      else
        GatherSound(s, n, c, acc, sub.value, v.index, 1);
        EvictSound(s, n, Gather(acc, sub.value));
        KeepsGather(s, acc, sub.value);
        Pt.Value((Evict(s, Gather(acc, sub.value)), false))
  }

  /** How many of the first `n` cells from `p` lie on the anchor column below the found rune. */
  function Crossings(p: Pos, n: nat, target: Option<Pos>, width: int): (r: nat)
    requires width >= 1
    ensures r <= n
  {
    if n == 0 then 0 else Crossings(p, n - 1, target, width) + (if Crosses(CellOf(p, n - 1, width), target) then 1 else 0)
  }

  lemma {:induction false} CrossingsShift(p: Pos, q: Pos, n: nat, target: Option<Pos>, width: int)
    requires width >= 1 && 0 <= p.col < width && 0 <= q.col < width && Linear(q, width) == Linear(p, width) + 1
    ensures Crossings(p, n + 1, target, width)
         == (if Crosses(p, target) then 1 else 0) + Crossings(q, n, target, width)
  {
    CellOfZero(p, width);
    if n > 0 {
      CrossingsShift(p, q, n - 1, target, width);
      CellOfStep(p, q, n - 1, width);
    }
  }

  lemma CellOfZero(p: Pos, width: int)
    requires width >= 1 && 0 <= p.col < width
    ensures CellOf(p, 0, width) == p
  {
    SameLinear(CellOf(p, 0, width), p, width);
  }

  /**
   * Rune `j` of the text is written on the anchor column below the found
   * rune, and it is the `q`-th such rune counted from the loop's start, with
   * the keyword not yet used up at that point.
   */
  predicate KeywordCell(s: Setup, text: string, i: nat, p: Pos, ki: int, target: Option<Pos>, j: int)
  {
    s.width >= 1 && i <= j < |text| && Crosses(CellOf(p, j - i, s.width), target)
    && 0 <= ki + Crossings(p, j - i + 1, target, s.width) < |s.keyword|
  }

  /** The rune in a keyword cell is the keyword rune its crossing count selects. */
  predicate RuneMatches(s: Setup, text: string, i: nat, p: Pos, ki: int, target: Option<Pos>, j: int)
  {
    KeywordCell(s, text, i, p, ki, target, j)
    && text[j] == s.keyword[ki + Crossings(p, j - i + 1, target, s.width)]
  }

  /**
   * The vertical reading the match branch enforces: when the loop writes
   * every rune, each rune on the anchor column below the found rune is the
   * next keyword rune in turn; when it stops on a mismatch, some such rune
   * differs from its keyword rune.
   */
  lemma {:induction false} LayKeywordRunes(s: Setup, text: string, i: nat, st: Laying, matline: int, target: Option<Pos>)
    requires s.width >= 1 && i <= |text| && 0 <= st.pos.col < s.width && st.keywordIndex >= 0
    ensures Lay(s, text, i, st, matline, target).Written? ==>
      forall j :: KeywordCell(s, text, i, st.pos, st.keywordIndex, target, j) ==> RuneMatches(s, text, i, st.pos, st.keywordIndex, target, j)
    ensures Lay(s, text, i, st, matline, target).Mismatch? ==>
      exists j :: KeywordCell(s, text, i, st.pos, st.keywordIndex, target, j) && !RuneMatches(s, text, i, st.pos, st.keywordIndex, target, j)
    decreases |text| - i
  {
    if i == |text| { return; }
    var r := Lay(s, text, i, st, matline, target);
    var cross := Crosses(st.pos, target);
    var consume := cross && |s.keyword| > st.keywordIndex + 1;
    CellOfZero(st.pos, s.width);
    if consume && s.keyword[st.keywordIndex + 1] != text[i] {
      assert Crossings(st.pos, 1, target, s.width) == 1;
      assert KeywordCell(s, text, i, st.pos, st.keywordIndex, target, i);
      assert !RuneMatches(s, text, i, st.pos, st.keywordIndex, target, i);
      return;
    }
    if cross && !consume && s.matchLength { return; }
    var line := st.pos.row - matline;
    if !(0 <= line < |st.rows| && st.pos.col < |st.rows[line]|) { return; }
    var rows := st.rows[line := st.rows[line][st.pos.col := text[i]]];
    var t := Advance(st.pos, s.height, s.width);
    if t.flag == 3 { return; }
    var rows' := if t.flag == 1 && |text| > i + 1 then rows + [Blanks(s.width)] else rows;
    var st' := if consume then Laying(rows', t.pos, st.keywordRow + 1, st.keywordIndex + 1)
               else Laying(rows', t.pos, st.keywordRow, st.keywordIndex);
    assert r == Lay(s, text, i + 1, st', matline, target);
    LayKeywordRunes(s, text, i + 1, st', matline, target);
    ShiftAll(s, text, i, st.pos, t.pos, st.keywordIndex, st'.keywordIndex, consume, target);
  }

  /**
   * One step of the loop that writes rune `i` carries the vertical reading
   * back: all later keyword cells matching means all of them from `i` on
   * match, and a later mismatch is a mismatch from `i` on.
   */
  lemma ShiftAll(s: Setup, text: string, i: nat, p: Pos, q: Pos, ki: int, ki': int, consume: bool, target: Option<Pos>)
    requires s.width >= 1 && 0 <= p.col < s.width && 0 <= q.col < s.width && i < |text|
    requires Linear(q, s.width) == Linear(p, s.width) + 1 && ki >= 0
    requires consume == (Crosses(p, target) && |s.keyword| > ki + 1)
    requires ki' == if consume then ki + 1 else ki
    requires consume ==> s.keyword[ki + 1] == text[i]
    ensures AllMatch(s, text, i + 1, q, ki', target) ==> AllMatch(s, text, i, p, ki, target)
    ensures SomeMismatch(s, text, i + 1, q, ki', target) ==> SomeMismatch(s, text, i, p, ki, target)
  {
    CellOfZero(p, s.width);
    if AllMatch(s, text, i + 1, q, ki', target) {
      forall j | KeywordCell(s, text, i, p, ki, target, j)
        ensures RuneMatches(s, text, i, p, ki, target, j)
      {
        if j == i {
          assert Crossings(p, 1, target, s.width) == 1;
        } else {
          ShiftCell(s, text, i, p, q, ki, ki', consume, target, j);
        }
      }
    }
    if SomeMismatch(s, text, i + 1, q, ki', target) {
      var j :| KeywordCell(s, text, i + 1, q, ki', target, j) && !RuneMatches(s, text, i + 1, q, ki', target, j);
      ShiftCell(s, text, i, p, q, ki, ki', consume, target, j);
      assert KeywordCell(s, text, i, p, ki, target, j);
    }
  }

  /** Every keyword cell from rune `i` on holds its keyword rune. */
  ghost predicate AllMatch(s: Setup, text: string, i: nat, p: Pos, ki: int, target: Option<Pos>)
  {
    forall j :: KeywordCell(s, text, i, p, ki, target, j) ==> RuneMatches(s, text, i, p, ki, target, j)
  }

  /** Some keyword cell from rune `i` on holds another rune. */
  ghost predicate SomeMismatch(s: Setup, text: string, i: nat, p: Pos, ki: int, target: Option<Pos>)
  {
    exists j :: KeywordCell(s, text, i, p, ki, target, j) && !RuneMatches(s, text, i, p, ki, target, j)
  }

  /** One step of the loop moves every later keyword cell to the same keyword rune. */
  lemma ShiftCell(s: Setup, text: string, i: nat, p: Pos, q: Pos, ki: int, ki': int, consume: bool,
                  target: Option<Pos>, j: int)
    requires s.width >= 1 && 0 <= p.col < s.width && 0 <= q.col < s.width
    requires Linear(q, s.width) == Linear(p, s.width) + 1 && i < j < |text| && ki >= 0
    requires consume == (Crosses(p, target) && |s.keyword| > ki + 1)
    requires ki' == if consume then ki + 1 else ki
    ensures KeywordCell(s, text, i, p, ki, target, j) ==> KeywordCell(s, text, i + 1, q, ki', target, j)
    ensures KeywordCell(s, text, i, p, ki, target, j)
        ==> (RuneMatches(s, text, i, p, ki, target, j) <==> RuneMatches(s, text, i + 1, q, ki', target, j))
    ensures KeywordCell(s, text, i + 1, q, ki', target, j) ==> KeywordCell(s, text, i, p, ki, target, j)
  {
    CrossingsShift(p, q, j - i, target, s.width);
    CellOfStep(p, q, j - i - 1, s.width);
    assert CellOf(q, j - (i + 1), s.width) == CellOf(p, j - i, s.width);
    if Crosses(CellOf(p, j - i, s.width), target) {
      CrossingsLast(q, j - i, target, s.width);
    }
  }

  lemma CrossingsLast(p: Pos, n: nat, target: Option<Pos>, width: int)
    requires width >= 1 && n >= 1 && Crosses(CellOf(p, n - 1, width), target)
    ensures Crossings(p, n, target, width) >= 1
  {
  }
}

=== FILE: basic_phrase.dfy ===
/**
 * The slot data of one basic phrase (basic_phrase.go): how a variant text is
 * assembled from the morphemes, how variants are admitted to the pattern
 * list, the same-length pruning, the maximum variant length and the index of
 * keyword positions the search reads. The morphological analysis that fills
 * the morpheme fields is done by an external analyser and is not modelled.
 */
module BasicPhrases {
  import opened Runes
  import P = Parts

  /** The morphemes of a basic phrase, as the analyser reported them. */
  datatype Morphemes = Morphemes(
    hasPrefix: bool,
    prefixSurface: seq<string>,
    prefixKana: seq<string>,
    surfaceOrder: seq<P.Part>,
    auxiliaryVerbSurface: string,
    particleSurface: seq<string>,
    suffixSurface: seq<string>,
    suffixKana: seq<string>,
    specialSurface: string,
    determineSurface: string,
    determineOrigin: string)

  /**
   * A basic phrase: its analyser lines and numbering, its surface and kana,
   * and the variant texts (`pattern`) the search may place in its slot.
   * `keywordPos[i][k][r]` lists the variants holding rune k of keyword i at
   * offset r.
   */
  datatype BasicPhrase = BasicPhrase(
    text: seq<string>,
    keywords: seq<string>,
    newLine: bool,
    phraseNumber: int,
    number: int,
    id: int,
    surface: string,
    kana: string,
    morphemes: Morphemes,
    pattern: seq<string>,
    patternLengths: set<int>,
    patternMaxLength: int,
    keywordPos: seq<seq<map<int, seq<int>>>>)

  const NoMorphemes := Morphemes(false, [], [], [], "", [], [], [], "", "", "")

  /** NewBasicPhrase: numbering and lines set, everything else empty. */
  function NewBasicPhrase(text: seq<string>, phraseNumber: int, number: int, id: int,
                          newLine: bool, keywords: seq<string>): BasicPhrase
  {
    BasicPhrase(text, keywords, newLine, phraseNumber, number, id, "", "", NoMorphemes, [], {}, 0, [])
  }

  // ---------------------------------------------------------------- assembling a variant

  function Concat(parts: seq<string>): string
  {
    if |parts| == 0 then "" else Concat(parts[..|parts| - 1]) + parts[|parts| - 1]
  }

  /** How many particles and suffixes have been consumed so far. */
  datatype Cursor = Cursor(particle: nat, suffix: nat)

  function SuffixList(m: Morphemes, useKanji: bool): seq<string>
  {
    if useKanji then m.suffixSurface else m.suffixKana
  }

  /** The parts that contribute nothing after the stem: the content words. */
  predicate AddsNothing(p: P.Part)
  {
    p == P.NounPart || p == P.VerbPart || p == P.AdjectivePart || p == P.PrefixPart
    || p == P.AdverbPart || p == P.DemonstrativePart
  }

  /** The parts AppendPatternBase knows; any other part is fatal. */
  predicate Known(p: P.Part)
  {
    p == P.AuxiliaryVerbPart || p == P.ParticlePart || P.IsSuffix(p) || P.IsSpecial(p)
    || p == P.DeterminePart || AddsNothing(p)
  }

  /**
   * The text one entry of the surface order adds, and the advanced cursor.
   * None stands for the program stopping: an unknown part is fatal, and a
   * particle or suffix beyond its list is an index panic.
   */
  function Piece(m: Morphemes, p: P.Part, c: Cursor, determine: string, withSuffix: bool, useKanji: bool)
    : (r: Option<(string, Cursor)>)
    ensures r.Some? <==> (Known(p)
      && (p == P.ParticlePart ==> c.particle < |m.particleSurface|)
      && (P.IsSuffix(p) && withSuffix ==> c.suffix < |SuffixList(m, useKanji)|))
    ensures r.Some? ==> r.value.1 == Advance([p], c, withSuffix)
  {
    if p == P.AuxiliaryVerbPart then Some((m.auxiliaryVerbSurface, c))
    else if p == P.ParticlePart then
      if c.particle < |m.particleSurface| then
        Some((m.particleSurface[c.particle], c.(particle := c.particle + 1)))
      else None
    else if P.IsSuffix(p) then
      if !withSuffix then Some(("", c))
      else if c.suffix < |SuffixList(m, useKanji)| then
        Some((SuffixList(m, useKanji)[c.suffix], c.(suffix := c.suffix + 1)))
      else None
    else if P.IsSpecial(p) then Some((m.specialSurface, c))
    else if p == P.DeterminePart then Some((determine, c))
    else if AddsNothing(p) then Some(("", c))
    else None
  }

  /** The cursor after walking `order`: one particle per particle part, one suffix per suffix part when suffixes are added. */
  function Advance(order: seq<P.Part>, c: Cursor, withSuffix: bool): Cursor
  {
    Cursor(c.particle + multiset(order)[P.ParticlePart],
           if withSuffix then c.suffix + multiset(order)[P.SuffixPart] else c.suffix)
  }

  /** Concatenation of two texts that may be missing (a stop anywhere stops the whole). */
  function Cat(a: Option<string>, b: Option<string>): Option<string>
  {
    if a.Some? && b.Some? then Some(a.value + b.value) else None
  }

  function TextOf(piece: Option<(string, Cursor)>): Option<string>
  {
    if piece.Some? then Some(piece.value.0) else None
  }

  /** The text the surface order adds after the stem, walking it left to right. */
  function Tail(m: Morphemes, order: seq<P.Part>, c: Cursor, determine: string, withSuffix: bool, useKanji: bool)
    : Option<string>
    decreases |order|
  {
    if |order| == 0 then Some("")
    else
      var piece := Piece(m, order[0], c, determine, withSuffix, useKanji);
      if piece.None? then None
      else Cat(Some(piece.value.0), Tail(m, order[1..], piece.value.1, determine, withSuffix, useKanji))
  }

  /**
   * The surface order assembles exactly when every part is known and the
   * particle and suffix lists are long enough for the parts that consume them.
   */
  lemma {:induction false} TailDefined(m: Morphemes, order: seq<P.Part>, c: Cursor, determine: string,
                                       withSuffix: bool, useKanji: bool)
    ensures Tail(m, order, c, determine, withSuffix, useKanji).Some? <==>
      (forall i :: 0 <= i < |order| ==> Known(order[i]))
      && (multiset(order)[P.ParticlePart] == 0
          || c.particle + multiset(order)[P.ParticlePart] <= |m.particleSurface|)
      && (withSuffix && multiset(order)[P.SuffixPart] > 0 ==>
          c.suffix + multiset(order)[P.SuffixPart] <= |SuffixList(m, useKanji)|)
    decreases |order|
  {
    if |order| > 0 {
      assert order == [order[0]] + order[1..];
      assert forall i :: 1 <= i < |order| ==> order[i] == order[1..][i - 1];
      match Piece(m, order[0], c, determine, withSuffix, useKanji)
      case None =>
      case Some(q) =>
        TailDefined(m, order[1..], q.1, determine, withSuffix, useKanji);
    }
  }

  /**
   * Appending one part to the surface order appends exactly that part's
   * piece, taken at the cursor the earlier parts leave: the k-th particle
   * part adds the k-th particle surface.
   */
  lemma {:induction false} TailSnoc(m: Morphemes, order: seq<P.Part>, p: P.Part, c: Cursor,
                                    determine: string, withSuffix: bool, useKanji: bool)
    ensures Tail(m, order + [p], c, determine, withSuffix, useKanji) ==
      Cat(Tail(m, order, c, determine, withSuffix, useKanji),
          TextOf(Piece(m, p, Advance(order, c, withSuffix), determine, withSuffix, useKanji)))
    decreases |order|
  {
    if |order| == 0 {
      TailSnocEmpty(m, p, c, determine, withSuffix, useKanji);
    } else {
      var x := order[0];
      var rest := order[1..];
      assert (order + [p])[0] == x && (order + [p])[1..] == rest + [p];
      var piece := Piece(m, x, c, determine, withSuffix, useKanji);
      if piece.Some? {
        var q := piece.value;
        TailSnoc(m, rest, p, q.1, determine, withSuffix, useKanji);
        PieceAdvance(m, order, c, determine, withSuffix, useKanji);
        var T := Tail(m, rest, q.1, determine, withSuffix, useKanji);
        var Q := TextOf(Piece(m, p, Advance(order, c, withSuffix), determine, withSuffix, useKanji));
        CatAssoc(q.0, T, Q);
      }
    }
  }

  lemma TailSnocEmpty(m: Morphemes, p: P.Part, c: Cursor, determine: string, withSuffix: bool, useKanji: bool)
    ensures Tail(m, [p], c, determine, withSuffix, useKanji) ==
      Cat(Some(""), TextOf(Piece(m, p, Advance([], c, withSuffix), determine, withSuffix, useKanji)))
  {
    assert Advance([], c, withSuffix) == c;
    var piece := Piece(m, p, c, determine, withSuffix, useKanji);
    assert [p][1..] == [];
    if piece.Some? {
      assert piece.value.0 + "" == piece.value.0 == "" + piece.value.0;
    }
  }

  /** The cursor after the first part's piece, advanced over the other parts, is the cursor advanced over them all. */
  lemma PieceAdvance(m: Morphemes, order: seq<P.Part>, c: Cursor, determine: string, withSuffix: bool, useKanji: bool)
    requires |order| > 0 && Piece(m, order[0], c, determine, withSuffix, useKanji).Some?
    ensures Advance(order[1..], Piece(m, order[0], c, determine, withSuffix, useKanji).value.1, withSuffix)
      == Advance(order, c, withSuffix)
  {
    assert order == [order[0]] + order[1..];
    assert multiset(order) == multiset([order[0]]) + multiset(order[1..]);
  }

  lemma CatAssoc(a: string, t: Option<string>, q: Option<string>)
    ensures Cat(Some(a), Cat(t, q)) == Cat(Cat(Some(a), t), q)
  {
    if t.Some? && q.Some? {
      assert a + (t.value + q.value) == (a + t.value) + q.value;
    }
  }

  /** Content words add nothing: a surface order of content parts leaves the stem alone. */
  lemma {:induction false} ContentAddsNothing(m: Morphemes, order: seq<P.Part>, c: Cursor,
                                              determine: string, withSuffix: bool, useKanji: bool)
    requires forall i :: 0 <= i < |order| ==> AddsNothing(order[i])
    ensures Tail(m, order, c, determine, withSuffix, useKanji) == Some("")
    decreases |order|
  {
    if |order| > 0 {
      ContentAddsNothing(m, order[1..], c, determine, withSuffix, useKanji);
      PieceAddsNothing(m, order[0], c, determine, withSuffix, useKanji);
      var e: string := "";
      assert e + e == e;
    }
  }

  /** A content part contributes no text and leaves the cursor where it was. */
  lemma PieceAddsNothing(m: Morphemes, p: P.Part, c: Cursor, determine: string, withSuffix: bool, useKanji: bool)
    requires AddsNothing(p)
    ensures Piece(m, p, c, determine, withSuffix, useKanji) == Some(("", c))
  {
  }

  function Prefix(m: Morphemes, useKanji: bool): string
  {
    if !m.hasPrefix then "" else if useKanji then Concat(m.prefixSurface) else Concat(m.prefixKana)
  }

  /**
   * AppendPatternBase's assembly: the prefix (kanji or kana), the stem `s`,
   * then the pieces of the surface order.
   */
  function Assemble(m: Morphemes, s: string, determine: string, withSuffix: bool, useKanji: bool)
    : (r: Option<string>)
    ensures r.Some? <==> Tail(m, m.surfaceOrder, Cursor(0, 0), determine, withSuffix, useKanji).Some?
    ensures r.Some? ==> (|r.value| >= |Prefix(m, useKanji)| + |s|
      && r.value[..|Prefix(m, useKanji)|] == Prefix(m, useKanji)
      && r.value[|Prefix(m, useKanji)|..|Prefix(m, useKanji)| + |s|] == s)
  {
    match Tail(m, m.surfaceOrder, Cursor(0, 0), determine, withSuffix, useKanji)
    case None => None
    case Some(t) =>
      SliceConcat3(Prefix(m, useKanji), s, t);
      Some(Prefix(m, useKanji) + s + t)
  }

  // ---------------------------------------------------------------- admitting a variant

  /**
   * HasKeyword: the Go double loop over keywords and their runes, stopping at
   * the first rune contained in `s`.
   */
  function HasKeyword(keywords: seq<string>, s: string): (r: bool)
    ensures r <==> exists i, k :: 0 <= i < |keywords| && 0 <= k < |keywords[i]| && keywords[i][k] in s
    decreases |keywords|
  {
    if |keywords| == 0 then false
    else if exists c :: c in keywords[0] && c in s then
      assert forall c :: c in keywords[0] ==> exists k :: 0 <= k < |keywords[0]| && keywords[0][k] == c;
      true
    else
      assert forall i :: 1 <= i < |keywords| ==> keywords[i] == keywords[1..][i - 1];
      HasKeyword(keywords[1..], s)
  }

  /** Given: `s` is the phrase's own surface or kana. */
  predicate Given(surface: string, kana: string, s: string)
  {
    s == surface || s == kana
  }

  /** The lengths of the variants (the keys of PatternLengthMap when it is kept up to date). */
  function Lengths(ps: seq<string>): set<int>
  {
    set p | p in ps :: |p|
  }

  predicate NoDuplicates(ps: seq<string>)
  {
    forall i, j :: 0 <= i < j < |ps| ==> ps[i] != ps[j]
  }

  /**
   * The tail of AppendPatternBase: with AllWordLength a variant of an unseen
   * length is appended without further checks; otherwise it is dropped when
   * the keyword filter is on and it has no keyword rune, or when it is
   * already listed. `lengths` is PatternLengthMap.
   */
  function AddVariant(pattern: seq<string>, lengths: set<int>, v: string, keywords: seq<string>,
                      allWordLength: bool, keywordFilter: bool): (r: (seq<string>, set<int>))
    ensures r.0 == pattern || r.0 == pattern + [v]
    ensures r.0 == pattern + [v] <==>
      (allWordLength && |v| !in lengths) || ((!keywordFilter || HasKeyword(keywords, v)) && v !in pattern)
    ensures r.1 == if r.0 == pattern then lengths else lengths + {|v|}
  {
    if allWordLength && |v| !in lengths then (pattern + [v], lengths + {|v|})
    else if keywordFilter && !HasKeyword(keywords, v) then (pattern, lengths)
    else if v in pattern then (pattern, lengths)
    else (pattern + [v], lengths + {|v|})
  }

  /**
   * The bookkeeping AddVariant relies on: PatternLengthMap holds exactly the
   * lengths of the listed variants and no variant is listed twice.
   */
  predicate Consistent(pattern: seq<string>, lengths: set<int>)
  {
    lengths == Lengths(pattern) && NoDuplicates(pattern)
  }

  /** AddVariant keeps the bookkeeping consistent, so the forced append never duplicates. */
  lemma AddVariantConsistent(pattern: seq<string>, lengths: set<int>, v: string, keywords: seq<string>,
                             allWordLength: bool, keywordFilter: bool)
    requires Consistent(pattern, lengths)
    ensures var r := AddVariant(pattern, lengths, v, keywords, allWordLength, keywordFilter);
      Consistent(r.0, r.1)
  {
    var r := AddVariant(pattern, lengths, v, keywords, allWordLength, keywordFilter);
    if r.0 == pattern + [v] {
      assert v in pattern ==> |v| in Lengths(pattern);
      assert Lengths(pattern + [v]) == Lengths(pattern) + {|v|};
    }
  }

  /**
   * UpdatePattern as written: under UseKanji (the -kanji option) the list
   * starts with the surface but records no length for it, so the
   * bookkeeping is inconsistent from the start; without it the list starts
   * empty, as the corrected start does.
   */
  function StartPatternAsWritten(surface: string, useKanji: bool): (r: (seq<string>, set<int>))
    ensures useKanji ==> r.0 == [surface] && |surface| !in r.1
    ensures !useKanji ==> r.0 == [] && r.1 == {}
    ensures !useKanji ==> r == StartPattern(surface, false)
  {
    if useKanji then ([surface], {}) else ([], {})
  }

  /**
   * Under UseKanji and AllWordLength, a kana variant that spells the
   * surface (an all-hiragana phrase such as これは) is then appended a
   * second time.
   */
  lemma StartPatternAsWrittenDuplicates()
    ensures var start := StartPatternAsWritten("これは", true);
      var r := AddVariant(start.0, start.1, "これは", [], true, false);
      r.0 == ["これは", "これは"] && !NoDuplicates(r.0)
  {
    var r := AddVariant(["これは"], {}, "これは", [], true, false);
    assert r.0 == ["これは", "これは"];
    assert r.0[0] == r.0[1];
  }

  /** The corrected start records the surface's length, so AddVariant keeps the list duplicate-free. */
  function StartPattern(surface: string, useKanji: bool): (r: (seq<string>, set<int>))
    ensures Consistent(r.0, r.1)
    ensures useKanji ==> r.0 == [surface]
    ensures !useKanji ==> r.0 == []
  {
    if useKanji then
      assert Lengths([surface]) == {|surface|};
      ([surface], {|surface|})
    else
      assert Lengths([]) == {};
      ([], {})
  }

  // ---------------------------------------------------------------- same-length pruning

  /** The variants RemoveSameLengthPattern always keeps: keyword carriers and the given texts. */
  predicate Keeps(keywords: seq<string>, surface: string, kana: string, p: string)
  {
    HasKeyword(keywords, p) || Given(surface, kana, p)
  }

  /** The first loop of RemoveSameLengthPattern: the kept variants, in order. */
  function Kept(pattern: seq<string>, keywords: seq<string>, surface: string, kana: string): seq<string>
  {
    if |pattern| == 0 then []
    else
      var n := |pattern| - 1;
      var k := Kept(pattern[..n], keywords, surface, kana);
      if Keeps(keywords, surface, kana, pattern[n]) then k + [pattern[n]] else k
  }

  /** The first pass keeps exactly the keyword carriers and given texts. */
  lemma {:induction false} KeptProps(pattern: seq<string>, keywords: seq<string>, surface: string, kana: string)
    ensures var r := Kept(pattern, keywords, surface, kana);
      (forall i :: 0 <= i < |r| ==> Keeps(keywords, surface, kana, r[i]) && r[i] in pattern)
      && (forall p :: p in pattern && Keeps(keywords, surface, kana, p) ==> p in r)
    decreases |pattern|
  {
    if |pattern| > 0 {
      var n := |pattern| - 1;
      KeptProps(pattern[..n], keywords, surface, kana);
      assert pattern == pattern[..n] + [pattern[n]];
      assert forall x :: x in pattern[..n] ==> x in pattern;
      assert forall x :: x in pattern ==> x in pattern[..n] || x == pattern[n];
    }
  }

  /**
   * The second loop: the first variant of each length not yet in `seen`,
   * where lengths added along the way count as seen.
   */
  function Extra(pattern: seq<string>, seen: set<int>): seq<string>
  {
    if |pattern| == 0 then []
    else
      var n := |pattern| - 1;
      var e := Extra(pattern[..n], seen);
      if |pattern[n]| in seen + Lengths(e) then e else e + [pattern[n]]
  }

  /**
   * The second pass adds variants of unseen lengths only, at most one per
   * length, and between them and `seen` every length of the list occurs.
   */
  lemma ExtraProps(pattern: seq<string>, seen: set<int>)
    ensures var r := Extra(pattern, seen);
      (forall i :: 0 <= i < |r| ==> |r[i]| !in seen && r[i] in pattern)
      && (forall i, j :: 0 <= i < j < |r| ==> |r[i]| != |r[j]|)
      && Lengths(r) + seen == Lengths(pattern) + seen
  {
    ExtraMembers(pattern, seen);
    ExtraDistinct(pattern, seen);
    ExtraLengths(pattern, seen);
  }

  lemma {:induction false} ExtraMembers(pattern: seq<string>, seen: set<int>)
    ensures forall i :: 0 <= i < |Extra(pattern, seen)| ==>
      |Extra(pattern, seen)[i]| !in seen && Extra(pattern, seen)[i] in pattern
    decreases |pattern|
  {
    if |pattern| > 0 {
      var n := |pattern| - 1;
      var e := Extra(pattern[..n], seen);
      ExtraMembers(pattern[..n], seen);
      var r := Extra(pattern, seen);
      assert r == if |pattern[n]| in seen + Lengths(e) then e else e + [pattern[n]];
      forall i | 0 <= i < |r| ensures |r[i]| !in seen && r[i] in pattern {
        if i < |e| {
          assert r[i] == e[i] && e[i] in pattern[..n];
        } else {
          assert r[i] == pattern[n];
        }
      }
    }
  }

  lemma {:induction false} ExtraDistinct(pattern: seq<string>, seen: set<int>)
    ensures forall i, j :: 0 <= i < j < |Extra(pattern, seen)| ==> |Extra(pattern, seen)[i]| != |Extra(pattern, seen)[j]|
    decreases |pattern|
  {
    if |pattern| > 0 {
      var n := |pattern| - 1;
      var e := Extra(pattern[..n], seen);
      ExtraDistinct(pattern[..n], seen);
      var r := Extra(pattern, seen);
      assert r == if |pattern[n]| in seen + Lengths(e) then e else e + [pattern[n]];
      if |pattern[n]| !in seen + Lengths(e) {
        forall i, j | 0 <= i < j < |r| ensures |r[i]| != |r[j]| {
          assert r[i] == e[i];
          if j < |e| {
            assert r[j] == e[j];
          } else {
            assert |e[i]| in Lengths(e);
          }
        }
      }
    }
  }

  lemma {:induction false} ExtraLengths(pattern: seq<string>, seen: set<int>)
    ensures Lengths(Extra(pattern, seen)) + seen == Lengths(pattern) + seen
    decreases |pattern|
  {
    if |pattern| > 0 {
      var n := |pattern| - 1;
      var e := Extra(pattern[..n], seen);
      ExtraLengths(pattern[..n], seen);
      assert pattern == pattern[..n] + [pattern[n]];
      LengthsSnoc(pattern[..n], pattern[n]);
      if |pattern[n]| !in seen + Lengths(e) {
        LengthsSnoc(e, pattern[n]);
      }
    }
  }

  lemma LengthsSnoc(ps: seq<string>, x: string)
    ensures Lengths(ps + [x]) == Lengths(ps) + {|x|}
  {
  }

  lemma KeptStep(pattern: seq<string>, i: nat, keywords: seq<string>, surface: string, kana: string)
    requires i < |pattern|
    ensures Kept(pattern[..i + 1], keywords, surface, kana) ==
      Kept(pattern[..i], keywords, surface, kana)
      + (if Keeps(keywords, surface, kana, pattern[i]) then [pattern[i]] else [])
  {
    assert pattern[..i + 1][..i] == pattern[..i];
  }

  lemma ExtraStep(pattern: seq<string>, i: nat, seen: set<int>)
    requires i < |pattern|
    ensures var e := Extra(pattern[..i], seen);
      Extra(pattern[..i + 1], seen) == if |pattern[i]| in seen + Lengths(e) then e else e + [pattern[i]]
  {
    assert pattern[..i + 1][..i] == pattern[..i];
  }

  /** RemoveSameLengthPattern's result: the kept variants, then one extra variant per missing length. */
  function RemoveSameLength(pattern: seq<string>, keywords: seq<string>, surface: string, kana: string)
    : seq<string>
  {
    var k := Kept(pattern, keywords, surface, kana);
    k + Extra(pattern, Lengths(k))
  }

  /** The imperative version, with its two passes over the variants. */
  method RemoveSameLengthPattern(pattern: seq<string>, keywords: seq<string>, surface: string, kana: string)
    returns (r: seq<string>)
    ensures r == RemoveSameLength(pattern, keywords, surface, kana)
  {
    var le: set<int> := {};
    r := [];
    var i := 0;
    while i < |pattern|
      invariant 0 <= i <= |pattern|
      invariant r == Kept(pattern[..i], keywords, surface, kana)
      invariant le == Lengths(r)
    {
      KeptStep(pattern, i, keywords, surface, kana);
      if Keeps(keywords, surface, kana, pattern[i]) {
        LengthsSnoc(r, pattern[i]);
        r := r + [pattern[i]];
        le := le + {|pattern[i]|};
      }
      i := i + 1;
    }
    assert pattern[..i] == pattern;
    ghost var k := r;
    i := 0;
    while i < |pattern|
      invariant 0 <= i <= |pattern|
      invariant r == k + Extra(pattern[..i], Lengths(k))
      invariant le == Lengths(k) + Lengths(Extra(pattern[..i], Lengths(k)))
    {
      ExtraStep(pattern, i, Lengths(k));
      ghost var e := Extra(pattern[..i], Lengths(k));
      if |pattern[i]| !in le {
        LengthsSnoc(e, pattern[i]);
        r := r + [pattern[i]];
        le := le + {|pattern[i]|};
      }
      i := i + 1;
    }
    assert pattern[..i] == pattern;
  }

  lemma KeptLengths(pattern: seq<string>, keywords: seq<string>, surface: string, kana: string)
    ensures Lengths(Kept(pattern, keywords, surface, kana)) <= Lengths(pattern)
  {
    var k := Kept(pattern, keywords, surface, kana);
    KeptProps(pattern, keywords, surface, kana);
    forall x | x in Lengths(k) ensures x in Lengths(pattern) {
      var p :| p in k && |p| == x;
    }
  }

  /** Pruning never loses a length: every length present before is present after. */
  lemma RemoveSameLengthKeepsLengths(pattern: seq<string>, keywords: seq<string>, surface: string, kana: string)
    ensures Lengths(RemoveSameLength(pattern, keywords, surface, kana)) == Lengths(pattern)
  {
    var k := Kept(pattern, keywords, surface, kana);
    var e := Extra(pattern, Lengths(k));
    KeptLengths(pattern, keywords, surface, kana);
    ExtraProps(pattern, Lengths(k));
    assert Lengths(k + e) == Lengths(k) + Lengths(e);
  }

  lemma {:induction false} KeptConcat(a: seq<string>, b: seq<string>, keywords: seq<string>, surface: string, kana: string)
    ensures Kept(a + b, keywords, surface, kana) == Kept(a, keywords, surface, kana) + Kept(b, keywords, surface, kana)
    decreases |b|
  {
    if |b| == 0 {
      assert a + b == a;
    } else {
      var n := |b| - 1;
      assert (a + b)[..|a + b| - 1] == a + b[..n];
      KeptConcat(a, b[..n], keywords, surface, kana);
    }
  }

  lemma {:induction false} KeptAll(k: seq<string>, keywords: seq<string>, surface: string, kana: string)
    requires forall i :: 0 <= i < |k| ==> Keeps(keywords, surface, kana, k[i])
    ensures Kept(k, keywords, surface, kana) == k
    decreases |k|
  {
    if |k| > 0 {
      KeptAll(k[..|k| - 1], keywords, surface, kana);
    }
  }

  lemma {:induction false} KeptNone(e: seq<string>, keywords: seq<string>, surface: string, kana: string)
    requires forall i :: 0 <= i < |e| ==> !Keeps(keywords, surface, kana, e[i])
    ensures Kept(e, keywords, surface, kana) == []
    decreases |e|
  {
    if |e| > 0 {
      KeptNone(e[..|e| - 1], keywords, surface, kana);
    }
  }

  lemma {:induction false} ExtraConcat(a: seq<string>, b: seq<string>, seen: set<int>)
    ensures Extra(a + b, seen) == Extra(a, seen) + Extra(b, seen + Lengths(Extra(a, seen)))
    decreases |b|
  {
    if |b| == 0 {
      assert a + b == a;
    } else {
      var n := |b| - 1;
      var x := b[n];
      SplitLast(b);
      ConcatAssoc(a, b[..n], [x]);
      ExtraConcat(a, b[..n], seen);
      var ea := Extra(a, seen);
      var eb := Extra(b[..n], seen + Lengths(ea));
      ExtraSnoc(a + b[..n], x, seen);
      ExtraSnoc(b[..n], x, seen + Lengths(ea));
      LengthsConcat(ea, eb);
      ConcatAssoc(ea, eb, [x]);
    }
  }

  /** The second pass over one more variant adds it when its length is new. */
  lemma ExtraSnoc(front: seq<string>, x: string, seen: set<int>)
    ensures Extra(front + [x], seen)
      == if |x| in seen + Lengths(Extra(front, seen)) then Extra(front, seen) else Extra(front, seen) + [x]
  {
    var p := front + [x];
    assert p[..|p| - 1] == front && p[|p| - 1] == x;
  }

  lemma LengthsConcat(a: seq<string>, b: seq<string>)
    ensures Lengths(a + b) == Lengths(a) + Lengths(b)
  {
    InConcat(a, b);
  }

  lemma {:induction false} ExtraOfSeen(k: seq<string>, seen: set<int>)
    requires Lengths(k) <= seen
    ensures Extra(k, seen) == []
    decreases |k|
  {
    if |k| > 0 {
      var n := |k| - 1;
      assert Lengths(k[..n]) <= Lengths(k) by {
        forall x | x in Lengths(k[..n]) ensures x in Lengths(k) {
          var p :| p in k[..n] && |p| == x;
        }
      }
      ExtraOfSeen(k[..n], seen);
      assert |k[n]| in Lengths(k);
    }
  }

  lemma {:induction false} ExtraOfDistinct(e: seq<string>, seen: set<int>)
    requires forall i :: 0 <= i < |e| ==> |e[i]| !in seen
    requires forall i, j :: 0 <= i < j < |e| ==> |e[i]| != |e[j]|
    ensures Extra(e, seen) == e
    decreases |e|
  {
    if |e| > 0 {
      var n := |e| - 1;
      var front := e[..n];
      assert forall i :: 0 <= i < n ==> front[i] == e[i];
      ExtraOfDistinct(front, seen);
      LastLengthNew(e, seen);
      ExtraKeepsLast(e, seen);
    }
  }

  /** When the earlier variants all survive and the last length is new, the whole list survives. */
  lemma ExtraKeepsLast(e: seq<string>, seen: set<int>)
    requires |e| > 0
    requires Extra(e[..|e| - 1], seen) == e[..|e| - 1]
    requires |e[|e| - 1]| !in seen + Lengths(e[..|e| - 1])
    ensures Extra(e, seen) == e
  {
    SplitLast(e);
  }

  lemma SplitLast(e: seq<string>)
    requires |e| > 0
    ensures e[..|e| - 1] + [e[|e| - 1]] == e
  {
  }

  /** In a list of distinct unseen lengths, the last length is neither seen nor among the earlier ones. */
  lemma LastLengthNew(e: seq<string>, seen: set<int>)
    requires |e| > 0
    requires forall i :: 0 <= i < |e| ==> |e[i]| !in seen
    requires forall i, j :: 0 <= i < j < |e| ==> |e[i]| != |e[j]|
    ensures |e[|e| - 1]| !in seen + Lengths(e[..|e| - 1])
  {
    var n := |e| - 1;
    var front := e[..n];
    forall x | x in Lengths(front) ensures x != |e[n]| {
      var q :| q in front && |q| == x;
      var j :| 0 <= j < n && front[j] == q;
      assert front[j] == e[j];
    }
  }

  lemma KeptOfPruned(k: seq<string>, e: seq<string>, keywords: seq<string>, surface: string, kana: string)
    requires forall i :: 0 <= i < |k| ==> Keeps(keywords, surface, kana, k[i])
    requires forall i :: 0 <= i < |e| ==> !Keeps(keywords, surface, kana, e[i])
    ensures Kept(k + e, keywords, surface, kana) == k
  {
    KeptConcat(k, e, keywords, surface, kana);
    KeptAll(k, keywords, surface, kana);
    KeptNone(e, keywords, surface, kana);
    assert k + [] == k;
  }

  lemma ExtraOfPruned(k: seq<string>, e: seq<string>)
    requires forall i :: 0 <= i < |e| ==> |e[i]| !in Lengths(k)
    requires forall i, j :: 0 <= i < j < |e| ==> |e[i]| != |e[j]|
    ensures Extra(k + e, Lengths(k)) == e
  {
    ExtraConcat(k, e, Lengths(k));
    ExtraOfSeen(k, Lengths(k));
    assert Lengths(k) + Lengths([]) == Lengths(k);
    ExtraOfDistinct(e, Lengths(k));
    assert [] + e == e;
  }

  /** Pruning twice is pruning once. */
  lemma RemoveSameLengthIdempotent(pattern: seq<string>, keywords: seq<string>, surface: string, kana: string)
    ensures var r := RemoveSameLength(pattern, keywords, surface, kana);
      RemoveSameLength(r, keywords, surface, kana) == r
  {
    var k := Kept(pattern, keywords, surface, kana);
    var e := Extra(pattern, Lengths(k));
    KeptProps(pattern, keywords, surface, kana);
    ExtraProps(pattern, Lengths(k));
    assert forall y :: y in k ==> |y| in Lengths(k);
    forall i | 0 <= i < |e| ensures !Keeps(keywords, surface, kana, e[i]) {
      var x := e[i];
      assert x in pattern && |x| !in Lengths(k);
      assert x !in k;
    }
    KeptOfPruned(k, e, keywords, surface, kana);
    ExtraOfPruned(k, e);
  }

  // ---------------------------------------------------------------- maximum length and keyword index

  /** UpdatePatternMaxLength: the longest variant's length, 0 without variants. */
  function MaxLength(pattern: seq<string>): (r: nat)
    ensures forall i :: 0 <= i < |pattern| ==> |pattern[i]| <= r
    ensures |pattern| == 0 ==> r == 0
    ensures |pattern| > 0 ==> exists i :: 0 <= i < |pattern| && |pattern[i]| == r
  {
    if |pattern| == 0 then 0
    else
      var m := MaxLength(pattern[..|pattern| - 1]);
      if m < |pattern[|pattern| - 1]| then |pattern[|pattern| - 1]| else m
  }

  /**
   * The inner scan of MarkKeywordPos over one variant: every offset at or
   * after `from` holding `c` gets variant number `m` appended.
   */
  function AddOccurrences(mp: map<int, seq<int>>, row: string, c: char, m: int, from: nat)
    : map<int, seq<int>>
    decreases |row| - from
  {
    var r := Index(row, [c], from);
    if r == -1 then mp
    else AddOccurrences(mp[r := Listed(mp, r) + [m]], row, c, m, r + 1)
  }

  lemma {:induction false} AddOccurrencesAt(mp: map<int, seq<int>>, row: string, c: char, m: int, from: nat, k: int)
    ensures AddedAt(AddOccurrences(mp, row, c, m, from), mp, row, c, m, from, k)
    decreases |row| - from
  {
    var r := Index(row, [c], from);
    OccursAtRune(row, c, k);
    if r != -1 {
      OccursAtRune(row, c, r);
      var mp' := mp[r := Listed(mp, r) + [m]];
      AddOccurrencesAt(mp', row, c, m, r + 1, k);
      AddedStep(AddOccurrences(mp', row, c, m, r + 1), mp, row, c, m, from, r, k);
    }
  }

  /** The list kept at offset `k`, empty when there is none. */
  function Listed(mp: map<int, seq<int>>, k: int): seq<int>
  {
    if k in mp then mp[k] else []
  }

  /** Offset `k` of `row`, at or after `from`, holds `c`. */
  predicate Hit(row: string, c: char, from: int, k: int)
  {
    from <= k && 0 <= k < |row| && row[k] == c
  }

  /** After the scan from `from`, offset `k` lists what it listed before, then `m` when it holds `c`. */
  predicate AddedAt(res: map<int, seq<int>>, mp: map<int, seq<int>>, row: string, c: char, m: int, from: int, k: int)
  {
    (k in res <==> k in mp || Hit(row, c, from, k))
    && (k in res ==> res[k] == Listed(mp, k) + (if Hit(row, c, from, k) then [m] else []))
  }

  /** Recording the first hit `r` at or after `from`, then scanning on from `r + 1`, is scanning from `from`. */
  lemma AddedStep(res: map<int, seq<int>>, mp: map<int, seq<int>>, row: string, c: char, m: int, from: int, r: int, k: int)
    requires Hit(row, c, from, r) && (from <= k < r ==> !Hit(row, c, from, k))
    requires AddedAt(res, mp[r := Listed(mp, r) + [m]], row, c, m, r + 1, k)
    ensures AddedAt(res, mp, row, c, m, from, k)
  {
  }

  /** The variants (below `upto`) holding `c` at offset `r`, in increasing order. */
  function Column(pattern: seq<string>, c: char, r: int, upto: nat): seq<int>
    requires upto <= |pattern|
  {
    if upto == 0 then []
    else
      var m := upto - 1;
      Column(pattern, c, r, m) + (if 0 <= r < |pattern[m]| && pattern[m][r] == c then [m] else [])
  }

  /** A column lists exactly the variants holding `c` at offset `r`, in increasing order. */
  lemma {:induction false} ColumnProps(pattern: seq<string>, c: char, r: int, upto: nat)
    requires upto <= |pattern|
    ensures Holders(Column(pattern, c, r, upto), pattern, c, r, upto) && Ascending(Column(pattern, c, r, upto))
  {
    if upto > 0 {
      var m := upto - 1;
      ColumnProps(pattern, c, r, m);
      var prev := Column(pattern, c, r, m);
      if 0 <= r < |pattern[m]| && pattern[m][r] == c {
        assert Column(pattern, c, r, upto) == prev + [m];
        InConcat(prev, [m]);
        AscendingSnoc(prev, m);
      } else {
        assert Column(pattern, c, r, upto) == prev;
      }
    }
  }

  /** `res` holds exactly the variants below `upto` that have `c` at offset `r`. */
  ghost predicate Holders(res: seq<int>, pattern: seq<string>, c: char, r: int, upto: nat)
    requires upto <= |pattern|
  {
    forall m :: m in res <==> 0 <= m < upto && 0 <= r < |pattern[m]| && pattern[m][r] == c
  }

  /** The keyword index for one rune: offset to the list of variants holding it there. */
  function Positions(pattern: seq<string>, c: char, upto: nat): map<int, seq<int>>
    requires upto <= |pattern|
  {
    if upto == 0 then map[]
    else AddOccurrences(Positions(pattern, c, upto - 1), pattern[upto - 1], c, upto - 1, 0)
  }

  /** The index for one rune holds, at each offset, exactly that offset's column. */
  lemma {:induction false} PositionsAt(pattern: seq<string>, c: char, upto: nat, r: int)
    requires upto <= |pattern|
    ensures var res := Positions(pattern, c, upto);
      (r in res <==> Column(pattern, c, r, upto) != [])
      && (r in res ==> res[r] == Column(pattern, c, r, upto))
  {
    if upto > 0 {
      PositionsAt(pattern, c, upto - 1, r);
      AddOccurrencesAt(Positions(pattern, c, upto - 1), pattern[upto - 1], c, upto - 1, 0, r);
    }
  }

  /** MarkKeywordPos: one index per rune of each keyword. */
  function MarkKeywordPos(keywords: seq<string>, pattern: seq<string>): (res: seq<seq<map<int, seq<int>>>>)
    ensures |res| == |keywords|
    ensures forall i :: 0 <= i < |keywords| ==> |res[i]| == |keywords[i]|
  {
    seq(|keywords|, i requires 0 <= i < |keywords| =>
      seq(|keywords[i]|, k requires 0 <= k < |keywords[i]| => Positions(pattern, keywords[i][k], |pattern|)))
  }

  /**
   * A variant is listed under offset r for rune k of keyword i exactly when
   * it holds that rune there, and each list ascends.
   */
  lemma MarkKeywordPosSpec(keywords: seq<string>, pattern: seq<string>, i: nat, k: nat, r: int)
    requires i < |keywords| && k < |keywords[i]|
    ensures var pos := MarkKeywordPos(keywords, pattern)[i][k];
      (forall m :: (r in pos && m in pos[r]) <==> 0 <= m < |pattern| && 0 <= r < |pattern[m]| && pattern[m][r] == keywords[i][k])
      && (r in pos ==> forall a, b :: 0 <= a < b < |pos[r]| ==> pos[r][a] < pos[r][b])
  {
    var pos := MarkKeywordPos(keywords, pattern)[i][k];
    assert pos == Positions(pattern, keywords[i][k], |pattern|);
    PositionsAt(pattern, keywords[i][k], |pattern|, r);
    ColumnProps(pattern, keywords[i][k], r, |pattern|);
  }

  /**
   * The end of UpdatePattern: cut the list to WordPatternLimit, then
   * recompute the maximum length and the keyword index on what is left. A
   * negative limit makes the slice panic.
   */
  function FinishPattern(bp: BasicPhrase, limit: int): (r: Option<BasicPhrase>)
    ensures r.Some? <==> limit >= 0
    ensures r.Some? ==> (|r.value.pattern| <= limit && |r.value.pattern| <= |bp.pattern|
      && r.value.pattern == bp.pattern[..|r.value.pattern|]
      && (|bp.pattern| <= limit ==> r.value.pattern == bp.pattern)
      && (|bp.pattern| > limit ==> r.value.pattern == bp.pattern[..limit])
      && r.value.patternMaxLength == MaxLength(r.value.pattern)
      && r.value.keywordPos == MarkKeywordPos(bp.keywords, r.value.pattern))
  {
    if limit < 0 then None
    else
      var kept := if |bp.pattern| > limit then bp.pattern[..limit] else bp.pattern;
      Some(bp.(pattern := kept, patternMaxLength := MaxLength(kept),
               keywordPos := MarkKeywordPos(bp.keywords, kept)))
  }

  /** After FinishPattern, every variant number in the keyword index names a surviving variant. */
  lemma FinishPatternIndexInRange(bp: BasicPhrase, limit: int, i: nat, k: nat, r: int, m: int)
    requires limit >= 0
    requires i < |bp.keywords| && k < |bp.keywords[i]|
    requires var pos := FinishPattern(bp, limit).value.keywordPos[i][k]; r in pos && m in pos[r]
    ensures 0 <= m < limit && m < |bp.pattern|
  {
    var b := FinishPattern(bp, limit).value;
    MarkKeywordPosSpec(bp.keywords, b.pattern, i, k, r);
  }
}

=== FILE: case_analysis.dfy ===
/** The side of a case-analysis annotation (case_analysis.go). */
module CaseAnalysis {
  import Runes

  type CaseAnalysisType = int

  const NoneSide: CaseAnalysisType := 0
  const PredicateSide: CaseAnalysisType := 1
  const CaseElementSide: CaseAnalysisType := 2

  const PredicateTag := "<格解析結果:"
  const CaseTag := "<解析格:"
  const ConnectionTag := "解析連絡:"

  /**
   * GetCaseAnalysisType: a predicate tag wins; otherwise an analysed-case tag
   * or a connection tag (which needs no '<') marks the case-element side.
   */
  function GetCaseAnalysisType(t: string): (r: CaseAnalysisType)
    ensures r == PredicateSide <==> Runes.Contains(t, PredicateTag)
    ensures r == CaseElementSide <==>
      !Runes.Contains(t, PredicateTag) && (Runes.Contains(t, CaseTag) || Runes.Contains(t, ConnectionTag))
    ensures r == NoneSide <==>
      !Runes.Contains(t, PredicateTag) && !Runes.Contains(t, CaseTag) && !Runes.Contains(t, ConnectionTag)
  {
    Runes.IndexFindsContains(t, PredicateTag);
    Runes.IndexFindsContains(t, CaseTag);
    Runes.IndexFindsContains(t, ConnectionTag);
    if Runes.Index(t, PredicateTag, 0) != -1 then PredicateSide
    else if Runes.Index(t, CaseTag, 0) != -1 then CaseElementSide
    else if Runes.Index(t, ConnectionTag, 0) != -1 then CaseElementSide
    else NoneSide
  }

  function String(c: CaseAnalysisType): (s: string)
    ensures c == PredicateSide ==> s == "述語側"
    ensures c == CaseElementSide ==> s == "格要素側"
    ensures c != PredicateSide && c != CaseElementSide ==> s == "なし"
  {
    if c == PredicateSide then "述語側"
    else if c == CaseElementSide then "格要素側"
    else "なし"
  }

  /** A text holding both tags is on the predicate side: that check comes first. */
  lemma PredicateTagWins(t: string)
    requires Runes.Contains(t, PredicateTag) && Runes.Contains(t, CaseTag)
    ensures GetCaseAnalysisType(t) == PredicateSide
  {
  }

  /** The three sides print as three different names. */
  lemma StringInjective(a: CaseAnalysisType, b: CaseAnalysisType)
    requires NoneSide <= a <= CaseElementSide && NoneSide <= b <= CaseElementSide
    ensures String(a) == String(b) <==> a == b
  {
  }
}

=== FILE: case_element.dfy ===
/**
 * The case-element side of a KNP case analysis (case_element.go): the
 * analysed case `<解析格:…>` and the analysed connection `<解析連絡:…>` of one
 * basic-phrase line.
 */
module CaseElements {
  import opened Runes
  import CA = CaseAnalysis

  datatype CaseElement = CaseElement(
    basicPhrase: string,
    analysisCase: string,
    hasAnalysisCase: bool,
    analysisConnection: string,
    hasAnalysisConnection: bool)

  const CaseTag := "<解析格:"
  const ConnectionTag := "<解析連絡:"

  function NewCaseElement(bp: string): CaseElement
  {
    CaseElement(bp, "", false, "", false)
  }

  /**
   * CaseElement.Analyze on a fresh element: each tag, when present, must be
   * closed by a later '>' and gives its value; an element with neither tag is
   * an error.
   */
  function Analyze(bp: string): (r: Result<CaseElement>)
    ensures r.Ok? <==>
      TagContent(bp, CaseTag) != Unclosed && TagContent(bp, ConnectionTag) != Unclosed
      && (Contains(bp, CaseTag) || Contains(bp, ConnectionTag))
    ensures r.Ok? ==> r.value.basicPhrase == bp
    ensures r.Ok? ==> (r.value.hasAnalysisCase <==> Contains(bp, CaseTag))
    ensures r.Ok? ==> (r.value.hasAnalysisConnection <==> Contains(bp, ConnectionTag))
    ensures r.Ok? && r.value.hasAnalysisCase ==> TagContent(bp, CaseTag) == Closed(r.value.analysisCase)
    ensures r.Ok? && r.value.hasAnalysisConnection ==>
      TagContent(bp, ConnectionTag) == Closed(r.value.analysisConnection)
  {
    var c := TagContent(bp, CaseTag);
    var n := TagContent(bp, ConnectionTag);
    if c.Unclosed? then Err("CaseElement.Analyze found begin of AnalysisCase, but not found end of.")
    else if n.Unclosed? then Err("CaseElement.Analyze found begin of AnalysisConnection, but not found end of.")
    else if c.Absent? && n.Absent? then Err("CaseElement.Text has not contain any of case element tags")
    else Ok(CaseElement(bp,
      if c.Closed? then c.value else "", c.Closed?,
      if n.Closed? then n.value else "", n.Closed?))
  }

  /** A line carrying one analysed-case tag parses back to that value. */
  lemma AnalyzeFormattedCase(pre: string, v: string, post: string)
    requires '<' !in pre && '>' !in v
    requires !Contains(pre + CaseTag + v + ">" + post, ConnectionTag)
    ensures Analyze(pre + CaseTag + v + ">" + post)
      == Ok(CaseElement(pre + CaseTag + v + ">" + post, v, true, "", false))
  {
    TagContentFormatted(pre, CaseTag, v, post);
    var s := pre + CaseTag + v + ">" + post;
    IndexFindsContains(s, CaseTag);
  }

  /**
   * A line the element parser accepts is classified on the case-element
   * side, unless it also carries a predicate tag, which is checked first.
   */
  lemma AnalyzedIsCaseSide(bp: string)
    requires Analyze(bp).Ok?
    ensures CA.GetCaseAnalysisType(bp) != CA.NoneSide
    ensures !Contains(bp, CA.PredicateTag) ==> CA.GetCaseAnalysisType(bp) == CA.CaseElementSide
  {
    if !Contains(bp, CaseTag) {
      var i :| 0 <= i <= |bp| - |ConnectionTag| && OccursAt(bp, ConnectionTag, i);
      assert bp[i + 1..i + |ConnectionTag|] == bp[i..i + |ConnectionTag|][1..];
      assert OccursAt(bp, CA.ConnectionTag, i + 1);
    }
  }

  /**
   * CaseElement.Copy as written: the connection value is copied but its flag
   * is not (the case flag is assigned twice instead).
   */
  function CopyAsWritten(c: CaseElement): (r: CaseElement)
    ensures r.basicPhrase == c.basicPhrase && r.analysisCase == c.analysisCase
    ensures r.hasAnalysisCase == c.hasAnalysisCase && r.analysisConnection == c.analysisConnection
    ensures !r.hasAnalysisConnection
  {
    var e := NewCaseElement(c.basicPhrase);
    e.(analysisCase := c.analysisCase, hasAnalysisCase := c.hasAnalysisCase,
      analysisConnection := c.analysisConnection)
  }

  /** A connection-only element loses its only tag flag when copied. */
  lemma CopyAsWrittenDropsConnection()
    ensures var c := Analyze("<解析連絡:ノ>");
      c.Ok? && c.value.hasAnalysisConnection && !CopyAsWritten(c.value).hasAnalysisConnection
      && !CopyAsWritten(c.value).hasAnalysisCase
  {
    TagContentFormatted("", ConnectionTag, "ノ", "");
    assert "" + ConnectionTag + "ノ" + ">" + "" == "<解析連絡:ノ>";
    var s := "<解析連絡:ノ>";
    assert !Contains(s, CaseTag) by {
      forall i | 0 <= i <= |s| - |CaseTag|
        ensures !OccursAt(s, CaseTag, i)
      {
        assert 0 <= i <= 3;
        assert s[i..i + |CaseTag|][3] == s[i + 3] != '格' == CaseTag[3];
      }
    }
    IndexFindsContains(s, CaseTag);
  }

  /** CaseElement.Copy with every field copied, the connection flag included. */
  function Copy(c: CaseElement): (r: CaseElement)
    ensures r == c
  {
    var e := NewCaseElement(c.basicPhrase);
    e.(analysisCase := c.analysisCase, hasAnalysisCase := c.hasAnalysisCase,
      analysisConnection := c.analysisConnection, hasAnalysisConnection := c.hasAnalysisConnection)
  }
}

=== FILE: jumanknp.dfy ===
/**
 * The pure helpers of the JUMAN/KNP wrapper (jumanknp.go): the dictionary
 * form of a word, the past and polite form tests, and the lookup in the
 * inflection table. The analyser processes themselves are not modelled: the
 * inflection type the analyser reports for a word is passed in.
 */
module JumanKnp {
  import opened Runes

  /** The endings Origin strips two runes for, joined by ';' as in the source. */
  const TwoRuneEndings := "する;ます"

  /**
   * Origin: the dictionary-form stem. When the last two runes occur anywhere
   * in "する;ます" two runes are dropped, otherwise one. The source slices
   * `text[:len(text)-1]`, so the text must not be empty.
   */
  function Origin(text: string): (r: string)
    requires |text| >= 1
    ensures |r| < |text| && r == text[..|r|]
    ensures |r| == |text| - 2 <==> |text| >= 2 && Contains(TwoRuneEndings, text[|text| - 2..])
    ensures |r| == |text| - 1 <==> !(|text| >= 2 && Contains(TwoRuneEndings, text[|text| - 2..]))
  {
    IndexFindsContains(TwoRuneEndings, if |text| >= 2 then text[|text| - 2..] else "");
    if |text| >= 2 && Index(TwoRuneEndings, text[|text| - 2..], 0) >= 0 then text[..|text| - 2]
    else text[..|text| - 1]
  }

  /** The two-rune windows of "する;ます": "する", "る;", ";ま", "ます". */
  lemma TwoRuneWindows(w: string)
    requires |w| == 2
    ensures Contains(TwoRuneEndings, w) <==> w in {"する", "る;", ";ま", "ます"}
  {
    if Contains(TwoRuneEndings, w) {
      var i :| 0 <= i <= |TwoRuneEndings| - 2 && OccursAt(TwoRuneEndings, w, i);
      assert i == 0 || i == 1 || i == 2 || i == 3;
    }
    if w == "する" { assert OccursAt(TwoRuneEndings, w, 0); }
    if w == "る;" { assert OccursAt(TwoRuneEndings, w, 1); }
    if w == ";ま" { assert OccursAt(TwoRuneEndings, w, 2); }
    if w == "ます" { assert OccursAt(TwoRuneEndings, w, 3); }
  }

  /** Origin strips a する or ます ending, and also the separator window "る;". */
  lemma OriginStripsEnding(stem: string, ending: string)
    requires ending in {"する", "ます", "る;", ";ま"}
    ensures Origin(stem + ending) == stem
  {
    var t := stem + ending;
    assert t[|t| - 2..] == ending;
    TwoRuneWindows(ending);
    assert t[..|t| - 2] == stem;
  }

  /** Any other ending loses only its last rune. */
  lemma OriginDropsLastRune(stem: string, c: char)
    requires |stem| >= 1 && [stem[|stem| - 1], c] !in {"する", "ます", "る;", ";ま"}
    ensures Origin(stem + [c]) == stem
  {
    var t := stem + [c];
    assert t[|t| - 2..] == [stem[|stem| - 1], c];
    TwoRuneWindows(t[|t| - 2..]);
    assert t[..|t| - 1] == stem;
  }

  /** IsPast: the form name ends in タ形; the source slices the last two runes. */
  predicate IsPast(form: string)
    requires |form| >= 2
  {
    form[|form| - 2..] == "タ形"
  }

  /** IsInflectionPolite: the form name begins with デス列. */
  predicate IsInflectionPolite(form: string)
    requires |form| >= 3
  {
    form[..3] == "デス列"
  }

  lemma IsPastExactly(stem: string, tail: string)
    requires |tail| == 2
    ensures IsPast(stem + tail) <==> tail == "タ形"
  {
    assert (stem + tail)[|stem + tail| - 2..] == tail;
  }

  lemma IsInflectionPoliteExactly(head: string, rest: string)
    requires |head| == 3
    ensures IsInflectionPolite(head + rest) <==> head == "デス列"
  {
    assert (head + rest)[..3] == head;
  }

  /** The inflection table: inflection type, then form name, then ending ("*" for none). */
  type InflectionDB = map<string, map<string, string>>

  datatype Inflected = Inflected(inflectionType: string, surface: string, ok: bool)

  /**
   * The lookup step of Inflection, given the type the analyser reported for
   * `text` ("" when it reported none): the ending for the form is appended
   * to the stem; "*" means the form does not exist.
   */
  function Inflection(db: InflectionDB, itype: string, text: string, form: string): (r: Inflected)
    requires |text| >= 1
    ensures r.ok <==> itype != "" && itype in db && form in db[itype] && db[itype][form] != "*"
    ensures r.ok ==> r.surface == Origin(text) + db[itype][form] && r.inflectionType == itype
    ensures !r.ok ==> r.surface == ""
  {
    if itype == "" then Inflected("", "", false)
    else if itype in db && form in db[itype] then
      var a := db[itype][form];
      if a == "*" then Inflected(itype, "", false)
      else Inflected(itype, Origin(text) + a, true)
    else Inflected(itype, "", false)
  }

  /** The example the repository's test pins: 歩く in 意志形 is 歩こう. */
  lemma InflectionWalkVolitional()
    ensures var db := map["子音動詞カ行" := map["意志形" := "こう"]];
      Inflection(db, "子音動詞カ行", "歩く", "意志形") == Inflected("子音動詞カ行", "歩こう", true)
  {
    var db := map["子音動詞カ行" := map["意志形" := "こう"]];
    WalkOrigin("歩く");
    InflectionFound(db, "子音動詞カ行", "歩く", "意志形", "こう");
    assert "歩" + "こう" == "歩こう";
  }

  lemma WalkOrigin(w: string)
    requires w == "歩く"
    ensures Origin(w) == "歩"
  {
    OriginDropsLastRune("歩", 'く');
    assert "歩" + ['く'] == "歩く";
  }

  /** A listed ending other than "*" is appended to the stem. */
  lemma InflectionFound(db: InflectionDB, itype: string, text: string, form: string, a: string)
    requires |text| >= 1 && itype != "" && itype in db && form in db[itype] && db[itype][form] == a && a != "*"
    ensures Inflection(db, itype, text, form) == Inflected(itype, Origin(text) + a, true)
  {
  }

  /** The analyser's reported type for a word, or "" when it has none. */
  function TypeOf(types: map<string, string>, text: string): string
  {
    if text in types then types[text] else ""
  }

  /**
   * InflectionPolite: the 基本連用形 of the word (its stem when that form is
   * missing) followed by ます inflected into the requested form.
   */
  function InflectionPolite(db: InflectionDB, types: map<string, string>, text: string, form: string)
    : (r: (string, bool))
    requires |text| >= 1
    ensures r.1 <==> Inflection(db, TypeOf(types, "ます"), "ます", form).ok
    ensures r.1 ==> (exists stem ::
      (r.0 == stem + Inflection(db, TypeOf(types, "ます"), "ます", form).surface
       && (stem == Origin(text) || stem == Inflection(db, TypeOf(types, text), text, "基本連用形").surface)))
    ensures !r.1 ==> r.0 == ""
  {
    var base := Inflection(db, TypeOf(types, text), text, "基本連用形");
    var stem := if base.ok then base.surface else Origin(text);
    var polite := Inflection(db, TypeOf(types, "ます"), "ます", form);
    if polite.ok then (stem + polite.surface, true) else ("", false)
  }

  /** Without a 基本連用形 entry the polite form is built on the dictionary stem. */
  lemma InflectionPoliteFallback(db: InflectionDB, types: map<string, string>, text: string, form: string)
    requires |text| >= 1 && !Inflection(db, TypeOf(types, text), text, "基本連用形").ok
    requires Inflection(db, TypeOf(types, "ます"), "ます", form).ok
    ensures InflectionPolite(db, types, text, form).0 ==
      Origin(text) + Origin("ます") + db[TypeOf(types, "ます")][form]
  {
  }
}

=== FILE: kana.dfy ===
/**
 * The kana tables and the character-class helpers of kana.go: HasOnlyKana,
 * KatakanaToHiragana and Wide. Each table is the source's string constant,
 * spelled here as its newline-separated rows so that facts about the rows can
 * be proved one row at a time and then lifted to the whole table.
 */
module Kana {
  import Runes

  const HiraganaRow1 := "ぁあぃいぅうぇえぉおかがきぎくぐ"
  const HiraganaRow2 := "けげこごさざしじすずせぜそぞただ"
  const HiraganaRow3 := "ちぢっつづてでとどなにぬねのはば"
  const HiraganaRow4 := "ぱひびぴふぶぷへべぺほぼぽまみむ"
  const HiraganaRow5 := "めもゃやゅゆょよらりるれろゎわゐ"
  const HiraganaRow6 := "ゑをんー・ゔヵヶ"

  const KatakanaRow1 := "ァアィイゥウェエォオカガキギクグ"
  const KatakanaRow2 := "ケゲコゴサザシジスズセゼソゾタダ"
  const KatakanaRow3 := "チヂッツヅテデトドナニヌネノハバ"
  const KatakanaRow4 := "パヒビピフブプヘベペホボポマミム"
  const KatakanaRow5 := "メモャヤュユョヨラリルレロヮワヰ"
  const KatakanaRow6 := "ヱヲンー・ヴヵヶ"

  /** HiraganaList: a leading newline, then the rows separated by newlines. */
  const HiraganaList := "\n" + HiraganaRow1 + "\n" + HiraganaRow2 + "\n" + HiraganaRow3
    + "\n" + HiraganaRow4 + "\n" + HiraganaRow5 + "\n" + HiraganaRow6

  /** KatakanaList, laid out exactly like HiraganaList. */
  const KatakanaList := "\n" + KatakanaRow1 + "\n" + KatakanaRow2 + "\n" + KatakanaRow3
    + "\n" + KatakanaRow4 + "\n" + KatakanaRow5 + "\n" + KatakanaRow6

  const NumberList := "0123456789-"
  const NumberZenkakuList := "０１２３４５６７８９"

  const AlphabetUpper := "ABCDEFGHIJKLMNOPQRSTUVWXYZ"
  const AlphabetLower := "abcdefghijklmnopqrstuvwxyz"
  const AlphabetList := AlphabetUpper + AlphabetLower + "., %"

  const AlphabetZenkakuRow1 := "ＡＢＣＤＥＦＧＨＩＪＫＬＭＮＯＰ"
  const AlphabetZenkakuRow2 := "ＱＲＳＴＵＶＷＸＹＺａｂｃｄｅｆ"
  const AlphabetZenkakuRow3 := "ｇｈｉｊｋｌｍｎｏｐｑｒｓｔｕｖ"
  const AlphabetZenkakuRow4 := "ｗｘｙｚ．，％　"
  const AlphabetZenkakuList := "\n" + AlphabetZenkakuRow1 + "\n" + AlphabetZenkakuRow2
    + "\n" + AlphabetZenkakuRow3 + "\n" + AlphabetZenkakuRow4

  // ------------------------------------------------------------ reference

  /**
   * Reference conversion of one rune: the katakana letters U+30A1..U+30F4
   * move down by 0x60 to their hiragana; every other rune is unchanged.
   */
  function HiraganaOf(c: char): char
  {
    if 'ァ' <= c <= 'ヴ' then (c as int - 0x60) as char else c
  }

  /**
   * Reference class of the runes HasOnlyKana accepts: the newline, hiragana
   * U+3041..U+3094, katakana U+30A1..U+30F6, the middle dot and the long
   * vowel mark, ASCII digits, '-', letters, '.', ',', ' ', '%', and the
   * full-width digits, letters, '．', '，', '％' and the ideographic space.
   */
  predicate KanaClass(c: char)
  {
    c == '\n'
    || 'ぁ' <= c <= 'ゔ' || 'ァ' <= c <= 'ヶ' || c == '・' || c == 'ー'
    || '0' <= c <= '9' || c == '-'
    || 'A' <= c <= 'Z' || 'a' <= c <= 'z' || c == '.' || c == ',' || c == ' ' || c == '%'
    || '０' <= c <= '９'
    || 'Ａ' <= c <= 'Ｚ' || 'ａ' <= c <= 'ｚ' || c == '．' || c == '，' || c == '％' || c == '　'
  }

  // ------------------------------------------------------------ operations

  predicate InTables(c: char)
  {
    c in HiraganaList || c in KatakanaList || c in NumberList
    || c in NumberZenkakuList || c in AlphabetList || c in AlphabetZenkakuList
  }

  /** HasOnlyKana: every rune of `text` occurs in one of the six lists. */
  predicate HasOnlyKana(text: string)
  {
    forall i :: 0 <= i < |text| ==> InTables(text[i])
  }

  /** The rune at the first position of `c` in KatakanaList, taken from HiraganaList. */
  function ToHiraganaRune(c: char): (h: char)
    ensures h == HiraganaOf(c)
  {
    TablesAligned();
    KatakanaCovered(c);
    Runes.ContainsRune(KatakanaList, c);
    Runes.IndexFindsContains(KatakanaList, [c]);
    var p := Runes.Index(KatakanaList, [c], 0);
    if p != -1 then
      Runes.OccursAtRune(KatakanaList, c, p);
      HiraganaList[p]
    else
      c
  }

  /** KatakanaToHiragana: each rune found in KatakanaList becomes its hiragana. */
  function KatakanaToHiragana(text: string): (r: string)
    ensures |r| == |text|
    ensures forall i :: 0 <= i < |text| ==> r[i] == HiraganaOf(text[i])
  {
    seq(|text|, i requires 0 <= i < |text| => ToHiraganaRune(text[i]))
  }

  /** Wide: numbers and ASCII letters are followed by a space. */
  function Wide(c: char): (r: string)
    ensures 1 <= |r| <= 2 && r[0] == c
    ensures |r| == 2 <==> ('0' <= c <= '9' || c == '-' || 'A' <= c <= 'Z' || 'a' <= c <= 'z'
                         || c == '.' || c == ',' || c == ' ' || c == '%')
    ensures |r| == 2 ==> r[1] == ' '
  {
    AsciiTables(c);
    if c in NumberList || c in AlphabetList then [c, ' '] else [c]
  }

  // ------------------------------------------------------------ properties

  lemma KatakanaToHiraganaIdempotent(text: string)
    ensures KatakanaToHiragana(KatakanaToHiragana(text)) == KatakanaToHiragana(text)
  {
  }

  /** Runes outside the katakana letters pass through unchanged. */
  lemma KatakanaToHiraganaKeepsOthers(text: string)
    requires forall i :: 0 <= i < |text| ==> !('ァ' <= text[i] <= 'ヴ')
    ensures KatakanaToHiragana(text) == text
  {
  }

  lemma HasOnlyKanaIsKanaClass(text: string)
    ensures HasOnlyKana(text) <==> forall i :: 0 <= i < |text| ==> KanaClass(text[i])
  {
    forall i | 0 <= i < |text| ensures InTables(text[i]) <==> KanaClass(text[i]) {
      TablesClass(text[i]);
    }
  }

  /** Converting to hiragana keeps a kana-only text kana-only. */
  lemma HasOnlyKanaKeptByConversion(text: string)
    requires HasOnlyKana(text)
    ensures HasOnlyKana(KatakanaToHiragana(text))
  {
    HasOnlyKanaIsKanaClass(text);
    HasOnlyKanaIsKanaClass(KatakanaToHiragana(text));
  }

  // ------------------------------------------------------------ table facts

  predicate Consecutive(row: string, start: int)
  {
    forall i :: 0 <= i < |row| ==> row[i] as int == start + i
  }

  predicate Converts(kata: string, hira: string)
  {
    |kata| == |hira| && forall i :: 0 <= i < |kata| ==> hira[i] == HiraganaOf(kata[i])
  }

  lemma ConvertsConcat(a: string, b: string, c: string, d: string)
    requires Converts(a, c) && Converts(b, d)
    ensures Converts(a + b, c + d)
  {
  }

  lemma ConsecutiveMember(row: string, start: int, c: char)
    requires Consecutive(row, start) && start <= c as int < start + |row|
    ensures c in row
  {
    assert row[c as int - start] == c;
  }

  lemma KatakanaRowsConsecutive()
    ensures Consecutive(KatakanaRow1, 0x30A1) && Consecutive(KatakanaRow2, 0x30B1)
    ensures Consecutive(KatakanaRow3, 0x30C1) && Consecutive(KatakanaRow4, 0x30D1)
    ensures Consecutive(KatakanaRow5, 0x30E1) && Consecutive(KatakanaRow6[..3], 0x30F1)
    ensures KatakanaRow6[5] == 'ヴ'
  {
  }

  lemma RowsConvert()
    ensures Converts(KatakanaRow1, HiraganaRow1) && Converts(KatakanaRow2, HiraganaRow2)
    ensures Converts(KatakanaRow3, HiraganaRow3) && Converts(KatakanaRow4, HiraganaRow4)
    ensures Converts(KatakanaRow5, HiraganaRow5) && Converts(KatakanaRow6, HiraganaRow6)
  {
    Row1Converts();
    Row2Converts();
    Row3Converts();
    Row4Converts();
    Row5Converts();
    Row6Converts();
  }

  lemma Row1Converts()
    ensures Converts(KatakanaRow1, HiraganaRow1)
  {
  }

  lemma Row2Converts()
    ensures Converts(KatakanaRow2, HiraganaRow2)
  {
  }

  lemma Row3Converts()
    ensures Converts(KatakanaRow3, HiraganaRow3)
  {
  }

  lemma Row4Converts()
    ensures Converts(KatakanaRow4, HiraganaRow4)
  {
  }

  lemma Row5Converts()
    ensures Converts(KatakanaRow5, HiraganaRow5)
  {
  }

  lemma Row6Converts()
    ensures Converts(KatakanaRow6, HiraganaRow6)
  {
  }

  /** The two lists are aligned: each hiragana entry is the reference image of its katakana entry. */
  lemma TablesAligned()
    ensures Converts(KatakanaList, HiraganaList)
  {
    RowsConvert();
    var nl := "\n";
    assert Converts(nl, nl);
    ConvertsConcat(nl, KatakanaRow1, nl, HiraganaRow1);
    ConvertsConcat(nl + KatakanaRow1, nl, nl + HiraganaRow1, nl);
    ConvertsConcat(nl + KatakanaRow1 + nl, KatakanaRow2, nl + HiraganaRow1 + nl, HiraganaRow2);
    var k2, h2 := nl + KatakanaRow1 + nl + KatakanaRow2, nl + HiraganaRow1 + nl + HiraganaRow2;
    ConvertsConcat(k2, nl, h2, nl);
    ConvertsConcat(k2 + nl, KatakanaRow3, h2 + nl, HiraganaRow3);
    var k3, h3 := k2 + nl + KatakanaRow3, h2 + nl + HiraganaRow3;
    ConvertsConcat(k3, nl, h3, nl);
    ConvertsConcat(k3 + nl, KatakanaRow4, h3 + nl, HiraganaRow4);
    var k4, h4 := k3 + nl + KatakanaRow4, h3 + nl + HiraganaRow4;
    ConvertsConcat(k4, nl, h4, nl);
    ConvertsConcat(k4 + nl, KatakanaRow5, h4 + nl, HiraganaRow5);
    var k5, h5 := k4 + nl + KatakanaRow5, h4 + nl + HiraganaRow5;
    ConvertsConcat(k5, nl, h5, nl);
    ConvertsConcat(k5 + nl, KatakanaRow6, h5 + nl, HiraganaRow6);
  }

  /** Every katakana letter U+30A1..U+30F4 occurs in KatakanaList. */
  lemma KatakanaCovered(c: char)
    ensures 'ァ' <= c <= 'ヴ' ==> c in KatakanaList
  {
    if 'ァ' <= c <= 'ヴ' {
      KatakanaRowsConsecutive();
      if c as int < 0x30B1 {
        ConsecutiveMember(KatakanaRow1, 0x30A1, c);
      } else if c as int < 0x30C1 {
        ConsecutiveMember(KatakanaRow2, 0x30B1, c);
      } else if c as int < 0x30D1 {
        ConsecutiveMember(KatakanaRow3, 0x30C1, c);
      } else if c as int < 0x30E1 {
        ConsecutiveMember(KatakanaRow4, 0x30D1, c);
      } else if c as int < 0x30F1 {
        ConsecutiveMember(KatakanaRow5, 0x30E1, c);
      } else if c as int < 0x30F4 {
        ConsecutiveMember(KatakanaRow6[..3], 0x30F1, c);
        assert c in KatakanaRow6;
      } else {
        assert c in KatakanaRow6;
      }
    }
  }

  lemma AsciiTables(c: char)
    ensures c in NumberList <==> ('0' <= c <= '9' || c == '-')
    ensures c in AlphabetList <==> ('A' <= c <= 'Z' || 'a' <= c <= 'z' || c == '.' || c == ',' || c == ' ' || c == '%')
  {
    NumberTable(c);
    if 'A' <= c <= 'Z' || 'a' <= c <= 'z' || c == '.' || c == ',' || c == ' ' || c == '%' {
      AlphabetTableComplete(c);
    }
    if c in AlphabetList {
      AlphabetTableSound(c);
    }
  }

  lemma NumberTable(c: char)
    ensures c in NumberList <==> ('0' <= c <= '9' || c == '-')
  {
    assert Consecutive(NumberList[..10], '0' as int);
    if '0' <= c <= '9' {
      ConsecutiveMember(NumberList[..10], '0' as int, c);
      assert c in NumberList;
    }
    if c in NumberList {
      var i :| 0 <= i < |NumberList| && NumberList[i] == c;
    }
  }

  lemma AlphabetTableComplete(c: char)
    requires 'A' <= c <= 'Z' || 'a' <= c <= 'z' || c == '.' || c == ',' || c == ' ' || c == '%'
    ensures c in AlphabetList
  {
    LettersConsecutive();
    if 'A' <= c <= 'Z' {
      ConsecutiveMember(AlphabetUpper, 'A' as int, c);
    } else if 'a' <= c <= 'z' {
      ConsecutiveMember(AlphabetLower, 'a' as int, c);
    } else {
      assert c in "., %";
    }
  }

  lemma AlphabetTableSound(c: char)
    requires c in AlphabetList
    ensures 'A' <= c <= 'Z' || 'a' <= c <= 'z' || c == '.' || c == ',' || c == ' ' || c == '%'
  {
    LettersConsecutive();
    Runes.InConcat(AlphabetUpper, AlphabetLower);
    Runes.InConcat(AlphabetUpper + AlphabetLower, "., %");
    if c in AlphabetUpper {
      ConsecutiveRange(AlphabetUpper, 'A' as int, c);
    } else if c in AlphabetLower {
      ConsecutiveRange(AlphabetLower, 'a' as int, c);
    }
  }

  lemma LettersConsecutive()
    ensures Consecutive(AlphabetUpper, 'A' as int) && Consecutive(AlphabetLower, 'a' as int)
  {
  }

  lemma ConsecutiveRange(row: string, start: int, c: char)
    requires Consecutive(row, start) && c in row
    ensures start <= c as int < start + |row|
  {
    var i :| 0 <= i < |row| && row[i] == c;
  }

  predicate KatakanaClass(c: char)
  {
    c == '\n' || 'ァ' <= c <= 'ヶ' || c == '・' || c == 'ー'
  }

  predicate HiraganaClass(c: char)
  {
    c == '\n' || 'ぁ' <= c <= 'ゔ' || c == '・' || c == 'ー' || c == 'ヵ' || c == 'ヶ'
  }

  predicate ZenkakuClass(c: char)
  {
    c == '\n' || 'Ａ' <= c <= 'Ｚ' || 'ａ' <= c <= 'ｚ' || c == '．' || c == '，' || c == '％' || c == '　'
  }

  predicate AllKatakanaClass(s: string)
  {
    forall i :: 0 <= i < |s| ==> KatakanaClass(s[i])
  }

  predicate AllHiraganaClass(s: string)
  {
    forall i :: 0 <= i < |s| ==> HiraganaClass(s[i])
  }

  lemma KatakanaRowsClass()
    ensures AllKatakanaClass(KatakanaRow1) && AllKatakanaClass(KatakanaRow2)
    ensures AllKatakanaClass(KatakanaRow3) && AllKatakanaClass(KatakanaRow4)
    ensures AllKatakanaClass(KatakanaRow5) && AllKatakanaClass(KatakanaRow6)
  {
  }

  lemma HiraganaRowsClass()
    ensures AllHiraganaClass(HiraganaRow1) && AllHiraganaClass(HiraganaRow2)
    ensures AllHiraganaClass(HiraganaRow3) && AllHiraganaClass(HiraganaRow4)
    ensures AllHiraganaClass(HiraganaRow5) && AllHiraganaClass(HiraganaRow6)
  {
  }

  lemma KatakanaListAllClass()
    ensures AllKatakanaClass(KatakanaList)
  {
    KatakanaRowsClass();
    var nl := "\n";
    assert AllKatakanaClass(nl + KatakanaRow1 + nl + KatakanaRow2);
    assert AllKatakanaClass(nl + KatakanaRow1 + nl + KatakanaRow2 + nl + KatakanaRow3 + nl + KatakanaRow4);
  }

  lemma HiraganaListAllClass()
    ensures AllHiraganaClass(HiraganaList)
  {
    HiraganaRowsClass();
    var nl := "\n";
    assert AllHiraganaClass(nl + HiraganaRow1 + nl + HiraganaRow2);
    assert AllHiraganaClass(nl + HiraganaRow1 + nl + HiraganaRow2 + nl + HiraganaRow3 + nl + HiraganaRow4);
  }

  lemma KatakanaListClass(c: char)
    ensures c in KatakanaList <==> KatakanaClass(c)
  {
    if c in KatakanaList {
      KatakanaMemberClass(c);
    }
    if KatakanaClass(c) && c != '\n' {
      if 'ァ' <= c <= 'ヴ' {
        KatakanaCovered(c);
      } else {
        KatakanaMarksCovered(c);
      }
    }
  }

  lemma KatakanaMemberClass(c: char)
    requires c in KatakanaList
    ensures KatakanaClass(c)
  {
    KatakanaListAllClass();
    var i :| 0 <= i < |KatakanaList| && KatakanaList[i] == c;
  }

  lemma KatakanaMarksCovered(c: char)
    requires c == 'ヵ' || c == 'ヶ' || c == '・' || c == 'ー'
    ensures c in KatakanaList
  {
    assert c in KatakanaRow6;
    var pre := "\n" + KatakanaRow1 + "\n" + KatakanaRow2 + "\n" + KatakanaRow3
      + "\n" + KatakanaRow4 + "\n" + KatakanaRow5 + "\n";
    assert KatakanaList == pre + KatakanaRow6;
  }

  lemma HiraganaListClass(c: char)
    ensures c in HiraganaList <==> HiraganaClass(c)
  {
    if c in HiraganaList {
      HiraganaListAllClass();
      var i :| 0 <= i < |HiraganaList| && HiraganaList[i] == c;
    }
    if HiraganaClass(c) && c != '\n' {
      HiraganaCovered(c);
    }
  }

  lemma HiraganaCovered(c: char)
    requires HiraganaClass(c) && c != '\n'
    ensures c in HiraganaList
  {
    assert Consecutive(HiraganaRow1, 0x3041) && Consecutive(HiraganaRow2, 0x3051);
    assert Consecutive(HiraganaRow3, 0x3061) && Consecutive(HiraganaRow4, 0x3071);
    assert Consecutive(HiraganaRow5, 0x3081) && Consecutive(HiraganaRow6[..3], 0x3091);
    if 0x3041 <= c as int < 0x3051 {
      ConsecutiveMember(HiraganaRow1, 0x3041, c);
    } else if 0x3051 <= c as int < 0x3061 {
      ConsecutiveMember(HiraganaRow2, 0x3051, c);
    } else if 0x3061 <= c as int < 0x3071 {
      ConsecutiveMember(HiraganaRow3, 0x3061, c);
    } else if 0x3071 <= c as int < 0x3081 {
      ConsecutiveMember(HiraganaRow4, 0x3071, c);
    } else if 0x3081 <= c as int < 0x3091 {
      ConsecutiveMember(HiraganaRow5, 0x3081, c);
    } else if 0x3091 <= c as int < 0x3094 {
      ConsecutiveMember(HiraganaRow6[..3], 0x3091, c);
      assert c in HiraganaRow6;
    } else {
      assert c in HiraganaRow6;
    }
  }

  lemma ZenkakuListClass(c: char)
    ensures c in AlphabetZenkakuList <==> ZenkakuClass(c)
    ensures c in NumberZenkakuList <==> '０' <= c <= '９'
  {
    ZenkakuNumbers(c);
    if ZenkakuClass(c) {
      ZenkakuAlphabetComplete(c);
    }
    if c in AlphabetZenkakuList {
      ZenkakuAlphabetSound(c);
    }
  }

  lemma ZenkakuRowsConsecutive()
    ensures Consecutive(AlphabetZenkakuRow1, 0xFF21) && Consecutive(AlphabetZenkakuRow2[..10], 0xFF31)
    ensures Consecutive(AlphabetZenkakuRow2[10..], 0xFF41) && Consecutive(AlphabetZenkakuRow3, 0xFF47)
    ensures Consecutive(AlphabetZenkakuRow4[..4], 0xFF57) && AlphabetZenkakuRow4[4..] == "．，％　"
  {
  }

  lemma ZenkakuNumbers(c: char)
    ensures c in NumberZenkakuList <==> '０' <= c <= '９'
  {
    assert Consecutive(NumberZenkakuList, 0xFF10);
    if '０' <= c <= '９' {
      ConsecutiveMember(NumberZenkakuList, 0xFF10, c);
    }
    if c in NumberZenkakuList {
      ConsecutiveRange(NumberZenkakuList, 0xFF10, c);
    }
  }

  lemma ZenkakuAlphabetComplete(c: char)
    requires ZenkakuClass(c)
    ensures c in AlphabetZenkakuList
  {
    ZenkakuRowsConsecutive();
    ZenkakuRows(AlphabetZenkakuRow1, AlphabetZenkakuRow2, AlphabetZenkakuRow3, AlphabetZenkakuRow4, c);
    var r2a, r2b := AlphabetZenkakuRow2[..10], AlphabetZenkakuRow2[10..];
    var r4a, r4b := AlphabetZenkakuRow4[..4], AlphabetZenkakuRow4[4..];
    SplitRow(AlphabetZenkakuRow2, 10, c);
    SplitRow(AlphabetZenkakuRow4, 4, c);
    if 'Ａ' <= c <= 'Ｐ' {
      ConsecutiveMember(AlphabetZenkakuRow1, 0xFF21, c);
    } else if 'Ｑ' <= c <= 'Ｚ' {
      ConsecutiveMember(r2a, 0xFF31, c);
    } else if 'ａ' <= c <= 'ｆ' {
      ConsecutiveMember(r2b, 0xFF41, c);
    } else if 'ｇ' <= c <= 'ｖ' {
      ConsecutiveMember(AlphabetZenkakuRow3, 0xFF47, c);
    } else if 'ｗ' <= c <= 'ｚ' {
      ConsecutiveMember(r4a, 0xFF57, c);
    } else if c != '\n' {
      assert c in r4b;
    }
  }

  lemma ZenkakuAlphabetSound(c: char)
    requires c in AlphabetZenkakuList
    ensures ZenkakuClass(c)
  {
    ZenkakuRowsConsecutive();
    ZenkakuRows(AlphabetZenkakuRow1, AlphabetZenkakuRow2, AlphabetZenkakuRow3, AlphabetZenkakuRow4, c);
    var r2a, r2b := AlphabetZenkakuRow2[..10], AlphabetZenkakuRow2[10..];
    var r4a, r4b := AlphabetZenkakuRow4[..4], AlphabetZenkakuRow4[4..];
    SplitRow(AlphabetZenkakuRow2, 10, c);
    SplitRow(AlphabetZenkakuRow4, 4, c);
    if c in AlphabetZenkakuRow1 {
      ConsecutiveRange(AlphabetZenkakuRow1, 0xFF21, c);
    } else if c in r2a {
      ConsecutiveRange(r2a, 0xFF31, c);
    } else if c in r2b {
      ConsecutiveRange(r2b, 0xFF41, c);
    } else if c in AlphabetZenkakuRow3 {
      ConsecutiveRange(AlphabetZenkakuRow3, 0xFF47, c);
    } else if c in r4a {
      ConsecutiveRange(r4a, 0xFF57, c);
    } else if c in r4b {
      var i :| 0 <= i < 4 && r4b[i] == c;
    }
  }

  /** A character of four newline-separated rows is a newline or a character of one of the rows. */
  lemma ZenkakuRows(a: string, b: string, d: string, e: string, c: char)
    ensures c in "\n" + a + "\n" + b + "\n" + d + "\n" + e
      <==> c == '\n' || c in a || c in b || c in d || c in e
  {
    var nl := "\n";
    Runes.InConcat(nl, a);
    Runes.InConcat(nl + a, nl);
    Runes.InConcat(nl + a + nl, b);
    Runes.InConcat(nl + a + nl + b, nl);
    Runes.InConcat(nl + a + nl + b + nl, d);
    Runes.InConcat(nl + a + nl + b + nl + d, nl);
    Runes.InConcat(nl + a + nl + b + nl + d + nl, e);
  }

  lemma SplitRow(row: string, k: nat, c: char)
    requires k <= |row|
    ensures c in row <==> c in row[..k] || c in row[k..]
  {
    assert row == row[..k] + row[k..];
    Runes.InConcat(row[..k], row[k..]);
  }

  lemma TablesClass(c: char)
    ensures InTables(c) <==> KanaClass(c)
  {
    AsciiTables(c);
    KatakanaListClass(c);
    HiraganaListClass(c);
    ZenkakuListClass(c);
  }
}

=== FILE: paragraph.dfy ===
// Paragraph: cutting the input text into sentences, and the keyword
// coverage test run before a layout is searched.

module Paragraphs {
  import opened Runes
  import BP = BasicPhrases

  /** The sentence-ending runes; the line feed counts as one. */
  const Punctuation: string := "．。！？.!?\n"

  /** GetPunctuation: the full-width and ASCII stops, the two marks, and the line feed. */
  function GetPunctuation(): (r: string)
    ensures |r| == 8 && '\n' in r && '。' in r && '．' in r && '.' in r
    ensures '、' !in r && ' ' !in r && 'あ' !in r
  {
    Punctuation
  }

  predicate AllPunct(s: string)
  {
    forall k :: 0 <= k < |s| ==> s[k] in Punctuation
  }

  /** Some rune of `s` is not punctuation. */
  predicate HasContent(s: string)
  {
    exists k :: 0 <= k < |s| && s[k] !in Punctuation
  }

  // ---------------------------------------------------------------------
  // strings.Trim with the punctuation as cut set

  function TrimLeft(s: string): (r: string)
    decreases |s|
  {
    if |s| > 0 && s[0] in Punctuation then TrimLeft(s[1..]) else s
  }

  function TrimRight(s: string): (r: string)
    decreases |s|
  {
    if |s| > 0 && s[|s| - 1] in Punctuation then TrimRight(s[..|s| - 1]) else s
  }

  /** strings.Trim: both ends stripped of punctuation. */
  function Trim(s: string): string
  {
    TrimRight(TrimLeft(s))
  }

  lemma {:induction false} TrimLeftEmpty(s: string)
    ensures TrimLeft(s) == [] <==> AllPunct(s)
    ensures HasContent(s) ==> TrimLeft(s)[0] !in Punctuation
    decreases |s|
  {
    if |s| > 0 && s[0] in Punctuation {
      TrimLeftEmpty(s[1..]);
      assert AllPunct(s) <==> AllPunct(s[1..]) by {
        if AllPunct(s[1..]) {
          forall k | 0 <= k < |s| ensures s[k] in Punctuation {
            if k > 0 { assert s[k] == s[1..][k - 1]; }
          }
        }
      }
      assert HasContent(s) ==> HasContent(s[1..]) by {
        if HasContent(s) {
          var k :| 0 <= k < |s| && s[k] !in Punctuation;
          assert s[1..][k - 1] == s[k];
        }
      }
    } else if |s| > 0 {
      assert s[0] !in Punctuation;
    }
  }

  lemma {:induction false} TrimRightNonEmpty(s: string)
    requires |s| > 0 && s[0] !in Punctuation
    ensures |TrimRight(s)| > 0
    decreases |s|
  {
    if s[|s| - 1] in Punctuation {
      TrimRightNonEmpty(s[..|s| - 1]);
    }
  }

  /** strings.Trim(buf, punc) != "" holds exactly when the buffer has a rune outside the cut set. */
  lemma TrimNonEmpty(s: string)
    ensures Trim(s) != [] <==> HasContent(s)
  {
    TrimLeftEmpty(s);
    if HasContent(s) {
      TrimRightNonEmpty(TrimLeft(s));
    }
  }

  // ---------------------------------------------------------------------
  // What the splitter sees: the input without line feeds, each rune
  // marked with whether a line begins at it and whether the rune before
  // it in the input was punctuation.

  datatype Mark = Mark(c: char, lineStart: bool, afterPunct: bool)

  /** The marks of the non-line-feed runes of `s`, in order. */
  function Marks(s: string): seq<Mark>
    decreases |s|
  {
    if |s| == 0 then []
    else
      var p := s[..|s| - 1];
      var c := s[|s| - 1];
      Marks(p) + (if c == '\n' then [] else
                    [Mark(c, |p| == 0 || p[|p| - 1] == '\n', |p| > 0 && p[|p| - 1] in Punctuation)])
  }

  function Chars(m: seq<Mark>): (r: string)
    ensures |r| == |m|
  {
    seq(|m|, j requires 0 <= j < |m| => m[j].c)
  }

  /** The input with its line feeds removed. */
  function Strip(s: string): (r: string)
    decreases |s|
  {
    if |s| == 0 then [] else Strip(s[..|s| - 1]) + (if s[|s| - 1] == '\n' then [] else [s[|s| - 1]])
  }

  lemma {:induction false} MarksChars(s: string)
    ensures Chars(Marks(s)) == Strip(s)
    ensures '\n' !in Strip(s)
    decreases |s|
  {
    if |s| > 0 {
      MarksChars(s[..|s| - 1]);
    }
  }

  /** The first rune of the text that is not a line feed always begins a line. */
  lemma {:induction false} FirstMarkStartsLine(s: string)
    requires |Marks(s)| > 0
    ensures Marks(s)[0].lineStart
    decreases |s|
  {
    var p := s[..|s| - 1];
    if |Marks(p)| > 0 {
      FirstMarkStartsLine(p);
    } else if |p| > 0 {
      MarksEmpty(p);
    }
  }

  lemma {:induction false} MarksEmpty(s: string)
    requires |s| > 0 && |Marks(s)| == 0
    ensures s[|s| - 1] == '\n'
  {
  }

  /** A sentence starts here: a rune outside the punctuation right after punctuation. */
  predicate IsCut(m: Mark)
  {
    m.c !in Punctuation && m.afterPunct
  }

  // ---------------------------------------------------------------------
  // The sentences as positions in the mark sequence

  function Flat(ss: seq<string>): string
    decreases |ss|
  {
    if |ss| == 0 then [] else Flat(ss[..|ss| - 1]) + ss[|ss| - 1]
  }

  /** Where sentence `k` begins among the marks. */
  function Off(ss: seq<string>, k: nat): nat
    requires k <= |ss|
  {
    |Flat(ss[..k])|
  }

  /**
   * The marks lo..hi form a sentence: its runes, some non-punctuation,
   * a cut at its start unless it is the first, and no cut inside it
   * except in the first sentence while everything before is punctuation.
   */
  predicate Segment(m: seq<Mark>, lo: nat, hi: nat, s: string)
  {
    lo <= hi <= |m| && s == Chars(m[lo..hi]) && HasContent(s)
    && (lo > 0 ==> lo < |m| && IsCut(m[lo]))
    && forall j :: lo < j < hi && IsCut(m[j]) ==> lo == 0 && AllPunct(Chars(m[..j]))
  }

  /** The sentence's flag: a line begins inside it, or it is the first and the caller asked for one. */
  predicate FlagOf(m: seq<Mark>, lo: nat, hi: nat, swap: bool)
    requires lo <= hi <= |m|
  {
    (lo == 0 && swap) || exists j :: lo <= j < hi && m[j].lineStart
  }

  /** Sentence `k` is a segment at its offset and carries its flag. */
  predicate SentenceAt(m: seq<Mark>, ret: seq<string>, nl: seq<bool>, swap: bool, k: nat)
    requires k < |ret| == |nl|
  {
    Off(ret, k + 1) <= |m| && Segment(m, Off(ret, k), Off(ret, k + 1), ret[k])
    && nl[k] == FlagOf(m, Off(ret, k), Off(ret, k + 1), swap)
  }

  /** Every returned sentence is a segment carrying its flag. */
  predicate Splits(m: seq<Mark>, ret: seq<string>, nl: seq<bool>, swap: bool)
  {
    |ret| == |nl| && forall k :: 0 <= k < |ret| ==> SentenceAt(m, ret, nl, swap, k)
  }

  lemma CharsSlice(m: seq<Mark>, a: nat, b: nat)
    requires a <= b <= |m|
    ensures Chars(m[a..b]) == Chars(m)[a..b]
  {
  }

  lemma CharsConcat(a: seq<Mark>, b: seq<Mark>)
    ensures Chars(a + b) == Chars(a) + Chars(b)
  {
  }

  lemma FlatSnoc(ss: seq<string>, s: string)
    ensures Flat(ss + [s]) == Flat(ss) + s
  {
    assert (ss + [s])[..|ss|] == ss;
  }

  lemma OffSnoc(ss: seq<string>, s: string, k: nat)
    requires k <= |ss|
    ensures Off(ss + [s], k) == Off(ss, k)
    ensures Off(ss + [s], |ss| + 1) == Off(ss, |ss|) + |s|
  {
    assert (ss + [s])[..k] == ss[..k];
    assert (ss + [s])[..|ss| + 1] == ss + [s];
    assert ss[..|ss|] == ss;
    FlatSnoc(ss, s);
  }

  lemma SplitsSnoc(m: seq<Mark>, ret: seq<string>, nl: seq<bool>, swap: bool, s: string, f: bool)
    requires Splits(m, ret, nl, swap)
    requires |Flat(ret)| + |s| <= |m| && Segment(m, |Flat(ret)|, |Flat(ret)| + |s|, s)
    requires f == FlagOf(m, |Flat(ret)|, |Flat(ret)| + |s|, swap)
    ensures Splits(m, ret + [s], nl + [f], swap)
  {
    var r := ret + [s];
    var n := nl + [f];
    assert ret[..|ret|] == ret;
    forall k | 0 <= k < |r|
      ensures SentenceAt(m, r, n, swap, k)
    {
      OffSnoc(ret, s, k);
      if k < |ret| {
        OffSnoc(ret, s, k + 1);
        assert SentenceAt(m, ret, nl, swap, k);
      }
    }
  }

  lemma SegmentGrow(m: seq<Mark>, m2: seq<Mark>, lo: nat, hi: nat, s: string)
    requires Segment(m, lo, hi, s) && m <= m2
    ensures Segment(m2, lo, hi, s)
  {
    assert m2[lo..hi] == m[lo..hi];
    forall j | lo < j < hi && IsCut(m2[j])
      ensures lo == 0 && AllPunct(Chars(m2[..j]))
    {
      assert m2[..j] == m[..j];
    }
  }

  lemma SplitsGrow(m: seq<Mark>, m2: seq<Mark>, ret: seq<string>, nl: seq<bool>, swap: bool)
    requires Splits(m, ret, nl, swap) && m <= m2
    ensures Splits(m2, ret, nl, swap)
  {
    forall k | 0 <= k < |ret|
      ensures SentenceAt(m2, ret, nl, swap, k)
    {
      assert SentenceAt(m, ret, nl, swap, k);
      SegmentGrow(m, m2, Off(ret, k), Off(ret, k + 1), ret[k]);
    }
  }

  lemma MarksStep(t: string, i: nat)
    requires i < |t|
    ensures Marks(t[..i + 1]) == Marks(t[..i]) +
      (if t[i] == '\n' then [] else
         [Mark(t[i], i == 0 || t[i - 1] == '\n', i > 0 && t[i - 1] in Punctuation)])
  {
    assert t[..i + 1][..i] == t[..i];
  }

  /** The cut conditions on the open buffer, which starts at mark `off`. */
  predicate BufferCuts(m: seq<Mark>, off: nat)
  {
    (off > 0 ==> off < |m| && IsCut(m[off]))
    && forall j :: off < j < |m| && IsCut(m[j]) ==> off == 0 && AllPunct(Chars(m[..j]))
  }

  /** The closed sentences, the open buffer and its flag, against the marks `m`. */
  predicate Closed(m: seq<Mark>, ret: seq<string>, nl: seq<bool>, cur: bool, buf: string, swap: bool)
  {
    Splits(m, ret, nl, swap) && Chars(m) == Flat(ret) + buf
    && |Flat(ret)| <= |m| && cur == FlagOf(m, |Flat(ret)|, |m|, swap)
    && (|ret| == 0 <==> |Flat(ret)| == 0)
  }

  /** What the loop of SplitSentence keeps true before rune `i`. */
  predicate SplitInv(t: string, i: nat, ret: seq<string>, nl: seq<bool>, cur: bool, foundNewline: bool,
                     buf: string, found: bool, swap: bool)
  {
    i <= |t|
    && Closed(Marks(t[..i]), ret, nl, cur, buf, swap)
    && BufferCuts(Marks(t[..i]), |Flat(ret)|)
    && found == (i > 0 && t[i - 1] in Punctuation)
    && foundNewline == (i == 0 || t[i - 1] == '\n')
  }

  /** Halfway through step `i`: any sentence due has been closed, and the buffer's cut conditions already hold with rune `i` marked. */
  predicate SplitMid(t: string, i: nat, ret: seq<string>, nl: seq<bool>, cur: bool, buf: string, swap: bool)
  {
    i < |t|
    && Closed(Marks(t[..i]), ret, nl, cur, buf, swap)
    && BufferCuts(Marks(t[..i + 1]), |Flat(ret)|)
  }

  lemma FlushStep(t: string, i: nat, ret: seq<string>, nl: seq<bool>, cur: bool, fnl: bool,
                  buf: string, swap: bool)
    requires i < |t| && SplitInv(t, i, ret, nl, cur, fnl, buf, true, swap)
    requires t[i] !in Punctuation && HasContent(buf)
    ensures SplitMid(t, i, ret + [buf], nl + [cur], false, [], swap)
  {
    var m := Marks(t[..i]);
    var off := |Flat(ret)|;
    assert m[off..] == m[off..|m|];
    CharsSlice(m, off, |m|);
    assert Chars(m[off..|m|]) == buf;
    assert Segment(m, off, off + |buf|, buf);
    SplitsSnoc(m, ret, nl, swap, buf, cur);
    FlatSnoc(ret, buf);
    MarksStep(t, i);
    var m2 := Marks(t[..i + 1]);
    assert |Flat(ret + [buf])| == |m| && |m2| == |m| + 1;
    assert IsCut(m2[|m|]);
  }

  lemma KeepStep(t: string, i: nat, ret: seq<string>, nl: seq<bool>, cur: bool, fnl: bool,
                 buf: string, found: bool, swap: bool)
    requires i < |t| && SplitInv(t, i, ret, nl, cur, fnl, buf, found, swap)
    requires !(t[i] !in Punctuation && found && HasContent(buf))
    ensures SplitMid(t, i, ret, nl, cur, buf, swap)
  {
    var m := Marks(t[..i]);
    var off := |Flat(ret)|;
    MarksStep(t, i);
    var m2 := Marks(t[..i + 1]);
    assert m2[..|m|] == m;
    if off > 0 {
      assert Chars(m)[off] == buf[0];
      assert HasContent(buf);
    }
    forall j | off < j < |m2| && IsCut(m2[j])
      ensures off == 0 && AllPunct(Chars(m2[..j]))
    {
      if j < |m| {
        assert m2[..j] == m[..j] && m2[j] == m[j];
      } else {
        assert j == |m| && t[i] != '\n';
        assert found && !HasContent(buf);
        assert m2[..j] == m;
      }
    }
  }

  lemma FlagSnoc(m: seq<Mark>, mk: Mark, lo: nat, swap: bool)
    requires lo <= |m|
    ensures FlagOf(m + [mk], lo, |m| + 1, swap) == (FlagOf(m, lo, |m|, swap) || mk.lineStart)
  {
    var m2 := m + [mk];
    if mk.lineStart {
      assert m2[|m|].lineStart;
    }
    if exists j :: lo <= j < |m| && m[j].lineStart {
      var j :| lo <= j < |m| && m[j].lineStart;
      assert m2[j].lineStart;
    }
  }

  lemma AppendStep(t: string, i: nat, ret: seq<string>, nl: seq<bool>, cur: bool, buf: string, swap: bool)
    requires SplitMid(t, i, ret, nl, cur, buf, swap)
    ensures var starts := t[i] != '\n' && (i == 0 || t[i - 1] == '\n');
      SplitInv(t, i + 1, ret, nl, cur || starts, t[i] == '\n',
               if t[i] != '\n' then buf + [t[i]] else buf, t[i] in Punctuation, swap)
  {
    var m := Marks(t[..i]);
    MarksStep(t, i);
    var m2 := Marks(t[..i + 1]);
    CharsConcat(m, m2[|m|..]);
    assert m2 == m + m2[|m|..];
    SplitsGrow(m, m2, ret, nl, swap);
    if t[i] != '\n' {
      FlagSnoc(m, m2[|m|], |Flat(ret)|, swap);
    }
  }

  lemma FinishSplit(t: string, ret: seq<string>, nl: seq<bool>, cur: bool, fnl: bool,
                    buf: string, found: bool, swap: bool)
    requires SplitInv(t, |t|, ret, nl, cur, fnl, buf, found, swap)
    ensures HasContent(buf) ==>
      (Splits(Marks(t), ret + [buf], nl + [cur], swap) && |Flat(ret + [buf])| == |Marks(t)|)
    ensures !HasContent(buf) ==>
      (Splits(Marks(t), ret, nl, swap) && ret == [] && AllPunct(Chars(Marks(t))))
  {
    assert t[..|t|] == t;
    var m := Marks(t);
    var off := |Flat(ret)|;
    if HasContent(buf) {
      CharsSlice(m, off, |m|);
      assert m[off..] == m[off..|m|];
      SplitsSnoc(m, ret, nl, swap, buf, cur);
      FlatSnoc(ret, buf);
    } else {
      assert off > 0 ==> Chars(m)[off] == buf[0] && HasContent(buf);
    }
  }

  /**
   * SplitSentence: the text cut after each run of punctuation that is
   * followed by other text, with the line feeds dropped; each sentence
   * flagged when a line begins inside it (the first also when `swap`).
   * A leading punctuation-only piece joins the next sentence, so nothing
   * is lost unless the whole text is punctuation.
   */
  method SplitSentence(t: string, swap: bool) returns (ret: seq<string>, newline: seq<bool>)
    ensures Splits(Marks(t), ret, newline, swap)
    ensures |Flat(ret)| == |Marks(t)| || (ret == [] && AllPunct(Chars(Marks(t))))
    ensures HasContent(Strip(t)) ==> Flat(ret) == Strip(t)
    ensures !HasContent(Strip(t)) ==> ret == []
  {
    ret := [];
    newline := [];
    var currentNewline := swap;
    var foundNewline := true;
    var buf: string := [];
    var found := false;
    var i := 0;
    while i < |t|
      invariant SplitInv(t, i, ret, newline, currentNewline, foundNewline, buf, found, swap)
    {
      TrimNonEmpty(buf);
      if t[i] !in Punctuation && found && Trim(buf) != [] {
        FlushStep(t, i, ret, newline, currentNewline, foundNewline, buf, swap);
      } else {
        KeepStep(t, i, ret, newline, currentNewline, foundNewline, buf, found, swap);
      }
      if t[i] in Punctuation {
        found := true;
      } else {
        if found {
          if Trim(buf) != [] {
            ret := ret + [buf];
            newline := newline + [currentNewline];
            buf := [];
            currentNewline := false;
          }
        }
        found := false;
      }
      AppendStep(t, i, ret, newline, currentNewline, buf, swap);
      if t[i] == '\n' {
        foundNewline := true;
      } else {
        if foundNewline {
          currentNewline := true;
        }
        foundNewline := false;
      }
      if t[i] != '\n' {
        buf := buf + [t[i]];
      }
      i := i + 1;
    }
    TrimNonEmpty(buf);
    FinishSplit(t, ret, newline, currentNewline, foundNewline, buf, found, swap);
    if Trim(buf) != [] {
      FlatSnoc(ret, buf);
      ret := ret + [buf];
      newline := newline + [currentNewline];
    }
    SpellsStrip(t, ret, newline, swap);
  }

  /** Sentence `k` spells marks Off(k)..Off(k+1), so the sentences together spell a prefix of the marks. */
  lemma {:induction false} FlatSpells(m: seq<Mark>, ret: seq<string>, nl: seq<bool>, swap: bool, k: nat)
    requires Splits(m, ret, nl, swap) && k <= |ret|
    ensures Off(ret, k) <= |m| && Flat(ret[..k]) == Chars(m[..Off(ret, k)])
  {
    if k > 0 {
      FlatSpells(m, ret, nl, swap, k - 1);
      assert SentenceAt(m, ret, nl, swap, k - 1);
      assert ret[..k] == ret[..k - 1] + [ret[k - 1]];
      FlatSnoc(ret[..k - 1], ret[k - 1]);
      var a := Off(ret, k - 1);
      var b := Off(ret, k);
      CharsSlice(m, 0, a);
      CharsSlice(m, a, b);
      CharsSlice(m, 0, b);
      assert m[..b] == m[0..b] && m[..a] == m[0..a];
    }
  }

  lemma SentenceClean(t: string, ret: seq<string>, nl: seq<bool>, swap: bool, k: nat)
    requires Splits(Marks(t), ret, nl, swap) && k < |ret|
    ensures '\n' !in ret[k] && HasContent(ret[k])
  {
    var m := Marks(t);
    MarksChars(t);
    assert SentenceAt(m, ret, nl, swap, k);
    CharsSlice(m, Off(ret, k), Off(ret, k + 1));
    assert forall c :: c in Chars(m)[Off(ret, k)..Off(ret, k + 1)] ==> c in Chars(m);
  }

  lemma FirstFlagged(t: string, ret: seq<string>, nl: seq<bool>, swap: bool)
    requires Splits(Marks(t), ret, nl, swap) && |ret| > 0
    ensures nl[0]
  {
    var m := Marks(t);
    assert SentenceAt(m, ret, nl, swap, 0);
    assert ret[..0] == [];
    FirstMarkStartsLine(t);
    assert m[0].lineStart;
  }

  /**
   * In terms of the text: when it holds a rune outside the punctuation the
   * sentences joined are exactly the text without line feeds, and otherwise
   * there is no sentence at all.
   */
  lemma SpellsStrip(t: string, ret: seq<string>, nl: seq<bool>, swap: bool)
    requires Splits(Marks(t), ret, nl, swap)
    requires |Flat(ret)| == |Marks(t)| || (ret == [] && AllPunct(Chars(Marks(t))))
    ensures HasContent(Strip(t)) ==> Flat(ret) == Strip(t)
    ensures !HasContent(Strip(t)) ==> ret == []
  {
    var m := Marks(t);
    MarksChars(t);
    if |Flat(ret)| == |m| {
      FlatSpells(m, ret, nl, swap, |ret|);
      assert ret[..|ret|] == ret;
      CharsSlice(m, 0, |m|);
      assert m[..|m|] == m[0..|m|];
      if ret != [] {
        var k := |ret| - 1;
        SentenceClean(t, ret, nl, swap, k);
        FlatSnoc(ret[..k], ret[k]);
        assert ret[..k] + [ret[k]] == ret;
        var j :| 0 <= j < |ret[k]| && ret[k][j] !in Punctuation;
        assert Flat(ret)[|Flat(ret[..k])| + j] == ret[k][j];
      }
    }
  }

  /**
   * What SplitSentence promises its caller: one flag per sentence, no
   * sentence holds a line feed, each holds a rune outside the
   * punctuation, the first is always flagged, and the sentences spell
   * the whole text without line feeds, or there are none when the text
   * is punctuation only.
   */
  lemma SplitsFacts(t: string, ret: seq<string>, nl: seq<bool>, swap: bool)
    requires Splits(Marks(t), ret, nl, swap)
    requires |Flat(ret)| == |Marks(t)| || (ret == [] && AllPunct(Chars(Marks(t))))
    ensures |ret| == |nl|
    ensures forall k :: 0 <= k < |ret| ==> '\n' !in ret[k] && HasContent(ret[k])
    ensures |ret| > 0 ==> nl[0]
    ensures HasContent(Strip(t)) ==> Flat(ret) == Strip(t)
    ensures !HasContent(Strip(t)) ==> ret == []
  {
    forall k | 0 <= k < |ret|
      ensures '\n' !in ret[k] && HasContent(ret[k])
    {
      SentenceClean(t, ret, nl, swap, k);
    }
    if |ret| > 0 {
      FirstFlagged(t, ret, nl, swap);
    }
    SpellsStrip(t, ret, nl, swap);
  }

  // ---------------------------------------------------------------------
  // Keyword coverage

  /** Rune `c` occurs in some variant of some slot. */
  predicate Available(c: char, bps: seq<BP.BasicPhrase>)
  {
    exists b, a :: 0 <= b < |bps| && 0 <= a < |bps[b].pattern| && c in bps[b].pattern[a]
  }

  /** The nested search of CheckContainsKeyword for one rune, slot by slot and variant by variant. */
  function FindRune(c: char, bps: seq<BP.BasicPhrase>, b: nat, a: nat): (r: bool)
    requires b <= |bps|
    ensures r <==> exists b', a' :: b <= b' < |bps| && 0 <= a' < |bps[b'].pattern|
                                     && (b' == b ==> a <= a') && c in bps[b'].pattern[a']
    decreases |bps| - b, if b < |bps| then |bps[b].pattern| - a else 0
  {
    if b == |bps| then false
    else if a >= |bps[b].pattern| then FindRune(c, bps, b + 1, 0)
    else
      IndexFindsContains(bps[b].pattern[a], [c]);
      ContainsRune(bps[b].pattern[a], c);
      if Index(bps[b].pattern[a], [c], 0) != -1 then true
      else FindRune(c, bps, b, a + 1)
  }

  /**
   * CheckContainsKeyword: true exactly when every rune of the keyword
   * occurs in some variant of some slot of the paragraph (the slots are
   * the basic phrases of all sentences, in order).
   */
  function CheckContainsKeyword(keyword: string, bps: seq<BP.BasicPhrase>): (r: bool)
    ensures r <==> forall i :: 0 <= i < |keyword| ==> Available(keyword[i], bps)
    decreases |keyword|
  {
    if |keyword| == 0 then true
    else if !FindRune(keyword[0], bps, 0, 0) then false
    else
      var rest := CheckContainsKeyword(keyword[1..], bps);
      assert forall i :: 1 <= i < |keyword| ==> keyword[i] == keyword[1..][i - 1];
      rest
  }
}

=== FILE: part.dfy ===
/**
 * Parts of speech (part.go). A Part is an integer as in the source, so values
 * outside the sixteen constants exist and print as the unknown part.
 */
module Parts {

  type Part = int

  const UnknownPart: Part := 0
  const VerbPart: Part := 1
  const AdjectivePart: Part := 2
  const AdjectiveVerbPart: Part := 3
  const NounPart: Part := 4
  const AdnominalPart: Part := 5
  const AdverbPart: Part := 6
  const ConjunctionPart: Part := 7
  const EmotiveVerbPart: Part := 8
  const AuxiliaryVerbPart: Part := 9
  const ParticlePart: Part := 10
  const SuffixPart: Part := 11
  const PrefixPart: Part := 12
  const SpecialPart: Part := 13
  const DeterminePart: Part := 14
  const DemonstrativePart: Part := 15

  /** The printed names, indexed by part value; index 0 is the unknown part. */
  const Names: seq<string> := ["不明", "動詞", "形容詞", "形容動詞", "名詞", "連体詞", "副詞",
    "接続詞", "感動詞", "助動詞", "助詞", "接尾辞", "接頭辞", "特殊", "判定詞", "指示詞"]

  predicate IsConstant(p: Part)
  {
    UnknownPart <= p <= DemonstrativePart
  }

  /** Part.String (and Part.Rune): the Japanese name; anything unlisted is 不明. */
  function String(p: Part): (s: string)
    ensures IsConstant(p) ==> s == Names[p]
    ensures !IsConstant(p) ==> s == "不明"
  {
    if p == VerbPart then "動詞"
    else if p == AdjectivePart then "形容詞"
    else if p == AdjectiveVerbPart then "形容動詞"
    else if p == NounPart then "名詞"
    else if p == AdnominalPart then "連体詞"
    else if p == AdverbPart then "副詞"
    else if p == ConjunctionPart then "接続詞"
    else if p == EmotiveVerbPart then "感動詞"
    else if p == AuxiliaryVerbPart then "助動詞"
    else if p == ParticlePart then "助詞"
    else if p == SuffixPart then "接尾辞"
    else if p == PrefixPart then "接頭辞"
    else if p == SpecialPart then "特殊"
    else if p == DeterminePart then "判定詞"
    else if p == DemonstrativePart then "指示詞"
    else "不明"
  }

  /** NewPart: parses a name; any unlisted string gives UnknownPart. */
  function NewPart(s: string): (p: Part)
    ensures IsConstant(p)
    ensures p != UnknownPart ==> Names[p] == s
  {
    if s == "動詞" then VerbPart
    else if s == "形容詞" then AdjectivePart
    else if s == "形容動詞" then AdjectiveVerbPart
    else if s == "名詞" then NounPart
    else if s == "連体詞" then AdnominalPart
    else if s == "副詞" then AdverbPart
    else if s == "接続詞" then ConjunctionPart
    else if s == "感動詞" then EmotiveVerbPart
    else if s == "助動詞" then AuxiliaryVerbPart
    else if s == "助詞" then ParticlePart
    else if s == "接尾辞" then SuffixPart
    else if s == "接頭辞" then PrefixPart
    else if s == "特殊" then SpecialPart
    else if s == "判定詞" then DeterminePart
    else if s == "指示詞" then DemonstrativePart
    else UnknownPart
  }

  /** Printing then parsing gives the part back, the unknown part included. */
  lemma NewPartString(p: Part)
    requires IsConstant(p)
    ensures NewPart(String(p)) == p
  {
  }

  /** A value outside the constants prints as 不明 and parses back as UnknownPart. */
  lemma NewPartStringOutside(p: Part)
    requires !IsConstant(p)
    ensures NewPart(String(p)) == UnknownPart
  {
  }

  lemma StringNewPart(s: string)
    requires s in Names[1..]
    ensures String(NewPart(s)) == s
  {
    var i :| 0 <= i < |Names[1..]| && Names[1..][i] == s;
    NewPartString(i + 1);
  }

  predicate IsAdjunct(p: Part)
  {
    p == AuxiliaryVerbPart || p == ParticlePart
  }

  predicate IsSuffix(p: Part)
  {
    p == SuffixPart
  }

  predicate IsSpecial(p: Part)
  {
    p == SpecialPart
  }

  /** IsIndependent: neither adjunct, suffix, special nor unknown. */
  predicate IsIndependent(p: Part)
  {
    !IsAdjunct(p) && !IsSuffix(p) && !IsSpecial(p) && p != UnknownPart
  }

  predicate IsFlection(p: Part)
  {
    p == VerbPart || p == AuxiliaryVerbPart
  }

  /**
   * The classes partition the sixteen constants: each constant is exactly one
   * of adjunct, suffix, special, independent or unknown; prefix and
   * determiner count as independent.
   */
  lemma ClassesPartition(p: Part)
    requires IsConstant(p)
    ensures (if IsAdjunct(p) then 1 else 0) + (if IsSuffix(p) then 1 else 0)
      + (if IsSpecial(p) then 1 else 0) + (if IsIndependent(p) then 1 else 0)
      + (if p == UnknownPart then 1 else 0) == 1
    ensures IsIndependent(PrefixPart) && IsIndependent(DeterminePart)
    ensures IsFlection(p) ==> IsIndependent(p) || IsAdjunct(p)
  {
  }
}

=== FILE: pattern.dfy ===
/**
 * The order search of pattern.go: the helpers `appendPattern` and
 * `copyArray`, the backward route walk `calculateRoutes` over a dependency
 * matrix, and the order construction `calculatePatternBase` /
 * `calculatePattern` that merges routes ending in the same node.
 *
 * `calculatePatternBase` may recurse on routes that never get shorter; the
 * model carries a `fuel` bound and reports `OutOfFuel` when it runs out.
 * Its CRC-32 duplicate filter is modelled as exact duplicate removal.
 */
module Patterns {
  import opened Runes

  /** The result of a computation that may return an error, panic, or outrun its fuel. */
  datatype Run<T> = Value(value: T) | Error(message: string) | Panic | OutOfFuel

  // ------------------------------------------------------------ appendPattern

  /** `row` followed by each row of `pat`, in the order of `pat`. */
  function AppendEach(row: seq<int>, pat: seq<seq<int>>): (r: seq<seq<int>>)
    ensures |r| == |pat|
    ensures forall p :: 0 <= p < |pat| ==> r[p] == row + pat[p]
  {
    if |pat| == 0 then [] else [row + pat[0]] + AppendEach(row, pat[1..])
  }

  /**
   * `appendPattern`: every row of `src` extended by every row of `pat`,
   * `src`-major. An empty `src` yields no rows at all.
   */
  function AppendPattern(src: seq<seq<int>>, pat: seq<seq<int>>): (r: seq<seq<int>>)
    ensures |r| == |src| * |pat|
  {
    if |src| == 0 then []
    else
      assert |src| * |pat| == |pat| + (|src| - 1) * |pat|;
      AppendEach(src[0], pat) + AppendPattern(src[1..], pat)
  }

  /** The rows of `appendPattern` are exactly the joins of a row of `src` with a row of `pat`. */
  lemma {:induction false} AppendPatternMembers(src: seq<seq<int>>, pat: seq<seq<int>>, t: seq<int>)
    ensures t in AppendPattern(src, pat) <==> exists s, p :: 0 <= s < |src| && 0 <= p < |pat| && t == src[s] + pat[p]
  {
    if |src| > 0 {
      var rest := AppendPattern(src[1..], pat);
      AppendPatternMembers(src[1..], pat, t);
      assert AppendPattern(src, pat) == AppendEach(src[0], pat) + rest;
      if t in AppendPattern(src, pat) {
        if t in AppendEach(src[0], pat) {
          var p :| 0 <= p < |pat| && AppendEach(src[0], pat)[p] == t;
          assert t == src[0] + pat[p];
        } else {
          assert t in rest;
          var s, p :| 0 <= s < |src[1..]| && 0 <= p < |pat| && t == src[1..][s] + pat[p];
          assert t == src[s + 1] + pat[p];
        }
      }
      if exists s, p :: 0 <= s < |src| && 0 <= p < |pat| && t == src[s] + pat[p] {
        var s, p :| 0 <= s < |src| && 0 <= p < |pat| && t == src[s] + pat[p];
        if s == 0 {
          assert AppendEach(src[0], pat)[p] == t;
        } else {
          assert t == src[1..][s - 1] + pat[p];
        }
      }
    }
  }

  /** Row `p` of the block for `src[s]` sits at `s * |pat| + p`. */
  lemma {:induction false} AppendPatternAt(src: seq<seq<int>>, pat: seq<seq<int>>, s: nat, p: nat)
    requires s < |src| && p < |pat|
    ensures s * |pat| + p < |AppendPattern(src, pat)|
    ensures AppendPattern(src, pat)[s * |pat| + p] == src[s] + pat[p]
  {
    var a, b := AppendEach(src[0], pat), AppendPattern(src[1..], pat);
    assert AppendPattern(src, pat) == a + b;
    BlockBound(s, |src|, |pat|, p);
    if s == 0 {
      IndexLeft(a, b, p);
      assert a[p] == src[0] + pat[p];
    } else {
      AppendPatternAt(src[1..], pat, s - 1, p);
      MulStep(s, |pat|, p);
      var i := (s - 1) * |pat| + p;
      IndexRight(a, b, i);
      assert b[i] == src[1..][s - 1] + pat[p];
      assert src[1..][s - 1] == src[s];
    }
  }

  /** One more block of `n` rows before row `p` of block `s - 1`. */
  lemma MulStep(s: nat, n: nat, p: nat)
    requires s > 0
    ensures 0 <= (s - 1) * n && s * n + p == n + ((s - 1) * n + p)
  {
  }

  /** Row `p` of block `s` lies inside `m` blocks of `n` rows. */
  lemma BlockBound(s: nat, m: nat, n: nat, p: nat)
    requires s < m && p < n
    ensures s * n + p < m * n
  {
    assert (s + 1) * n == s * n + n;
    MulMonotone(s + 1, m, n);
  }

  lemma MulMonotone(x: nat, y: nat, n: nat)
    requires x <= y
    ensures x * n <= y * n
  {
  }

  /** The example of the source's comment: two rows times two rows. */
  lemma AppendPatternExample()
    ensures AppendPattern([[1, 0, 3], [1, 3, 0]], [[2, 4], [4, 2]])
      == [[1, 0, 3, 2, 4], [1, 0, 3, 4, 2], [1, 3, 0, 2, 4], [1, 3, 0, 4, 2]]
  {
    var src := [[1, 0, 3], [1, 3, 0]];
    var pat := [[2, 4], [4, 2]];
    assert [1, 3, 0] + [2, 4] == [1, 3, 0, 2, 4] && [1, 3, 0] + [4, 2] == [1, 3, 0, 4, 2];
    assert [1, 0, 3] + [2, 4] == [1, 0, 3, 2, 4] && [1, 0, 3] + [4, 2] == [1, 0, 3, 4, 2];
    assert AppendEach([1, 3, 0], pat) == [[1, 3, 0, 2, 4], [1, 3, 0, 4, 2]];
    assert AppendPattern(src[1..], pat) == AppendEach([1, 3, 0], pat) + AppendPattern([], pat);
    assert AppendEach([1, 0, 3], pat) == [[1, 0, 3, 2, 4], [1, 0, 3, 4, 2]];
  }

  // ---------------------------------------------------------------- copyArray

  /** The first `n` entries of `src`, padded with -1 when `src` is shorter. */
  function Pad(src: seq<int>, n: nat): (r: seq<int>)
    ensures |r| == n
    ensures forall i :: 0 <= i < n ==> r[i] == (if i < |src| then src[i] else -1)
  {
    if n == 0 then []
    else if |src| == 0 then [-1] + Pad([], n - 1)
    else [src[0]] + Pad(src[1..], n - 1)
  }

  /** `copyArray`: a single row of length `n` holding `src` and then -1 entries. */
  function CopyArray(src: seq<int>, n: nat): (r: seq<seq<int>>)
    ensures |r| == 1 && |r[0]| == n
    ensures forall i :: 0 <= i < n ==> r[0][i] == (if i < |src| then src[i] else -1)
  {
    [Pad(src, n)]
  }

  lemma CopyArrayWhole(src: seq<int>)
    ensures CopyArray(src, |src|) == [src]
  {
    assert Pad(src, |src|) == src;
  }

  // ---------------------------------------------------------- calculateRoutes

  /** A matrix with at least `n` rows whose first `n` rows have at least `n` columns. */
  predicate Fits(mat: seq<seq<bool>>, n: nat)
  {
    |mat| >= n && forall i :: 0 <= i < n ==> |mat[i]| >= n
  }

  /**
   * `t` is a backward walk of depth `d`: entries `0..d` are distinct nodes,
   * each entry after the first is a predecessor of the one before
   * (`mat[t[k+1]][t[k]]`), and the rest of the row is -1.
   */
  predicate Walk(t: seq<int>, d: nat, mat: seq<seq<bool>>)
    requires Fits(mat, |t|)
  {
    d < |t|
    && (forall k :: 0 <= k <= d ==> 0 <= t[k] < |t|)
    && (forall j, k :: 0 <= j < k <= d ==> t[j] != t[k])
    && (forall k :: 0 <= k < d ==> mat[t[k + 1]][t[k]])
    && (forall k :: d < k < |t| ==> t[k] == -1)
  }

  /**
   * `i` is the predecessor the walk may take next from `end[depth]`: an edge
   * into `end[depth]`, not yet on the walk, and no predecessor below it is on
   * the walk (the scan stops at the first predecessor already on the walk).
   */
  predicate Eligible(end: seq<int>, depth: nat, mat: seq<seq<bool>>, i: int)
    requires Fits(mat, |end|) && depth < |end| && 0 <= end[depth] < |end|
  {
    0 <= i < |end| && mat[i][end[depth]] && i !in end
    && forall j :: 0 <= j < i && mat[j][end[depth]] ==> j !in end
  }

  /** `t` is a route that continues `end` through the eligible predecessor `i`. */
  predicate Through(end: seq<int>, depth: nat, mat: seq<seq<bool>>, i: int, t: seq<int>)
    requires Fits(mat, |end|) && depth + 1 < |end| && 0 <= end[depth] < |end|
  {
    Eligible(end, depth, mat, i) && t in Routes(end[depth + 1 := i], depth + 1, mat)
  }

  /**
   * `calculateRoutes`: all backward walks continuing `end` from position
   * `depth`, each of the length of `end`. A walk that cannot be continued
   * is returned as it is.
   */
  function Routes(end: seq<int>, depth: nat, mat: seq<seq<bool>>): (r: seq<seq<int>>)
    requires Fits(mat, |end|)
    requires depth + 1 < |end| ==> 0 <= end[depth] < |end|
    ensures |r| >= 1
    ensures forall t :: t in r ==> |t| == |end|
    ensures forall t, k :: t in r && 0 <= k <= depth && k < |end| ==> t[k] == end[k]
    decreases |end| - depth, 1
  {
    if depth + 1 >= |end| then
      CopyArrayWhole(end);
      CopyArray(end, |end|)
    else
      var ret := Predecessors(end, depth, mat, 0);
      if |ret| == 0 then
        CopyArrayWhole(end);
        CopyArray(end, |end|)
      else ret
  }

  /** The scan over candidate predecessors `i, i+1, ...` of `end[depth]`, stopping at one already on the walk. */
  function Predecessors(end: seq<int>, depth: nat, mat: seq<seq<bool>>, i: nat): (r: seq<seq<int>>)
    requires Fits(mat, |end|) && depth + 1 < |end| && 0 <= end[depth] < |end| && i <= |end|
    ensures forall t :: t in r ==> |t| == |end|
    ensures forall t, k :: t in r && 0 <= k <= depth ==> t[k] == end[k]
    decreases |end| - depth, 0, |end| - i
  {
    if i == |end| then []
    else if !mat[i][end[depth]] then Predecessors(end, depth, mat, i + 1)
    else if i in end then []
    else
      Routes(end[depth + 1 := i], depth + 1, mat) + Predecessors(end, depth, mat, i + 1)
  }

  /** Every member of a scan starting at `i0` is a walk through an eligible predecessor at or after `i0`. */
  lemma {:induction false} PredecessorsSound(end: seq<int>, depth: nat, mat: seq<seq<bool>>, i0: nat, t: seq<int>)
    returns (i: int)
    requires Fits(mat, |end|) && depth + 1 < |end| && 0 <= end[depth] < |end| && i0 <= |end|
    requires forall j :: 0 <= j < i0 && mat[j][end[depth]] ==> j !in end
    requires t in Predecessors(end, depth, mat, i0)
    ensures i0 <= i && Through(end, depth, mat, i, t)
    decreases |end| - i0
  {
    if !mat[i0][end[depth]] {
      i := PredecessorsSound(end, depth, mat, i0 + 1, t);
    } else {
      assert Eligible(end, depth, mat, i0);
      var here := Routes(end[depth + 1 := i0], depth + 1, mat);
      assert Predecessors(end, depth, mat, i0) == here + Predecessors(end, depth, mat, i0 + 1);
      if t in here {
        i := i0;
      } else {
        i := PredecessorsSound(end, depth, mat, i0 + 1, t);
      }
    }
  }

  /** Every walk through an eligible predecessor at or after `i0` is a member of the scan starting at `i0`. */
  lemma {:induction false} PredecessorsComplete(end: seq<int>, depth: nat, mat: seq<seq<bool>>, i0: nat, i: int, t: seq<int>)
    requires Fits(mat, |end|) && depth + 1 < |end| && 0 <= end[depth] < |end| && i0 <= |end|
    requires i0 <= i && Through(end, depth, mat, i, t)
    ensures t in Predecessors(end, depth, mat, i0)
    decreases |end| - i0
  {
    if i0 < i {
      assert !(mat[i0][end[depth]] && i0 in end);
      PredecessorsComplete(end, depth, mat, i0 + 1, i, t);
      if mat[i0][end[depth]] {
        assert Predecessors(end, depth, mat, i0)
          == Routes(end[depth + 1 := i0], depth + 1, mat) + Predecessors(end, depth, mat, i0 + 1);
      }
    } else {
      assert Predecessors(end, depth, mat, i0)
        == Routes(end[depth + 1 := i0], depth + 1, mat) + Predecessors(end, depth, mat, i0 + 1);
    }
  }

  /** The members of a scan starting at `i0` are exactly the walks through an eligible predecessor at or after `i0`. */
  lemma PredecessorsMembers(end: seq<int>, depth: nat, mat: seq<seq<bool>>, i0: nat, t: seq<int>)
    requires Fits(mat, |end|) && depth + 1 < |end| && 0 <= end[depth] < |end| && i0 <= |end|
    requires forall j :: 0 <= j < i0 && mat[j][end[depth]] ==> j !in end
    ensures t in Predecessors(end, depth, mat, i0) <==> exists i :: i0 <= i && Through(end, depth, mat, i, t)
  {
    if t in Predecessors(end, depth, mat, i0) {
      var i := PredecessorsSound(end, depth, mat, i0, t);
    }
    if exists i :: i0 <= i && Through(end, depth, mat, i, t) {
      var i :| i0 <= i && Through(end, depth, mat, i, t);
      PredecessorsComplete(end, depth, mat, i0, i, t);
    }
  }

  /**
   * The shape of every route: a backward walk that extends the walk it
   * started from, never revisits a node and follows only edges of `mat`.
   */
  lemma {:induction false} RoutesAreWalks(end: seq<int>, depth: nat, mat: seq<seq<bool>>, t: seq<int>)
    requires Fits(mat, |end|) && Walk(end, depth, mat)
    requires t in Routes(end, depth, mat)
    ensures exists d :: depth <= d && Walk(t, d, mat)
    decreases |end| - depth
  {
    var ret := if depth + 1 >= |end| then [] else Predecessors(end, depth, mat, 0);
    if depth + 1 >= |end| || |ret| == 0 {
      CopyArrayWhole(end);
      assert t == end;
    } else {
      PredecessorsMembers(end, depth, mat, 0, t);
      var i :| 0 <= i && Through(end, depth, mat, i, t);
      WalkExtends(end, depth, mat, i);
      RoutesAreWalks(end[depth + 1 := i], depth + 1, mat, t);
    }
  }

  /** Stepping to an eligible predecessor extends a walk by one node. */
  lemma WalkExtends(end: seq<int>, depth: nat, mat: seq<seq<bool>>, i: int)
    requires Fits(mat, |end|) && Walk(end, depth, mat) && depth + 1 < |end|
    requires Eligible(end, depth, mat, i)
    ensures Walk(end[depth + 1 := i], depth + 1, mat)
  {
    var next := end[depth + 1 := i];
    forall j, k | 0 <= j < k <= depth + 1 ensures next[j] != next[k] {
      if k == depth + 1 {
        assert next[j] == end[j];
      }
    }
  }

  /** When no predecessor is eligible the walk is returned unchanged. */
  lemma RoutesBlocked(end: seq<int>, depth: nat, mat: seq<seq<bool>>)
    requires Fits(mat, |end|) && depth + 1 < |end| && 0 <= end[depth] < |end|
    requires forall i :: !Eligible(end, depth, mat, i)
    ensures Routes(end, depth, mat) == [end]
  {
    var ret := Predecessors(end, depth, mat, 0);
    if |ret| > 0 {
      PredecessorsMembers(end, depth, mat, 0, ret[0]);
      assert false;
    }
    CopyArrayWhole(end);
  }

  /** Otherwise the routes are exactly the routes through the eligible predecessors. */
  lemma RoutesThrough(end: seq<int>, depth: nat, mat: seq<seq<bool>>, t: seq<int>)
    requires Fits(mat, |end|) && depth + 1 < |end| && 0 <= end[depth] < |end|
    requires exists i :: Eligible(end, depth, mat, i)
    ensures t in Routes(end, depth, mat) <==> exists i :: Through(end, depth, mat, i, t)
  {
    var i :| Eligible(end, depth, mat, i);
    var t0 := Routes(end[depth + 1 := i], depth + 1, mat)[0];
    assert Through(end, depth, mat, i, t0);
    PredecessorsMembers(end, depth, mat, 0, t0);
    PredecessorsMembers(end, depth, mat, 0, t);
    if exists i :: Through(end, depth, mat, i, t) {
      var j :| Through(end, depth, mat, j, t);
      assert 0 <= j;
    }
  }

  /** A walk whose last node has no incoming edge stays as it is. */
  lemma LeafRoute(e: seq<int>, mat: seq<seq<bool>>)
    requires Fits(mat, |e|) && 2 < |e| && 0 <= e[1] < |e|
    requires forall i :: 0 <= i < |e| ==> !mat[i][e[1]]
    ensures Routes(e, 1, mat) == [e]
  {
    RoutesBlocked(e, 1, mat);
  }

  /** The adjacency matrix of the source's first route test: nodes 0, 1 and 2 each point into node 3. */
  function FanIn(): (m: seq<seq<bool>>)
    ensures Fits(m, 4)
  {
    [[false, false, false, true], [false, false, false, true],
     [false, false, false, true], [false, false, false, false]]
  }

  /** The scan of the first test from node `i` on, when `i` points into node 3 and is not on the walk. */
  lemma FanInStep(i: int, rest: seq<seq<int>>)
    requires 0 <= i < 3 && Predecessors([3, -1, -1, -1], 0, FanIn(), i + 1) == rest
    ensures Predecessors([3, -1, -1, -1], 0, FanIn(), i) == [[3, i, -1, -1]] + rest
  {
    var end: seq<int> := [3, -1, -1, -1];
    var m := FanIn();
    FanInColumn(i);
    assert i !in end;
    PredecessorsTake(end, 0, m, i);
    assert end[1 := i] == [3, i, -1, -1];
    LeafRoute([3, i, -1, -1], m);
  }

  /** In the first test node `i` points into node 3 and nothing points into node `i`. */
  lemma FanInColumn(i: int)
    requires 0 <= i < 3
    ensures FanIn()[i][3] && forall k :: 0 <= k < 4 ==> !FanIn()[k][i]
  {
  }

  /** An eligible predecessor `i` contributes its walks ahead of the rest of the scan. */
  lemma PredecessorsTake(end: seq<int>, depth: nat, mat: seq<seq<bool>>, i: nat)
    requires Fits(mat, |end|) && depth + 1 < |end| && 0 <= end[depth] < |end| && i < |end|
    requires mat[i][end[depth]] && i !in end
    ensures Predecessors(end, depth, mat, i)
      == Routes(end[depth + 1 := i], depth + 1, mat) + Predecessors(end, depth, mat, i + 1)
  {
  }

  /** The scan of the first test from node 1 on: the walks through nodes 1 and 2. */
  lemma FanInTail()
    ensures Predecessors([3, -1, -1, -1], 0, FanIn(), 1) == [[3, 1, -1, -1], [3, 2, -1, -1]]
  {
    var end := [3, -1, -1, -1];
    assert Predecessors(end, 0, FanIn(), 4) == [];
    assert Predecessors(end, 0, FanIn(), 3) == [];
    FanInStep(2, []);
    FanInStep(1, [[3, 2, -1, -1]]);
  }

  /** The first case of the source's test: three nodes all pointing into node 3. */
  lemma RoutesExample()
    ensures Routes([3, -1, -1, -1], 0, FanIn()) == [[3, 0, -1, -1], [3, 1, -1, -1], [3, 2, -1, -1]]
  {
    var end := [3, -1, -1, -1];
    FanInTail();
    FanInStep(0, [[3, 1, -1, -1], [3, 2, -1, -1]]);
    var all := Predecessors(end, 0, FanIn(), 0);
    assert all == [[3, 0, -1, -1], [3, 1, -1, -1], [3, 2, -1, -1]];
  }

  // ------------------------------------------------------ calculatePatternBase

  /** Every route has at least one entry, so its first entry can be read. */
  predicate Headed(routes: seq<seq<int>>)
  {
    forall k :: 0 <= k < |routes| ==> |routes[k]| >= 1
  }

  predicate Descending(xs: seq<int>)
  {
    forall i, j :: 0 <= i < j < |xs| ==> xs[i] > xs[j]
  }

  /** `x` added to a descending sequence, which stays descending and free of repeats. */
  function InsertDescending(xs: seq<int>, x: int): (r: seq<int>)
    requires Descending(xs)
    ensures Descending(r)
    ensures forall y :: y in r <==> y in xs || y == x
  {
    if |xs| == 0 then [x]
    else if x == xs[0] then xs
    else if x > xs[0] then [x] + xs
    else
      DescendingTail(xs);
      var rest := InsertDescending(xs[1..], x);
      DescendingCons(xs[0], rest);
      [xs[0]] + rest
  }

  /** The entries after the first of a descending sequence are descending and all below the first. */
  lemma DescendingTail(xs: seq<int>)
    requires Descending(xs) && |xs| > 0
    ensures Descending(xs[1..])
    ensures forall y :: y in xs[1..] ==> y < xs[0]
  {
    forall y | y in xs[1..] ensures y < xs[0] {
      var i :| 0 <= i < |xs[1..]| && xs[1..][i] == y;
      assert xs[i + 1] == y;
    }
  }

  lemma DescendingCons(h: int, rest: seq<int>)
    requires Descending(rest) && forall y :: y in rest ==> y < h
    ensures Descending([h] + rest)
  {
    var r := [h] + rest;
    forall i, j | 0 <= i < j < |r| ensures r[i] > r[j] {
      assert r[j] == rest[j - 1];
      assert rest[j - 1] in rest;
      if i > 0 { assert r[i] == rest[i - 1]; }
    }
  }

  /** The distinct first entries of the routes, largest first: the sorted keys of the grouping map. */
  function Heads(routes: seq<seq<int>>): (r: seq<int>)
    requires Headed(routes)
    ensures Descending(r)
    ensures forall x :: x in r <==> exists k :: 0 <= k < |routes| && routes[k][0] == x
  {
    if |routes| == 0 then []
    else
      var front := routes[..|routes| - 1];
      assert forall k :: 0 <= k < |front| ==> front[k] == routes[k];
      InsertDescending(Heads(front), routes[|routes| - 1][0])
  }

  /** The positions of the routes whose first entry is `key`, ascending: the grouping map's entry for `key`. */
  function Starting(routes: seq<seq<int>>, key: int): (r: seq<int>)
    requires Headed(routes)
    ensures Ascending(r)
    ensures forall x :: x in r <==> 0 <= x < |routes| && routes[x][0] == key
  {
    if |routes| == 0 then []
    else
      var front := routes[..|routes| - 1];
      assert forall k :: 0 <= k < |front| ==> front[k] == routes[k];
      var s := Starting(front, key);
      AscendingSnoc(s, |routes| - 1);
      s + (if routes[|routes| - 1][0] == key then [|routes| - 1] else [])
  }

  /** Every entry of `idx` is a position in `routes`. */
  predicate Positions(idx: seq<int>, routes: seq<seq<int>>)
  {
    forall x :: x in idx ==> 0 <= x < |routes|
  }

  /** The positions of `idx`, in order, whose route has a second entry equal to `fk`. */
  function Sharing(routes: seq<seq<int>>, idx: seq<int>, fk: int): (r: seq<int>)
    requires Positions(idx, routes)
    ensures |r| <= |idx|
    ensures forall x :: x in r <==> x in idx && |routes[x]| >= 2 && routes[x][1] == fk
  {
    if |idx| == 0 then []
    else
      var x := idx[0];
      assert x in idx && forall y :: y in idx[1..] ==> y in idx;
      (if |routes[x]| >= 2 && routes[x][1] == fk then [x] else []) + Sharing(routes, idx[1..], fk)
  }

  /** A route moved one place to the front; the freed last place holds 0, not -1. */
  function Shift(route: seq<int>): (r: seq<int>)
    requires |route| >= 1
    ensures |r| == |route| && r[|r| - 1] == 0
    ensures forall k :: 0 <= k < |route| - 1 ==> r[k] == route[k + 1]
  {
    route[1..] + [0]
  }

  /** The shifted routes at the positions `idx`: the input of the recursive call. */
  function Shifted(routes: seq<seq<int>>, idx: seq<int>): (r: seq<seq<int>>)
    requires Headed(routes) && Positions(idx, routes)
    ensures |r| == |idx| && Headed(r)
    ensures forall i :: 0 <= i < |idx| ==> 0 <= idx[i] < |routes| && r[i] == Shift(routes[idx[i]])
  {
    if |idx| == 0 then []
    else
      assert idx[0] in idx && forall y :: y in idx[1..] ==> y in idx;
      [Shift(routes[idx[0]])] + Shifted(routes, idx[1..])
  }

  /** Some entry of `row` equals one of `mk`. */
  predicate Touches(row: seq<int>, mk: seq<int>)
  {
    exists k :: 0 <= k < |row| && row[k] in mk
  }

  /** The rows that touch none of `mk`, in order. */
  function Untouched(rows: seq<seq<int>>, mk: seq<int>): seq<seq<int>>
  {
    if |rows| == 0 then []
    else Untouched(rows[..|rows| - 1], mk) + (if Touches(rows[|rows| - 1], mk) then [] else [rows[|rows| - 1]])
  }

  lemma {:induction false} UntouchedMembers(rows: seq<seq<int>>, mk: seq<int>)
    ensures forall x :: x in Untouched(rows, mk) <==> x in rows && !Touches(x, mk)
  {
    if |rows| > 0 {
      var front := rows[..|rows| - 1];
      UntouchedMembers(front, mk);
      assert rows == front + [rows[|rows| - 1]];
    }
  }

  /**
   * The capacity Go's `append` gives a full slice of slice headers when it
   * needs one more entry: one for an empty slice, otherwise double.
   */
  function Grow(c: nat): (r: nat)
    ensures r > c
  {
    if c == 0 then 1 else 2 * c
  }

  /** The capacity of a slice built from an empty one by `n` single appends. */
  function Cap(n: nat): (r: nat)
    ensures n <= r && (n > 0 ==> r < 2 * n)
  {
    if n == 0 then 0
    else if n - 1 < Cap(n - 1) then Cap(n - 1)
    else Grow(Cap(n - 1))
  }

  /**
   * The two lists of the split loop as Go holds them. `t` has capacity
   * `capT`; `slot` is the index of the backing array of `t` that also holds
   * the last entry of `newret`, or -1 when `newret` has its own array.
   */
  datatype Split = Split(t: seq<seq<int>>, capT: nat, newret: seq<seq<int>>, slot: int)

  /**
   * The split loop over the rows: an untouched row is appended to `t`, a
   * touching row makes `newret` the result of appending it to `t`. While
   * `t` has room, that append writes into the array of `t` without growing
   * `t`, so the next untouched row appended to `t` lands in the same entry
   * and replaces the touching row in `newret`. Once `t` outgrows its array
   * it moves, and `newret` keeps the old one.
   */
  function SplitLoop(rows: seq<seq<int>>, mk: seq<int>): (r: Split)
    ensures r.t == Untouched(rows, mk) && r.capT == Cap(|r.t|)
    ensures r.slot <= |r.t|
  {
    if |rows| == 0 then Split([], 0, [], -1)
    else
      var n := |rows| - 1;
      assert rows[..n] + [rows[n]] == rows;
      SplitStep(SplitLoop(rows[..n], mk), rows[n], mk)
  }

  /** One pass of the split loop, on row `row`. */
  function SplitStep(p: Split, row: seq<int>, mk: seq<int>): (r: Split)
  {
    if Touches(row, mk) then
      Split(p.t, p.capT, p.t + [row], if |p.t| < p.capT then |p.t| else -1)
    else if |p.t| < p.capT then
      var shared := p.slot == |p.t| && |p.newret| > 0;
      Split(p.t + [row], p.capT, if shared then p.newret[..|p.newret| - 1] + [row] else p.newret, p.slot)
    else
      Split(p.t + [row], Grow(p.capT), p.newret, -1)
  }

  /**
   * The split of the rows before the permutations are expanded: the rows
   * touching none of `mk`, and the list carried forward. Later appends to
   * the carried list add at least as many rows as the first part holds, so
   * they always move it to a new array and never disturb the first part.
   */
  function Partition(rows: seq<seq<int>>, mk: seq<int>): (r: (seq<seq<int>>, seq<seq<int>>))
    ensures r.0 == Untouched(rows, mk)
    ensures forall x :: x in r.0 <==> x in rows && !Touches(x, mk)
  {
    UntouchedMembers(rows, mk);
    var p := SplitLoop(rows, mk);
    (p.t, p.newret)
  }

  /** With no row touching `mk`, the second part of the split is empty. */
  lemma {:induction false} PartitionNone(rows: seq<seq<int>>, mk: seq<int>)
    requires forall i :: 0 <= i < |rows| ==> !Touches(rows[i], mk)
    ensures Partition(rows, mk).1 == [] && SplitLoop(rows, mk).slot == -1
  {
    if |rows| > 0 {
      var n := |rows| - 1;
      assert forall i :: 0 <= i < n ==> rows[..n][i] == rows[i];
      PartitionNone(rows[..n], mk);
    }
  }

  /**
   * The split after a last touching row `rj`, with the untouched rows `u`
   * before it and the rows `after` it: the list carried forward is `u`
   * followed by `rj`, or by the first row after it when `rj` shared the
   * array of `t`; it still shares that entry exactly when nothing came after.
   */
  predicate CarriedAfter(q: Split, u: seq<seq<int>>, rj: seq<int>, after: seq<seq<int>>)
  {
    q.newret == u + [if |u| < Cap(|u|) && |after| > 0 then after[0] else rj]
    && (q.slot == |q.t| <==> |u| < Cap(|u|) && |after| == 0)
  }

  lemma CarriedAtTouch(p: Split, row: seq<int>, mk: seq<int>)
    requires Touches(row, mk) && p.capT == Cap(|p.t|)
    ensures CarriedAfter(SplitStep(p, row, mk), p.t, row, [])
  {
  }

  lemma CarriedStep(q: Split, row: seq<int>, mk: seq<int>, u: seq<seq<int>>, rj: seq<int>, after: seq<seq<int>>)
    requires CarriedAfter(q, u, rj, after) && !Touches(row, mk)
    requires q.capT == Cap(|q.t|) && q.slot <= |q.t| && (|after| == 0 ==> |q.t| == |u|)
    ensures CarriedAfter(SplitStep(q, row, mk), u, rj, after + [row])
  {
    var after' := after + [row];
    assert after'[0] == if |after| > 0 then after[0] else row;
  }

  lemma DropLastSlice<T>(s: seq<T>, a: nat)
    requires a < |s|
    ensures s[..|s| - 1][a..] + [s[|s| - 1]] == s[a..]
  {
  }

  lemma DropLastPrefix<T>(s: seq<T>, a: nat)
    requires a < |s|
    ensures s[..|s| - 1][..a] == s[..a]
  {
  }

  /** The split loop, run up to and past the last touching row `j`. */
  lemma {:induction false} CarriedLast(rows: seq<seq<int>>, mk: seq<int>, j: nat)
    requires j < |rows| && Touches(rows[j], mk)
    requires forall i :: j < i < |rows| ==> !Touches(rows[i], mk)
    ensures CarriedAfter(SplitLoop(rows, mk), Untouched(rows[..j], mk), rows[j], rows[j + 1..])
    decreases |rows|, 1
  {
    if j + 1 < |rows| {
      CarriedPast(rows, mk, j);
    } else {
      var front := rows[..j];
      assert SplitLoop(rows, mk) == SplitStep(SplitLoop(front, mk), rows[j], mk);
      CarriedAtTouch(SplitLoop(front, mk), rows[j], mk);
      assert rows[j + 1..] == [];
    }
  }

  lemma UntouchedAfterTouch(rows: seq<seq<int>>, mk: seq<int>, j: nat)
    requires j < |rows| && Touches(rows[j], mk)
    ensures Untouched(rows[..j + 1], mk) == Untouched(rows[..j], mk)
  {
    assert rows[..j + 1][..j] == rows[..j];
  }

  lemma UntouchedTail(rows: seq<seq<int>>, front: seq<seq<int>>, mk: seq<int>, j: nat)
    requires j + 1 < |rows| && front == rows[..|rows| - 1]
    requires forall i :: j < i < |rows| ==> !Touches(rows[i], mk)
    ensures forall i :: j < i < |front| ==> !Touches(front[i], mk)
  {
  }

  /** The step for an untouched row after `j`. */
  lemma {:induction false} CarriedPast(rows: seq<seq<int>>, mk: seq<int>, j: nat)
    requires j + 1 < |rows| && Touches(rows[j], mk)
    requires forall i :: j < i < |rows| ==> !Touches(rows[i], mk)
    ensures CarriedAfter(SplitLoop(rows, mk), Untouched(rows[..j], mk), rows[j], rows[j + 1..])
    decreases |rows|, 0
  {
    var n := |rows| - 1;
    var front := rows[..n];
    var q := SplitLoop(front, mk);
    assert SplitLoop(rows, mk) == SplitStep(q, rows[n], mk);
    var u := Untouched(rows[..j], mk);
    assert front[j] == rows[j];
    UntouchedTail(rows, front, mk, j);
    CarriedLast(front, mk, j);
    DropLastPrefix(rows, j);
    assert CarriedAfter(q, u, rows[j], front[j + 1..]);
    if j + 1 == n {
      UntouchedAfterTouch(rows, mk, j);
    }
    CarriedStep(q, rows[n], mk, u, rows[j], front[j + 1..]);
    DropLastSlice(rows, j + 1);
  }

  /**
   * After the last touching row `j`, the list carried forward is the
   * untouched rows before `j` followed by one more row. That row is `j`
   * itself when `t` was full at `j` or no row follows; otherwise `j` shared
   * the array of `t` and the next (untouched) row overwrote it. Either way
   * every earlier touching row is dropped.
   */
  lemma PartitionLast(rows: seq<seq<int>>, mk: seq<int>, j: nat)
    requires j < |rows| && Touches(rows[j], mk)
    requires forall i :: j < i < |rows| ==> !Touches(rows[i], mk)
    ensures var l := |Untouched(rows[..j], mk)|;
      Partition(rows, mk).1
      == Untouched(rows[..j], mk) + [if l < Cap(l) && j + 1 < |rows| then rows[j + 1] else rows[j]]
  {
    CarriedLast(rows, mk, j);
    if j + 1 < |rows| {
      assert rows[j + 1..][0] == rows[j + 1];
    }
  }

  /**
   * Three untouched rows, a touching one, then another untouched one: the
   * array of `t` has room for a fourth entry, so the last untouched row
   * replaces the touching one in the list carried forward.
   */
  lemma PartitionOverwrites(a: seq<int>, b: seq<int>, c: seq<int>, x: seq<int>, y: seq<int>, mk: seq<int>)
    requires !Touches(a, mk) && !Touches(b, mk) && !Touches(c, mk) && Touches(x, mk) && !Touches(y, mk)
    ensures Partition([a, b, c, x, y], mk) == ([a, b, c, y], [a, b, c, y])
  {
    var rows := [a, b, c, x, y];
    OverwritesUntouched(a, b, c, x, y, mk);
    assert rows[..3] == [a, b, c];
    assert Cap(1) == 1 && Cap(2) == 2 && Cap(3) == 4;
    PartitionLast(rows, mk, 3);
    assert Partition(rows, mk).1 == [a, b, c] + [y];
    assert [a, b, c] + [y] == [a, b, c, y];
  }

  lemma OverwritesUntouched(a: seq<int>, b: seq<int>, c: seq<int>, x: seq<int>, y: seq<int>, mk: seq<int>)
    requires !Touches(a, mk) && !Touches(b, mk) && !Touches(c, mk) && Touches(x, mk) && !Touches(y, mk)
    ensures Untouched([a, b, c], mk) == [a, b, c]
    ensures Untouched([a, b, c, x, y], mk) == [a, b, c, y]
  {
    var rows := [a, b, c, x, y];
    var front := [a, b, c];
    UntouchedNone(front, mk);
    assert rows[..4] == front + [x] && rows[..4][..3] == front;
    assert Untouched(rows[..4], mk) == front;
    assert rows[..|rows| - 1] == rows[..4];
    assert front + [y] == [a, b, c, y];
  }

  /** With no row touching `mk`, every row is kept. */
  lemma {:induction false} UntouchedNone(rows: seq<seq<int>>, mk: seq<int>)
    requires forall i :: 0 <= i < |rows| ==> !Touches(rows[i], mk)
    ensures Untouched(rows, mk) == rows
  {
    if |rows| > 0 {
      var n := |rows| - 1;
      assert forall i :: 0 <= i < n ==> rows[..n][i] == rows[i];
      UntouchedNone(rows[..n], mk);
      assert rows[..n] + [rows[n]] == rows;
    }
  }

  lemma SplitLoopSnoc(rows: seq<seq<int>>, mk: seq<int>, k: nat)
    requires 0 < k <= |rows|
    ensures SplitLoop(rows[..k], mk) == SplitStep(SplitLoop(rows[..k - 1], mk), rows[k - 1], mk)
  {
    assert rows[..k][..k - 1] == rows[..k - 1];
  }

  /** The first entries of a route up to (not including) its first -1. */
  function Cookie(route: seq<int>): (r: seq<int>)
    ensures |r| <= |route| && r == route[..|r|]
    ensures -1 !in r
    ensures |r| < |route| ==> route[|r|] == -1
  {
    if |route| == 0 || route[0] == -1 then [] else [route[0]] + Cookie(route[1..])
  }

  /** A route's cookie appended to a row, without its first entry when the row already holds it. */
  function Attach(row: seq<int>, cookie: seq<int>): (r: seq<int>)
    requires |cookie| >= 1
    ensures |r| >= |row| && r[..|row|] == row
    ensures cookie[0] in row ==> r == row + cookie[1..]
    ensures cookie[0] !in row ==> r == row + cookie
  {
    if cookie[0] in row then row + cookie[1..] else row + cookie
  }

  function AttachAll(o: seq<seq<int>>, cookie: seq<int>): (r: seq<seq<int>>)
    requires |cookie| >= 1
    ensures |r| == |o|
    ensures forall ti :: 0 <= ti < |o| ==> r[ti] == Attach(o[ti], cookie)
  {
    if |o| == 0 then [] else [Attach(o[0], cookie)] + AttachAll(o[1..], cookie)
  }

  /**
   * The expansion loop over the rows `ti, ti+1, ..., n-1` of `o`: row `ti`
   * is extended by `v[0]` in place and a copy of the original row extended
   * by each further `v[i]` is appended at the end.
   */
  function SpreadLoop(o: seq<seq<int>>, v: seq<seq<int>>, ti: nat, n: nat): seq<seq<int>>
    requires ti <= n <= |o|
    decreases n - ti
  {
    if ti == n then o
    else
      var orig := o[ti];
      var o' := if |v| == 0 then o else o[ti := orig + v[0]] + AppendEach(orig, v[1..]);
      SpreadLoop(o', v, ti + 1, n)
  }

  /** `o[ti] + x` for every row. */
  function Column(o: seq<seq<int>>, x: seq<int>): (r: seq<seq<int>>)
    ensures |r| == |o|
  {
    if |o| == 0 then [] else [o[0] + x] + Column(o[1..], x)
  }

  /** Expanding the recursive result `v` into every row of `o`. */
  function Spread(o: seq<seq<int>>, v: seq<seq<int>>): seq<seq<int>>
  {
    SpreadLoop(o, v, 0, |o|)
  }

  lemma {:induction false} AppendPatternSnoc(src: seq<seq<int>>, row: seq<int>, pat: seq<seq<int>>)
    ensures AppendPattern(src + [row], pat) == AppendPattern(src, pat) + AppendEach(row, pat)
  {
    if |src| == 0 {
      assert AppendPattern([row], pat) == AppendEach(row, pat) + AppendPattern([], pat);
    } else {
      var h, t, e := AppendEach(src[0], pat), AppendPattern(src[1..], pat), AppendEach(row, pat);
      AppendPatternSnoc(src[1..], row, pat);
      SnocTail(src, row);
      assert AppendPattern(src + [row], pat) == h + AppendPattern(src[1..] + [row], pat);
      assert AppendPattern(src, pat) == h + t;
      ConcatAssoc(h, t, e);
    }
  }

  lemma SnocTail(src: seq<seq<int>>, row: seq<int>)
    requires |src| > 0
    ensures (src + [row])[0] == src[0] && (src + [row])[1..] == src[1..] + [row]
  {
  }

  /** One round of the expansion loop moves its state from row `ti` to row `ti + 1`. */
  lemma SpreadStep(o: seq<seq<int>>, v: seq<seq<int>>, ti: nat)
    requires |v| > 0 && ti < |o|
    ensures var st := Column(o[..ti], v[0]) + o[ti..] + AppendPattern(o[..ti], v[1..]);
      st[ti] == o[ti] && st[ti := o[ti] + v[0]] + AppendEach(o[ti], v[1..])
        == Column(o[..ti + 1], v[0]) + o[ti + 1..] + AppendPattern(o[..ti + 1], v[1..])
  {
    var pre, pre1, w := o[..ti], o[..ti + 1], v[1..];
    var c := Column(pre, v[0]);
    assert o[ti..] == [o[ti]] + o[ti + 1..];
    UpdateAfter(c, o[ti], o[ti] + v[0], o[ti + 1..], AppendPattern(pre, w), AppendEach(o[ti], w));
    assert pre1 == pre + [o[ti]];
    AppendPatternSnoc(pre, o[ti], w);
    ColumnSnoc(pre, o[ti], v[0]);
  }

  lemma UpdateAfter(c: seq<seq<int>>, x: seq<int>, y: seq<int>, rest: seq<seq<int>>, a: seq<seq<int>>, e: seq<seq<int>>)
    ensures (c + ([x] + rest) + a)[|c|] == x
    ensures (c + ([x] + rest) + a)[|c| := y] + e == (c + [y]) + rest + (a + e)
  {
  }

  lemma {:induction false} ColumnSnoc(o: seq<seq<int>>, row: seq<int>, x: seq<int>)
    ensures Column(o + [row], x) == Column(o, x) + [row + x]
  {
    if |o| > 0 {
      assert (o + [row])[1..] == o[1..] + [row];
      ColumnSnoc(o[1..], row, x);
    }
  }

  lemma {:induction false} ColumnAt(o: seq<seq<int>>, x: seq<int>, ti: nat)
    requires ti < |o|
    ensures Column(o, x)[ti] == o[ti] + x
  {
    if ti > 0 {
      ColumnAt(o[1..], x, ti - 1);
    }
  }

  /** The state of the expansion loop after `ti` rows of the original `o`. */
  lemma {:induction false} SpreadLoopState(o: seq<seq<int>>, v: seq<seq<int>>, ti: nat)
    requires |v| > 0 && ti <= |o|
    ensures SpreadLoop(Column(o[..ti], v[0]) + o[ti..] + AppendPattern(o[..ti], v[1..]), v, ti, |o|)
      == Column(o, v[0]) + AppendPattern(o, v[1..])
    decreases |o| - ti
  {
    if ti == |o| {
      assert o[..ti] == o && o[ti..] == [];
      assert Column(o, v[0]) + [] == Column(o, v[0]);
    } else {
      SpreadStep(o, v, ti);
      SpreadLoopState(o, v, ti + 1);
    }
  }

  /**
   * The expansion in closed form: every row extended by `v[0]`, followed by
   * every row extended by each further `v[i]`, row-major; no change when `v`
   * is empty.
   */
  lemma SpreadClosed(o: seq<seq<int>>, v: seq<seq<int>>)
    ensures |v| == 0 ==> Spread(o, v) == o
    ensures |v| > 0 ==> Spread(o, v) == Column(o, v[0]) + AppendPattern(o, v[1..])
  {
    if |v| > 0 {
      assert Column(o[..0], v[0]) + o[0..] + AppendPattern(o[..0], v[1..]) == o;
      SpreadLoopState(o, v, 0);
    } else {
      SpreadUnchanged(o, v, 0);
    }
  }

  lemma {:induction false} SpreadUnchanged(o: seq<seq<int>>, v: seq<seq<int>>, ti: nat)
    requires |v| == 0 && ti <= |o|
    ensures SpreadLoop(o, v, ti, |o|) == o
    decreases |o| - ti
  {
    if ti < |o| {
      SpreadUnchanged(o, v, ti + 1);
    }
  }

  /**
   * One permutation `e` of a key's routes, expanded into the rows `o`: a
   * route sharing its second entry with another of the same key contributes
   * the recursive result for that entry once; any other route contributes
   * its cookie. A cookie is read at its first entry, which panics when the
   * cookie is empty and there is a row to extend.
   */
  function ExpandPermutation(routes: seq<seq<int>>, mk: seq<int>, e: seq<int>, o: seq<seq<int>>,
                             expanded: set<int>, fuel: nat): (r: Run<seq<seq<int>>>)
    requires Headed(routes) && Positions(mk, routes) && Positions(e, routes)
    ensures !r.Error?
    decreases fuel, 0, |e|
  {
    if |e| == 0 then Value(o)
    else
      assert e[0] in e && forall y :: y in e[1..] ==> y in e;
      var route := routes[e[0]];
      if |route| > 1 && |Sharing(routes, mk, route[1])| >= 2 then
        if route[1] in expanded then ExpandPermutation(routes, mk, e[1..], o, expanded, fuel)
        else if fuel == 0 then OutOfFuel
        else match Base(Shifted(routes, Sharing(routes, mk, route[1])), fuel - 1)
          case Value(v) => ExpandPermutation(routes, mk, e[1..], Spread(o, v), expanded + {route[1]}, fuel)
          case Error(m) => Error(m)
          case Panic => Panic
          case OutOfFuel => OutOfFuel
      else
        var cookie := Cookie(route);
        if |o| > 0 && |cookie| == 0 then Panic
        else if |o| == 0 then ExpandPermutation(routes, mk, e[1..], o, expanded, fuel)
        else ExpandPermutation(routes, mk, e[1..], AttachAll(o, cookie), expanded, fuel)
  }

  /** Each permutation of a key's routes, in enumeration order, expanded from the rows `t` and added to `ret`. */
  function ExpandAll(routes: seq<seq<int>>, mk: seq<int>, perms: seq<seq<int>>, t: seq<seq<int>>,
                     ret: seq<seq<int>>, fuel: nat): (r: Run<seq<seq<int>>>)
    requires Headed(routes) && Positions(mk, routes)
    requires forall e :: e in perms ==> Positions(e, routes)
    ensures !r.Error?
    decreases fuel, 1, |perms|
  {
    if |perms| == 0 then Value(ret)
    else match ExpandPermutation(routes, mk, perms[0], t, {}, fuel)
      case Value(o) => ExpandAll(routes, mk, perms[1..], t, ret + o, fuel)
      case Error(m) => Error(m)
      case Panic => Panic
      case OutOfFuel => OutOfFuel
  }

  /** The permutations of the positions `mk` are positions too. */
  lemma PermutationPositions(mk: seq<int>, routes: seq<seq<int>>)
    requires Positions(mk, routes)
    ensures forall e :: e in Permutations(mk) ==> Positions(e, routes)
  {
    forall e, x | e in Permutations(mk) && x in e ensures 0 <= x < |routes| {
      assert multiset(e) == multiset(mk);
      assert x in multiset(e);
      assert x in multiset(mk);
      assert x in mk;
    }
  }

  /** The loop over the keys, largest first: each key adds its own row and is then expanded. */
  function KeyLoop(routes: seq<seq<int>>, keys: seq<int>, ret: seq<seq<int>>, fuel: nat): (r: Run<seq<seq<int>>>)
    requires Headed(routes)
    ensures !r.Error?
    decreases fuel, 2, |keys|
  {
    if |keys| == 0 then Value(ret)
    else
      var key := keys[0];
      var mk := Starting(routes, key);
      var p := Partition(ret + [[key]], mk);
      PermutationPositions(mk, routes);
      match ExpandAll(routes, mk, Permutations(mk), p.0, p.1, fuel)
        case Value(next) => KeyLoop(routes, keys[1..], next, fuel)
        case Error(m) => Error(m)
        case Panic => Panic
        case OutOfFuel => OutOfFuel
  }

  /** Position of the first occurrence of `x` in `rows`. */
  function FirstAt(rows: seq<seq<int>>, x: seq<int>): (r: nat)
    requires x in rows
    ensures r < |rows| && rows[r] == x && x !in rows[..r]
  {
    if rows[0] == x then 0 else 1 + FirstAt(rows[1..], x)
  }

  lemma {:induction false} FirstAtSnoc(rows: seq<seq<int>>, y: seq<int>, x: seq<int>)
    requires x in rows
    ensures FirstAt(rows + [y], x) == FirstAt(rows, x)
  {
    if rows[0] != x {
      assert (rows + [y])[1..] == rows[1..] + [y];
      FirstAtSnoc(rows[1..], y, x);
    }
  }

  lemma FirstAtNew(rows: seq<seq<int>>, y: seq<int>)
    requires y !in rows
    ensures FirstAt(rows + [y], y) == |rows|
  {
    forall k | 0 <= k < |rows| ensures (rows + [y])[k] != y {
      assert (rows + [y])[k] == rows[k];
    }
  }

  /**
   * The duplicate filter: the first occurrence of every row, in the order
   * of first occurrence. The source compares CRC-32 checksums of the rows;
   * this keeps exactly the rows that differ in content.
   */
  function Dedup(rows: seq<seq<int>>): (r: seq<seq<int>>)
    ensures forall x :: x in r <==> x in rows
    ensures forall i, j :: 0 <= i < j < |r| ==> r[i] != r[j]
    ensures forall i, j :: 0 <= i < j < |r| ==> FirstAt(rows, r[i]) < FirstAt(rows, r[j])
  {
    if |rows| == 0 then []
    else
      var n := |rows| - 1;
      var front := rows[..n];
      var d := Dedup(front);
      assert rows == front + [rows[n]];
      forall x | x in front ensures FirstAt(rows, x) == FirstAt(front, x) {
        FirstAtSnoc(front, rows[n], x);
      }
      if rows[n] in d then d
      else
        FirstAtNew(front, rows[n]);
        d + [rows[n]]
  }

  /**
   * `calculatePatternBase`: the candidate orders built from the routes,
   * without repeats. `fuel` bounds the depth of the recursion on shifted
   * routes.
   */
  function Base(routes: seq<seq<int>>, fuel: nat): (r: Run<seq<seq<int>>>)
    requires Headed(routes)
    ensures !r.Error?
    ensures r.Value? ==> forall i, j :: 0 <= i < j < |r.value| ==> r.value[i] != r.value[j]
    ensures r.Value? ==> KeyLoop(routes, Heads(routes), [], fuel).Value?
    ensures r.Value? ==> forall o :: o in r.value <==> o in KeyLoop(routes, Heads(routes), [], fuel).value
    decreases fuel, 3
  {
    match KeyLoop(routes, Heads(routes), [], fuel)
      case Value(ret) => Value(Dedup(ret))
      case Error(m) => Error(m)
      case Panic => Panic
      case OutOfFuel => OutOfFuel
  }

  // --------------------------------------------------------- calculatePattern

  /** `row` contains every node that appears in some route. */
  predicate Covers(row: seq<int>, routes: seq<seq<int>>)
  {
    forall i, k :: 0 <= i < |routes| && 0 <= k < |routes[i]| && routes[i][k] != -1 ==> routes[i][k] in row
  }

  /** The rows that cover every node of the routes, in order. */
  function Covering(rows: seq<seq<int>>, routes: seq<seq<int>>): (r: seq<seq<int>>)
    ensures |r| <= |rows|
    ensures forall x :: x in r <==> x in rows && Covers(x, routes)
  {
    if |rows| == 0 then []
    else (if Covers(rows[0], routes) then [rows[0]] else []) + Covering(rows[1..], routes)
  }

  /**
   * `calculatePattern`: the candidate orders that contain every node met on
   * the routes; they are the first occurrences, without repeats, of rows the
   * key loop produced.
   */
  function CalculatePattern(routes: seq<seq<int>>, fuel: nat): (r: Run<seq<seq<int>>>)
    requires Headed(routes)
    ensures !r.Error?
    ensures r.Value? ==> forall row :: row in r.value ==> Covers(row, routes)
  {
    match Base(routes, fuel)
      case Value(rows) => Value(Covering(rows, routes))
      case Error(m) => Error(m)
      case Panic => Panic
      case OutOfFuel => OutOfFuel
  }

  /** An order is returned iff the key loop produced it and it covers every node of the routes. */
  lemma CalculatePatternKeys(routes: seq<seq<int>>, fuel: nat)
    requires Headed(routes) && CalculatePattern(routes, fuel).Value?
    ensures KeyLoop(routes, Heads(routes), [], fuel).Value?
    ensures forall row :: row in CalculatePattern(routes, fuel).value <==>
      row in KeyLoop(routes, Heads(routes), [], fuel).value && Covers(row, routes)
  {
  }

  lemma PermutationsOne(a: int)
    ensures Permutations([a]) == [[a]]
  {
    var s := [a];
    assert RemoveAt(s, 0) == s[..0] + s[1..] == [];
    assert Permutations([]) == [[]];
    var empty: seq<seq<int>> := [[]];
    assert ConsAll(a, empty)[0] == [a] + empty[0] == [a];
    assert PermutationsFrom(s, 1) == [];
    assert PermutationsFrom(s, 0) == ConsAll(a, Permutations(RemoveAt(s, 0))) + PermutationsFrom(s, 1);
  }

  lemma ConsAllSingle(h: int, t: seq<int>)
    ensures ConsAll(h, [t]) == [[h] + t]
  {
    var r := ConsAll(h, [t]);
    assert |r| == 1 && r[0] == [h] + t;
  }

  /** The permutations of `[a, b]` that start from its second element. */
  lemma PermutationsPairLater(a: int, b: int)
    ensures PermutationsFrom([a, b], 1) == [[b, a]]
  {
    var s := [a, b];
    assert RemoveAt(s, 1) == [a] by { assert s[..1] + s[2..] == [a]; }
    PermutationsOne(a);
    ConsAllSingle(b, [a]);
    assert ConsAll(b, Permutations(RemoveAt(s, 1))) == [[b, a]] by { assert [b] + [a] == [b, a]; }
    assert PermutationsFrom(s, 2) == [];
    assert PermutationsFrom(s, 1) == [[b, a]] + [];
  }

  lemma PermutationsPair(a: int, b: int)
    ensures Permutations([a, b]) == [[a, b], [b, a]]
  {
    var s := [a, b];
    PermutationsPairLater(a, b);
    PermutationsPairFirst(a, b);
    PermutationsFromStep(s, 0);
    assert Permutations(s) == PermutationsFrom(s, 0);
  }

  /** The permutations of `[a, b]` that start from its first element. */
  lemma PermutationsPairFirst(a: int, b: int)
    ensures ConsAll(a, Permutations(RemoveAt([a, b], 0))) == [[a, b]]
  {
    var s := [a, b];
    assert RemoveAt(s, 0) == [b] by { assert s[..0] + s[1..] == [b]; }
    PermutationsOne(b);
    ConsAllSingle(a, [b]);
    assert [a] + [b] == [a, b];
  }

  lemma PermutationsFromStep(s: seq<int>, i: nat)
    requires 1 <= |s| && i < |s|
    ensures PermutationsFrom(s, i) == ConsAll(s[i], Permutations(RemoveAt(s, i))) + PermutationsFrom(s, i + 1)
  {
  }

  /** The routes of the source's first pattern test: two routes from node 2, through 0 and through 1. */
  function TwoRoutes(): (r: seq<seq<int>>)
    ensures Headed(r)
  {
    [[2, 0, -1], [2, 1, -1]]
  }

  /** In the first pattern test no two routes share their second entry. */
  lemma TwoRoutesApart()
    ensures Sharing(TwoRoutes(), [0, 1], 0) == [0] && Sharing(TwoRoutes(), [0, 1], 1) == [1]
  {
    var r := TwoRoutes();
    var mk := [0, 1];
    assert mk[1..] == [1] && mk[1..][1..] == [];
    assert Sharing(r, [1], 0) == [] + Sharing(r, [], 0);
    assert Sharing(r, [1], 1) == [1] + Sharing(r, [], 1);
  }

  /** A route without a shared second entry contributes its cookie to every row. */
  lemma CookieStep(routes: seq<seq<int>>, mk: seq<int>, e: seq<int>, o: seq<seq<int>>, expanded: set<int>, fuel: nat)
    requires Headed(routes) && Positions(mk, routes) && Positions(e, routes)
    requires |e| > 0 && e[0] in e && |o| > 0 && |Cookie(routes[e[0]])| > 0
    requires !(|routes[e[0]]| > 1 && |Sharing(routes, mk, routes[e[0]][1])| >= 2)
    ensures Positions(e[1..], routes)
    ensures ExpandPermutation(routes, mk, e, o, expanded, fuel)
      == ExpandPermutation(routes, mk, e[1..], AttachAll(o, Cookie(routes[e[0]])), expanded, fuel)
  {
    assert forall y :: y in e[1..] ==> y in e;
  }

  lemma TwoRoutesCookie(x: int)
    requires x == 0 || x == 1
    ensures TwoRoutes()[x] == [2, x, -1] && Cookie(TwoRoutes()[x]) == [2, x]
  {
    var t := [2, x, -1];
    assert t[1..] == [x, -1] && t[1..][1..] == [-1];
  }

  /** The first step of expanding the permutation [x y] of the first pattern test from the row `[2]`. */
  lemma TwoRoutesFirst(x: int, y: int)
    requires (x == 0 || x == 1) && (y == 0 || y == 1)
    ensures ExpandPermutation(TwoRoutes(), [0, 1], [x, y], [[2]], {}, 0)
      == ExpandPermutation(TwoRoutes(), [0, 1], [y], [[2, x]], {}, 0)
  {
    var routes := TwoRoutes();
    TwoRoutesApart();
    TwoRoutesCookie(x);
    assert Positions([0, 1], routes) && Positions([x, y], routes);
    assert |Sharing(routes, [0, 1], routes[x][1])| == 1;
    assert [2, x][1..] == [x];
    assert 2 in [2] && [2] + [x] == [2, x];
    assert AttachAll([[2]], [2, x]) == [[2, x]];
    assert [x, y][1..] == [y];
    CookieStep(routes, [0, 1], [x, y], [[2]], {}, 0);
  }

  /** The row `[2 x]` extended by the cookie of route `y`. */
  lemma TwoRoutesAttach(x: int, y: int)
    requires y == 0 || y == 1
    ensures AttachAll([[2, x]], Cookie(TwoRoutes()[y])) == [[2, x, y]]
  {
    TwoRoutesCookie(y);
    assert [2, y][1..] == [y];
    assert 2 in [2, x] && [2, x] + [y] == [2, x, y];
  }

  /** The second and last step: the row `[2 x]` grows by `y` and the expansion ends. */
  lemma TwoRoutesLast(x: int, y: int)
    requires (x == 0 || x == 1) && (y == 0 || y == 1)
    ensures ExpandPermutation(TwoRoutes(), [0, 1], [y], [[2, x]], {}, 0) == Value([[2, x, y]])
  {
    var routes := TwoRoutes();
    TwoRoutesApart();
    TwoRoutesCookie(y);
    assert Positions([0, 1], routes) && Positions([y], routes);
    assert |Sharing(routes, [0, 1], routes[y][1])| == 1;
    TwoRoutesAttach(x, y);
    CookieStep(routes, [0, 1], [y], [[2, x]], {}, 0);
    assert [y][1..] == [];
    ExpandDone(routes, [0, 1], [[2, x, y]], {}, 0);
  }

  /** Once every route of the permutation is used, the rows built so far are the result. */
  lemma ExpandDone(routes: seq<seq<int>>, mk: seq<int>, o: seq<seq<int>>, expanded: set<int>, fuel: nat)
    requires Headed(routes) && Positions(mk, routes)
    ensures ExpandPermutation(routes, mk, [], o, expanded, fuel) == Value(o)
  {
  }

  /** The permutation [0 1] of the first pattern test, expanded from the row `[2]`. */
  lemma TwoRoutesForward()
    ensures ExpandPermutation(TwoRoutes(), [0, 1], [0, 1], [[2]], {}, 0) == Value([[2, 0, 1]])
  {
    TwoRoutesFirst(0, 1);
    TwoRoutesLast(0, 1);
  }

  /** The permutation [1 0] of the first pattern test, expanded from the row `[2]`. */
  lemma TwoRoutesBackward()
    ensures ExpandPermutation(TwoRoutes(), [0, 1], [1, 0], [[2]], {}, 0) == Value([[2, 1, 0]])
  {
    TwoRoutesFirst(1, 0);
    TwoRoutesLast(1, 0);
  }

  /**
   * The source's first pattern test: the routes 2←0 and 2←1 give the two
   * orders [2 0 1] and [2 1 0], whatever the fuel.
   */
  lemma CalculatePatternExample(r: seq<seq<int>>, fuel: nat)
    requires r == TwoRoutes()
    ensures CalculatePattern(r, fuel) == Value([[2, 0, 1], [2, 1, 0]])
  {
    TwoRoutesHeads(r);
    TwoRoutesKeyLoop(r, fuel);
    TwoRoutesRows(r, [[2, 0, 1], [2, 1, 0]]);
    CalculatePatternFrom(r, fuel, [[2, 0, 1], [2, 1, 0]]);
  }

  lemma TwoRoutesHeads(r: seq<seq<int>>)
    requires r == TwoRoutes()
    ensures Headed(r) && Heads(r) == [2]
  {
    assert Heads(r[..1]) == [2];
  }

  /** The two rows of the first pattern test are distinct and each covers both routes. */
  lemma TwoRoutesRows(r: seq<seq<int>>, rows: seq<seq<int>>)
    requires r == TwoRoutes() && rows == [[2, 0, 1], [2, 1, 0]]
    ensures Dedup(rows) == rows && Covering(rows, r) == rows
  {
    assert Dedup(rows[..1]) == [[2, 0, 1]];
    assert Covers([2, 0, 1], r) && Covers([2, 1, 0], r);
  }

  /** `calculatePattern` when the key loop yields rows that are distinct and cover every node. */
  lemma CalculatePatternFrom(routes: seq<seq<int>>, fuel: nat, rows: seq<seq<int>>)
    requires Headed(routes) && KeyLoop(routes, Heads(routes), [], fuel) == Value(rows)
    requires Dedup(rows) == rows && Covering(rows, routes) == rows
    ensures CalculatePattern(routes, fuel) == Value(rows)
  {
  }

  /** The key loop of the first pattern test: the single key 2 and its two permutations. */
  lemma TwoRoutesKeyLoop(r: seq<seq<int>>, fuel: nat)
    requires r == TwoRoutes()
    ensures KeyLoop(r, [2], [], fuel) == Value([[2, 0, 1], [2, 1, 0]])
  {
    TwoRoutesStart(r);
    TwoRoutesExpandAll(r, Starting(r, 2), Permutations(Starting(r, 2)), fuel);
    KeyLoopSingle(r, 2, fuel, [[2, 0, 1], [2, 1, 0]]);
  }

  /** The two permutations of the first pattern test, expanded in enumeration order. */
  lemma TwoRoutesExpandAll(r: seq<seq<int>>, mk: seq<int>, perms: seq<seq<int>>, fuel: nat)
    requires r == TwoRoutes() && mk == Starting(r, 2) && perms == Permutations(mk)
    ensures Positions(mk, r) && forall e :: e in perms ==> Positions(e, r)
    ensures ExpandAll(r, mk, perms, [[2]], [], fuel) == Value([[2, 0, 1], [2, 1, 0]])
  {
    TwoRoutesPermutations(r);
    TwoRoutesEach(r, fuel);
    TwoRowsJoined();
    ExpandAllTwo(r, mk, perms, [[2]], fuel, [[2, 0, 1]], [[2, 1, 0]], [[2, 0, 1], [2, 1, 0]]);
  }

  lemma TwoRowsJoined()
    ensures [[2, 0, 1]] + [[2, 1, 0]] == [[2, 0, 1], [2, 1, 0]]
  {
    var o1: seq<seq<int>> := [[2, 0, 1]];
    var o2: seq<seq<int>> := [[2, 1, 0]];
    assert (o1 + o2)[0] == [2, 0, 1] && (o1 + o2)[1] == [2, 1, 0];
  }

  /** Each permutation of the first pattern test expands to one row, whatever the fuel. */
  lemma TwoRoutesEach(r: seq<seq<int>>, fuel: nat)
    requires r == TwoRoutes()
    ensures |Permutations(Starting(r, 2))| == 2
    ensures Positions(Permutations(Starting(r, 2))[0], r) && Positions(Permutations(Starting(r, 2))[1], r)
    ensures ExpandPermutation(r, Starting(r, 2), Permutations(Starting(r, 2))[0], [[2]], {}, fuel) == Value([[2, 0, 1]])
    ensures ExpandPermutation(r, Starting(r, 2), Permutations(Starting(r, 2))[1], [[2]], {}, fuel) == Value([[2, 1, 0]])
  {
    TwoRoutesPermutations(r);
    TwoRoutesNoShare(fuel);
  }

  /** The permutations of the positions starting at node 2 in the first pattern test. */
  lemma TwoRoutesPermutations(r: seq<seq<int>>)
    requires r == TwoRoutes()
    ensures Starting(r, 2) == [0, 1]
    ensures Permutations(Starting(r, 2)) == [[0, 1], [1, 0]]
    ensures forall e :: e in Permutations(Starting(r, 2)) ==> Positions(e, r)
  {
    TwoRoutesStart(r);
    PermutationsPair(0, 1);
    PermutationPositions(Starting(r, 2), r);
  }

  /** Both routes of the first pattern test start at node 2, and the seed row `[2]` touches neither. */
  lemma TwoRoutesStart(r: seq<seq<int>>)
    requires r == TwoRoutes()
    ensures Starting(r, 2) == [0, 1]
    ensures Partition([[2]], Starting(r, 2)) == ([[2]], [])
  {
    assert Starting(r[..1], 2) == [0];
    assert !Touches([2], [0, 1]);
    PartitionSingle([2], [0, 1]);
  }

  /** The key loop over a single key, starting from no rows. */
  lemma KeyLoopSingle(routes: seq<seq<int>>, key: int, fuel: nat, rows: seq<seq<int>>)
    requires Headed(routes)
    requires Partition([[key]], Starting(routes, key)) == ([[key]], [])
    requires forall e :: e in Permutations(Starting(routes, key)) ==> Positions(e, routes)
    requires ExpandAll(routes, Starting(routes, key), Permutations(Starting(routes, key)), [[key]], [], fuel) == Value(rows)
    ensures KeyLoop(routes, [key], [], fuel) == Value(rows)
  {
    var none: seq<seq<int>> := [];
    assert none + [[key]] == [[key]];
    assert [key][1..] == [];
  }

  lemma PartitionSingle(row: seq<int>, mk: seq<int>)
    requires !Touches(row, mk)
    ensures Partition([row], mk) == ([row], [])
  {
    var rows := [row];
    assert rows[..0] == [] && rows[0] == row;
    assert Partition([], mk) == ([], []);
    assert Partition(rows, mk) == (Partition(rows[..0], mk).0 + [row], Partition(rows[..0], mk).1);
    assert Partition(rows, mk).0 == [row] && Partition(rows, mk).1 == [];
  }

  /** Two permutations expanded in enumeration order. */
  lemma ExpandAllTwo(r: seq<seq<int>>, mk: seq<int>, perms: seq<seq<int>>, t: seq<seq<int>>, fuel: nat,
                     o1: seq<seq<int>>, o2: seq<seq<int>>, rows: seq<seq<int>>)
    requires Headed(r) && Positions(mk, r) && rows == o1 + o2
    requires |perms| == 2 && forall e :: e in perms ==> Positions(e, r)
    requires ExpandPermutation(r, mk, perms[0], t, {}, fuel) == Value(o1)
    requires ExpandPermutation(r, mk, perms[1], t, {}, fuel) == Value(o2)
    ensures ExpandAll(r, mk, perms, t, [], fuel) == Value(rows)
  {
    var none: seq<seq<int>> := [];
    ExpandAllStep(r, mk, perms, t, none, fuel, o1);
    assert none + o1 == o1;
    ExpandAllStep(r, mk, perms[1..], t, o1, fuel, o2);
    assert perms[1..][1..] == [];
  }

  /** The first pattern test's permutations expand the same with any fuel. */
  lemma TwoRoutesNoShare(fuel: nat)
    ensures ExpandPermutation(TwoRoutes(), [0, 1], [0, 1], [[2]], {}, fuel) == Value([[2, 0, 1]])
    ensures ExpandPermutation(TwoRoutes(), [0, 1], [1, 0], [[2]], {}, fuel) == Value([[2, 1, 0]])
  {
    TwoRoutesForwardFuel(fuel);
    TwoRoutesBackwardFuel(fuel);
  }

  lemma TwoRoutesForwardFuel(fuel: nat)
    ensures ExpandPermutation(TwoRoutes(), [0, 1], [0, 1], [[2]], {}, fuel) == Value([[2, 0, 1]])
  {
    TwoRoutesUnshared([0, 1]);
    TwoRoutesForward();
    ExpandFuel(TwoRoutes(), [0, 1], [0, 1], [[2]], fuel);
  }

  lemma TwoRoutesBackwardFuel(fuel: nat)
    ensures ExpandPermutation(TwoRoutes(), [0, 1], [1, 0], [[2]], {}, fuel) == Value([[2, 1, 0]])
  {
    TwoRoutesUnshared([1, 0]);
    TwoRoutesBackward();
    ExpandFuel(TwoRoutes(), [0, 1], [1, 0], [[2]], fuel);
  }

  lemma TwoRoutesUnshared(e: seq<int>)
    requires forall x :: x in e ==> x == 0 || x == 1
    ensures Positions(e, TwoRoutes())
    ensures forall x :: x in e ==> !(|TwoRoutes()[x]| > 1 && |Sharing(TwoRoutes(), [0, 1], TwoRoutes()[x][1])| >= 2)
  {
    TwoRoutesApart();
  }

  lemma ExpandAllStep(routes: seq<seq<int>>, mk: seq<int>, perms: seq<seq<int>>, t: seq<seq<int>>,
                      ret: seq<seq<int>>, fuel: nat, o: seq<seq<int>>)
    requires Headed(routes) && Positions(mk, routes)
    requires forall e :: e in perms ==> Positions(e, routes)
    requires |perms| > 0 && ExpandPermutation(routes, mk, perms[0], t, {}, fuel) == Value(o)
    ensures ExpandAll(routes, mk, perms, t, ret, fuel) == ExpandAll(routes, mk, perms[1..], t, ret + o, fuel)
  {
  }

  /** Without a recursive expansion the fuel is not consulted. */
  lemma ExpandFuel(routes: seq<seq<int>>, mk: seq<int>, e: seq<int>, o: seq<seq<int>>, fuel: nat)
    requires Headed(routes) && Positions(mk, routes) && Positions(e, routes)
    requires forall x :: x in e ==> !(|routes[x]| > 1 && |Sharing(routes, mk, routes[x][1])| >= 2)
    ensures ExpandPermutation(routes, mk, e, o, {}, fuel) == ExpandPermutation(routes, mk, e, o, {}, 0)
    decreases |e|
  {
    if |e| > 0 {
      assert e[0] in e;
      assert forall y :: y in e[1..] ==> y in e;
      var route := routes[e[0]];
      var cookie := Cookie(route);
      if |o| > 0 && |cookie| > 0 {
        ExpandFuel(routes, mk, e[1..], AttachAll(o, cookie), fuel);
      } else if |o| == 0 {
        ExpandFuel(routes, mk, e[1..], o, fuel);
      }
    }
  }
}

=== FILE: phrase.dfy ===
/**
 * A phrase (bunsetsu) of the dependency analyser's output (phrase.go): the
 * header line `* <destination><type> ...` and the grouping of the following
 * lines into basic phrases, each starting at a `+` line. Analysing each
 * basic phrase is done by the external analyser; it is passed in as
 * `analyzes`, which says whether that analysis succeeds.
 */
module Phrases {
  import opened Runes
  import BP = BasicPhrases

  /** The outcome of a parse that may return an error or stop the program with a panic. */
  datatype Outcome<T> = Done(value: T) | Failed(message: string) | Crashed

  datatype Header = Header(destination: int, dependencyType: string, parallel: bool)

  datatype Phrase = Phrase(
    text: seq<string>,
    number: int,
    newLine: bool,
    keywords: seq<string>,
    destination: int,
    dependencyType: string,
    parallel: bool,
    basicPhrases: seq<BP.BasicPhrase>)

  /** The first position at or after `i` that is neither a digit nor '-'; None when the line ends first (an index panic). */
  function RunEnd(line: string, i: nat): (r: Option<nat>)
    ensures r.Some? ==> (i <= r.value < |line| && !(IsDigit(line[r.value]) || line[r.value] == '-')
      && forall k :: i <= k < r.value ==> IsDigit(line[k]) || line[k] == '-')
    ensures r.None? ==> forall k :: i <= k < |line| ==> IsDigit(line[k]) || line[k] == '-'
    decreases |line| - i
  {
    if i >= |line| then None
    else if IsDigit(line[i]) || line[i] == '-' then RunEnd(line, i + 1)
    else Some(i)
  }

  /**
   * The header line: the destination is the run of digits and '-' right
   * after the first space and must parse as an integer; the dependency type
   * is the rune after that run; the phrase is parallel when that rune is P.
   */
  function ParseHeader(line: string): (r: Outcome<Header>)
    ensures r.Done? ==> (
      var space := Index(line, " ", 0);
      space >= 0 && RunEnd(line, space + 1).Some?
      && var dt := RunEnd(line, space + 1).value;
      Atoi(line[space + 1..dt]) == Some(r.value.destination)
      && r.value.dependencyType == [line[dt]]
      && (r.value.parallel <==> line[dt] == 'P'))
    ensures r.Crashed? <==> Index(line, " ", 0) == -1 || RunEnd(line, Index(line, " ", 0) + 1).None?
  {
    var space := Index(line, " ", 0);
    if space == -1 then Crashed
    else
      match RunEnd(line, space + 1)
      case None => Crashed
      case Some(dt) =>
        match Atoi(line[space + 1..dt])
        case None => Failed("cannot convert the destination to int")
        case Some(d) =>
          assert line[dt..dt + 1] == [line[dt]];
          Done(Header(d, line[dt..dt + 1], line[dt..dt + 1] == "P"))
  }

  lemma {:induction false} RunEndOverDigits(pre: string, digits: string, c: char, rest: string, i: nat)
    requires |pre| <= i <= |pre| + |digits|
    requires forall k :: 0 <= k < |digits| ==> IsDigit(digits[k]) || digits[k] == '-'
    requires !(IsDigit(c) || c == '-')
    ensures RunEnd(pre + digits + [c] + rest, i) == Some(|pre| + |digits|)
    decreases |pre| + |digits| - i
  {
    var line := pre + digits + [c] + rest;
    if i < |pre| + |digits| {
      assert line[i] == digits[i - |pre|];
      RunEndOverDigits(pre, digits, c, rest, i + 1);
    } else {
      assert line[i] == c;
    }
  }

  /** A header of the shape `<head> <n><type><rest>` parses to destination n and that type. */
  lemma ParseHeaderFormatted(head: string, n: int, t: char, rest: string)
    requires ' ' !in head
    requires !(IsDigit(t) || t == '-')
    ensures ParseHeader(head + " " + Itoa(n) + [t] + rest) == Done(Header(n, [t], t == 'P'))
  {
    var a := head + " ";
    var line := a + Itoa(n) + [t] + rest;
    SpaceAfterHead(head, Itoa(n) + [t] + rest);
    assert line == head + " " + (Itoa(n) + [t] + rest);
    ItoaRun(n);
    RunEndOverDigits(a, Itoa(n), t, rest, |a|);
    HeaderSlices(a, Itoa(n), t, rest);
    AtoiItoa(n);
    assert Index(line, " ", 0) == |head|;
    assert RunEnd(line, |a|) == Some(|a| + |Itoa(n)|);
    assert line[|a|..|a| + |Itoa(n)|] == Itoa(n);
    assert Atoi(line[|a|..|a| + |Itoa(n)|]) == Some(n);
    ParseHeaderFrom(line, |head|, |a|, |a| + |Itoa(n)|, n);
  }

  /** The first space of `head + " " + tail` is the one after `head`. */
  lemma SpaceAfterHead(head: string, tail: string)
    requires ' ' !in head
    ensures Index(head + " " + tail, " ", 0) == |head|
  {
    var line := head + " " + tail;
    assert line[|head|] == ' ';
    assert line[..|head|] == head;
    IndexOfRune(line, ' ', |head|);
  }

  lemma ItoaRun(n: int)
    ensures forall k :: 0 <= k < |Itoa(n)| ==> IsDigit(Itoa(n)[k]) || Itoa(n)[k] == '-'
  {
    forall k | 0 <= k < |Itoa(n)| ensures IsDigit(Itoa(n)[k]) || Itoa(n)[k] == '-' {
    }
  }

  /** The digits and the rune after them, sliced back out of the line. */
  lemma HeaderSlices(a: string, d: string, t: char, rest: string)
    ensures |a| + |d| < |a + d + [t] + rest|
    ensures (a + d + [t] + rest)[|a|..|a| + |d|] == d && (a + d + [t] + rest)[|a| + |d|] == t
  {
  }

  /** A line whose space, digits run and destination are found parses to that header. */
  lemma ParseHeaderFrom(line: string, space: int, start: nat, dt: nat, d: int)
    requires space >= 0 && Index(line, " ", 0) == space && start == space + 1
    requires RunEnd(line, start) == Some(dt) && Atoi(line[start..dt]) == Some(d)
    ensures ParseHeader(line) == Done(Header(d, [line[dt]], line[dt] == 'P'))
  {
    assert line[dt..dt + 1] == [line[dt]];
  }

  /** The analyser's usual header: `* 1D` is a dependency on phrase 1 of type D. */
  lemma ParseHeaderExample()
    ensures ParseHeader("* 1D") == Done(Header(1, "D", false))
  {
    ParseHeaderFormatted("*", 1, 'D', "");
    assert Itoa(1) == "1";
    assert "*" + " " + "1" + ['D'] + "" == "* 1D";
  }

  // ---------------------------------------------------------------- grouping

  /**
   * The loop over lines 1.. of Phrase.Analyze, from line `i` with the open
   * group starting at `start`: a `+` line (other than the group's first)
   * closes the open group, which must then analyse. At the end, a group of a
   * single line is an error. Reading the first rune of an empty line panics.
   */
  function Scan(text: seq<string>, i: nat, start: nat, done: seq<seq<string>>,
                analyzes: seq<string> -> bool): (r: Outcome<seq<seq<string>>>)
    requires 1 <= start <= i <= |text|
    decreases |text| - i
  {
    if i == |text| then
      if start + 1 == i then Failed("remained only one line")
      else if analyzes(text[start..]) then Done(done + [text[start..]])
      else Failed("basic phrase analysis failed")
    else if i != start && |text[i]| == 0 then Crashed
    else if i != start && text[i][0] == '+' then
      if analyzes(text[start..i]) then Scan(text, i + 1, i, done + [text[start..i]], analyzes)
      else Failed("basic phrase analysis failed")
    else Scan(text, i + 1, start, done, analyzes)
  }

  function Flatten(groups: seq<seq<string>>): seq<string>
  {
    if |groups| == 0 then [] else Flatten(groups[..|groups| - 1]) + groups[|groups| - 1]
  }

  lemma FlattenSnoc(groups: seq<seq<string>>, g: seq<string>)
    ensures Flatten(groups + [g]) == Flatten(groups) + g
  {
    assert (groups + [g])[..|groups|] == groups;
  }

  /** A well-formed grouping of `lines`: each group opens at the first line or a `+` line and holds no other `+` line. */
  predicate WellGrouped(groups: seq<seq<string>>)
  {
    (forall j :: 0 <= j < |groups| ==> |groups[j]| >= 1)
    && (forall j :: 1 <= j < |groups| ==> |groups[j][0]| >= 1 && groups[j][0][0] == '+')
    && (forall j, k :: 0 <= j < |groups| && 1 <= k < |groups[j]| ==> |groups[j][k]| >= 1 && groups[j][k][0] != '+')
  }

  lemma WellGroupedSnoc(groups: seq<seq<string>>, g: seq<string>)
    requires WellGrouped(groups)
    requires |g| >= 1 && (|groups| > 0 ==> |g[0]| >= 1 && g[0][0] == '+')
    requires forall k :: 1 <= k < |g| ==> |g[k]| >= 1 && g[k][0] != '+'
    ensures WellGrouped(groups + [g])
  {
    var gs := groups + [g];
    forall j, k | 0 <= j < |gs| && 1 <= k < |gs[j]| ensures |gs[j][k]| >= 1 && gs[j][k][0] != '+' {
      if j < |groups| { assert gs[j] == groups[j]; }
    }
  }

  /** The lines of the open group after its first are non-empty and are not `+` lines. */
  predicate OpenGroup(text: seq<string>, start: nat, i: nat)
    requires 1 <= start <= i <= |text|
  {
    (1 < start < |text| ==> |text[start]| >= 1 && text[start][0] == '+')
    && forall k :: start < k < i ==> |text[k]| >= 1 && text[k][0] != '+'
  }

  /** Closing the open group `text[start..i]` keeps the grouping flattening to the lines read. */
  lemma CloseGroupFlat(text: seq<string>, i: nat, start: nat, done: seq<seq<string>>)
    requires 1 <= start <= i <= |text|
    requires Flatten(done) == text[1..start]
    ensures Flatten(done + [text[start..i]]) == text[1..i]
  {
    FlattenSnoc(done, text[start..i]);
    assert text[1..start] + text[start..i] == text[1..i];
  }

  /** ... and well formed. */
  lemma CloseGroupShape(text: seq<string>, i: nat, start: nat, done: seq<seq<string>>)
    requires 1 <= start < i <= |text|
    requires WellGrouped(done) && OpenGroup(text, start, i)
    requires |done| == 0 <==> start == 1
    ensures WellGrouped(done + [text[start..i]])
  {
    var g := text[start..i];
    forall k | 1 <= k < |g| ensures |g[k]| >= 1 && g[k][0] != '+' {
      assert g[k] == text[start + k];
    }
    if |done| > 0 {
      assert g[0] == text[start];
    }
    WellGroupedSnoc(done, g);
  }

  predicate AllAnalyze(groups: seq<seq<string>>, analyzes: seq<string> -> bool)
  {
    forall j :: 0 <= j < |groups| ==> analyzes(groups[j])
  }

  lemma AllAnalyzeSnoc(groups: seq<seq<string>>, g: seq<string>, analyzes: seq<string> -> bool)
    requires AllAnalyze(groups, analyzes) && analyzes(g)
    ensures AllAnalyze(groups + [g], analyzes)
  {
    var r := groups + [g];
    forall j | 0 <= j < |r| ensures analyzes(r[j]) {
      if j < |groups| { assert r[j] == groups[j]; }
    }
  }

  /** What the grouping loop keeps true: the closed groups are well formed, analysed and cover the lines before `start`. */
  predicate ScanInvariant(text: seq<string>, i: nat, start: nat, done: seq<seq<string>>,
                          analyzes: seq<string> -> bool)
  {
    1 <= start <= i <= |text| && start < |text|
    && Flatten(done) == text[1..start]
    && WellGrouped(done) && OpenGroup(text, start, i)
    && (|done| == 0 <==> start == 1)
    && AllAnalyze(done, analyzes)
  }

  /** The groups Phrase.Analyze ends with: lines 1.. in order, well formed, analysed, the last of two lines or more. */
  predicate GoodGroups(text: seq<string>, groups: seq<seq<string>>, analyzes: seq<string> -> bool)
    requires |text| >= 1
  {
    Flatten(groups) == text[1..] && WellGrouped(groups)
    && |groups| >= 1 && |groups[|groups| - 1]| >= 2
    && AllAnalyze(groups, analyzes)
  }

  lemma ScanEnd(text: seq<string>, start: nat, done: seq<seq<string>>, analyzes: seq<string> -> bool)
    requires ScanInvariant(text, |text|, start, done, analyzes)
    requires analyzes(text[start..]) && start + 1 != |text|
    ensures GoodGroups(text, done + [text[start..]], analyzes)
  {
    var g := text[start..];
    assert text[start..|text|] == g;
    CloseGroupFlat(text, |text|, start, done);
    CloseGroupShape(text, |text|, start, done);
    AllAnalyzeSnoc(done, g, analyzes);
  }

  lemma ScanClose(text: seq<string>, i: nat, start: nat, done: seq<seq<string>>, analyzes: seq<string> -> bool)
    requires ScanInvariant(text, i, start, done, analyzes)
    requires i < |text| && i != start && |text[i]| >= 1 && text[i][0] == '+' && analyzes(text[start..i])
    ensures ScanInvariant(text, i + 1, i, done + [text[start..i]], analyzes)
  {
    CloseGroupFlat(text, i, start, done);
    CloseGroupShape(text, i, start, done);
    AllAnalyzeSnoc(done, text[start..i], analyzes);
  }

  lemma ScanExtend(text: seq<string>, i: nat, start: nat, done: seq<seq<string>>, analyzes: seq<string> -> bool)
    requires ScanInvariant(text, i, start, done, analyzes)
    requires i < |text| && (i == start || (|text[i]| >= 1 && text[i][0] != '+'))
    ensures ScanInvariant(text, i + 1, start, done, analyzes)
  {
  }

  lemma {:induction false} ScanProps(text: seq<string>, i: nat, start: nat, done: seq<seq<string>>,
                                     analyzes: seq<string> -> bool)
    requires ScanInvariant(text, i, start, done, analyzes)
    ensures Scan(text, i, start, done, analyzes).Done? ==>
      GoodGroups(text, Scan(text, i, start, done, analyzes).value, analyzes)
    decreases |text| - i
  {
    if i == |text| {
      if start + 1 != i && analyzes(text[start..]) {
        ScanEnd(text, start, done, analyzes);
      }
    } else if i != start && |text[i]| == 0 {
    } else if i != start && text[i][0] == '+' {
      if analyzes(text[start..i]) {
        ScanClose(text, i, start, done, analyzes);
        ScanProps(text, i + 1, i, done + [text[start..i]], analyzes);
      }
    } else {
      ScanExtend(text, i, start, done, analyzes);
      ScanProps(text, i + 1, start, done, analyzes);
    }
  }

  /**
   * Phrase.Analyze: at least three lines, the first starting with '*'; the
   * header gives destination and type; the remaining lines become basic
   * phrases numbered from `begin`, and only the first inherits NewLine. The
   * returned number is `begin` plus the number of basic phrases.
   */
  function Analyze(text: seq<string>, number: int, newLine: bool, keywords: seq<string>, begin: int,
                   analyzes: seq<string> -> bool): (r: Outcome<(Phrase, int)>)
    ensures |text| <= 2 ==> r.Failed?
    ensures r.Done? ==> (
      var p := r.value.0;
      |text[0]| >= 1 && text[0][0] == '*'
      && ParseHeader(text[0]) == Done(Header(p.destination, p.dependencyType, p.parallel))
      && r.value.1 == begin + |p.basicPhrases|
      && |p.basicPhrases| >= 1
      && (forall k :: 0 <= k < |p.basicPhrases| ==>
            p.basicPhrases[k].id == begin + k && p.basicPhrases[k].number == k
            && p.basicPhrases[k].phraseNumber == number
            && (p.basicPhrases[k].newLine <==> k == 0 && newLine)))
  {
    if |text| <= 2 then Failed("want more than two lines")
    else if |text[0]| == 0 then Crashed
    else if text[0][0] != '*' then Failed("want start at *")
    else
      match ParseHeader(text[0])
      case Crashed => Crashed
      case Failed(e) => Failed(e)
      case Done(h) =>
        match Scan(text, 1, 1, [], analyzes)
        case Crashed => Crashed
        case Failed(e) => Failed(e)
        case Done(groups) =>
          if |groups| == 0 then Failed("no basic phrase")
          else
            var bps := seq(|groups|, k requires 0 <= k < |groups| =>
              BP.NewBasicPhrase(groups[k], number, k, begin + k, k == 0 && newLine, keywords));
            Done((Phrase(text, number, newLine, keywords, h.destination, h.dependencyType, h.parallel, bps),
                  begin + |bps|))
  }

  /** The basic phrases of an analysed phrase hold its lines 1.. in order, each group opening at a `+` line. */
  lemma AnalyzeGroupsLines(text: seq<string>, number: int, newLine: bool, keywords: seq<string>, begin: int,
                           analyzes: seq<string> -> bool)
    requires Analyze(text, number, newLine, keywords, begin, analyzes).Done?
    ensures var bps := Analyze(text, number, newLine, keywords, begin, analyzes).value.0.basicPhrases;
      var groups := seq(|bps|, k requires 0 <= k < |bps| => bps[k].text);
      Flatten(groups) == text[1..] && WellGrouped(groups)
      && |groups[|groups| - 1]| >= 2
      && forall k :: 0 <= k < |groups| ==> analyzes(groups[k])
  {
    assert text[1..1] == [];
    assert ScanInvariant(text, 1, 1, [], analyzes);
    ScanProps(text, 1, 1, [], analyzes);
    var groups := Scan(text, 1, 1, [], analyzes).value;
    var bps := Analyze(text, number, newLine, keywords, begin, analyzes).value.0.basicPhrases;
    assert seq(|bps|, k requires 0 <= k < |bps| => bps[k].text) == groups;
  }

  // ---------------------------------------------------------------- surface and kana

  /** Surface: the basic phrases' surfaces, concatenated in order. */
  function Surface(bps: seq<BP.BasicPhrase>): string
  {
    if |bps| == 0 then "" else Surface(bps[..|bps| - 1]) + bps[|bps| - 1].surface
  }

  /** Kana: the basic phrases' kana, concatenated in order. */
  function Kana(bps: seq<BP.BasicPhrase>): string
  {
    if |bps| == 0 then "" else Kana(bps[..|bps| - 1]) + bps[|bps| - 1].kana
  }

  /** The surface of a phrase split in two is the two surfaces joined. */
  lemma {:induction false} SurfaceConcat(a: seq<BP.BasicPhrase>, b: seq<BP.BasicPhrase>)
    ensures Surface(a + b) == Surface(a) + Surface(b)
    ensures Kana(a + b) == Kana(a) + Kana(b)
    decreases |b|
  {
    KanaConcat(a, b);
    if |b| == 0 {
      assert a + b == a;
    } else {
      var front := b[..|b| - 1];
      var x := b[|b| - 1];
      assert (a + b)[..|a + b| - 1] == a + front && (a + b)[|a + b| - 1] == x;
      SurfaceConcat(a, front);
      assert Surface(a + b) == Surface(a) + Surface(front) + x.surface;
      assert Surface(a) + Surface(front) + x.surface == Surface(a) + (Surface(front) + x.surface);
    }
  }

  lemma {:induction false} KanaConcat(a: seq<BP.BasicPhrase>, b: seq<BP.BasicPhrase>)
    ensures Kana(a + b) == Kana(a) + Kana(b)
    decreases |b|
  {
    if |b| == 0 {
      assert a + b == a;
    } else {
      var front := b[..|b| - 1];
      var x := b[|b| - 1];
      assert (a + b)[..|a + b| - 1] == a + front && (a + b)[|a + b| - 1] == x;
      KanaConcat(a, front);
      assert Kana(a + b) == Kana(a) + Kana(front) + x.kana;
      assert Kana(a) + Kana(front) + x.kana == Kana(a) + (Kana(front) + x.kana);
    }
  }

  function SumSurfaceLengths(bps: seq<BP.BasicPhrase>): nat
  {
    if |bps| == 0 then 0 else |bps[0].surface| + SumSurfaceLengths(bps[1..])
  }

  /** The surface is as long as all the basic phrases' surfaces together. */
  lemma {:induction false} SurfaceLength(bps: seq<BP.BasicPhrase>)
    ensures |Surface(bps)| == SumSurfaceLengths(bps)
    decreases |bps|
  {
    if |bps| > 0 {
      SurfaceLength(bps[1..]);
      SurfaceConcat([bps[0]], bps[1..]);
      assert [bps[0]] + bps[1..] == bps;
      assert Surface([bps[0]]) == Surface([]) + bps[0].surface;
    }
  }
}

=== FILE: predicate.dfy ===
/**
 * The predicate side of a KNP case analysis (predicate.go): the
 * `<格解析結果::…>` tags of a basic-phrase line, their case-frame id and the
 * ';'-separated case-element groups, each split on '/' into six fields.
 */
module Predicates {
  import opened Runes

  /** One case-element group: case, flag, notation and three optional integers. */
  datatype CaseElementGroup = CaseElementGroup(
    text: string,
    caseType: string,
    flag: string,
    notation: string,
    hasBasicPhraseNumber: bool,
    basicPhraseNumber: int,
    hasBeforeSentence: bool,
    beforeSentence: int,
    hasSentenceId: bool,
    sentenceId: int)

  datatype Predicate = Predicate(
    representativeNotation: string,
    proverbsType: string,
    caseFrameNumber: string,
    groups: seq<CaseElementGroup>,
    basicPhrase: string)

  // ---------------------------------------------------------------- integers

  /** caseElementInt: a present flag and the value, or (false, 0) when Atoi fails. */
  function CaseElementInt(text: string): (r: (bool, int))
    ensures r.0 <==> Atoi(text).Some?
    ensures r.0 ==> r.1 == Atoi(text).value
    ensures !r.0 ==> r.1 == 0
  {
    match Atoi(text)
    case Some(v) => (true, v)
    case None => (false, 0)
  }

  /** caseElementIntToString: "-" for an absent value, the decimal spelling otherwise. */
  function CaseElementIntToString(b: bool, i: int): (s: string)
    ensures !b ==> s == "-"
    ensures b ==> Atoi(s) == Some(i)
    ensures '/' !in s && ';' !in s
  {
    AtoiItoa(i);
    if b then Itoa(i) else "-"
  }

  /** Printing then reading an optional integer gives it back; absent reads as 0. */
  lemma CaseElementIntRoundTrip(b: bool, i: int)
    ensures CaseElementInt(CaseElementIntToString(b, i)) == (b, if b then i else 0)
  {
  }

  // ---------------------------------------------------------------- groups

  /**
   * PredicateCaseElementGroup.Analyze: a nil text or one that does not split
   * into exactly six '/'-fields is an error; the first three fields are kept
   * as they are and the last three read as optional integers.
   */
  function AnalyzeGroup(text: Option<string>): (r: Result<CaseElementGroup>)
    ensures r.Ok? <==> text.Some? && |Split(text.value, '/')| == 6
    ensures r.Ok? ==> (r.value.text == text.value
      && Join([r.value.caseType, r.value.flag, r.value.notation], '/') == Join(Split(text.value, '/')[..3], '/'))
    ensures r.Ok? ==> forall k :: 0 <= k < 3 ==> '/' !in [r.value.caseType, r.value.flag, r.value.notation][k]
    ensures r.Ok? ==>
      var v := Split(text.value, '/');
      (r.value.hasBasicPhraseNumber, r.value.basicPhraseNumber) == CaseElementInt(v[3])
      && (r.value.hasBeforeSentence, r.value.beforeSentence) == CaseElementInt(v[4])
      && (r.value.hasSentenceId, r.value.sentenceId) == CaseElementInt(v[5])
  {
    if text.None? then Err("PredicateCaseElementGroup.Text is null")
    else
      var v := Split(text.value, '/');
      if |v| != 6 then Err("cannot split PredicateCaseElementGroup.Text by 6")
      else
        assert [v[0], v[1], v[2]] == v[..3];
        var (b3, i3) := CaseElementInt(v[3]);
        var (b4, i4) := CaseElementInt(v[4]);
        var (b5, i5) := CaseElementInt(v[5]);
        Ok(CaseElementGroup(text.value, v[0], v[1], v[2], b3, i3, b4, i4, b5, i5))
  }

  /** The six fields of a group, written the way the analyser prints them. */
  function FormatGroup(caseType: string, flag: string, notation: string,
                       b3: bool, i3: int, b4: bool, i4: int, b5: bool, i5: int): string
  {
    Join([caseType, flag, notation, CaseElementIntToString(b3, i3),
      CaseElementIntToString(b4, i4), CaseElementIntToString(b5, i5)], '/')
  }

  /** A printed group reads back as the values it was printed from. */
  lemma AnalyzeGroupFormatted(caseType: string, flag: string, notation: string,
                              b3: bool, i3: int, b4: bool, i4: int, b5: bool, i5: int)
    requires '/' !in caseType && '/' !in flag && '/' !in notation
    ensures var t := FormatGroup(caseType, flag, notation, b3, i3, b4, i4, b5, i5);
      AnalyzeGroup(Some(t)) == Ok(CaseElementGroup(t, caseType, flag, notation,
        b3, if b3 then i3 else 0, b4, if b4 then i4 else 0, b5, if b5 then i5 else 0))
  {
    var parts := [caseType, flag, notation, CaseElementIntToString(b3, i3),
      CaseElementIntToString(b4, i4), CaseElementIntToString(b5, i5)];
    SplitJoin(parts, '/');
    CaseElementIntRoundTrip(b3, i3);
    CaseElementIntRoundTrip(b4, i4);
    CaseElementIntRoundTrip(b5, i5);
  }

  /** The groups of one tag in order; the first failing group aborts. */
  function AnalyzeGroups(texts: seq<string>): (r: Result<seq<CaseElementGroup>>)
    ensures r.Ok? <==> forall k :: 0 <= k < |texts| ==> AnalyzeGroup(Some(texts[k])).Ok?
    ensures r.Ok? ==> (|r.value| == |texts|
      && forall k :: 0 <= k < |texts| ==> r.value[k] == AnalyzeGroup(Some(texts[k])).value)
  {
    if texts == [] then Ok([])
    else
      match AnalyzeGroup(Some(texts[0]))
      case Err(m) => Err(m)
      case Ok(g) =>
        match AnalyzeGroups(texts[1..])
        case Err(m) => Err(m)
        case Ok(gs) => Ok([g] + gs)
  }

  // ---------------------------------------------------------------- tags

  const BeginTag := "<格解析結果::"

  /** What the tag-collecting loop of Predicate.Analyze ends with. */
  datatype Collected = Tags(tags: seq<string>) | Missing(message: string) | Loops

  /**
   * The loop as written: the inner `begin :=` declares a new variable, so
   * the search for the next tag never advances. With a second tag after the
   * first '>' the loop appends the first tag forever.
   */
  function CollectTagsAsWritten(bp: string): (r: Collected)
    ensures r.Tags? ==> CollectTags(bp) == Ok(r.tags) && |r.tags| == 1
    ensures r.Missing? ==> CollectTags(bp) == Err(r.message)
    ensures r.Missing? <==> !Contains(bp, BeginTag) || '>' !in bp[Index(bp, BeginTag, 0)..]
    ensures CollectTags(bp).Ok? && |CollectTags(bp).value| >= 2 ==> r == Loops
  {
    IndexFindsContains(bp, BeginTag);
    var begin := Index(bp, BeginTag, 0);
    if begin == -1 then Missing("Predicate.Analyze cannot find begin of tag")
    else
      var end := Index(bp, ">", begin);
      EndSearch(bp, begin, end);
      if end == -1 then Missing("cannot find end of tag")
      else if Index(bp, BeginTag, end) == -1 then Tags([bp[begin..end]])
      else Loops
  }

  /** Index of '>' from `b` is -1 exactly when no '>' follows `b`. */
  lemma EndSearch(bp: string, b: nat, e: int)
    requires b <= |bp| && e == Index(bp, ">", b)
    ensures e == -1 <==> '>' !in bp[b..]
  {
    if e != -1 {
      OccursAtRune(bp, '>', e);
      assert bp[b..][e - b] == '>';
    } else {
      forall k | b <= k < |bp| ensures bp[k] != '>' {
        OccursAtRune(bp, '>', k);
      }
    }
  }

  /** A collected tag: it opens with the begin tag and holds no '>'. */
  predicate IsTag(t: string)
  {
    |t| >= |BeginTag| && t[..|BeginTag|] == BeginTag && '>' !in t
  }

  /**
   * The loop as evidently intended: from each begin tag take the text up to
   * the next '>', then continue from the next begin tag after it.
   */
  function CollectFrom(bp: string, begin: nat): (r: Result<seq<string>>)
    requires OccursAt(bp, BeginTag, begin)
    ensures r.Ok? ==> |r.value| >= 1
    ensures r.Ok? ==> forall k :: 0 <= k < |r.value| ==> IsTag(r.value[k])
    decreases |bp| - begin
  {
    var end := Index(bp, ">", begin);
    if end == -1 then Err("cannot find end of tag")
    else
      TagAt(bp, begin, end);
      var tag := bp[begin..end];
      var next := Index(bp, BeginTag, end);
      if next == -1 then Ok([tag])
      else
        match CollectFrom(bp, next)
        case Err(m) => Err(m)
        case Ok(rest) => TagsCons(tag, rest); Ok([tag] + rest)
  }

  /** The text from a begin tag up to the next '>' is a tag. */
  lemma TagAt(bp: string, begin: nat, end: int)
    requires OccursAt(bp, BeginTag, begin) && end == Index(bp, ">", begin) && end != -1
    ensures begin + |BeginTag| <= end <= |bp| && IsTag(bp[begin..end])
  {
    CloseAfterOpen(bp, BeginTag, begin, end);
    var tag := bp[begin..end];
    assert '>' !in tag by {
      forall k | begin <= k < end ensures bp[k] != '>' {
        OccursAtRune(bp, '>', k);
      }
    }
    assert tag[..|BeginTag|] == bp[begin..begin + |BeginTag|];
  }

  lemma TagsCons(tag: string, rest: seq<string>)
    requires IsTag(tag) && forall k :: 0 <= k < |rest| ==> IsTag(rest[k])
    ensures forall k :: 0 <= k < |[tag] + rest| ==> IsTag(([tag] + rest)[k])
  {
  }

  function CollectTags(bp: string): (r: Result<seq<string>>)
    ensures !Contains(bp, BeginTag) ==> r.Err?
    ensures r.Ok? ==> |r.value| >= 1 && forall k :: 0 <= k < |r.value| ==>
      IsTag(r.value[k])
  {
    IndexFindsContains(bp, BeginTag);
    var begin := Index(bp, BeginTag, 0);
    if begin == -1 then Err("Predicate.Analyze cannot find begin of tag")
    else CollectFrom(bp, begin)
  }

  /** Tags with the given bodies, back to back. */
  function Blocks(vs: seq<string>): string
  {
    if vs == [] then "" else BeginTag + vs[0] + ">" + Blocks(vs[1..])
  }

  function TagsOf(vs: seq<string>): (r: seq<string>)
    ensures |r| == |vs| && forall k :: 0 <= k < |vs| ==> r[k] == BeginTag + vs[k]
  {
    if vs == [] then [] else [BeginTag + vs[0]] + TagsOf(vs[1..])
  }

  /** One tag `BeginTag + v + ">"` at `b`: where it closes and where the next search lands. */
  lemma CollectStep(bp: string, b: nat, v: string, rest: string)
    requires b <= |bp| && bp[b..] == BeginTag + v + ">" + rest && '>' !in v
    ensures OccursAt(bp, BeginTag, b)
    ensures Index(bp, ">", b) == b + |BeginTag| + |v|
    ensures bp[b..b + |BeginTag| + |v|] == BeginTag + v
    ensures bp[b + |BeginTag| + |v| + 1..] == rest
    ensures Index(bp, BeginTag, b + |BeginTag| + |v|) ==
      if Index(rest, BeginTag, 0) == -1 then -1 else b + |BeginTag| + |v| + 1 + Index(rest, BeginTag, 0)
  {
    CollectClose(bp, b, v, rest);
    CollectNext(bp, b, v, rest);
  }

  /** The tag at `b` closes at the '>' right after `v`. */
  lemma CollectClose(bp: string, b: nat, v: string, rest: string)
    requires b <= |bp| && bp[b..] == BeginTag + v + ">" + rest && '>' !in v
    ensures OccursAt(bp, BeginTag, b)
    ensures Index(bp, ">", b) == b + |BeginTag| + |v|
    ensures bp[b..b + |BeginTag| + |v|] == BeginTag + v
  {
    var pre := bp[..b];
    assert bp == pre + BeginTag + v + ">" + rest;
    CloseIndex(pre, BeginTag, v, rest);
  }

  /** After the '>' closing the tag at `b` the search goes on in `rest`. */
  lemma CollectNext(bp: string, b: nat, v: string, rest: string)
    requires b <= |bp| && bp[b..] == BeginTag + v + ">" + rest
    ensures bp[b + |BeginTag| + |v| + 1..] == rest
    ensures Index(bp, BeginTag, b + |BeginTag| + |v|) ==
      if Index(rest, BeginTag, 0) == -1 then -1 else b + |BeginTag| + |v| + 1 + Index(rest, BeginTag, 0)
  {
    var end := b + |BeginTag| + |v|;
    var head := bp[..b] + BeginTag + v + ">";
    assert bp == head + rest;
    assert bp[end] == '>';
    IndexSkip(bp, BeginTag, end);
    IndexShift(head, rest, BeginTag, 0);
  }

  /** A tag after which no begin tag follows is the last one collected. */
  lemma CollectFromLast(bp: string, b: nat, end: nat)
    requires OccursAt(bp, BeginTag, b) && end == Index(bp, ">", b) && Index(bp, BeginTag, end) == -1
    ensures CollectFrom(bp, b) == Ok([bp[b..end]])
  {
  }

  /** A tag after which another begin tag follows is put before the tags collected from there. */
  lemma CollectFromNext(bp: string, b: nat, end: nat, next: nat, tail: seq<string>)
    requires Closes(bp, b, end, next) && CollectFrom(bp, next) == Ok(tail)
    ensures CollectFrom(bp, b) == Ok([bp[b..end]] + tail)
  {
  }

  /** The tag at `b` closes at `end`, and the next begin tag after it is at `next`. */
  predicate Closes(bp: string, b: nat, end: nat, next: nat)
  {
    OccursAt(bp, BeginTag, b) && end == Index(bp, ">", b) && next == Index(bp, BeginTag, end)
    && OccursAt(bp, BeginTag, next)
  }

  /** A single tag followed by text without begin tags. */
  lemma CollectFromOne(bp: string, b: nat, v: string, post: string)
    requires b <= |bp| && bp[b..] == BeginTag + v + ">" + post && '>' !in v
    requires !Contains(post, BeginTag)
    ensures OccursAt(bp, BeginTag, b)
    ensures CollectFrom(bp, b) == Ok([BeginTag + v])
  {
    CollectStep(bp, b, v, post);
    IndexFindsContains(post, BeginTag);
    CollectFromLast(bp, b, b + |BeginTag| + |v|);
  }

  /** Where the tag at `b` closes, and that the next begin tag starts right after it. */
  lemma CollectFromMoreSteps(bp: string, b: nat, v: string, rest: string)
    requires b <= |bp| && bp[b..] == BeginTag + v + ">" + rest && '>' !in v
    requires |rest| >= |BeginTag| && rest[..|BeginTag|] == BeginTag
    ensures OccursAt(bp, BeginTag, b) && b + |BeginTag| + |v| == Index(bp, ">", b)
    ensures b + |BeginTag| + |v| + 1 == Index(bp, BeginTag, b + |BeginTag| + |v|)
    ensures OccursAt(bp, BeginTag, b + |BeginTag| + |v| + 1)
    ensures bp[b..b + |BeginTag| + |v|] == BeginTag + v
  {
    CollectStep(bp, b, v, rest);
    assert OccursAt(rest, BeginTag, 0);
    assert Index(rest, BeginTag, 0) == 0;
    OccursShift(bp, b, BeginTag + v + ">", rest, BeginTag);
  }

  /** The tag at `b` opens a run of at least two, holds `vs[0]` and closes at `end`, right before the next tag. */
  predicate OpensRun(bp: string, b: nat, vs: seq<string>, end: nat)
  {
    |vs| >= 2 && b <= end <= |bp| && OccursAt(bp, BeginTag, b) && Closes(bp, b, end, end + 1)
    && bp[b..end] == BeginTag + vs[0]
  }

  /** The first tag of a run of at least two: where it closes and that the rest of the run follows it. */
  lemma BlocksStep(bp: string, b: nat, vs: seq<string>, post: string) returns (end: nat)
    requires |vs| >= 2 && b <= |bp| && bp[b..] == Blocks(vs) + post && '>' !in vs[0]
    ensures end + 1 <= |bp| && OpensRun(bp, b, vs, end)
    ensures bp[end + 1..] == Blocks(vs[1..]) + post
  {
    var v := vs[0];
    var rest := Blocks(vs[1..]) + post;
    assert bp[b..] == BeginTag + v + ">" + rest;
    assert rest[..|BeginTag|] == BeginTag;
    CollectFromMoreSteps(bp, b, v, rest);
    end := b + |BeginTag| + |v|;
    assert bp[end + 1..] == rest by {
      assert bp[b..][|BeginTag| + |v| + 1..] == rest;
    }
  }

  /** From the start of a run of tags, every tag of the run is collected. */
  lemma {:induction false} CollectFromBlocks(bp: string, b: nat, vs: seq<string>, post: string)
    requires |vs| >= 1 && b <= |bp| && bp[b..] == Blocks(vs) + post
    requires forall k :: 0 <= k < |vs| ==> '>' !in vs[k]
    requires !Contains(post, BeginTag)
    ensures OccursAt(bp, BeginTag, b)
    ensures CollectFrom(bp, b) == Ok(TagsOf(vs))
    decreases |vs|
  {
    if |vs| == 1 {
      CollectFromSingle(bp, b, vs, post);
    } else {
      var end := BlocksStep(bp, b, vs, post);
      CollectFromBlocks(bp, end + 1, vs[1..], post);
      CollectFromBlocksMore(bp, b, vs, end);
    }
  }

  /** The first tag of a run of at least two, put before the tags collected from the next one. */
  lemma CollectFromBlocksMore(bp: string, b: nat, vs: seq<string>, end: nat)
    requires OpensRun(bp, b, vs, end) && CollectFrom(bp, end + 1) == Ok(TagsOf(vs[1..]))
    ensures CollectFrom(bp, b) == Ok(TagsOf(vs))
  {
    CollectFromNext(bp, b, end, end + 1, TagsOf(vs[1..]));
    TagsOfCons(vs);
  }

  /** A run of one tag. */
  lemma CollectFromSingle(bp: string, b: nat, vs: seq<string>, post: string)
    requires |vs| == 1 && b <= |bp| && bp[b..] == Blocks(vs) + post && '>' !in vs[0]
    requires !Contains(post, BeginTag)
    ensures OccursAt(bp, BeginTag, b)
    ensures CollectFrom(bp, b) == Ok(TagsOf(vs))
  {
    assert vs[1..] == [] && bp[b..] == BeginTag + vs[0] + ">" + post;
    assert TagsOf(vs) == [BeginTag + vs[0]];
    CollectFromOne(bp, b, vs[0], post);
  }

  lemma TagsOfCons(vs: seq<string>)
    requires |vs| >= 1
    ensures TagsOf(vs) == [BeginTag + vs[0]] + TagsOf(vs[1..])
  {
  }

  /** A line of tags, preceded by text without '<', yields exactly its tags. */
  lemma CollectTagsFormatted(pre: string, vs: seq<string>, post: string)
    requires |vs| >= 1 && '<' !in pre
    requires forall k :: 0 <= k < |vs| ==> '>' !in vs[k]
    requires !Contains(post, BeginTag)
    ensures CollectTags(pre + Blocks(vs) + post) == Ok(TagsOf(vs))
  {
    var bp := pre + Blocks(vs) + post;
    var tail := Blocks(vs) + post;
    ConcatAssoc(pre, Blocks(vs), post);
    BlocksStart(vs, post);
    FirstTagAt(pre, tail);
    CollectFromBlocks(bp, |pre|, vs, post);
    CollectTagsFrom(bp, |pre|);
  }

  /** A run of tags starts with a begin tag, whatever follows it. */
  lemma BlocksStart(vs: seq<string>, post: string)
    requires |vs| >= 1
    ensures |Blocks(vs) + post| >= |BeginTag| && (Blocks(vs) + post)[..|BeginTag|] == BeginTag
  {
    var rest := vs[0] + ">" + Blocks(vs[1..]) + post;
    assert Blocks(vs) + post == BeginTag + rest;
  }

  /** Before text without '<', a begin tag at the start of `tail` is the first one. */
  lemma FirstTagAt(pre: string, tail: string)
    requires '<' !in pre && |tail| >= |BeginTag| && tail[..|BeginTag|] == BeginTag
    ensures (pre + tail)[|pre|..] == tail
    ensures OccursAt(pre + tail, BeginTag, |pre|) && Index(pre + tail, BeginTag, 0) == |pre|
  {
    var bp := pre + tail;
    assert bp[|pre|..] == tail;
    assert bp[|pre|..|pre| + |BeginTag|] == tail[..|BeginTag|];
    assert forall k :: 0 <= k < |pre| ==> bp[k] == pre[k];
    assert BeginTag[0] == '<';
    IndexSkipRun(bp, BeginTag, 0, |pre|);
  }

  /** Where the first begin tag is found, the tags are those collected from there. */
  lemma CollectTagsFrom(bp: string, b: nat)
    requires Index(bp, BeginTag, 0) == b && OccursAt(bp, BeginTag, b)
    ensures CollectTags(bp) == CollectFrom(bp, b)
  {
  }

  /** On a line with two tags the loop as written never ends; the intended one takes both. */
  lemma CollectTagsAsWrittenLoops()
    ensures var bp := Blocks(["a", "b"]);
      CollectTagsAsWritten(bp) == Loops && CollectTags(bp) == Ok([BeginTag + "a", BeginTag + "b"])
  {
    var bp := Blocks(["a", "b"]);
    assert !Contains("", BeginTag);
    CollectTagsFormatted("", ["a", "b"], "");
    assert "" + bp + "" == bp;
    assert TagsOf(["a", "b"]) == [BeginTag + "a", BeginTag + "b"];
  }

  // ---------------------------------------------------------------- tag body

  /** A digit followed by a non-digit at `k`: where the first digit run ends. */
  predicate Boundary(t: string, k: int)
  {
    1 <= k < |t| && IsDigit(t[k - 1]) && !IsDigit(t[k])
  }

  /**
   * The digit scan of Predicate.Analyze: skip to the first digit, then past
   * the run. Reading past the end panics (None), which happens unless a
   * non-digit follows the first digit run.
   */
  function ScanDigits(t: string, i: nat, found: bool): (r: Option<nat>)
    requires i <= |t|
    requires found ==> i >= 1 && IsDigit(t[i - 1])
    requires !found ==> forall k :: 0 <= k < i ==> !IsDigit(t[k])
    ensures r.Some? ==> Boundary(t, r.value) && forall k :: i <= k < r.value ==> !Boundary(t, k)
    ensures r.None? ==> forall k :: i <= k < |t| ==> !Boundary(t, k)
    decreases |t| - i
  {
    if i == |t| then None
    else if !found || IsDigit(t[i]) then ScanDigits(t, i + 1, found || IsDigit(t[i]))
    else Some(i)
  }

  function FirstRunEnd(t: string): (r: Option<nat>)
    ensures r.Some? ==> Boundary(t, r.value) && forall k :: 0 <= k < r.value ==> !Boundary(t, k)
    ensures r.None? ==> forall k :: 0 <= k < |t| ==> !Boundary(t, k)
  {
    ScanDigits(t, 0, false)
  }

  /** The first digit run of `pre + digits + rest` ends where `rest` begins. */
  lemma FirstRunEndAt(pre: string, digits: string, rest: string)
    requires forall k :: 0 <= k < |pre| ==> !IsDigit(pre[k])
    requires |digits| >= 1 && forall k :: 0 <= k < |digits| ==> IsDigit(digits[k])
    requires |rest| >= 1 && !IsDigit(rest[0])
    ensures FirstRunEnd(pre + digits + rest) == Some(|pre| + |digits|)
  {
    var t := pre + digits + rest;
    var j := |pre| + |digits|;
    assert Boundary(t, j);
    forall k | 0 <= k < j
      ensures !Boundary(t, k)
    {
      if 1 <= k <= |pre| {
        assert t[k - 1] == pre[k - 1];
      } else if |pre| < k {
        assert t[k] == digits[k - |pre|];
      }
    }
  }

  /** What one collected tag gives. */
  datatype TagParse =
    | Skipped
    | Crash
    | Parsed(representativeNotation: string, proverbsType: string, caseFrameNumber: string, groupTexts: seq<string>)

  /**
   * One tag of Predicate.Analyze: the case-frame id runs from the end of the
   * begin tag to the end of the first digit run, and is split at its first
   * '/' and first ':'. A tag without '/' is skipped; a ':' missing or before
   * the '/' is a slice out of range, as is a missing digit run.
   */
  function ParseTag(t: string): (r: TagParse)
    ensures r.Parsed? ==> exists j :: (FirstRunEnd(t) == Some(j) && |BeginTag| <= j
      && t[|BeginTag|..j] == r.representativeNotation + "/" + r.proverbsType + ":" + r.caseFrameNumber
      && r.groupTexts == Split(t[j..], ';'))
    ensures r.Parsed? ==> '/' !in r.representativeNotation && ':' !in r.representativeNotation + "/" + r.proverbsType
  {
    match FirstRunEnd(t)
    case None => Crash
    case Some(j) =>
      if j < |BeginTag| then Crash
      else
        var id := t[|BeginTag|..j];
        var slash := Index(id, "/", 0);
        var colon := Index(id, ":", 0);
        if slash == -1 then Skipped
        else if colon < slash + 1 then Crash
        else
          SplitAtRunes(id, slash, colon);
          Parsed(id[..slash], id[slash + 1..colon], id[colon + 1..], Split(t[j..], ';'))
  }

  /** Cutting at the first '/' and the first ':' after it puts the pieces back together. */
  lemma SplitAtRunes(id: string, slash: int, colon: int)
    requires slash == Index(id, "/", 0) && colon == Index(id, ":", 0)
    requires 0 <= slash < colon
    ensures id == id[..slash] + "/" + id[slash + 1..colon] + ":" + id[colon + 1..]
    ensures '/' !in id[..slash] && ':' !in id[..slash] + "/" + id[slash + 1..colon]
  {
    OccursAtRune(id, '/', slash);
    OccursAtRune(id, ':', colon);
    forall k | 0 <= k < slash ensures id[k] != '/' {
      OccursAtRune(id, '/', k);
    }
    forall k | 0 <= k < colon ensures id[k] != ':' {
      OccursAtRune(id, ':', k);
    }
    var pre := id[..slash] + "/" + id[slash + 1..colon];
    assert pre == id[..colon];
  }

  predicate NoDigits(s: string)
  {
    forall k :: 0 <= k < |s| ==> !IsDigit(s[k])
  }

  lemma NoDigitsConcat(a: string, b: string)
    requires NoDigits(a) && NoDigits(b)
    ensures NoDigits(a + b)
  {
    forall k | 0 <= k < |a + b| ensures !IsDigit((a + b)[k]) {
      if k >= |a| { assert (a + b)[k] == b[k - |a|]; }
    }
  }

  /** The case-frame id of a printed tag: everything before the digits carries none. */
  lemma TagHeadNoDigits(rep: string, kind: string, numPrefix: string)
    requires NoDigits(rep) && NoDigits(kind) && NoDigits(numPrefix)
    ensures NoDigits(BeginTag + rep + "/" + kind + ":" + numPrefix)
  {
    assert NoDigits(BeginTag) && NoDigits("/") && NoDigits(":");
    NoDigitsConcat(BeginTag, rep);
    NoDigitsConcat(BeginTag + rep, "/");
    NoDigitsConcat(BeginTag + rep + "/", kind);
    NoDigitsConcat(BeginTag + rep + "/" + kind, ":");
    NoDigitsConcat(BeginTag + rep + "/" + kind + ":", numPrefix);
  }

  /** The first '/' and the first ':' of a printed case-frame id. */
  lemma FrameIdSeparators(id: string, rep: string, kind: string, num: string)
    requires id == rep + "/" + kind + ":" + num
    requires '/' !in rep && ':' !in rep && ':' !in kind
    ensures Index(id, "/", 0) == |rep| && Index(id, ":", 0) == |rep| + 1 + |kind|
    ensures id[..|rep|] == rep && id[|rep| + 1..|rep| + 1 + |kind|] == kind && id[|rep| + 1 + |kind| + 1..] == num
  {
    assert id[..|rep|] == rep;
    IndexOfRune(id, '/', |rep|);
    assert id[..|rep| + 1 + |kind|] == rep + "/" + kind;
    IndexOfRune(id, ':', |rep| + 1 + |kind|);
    assert id[|rep| + 1..|rep| + 1 + |kind|] == kind;
    assert id[|rep| + 1 + |kind| + 1..] == num;
  }

  lemma Regroup(a: string, b: string, c: string, d: string, e: string, f: string, g: string)
    ensures a + b + c + d + e + f + g == a + (b + c + d + e + (f + g))
  {
  }

  /** ParseTag once the digit run and both separators are located. */
  lemma ParseTagAt(t: string, j: nat, id: string, slash: nat, colon: nat)
    requires FirstRunEnd(t) == Some(j) && |BeginTag| <= j && id == t[|BeginTag|..j]
    requires slash == Index(id, "/", 0) && colon == Index(id, ":", 0)
    requires slash < colon
    ensures ParseTag(t) == Parsed(id[..slash], id[slash + 1..colon], id[colon + 1..], Split(t[j..], ';'))
  {
  }

  /** A tag whose digit run ends right after a well-formed case-frame id. */
  lemma ParseTagOfId(id: string, groups: string, rep: string, kind: string, num: string)
    requires id == rep + "/" + kind + ":" + num
    requires '/' !in rep && ':' !in rep && ':' !in kind
    requires FirstRunEnd(BeginTag + id + groups) == Some(|BeginTag| + |id|)
    ensures ParseTag(BeginTag + id + groups) == Parsed(rep, kind, num, Split(groups, ';'))
  {
    var t := BeginTag + id + groups;
    var j := |BeginTag| + |id|;
    assert t[|BeginTag|..j] == id && t[j..] == groups by {
      SliceConcat3(BeginTag, id, groups);
    }
    var slash, colon := |rep|, |rep| + 1 + |kind|;
    assert Index(id, "/", 0) == slash && Index(id, ":", 0) == colon
      && id[..slash] == rep && id[slash + 1..colon] == kind && id[colon + 1..] == num by {
      FrameIdSeparators(id, rep, kind, num);
    }
    ParseTagAt(t, j, id, slash, colon);
  }

  /**
   * A tag printed as begin tag, notation, '/', type, ':', a frame number
   * ending in digits, then the groups, parses back into those pieces.
   */
  lemma ParseTagFormatted(rep: string, kind: string, numPrefix: string, digits: string, groups: string)
    requires NoDigits(rep) && NoDigits(kind) && NoDigits(numPrefix)
    requires '/' !in rep && ':' !in rep && ':' !in kind
    requires |digits| >= 1 && forall k :: 0 <= k < |digits| ==> IsDigit(digits[k])
    requires |groups| >= 1 && !IsDigit(groups[0])
    ensures ParseTag(BeginTag + rep + "/" + kind + ":" + numPrefix + digits + groups)
      == Parsed(rep, kind, numPrefix + digits, Split(groups, ';'))
  {
    var id := rep + "/" + kind + ":" + (numPrefix + digits);
    var pre := BeginTag + rep + "/" + kind + ":" + numPrefix;
    TagHeadNoDigits(rep, kind, numPrefix);
    Regroup(BeginTag, rep, "/", kind, ":", numPrefix, digits);
    assert pre + digits == BeginTag + id;
    FirstRunEndAt(pre, digits, groups);
    ParseTagOfId(id, groups, rep, kind, numPrefix + digits);
  }

  // ---------------------------------------------------------------- analyze

  /** What Predicate.Analyze ends with: a predicate, an error, a panic, or no end at all. */
  datatype Analysis = Analyzed(value: Predicate) | Failed(message: string) | Crashed | Hangs

  function NewPredicate(bp: string): Predicate
  {
    Predicate("", "", "", [], bp)
  }

  /**
   * Every parsed tag overwrites the case-frame id and adds its groups;
   * skipped tags change nothing.
   */
  function ApplyTags(p: Predicate, tags: seq<string>): (r: Analysis)
    ensures !r.Hangs?
    ensures r.Analyzed? ==> r.value.basicPhrase == p.basicPhrase
    ensures r.Analyzed? ==> |r.value.groups| >= |p.groups| && r.value.groups[..|p.groups|] == p.groups
    ensures r.Analyzed? ==> forall g :: g in r.value.groups[|p.groups|..] ==> |Split(g.text, '/')| == 6
    decreases |tags|
  {
    if tags == [] then Analyzed(p)
    else
      match ParseTag(tags[0])
      case Skipped => ApplyTags(p, tags[1..])
      case Crash => Crashed
      case Parsed(rep, kind, num, texts) =>
        match AnalyzeGroups(texts)
        case Err(m) => Failed(m)
        case Ok(gs) =>
          var r := ApplyTags(p.(representativeNotation := rep, proverbsType := kind, caseFrameNumber := num,
            groups := p.groups + gs), tags[1..]);
          if r.Analyzed? then
            GroupsSixfold(texts, gs);
            GroupsExtend(p.groups, gs, r.value.groups);
            r
          else r
  }

  /** A group that splits into six '/'-fields. */
  predicate Sixfold(g: CaseElementGroup)
  {
    |Split(g.text, '/')| == 6
  }

  /** Every group a tag yields splits into six fields. */
  lemma GroupsSixfold(texts: seq<string>, gs: seq<CaseElementGroup>)
    requires AnalyzeGroups(texts) == Ok(gs)
    ensures forall g :: g in gs ==> Sixfold(g)
  {
    forall g | g in gs ensures Sixfold(g) {
      var k :| 0 <= k < |gs| && gs[k] == g;
      assert g == AnalyzeGroup(Some(texts[k])).value;
    }
  }

  /** Groups that extend `front + gs` extend `front`, and what follows `front` is sixfold when `gs` and the rest are. */
  lemma GroupsExtend(front: seq<CaseElementGroup>, gs: seq<CaseElementGroup>, all: seq<CaseElementGroup>)
    requires forall g :: g in gs ==> Sixfold(g)
    requires |all| >= |front + gs| && all[..|front + gs|] == front + gs
    requires forall g :: g in all[|front + gs|..] ==> Sixfold(g)
    ensures |all| >= |front| && all[..|front|] == front
    ensures forall g :: g in all[|front|..] ==> Sixfold(g)
  {
    assert all[..|front|] == (front + gs)[..|front|];
    forall g | g in all[|front|..] ensures Sixfold(g) {
      var k :| |front| <= k < |all| && all[k] == g;
      if k < |front + gs| {
        assert g == (front + gs)[k] == gs[k - |front|];
      } else {
        assert g == all[|front + gs|..][k - |front + gs|];
      }
    }
  }

  /**
   * Predicate.Analyze, with the tag loop as evidently intended: a missing
   * begin tag or an unclosed tag is an error, then every tag is applied.
   */
  function Analyze(bp: string): (r: Analysis)
    ensures !Contains(bp, BeginTag) ==> r.Failed?
    ensures r.Analyzed? ==> r.value.basicPhrase == bp
    ensures r.Analyzed? ==> forall g :: g in r.value.groups ==> |Split(g.text, '/')| == 6
  {
    match CollectTags(bp)
    case Err(m) => Failed(m)
    case Ok(tags) => ApplyTags(NewPredicate(bp), tags)
  }

  /**
   * Predicate.Analyze as written: the tag loop never ends once a second
   * begin tag follows the first '>'. Whenever it does end, it agrees with
   * the corrected Analyze, and it hangs on every line the corrected loop
   * reads two or more tags from.
   */
  function AnalyzeAsWritten(bp: string): (r: Analysis)
    ensures r.Hangs? <==> CollectTagsAsWritten(bp) == Loops
    ensures !r.Hangs? ==> r == Analyze(bp)
    ensures CollectTags(bp).Ok? && |CollectTags(bp).value| >= 2 ==> r.Hangs?
  {
    match CollectTagsAsWritten(bp)
    case Missing(m) => Failed(m)
    case Loops => Hangs
    case Tags(tags) => ApplyTags(NewPredicate(bp), tags)
  }

  /** On a line with two tags the analysis as written hangs. */
  lemma AnalyzeAsWrittenHangs()
    ensures AnalyzeAsWritten(Blocks(["a", "b"])) == Hangs
  {
    CollectTagsAsWrittenLoops();
  }

  /** A line with one well-formed tag yields that tag's frame id and groups. */
  lemma AnalyzeOneTag(pre: string, body: string, post: string,
                      rep: string, kind: string, numPrefix: string, digits: string, groups: string)
    requires body == rep + "/" + kind + ":" + numPrefix + digits + groups
    requires '<' !in pre && '>' !in body && !Contains(post, BeginTag)
    requires NoDigits(rep) && NoDigits(kind) && NoDigits(numPrefix)
    requires '/' !in rep && ':' !in rep && ':' !in kind
    requires |digits| >= 1 && forall k :: 0 <= k < |digits| ==> IsDigit(digits[k])
    requires |groups| >= 1 && !IsDigit(groups[0])
    requires AnalyzeGroups(Split(groups, ';')).Ok?
    ensures var bp := pre + Blocks([body]) + post;
      Analyze(bp) == Analyzed(Predicate(rep, kind, numPrefix + digits,
        AnalyzeGroups(Split(groups, ';')).value, bp))
  {
    var bp := pre + Blocks([body]) + post;
    CollectTagsFormatted(pre, [body], post);
    assert TagsOf([body]) == [BeginTag + body];
    ParseTagFormatted(rep, kind, numPrefix, digits, groups);
    Regroup8(BeginTag, rep, "/", kind, ":", numPrefix, digits, groups);
    ApplyOneTag(NewPredicate(bp), BeginTag + body);
  }

  /** Applying a single parsed tag to a fresh predicate. */
  lemma ApplyOneTag(p: Predicate, tag: string)
    requires p.groups == [] && ParseTag(tag).Parsed?
    requires AnalyzeGroups(ParseTag(tag).groupTexts).Ok?
    ensures var t := ParseTag(tag);
      ApplyTags(p, [tag]) == Analyzed(p.(representativeNotation := t.representativeNotation,
        proverbsType := t.proverbsType, caseFrameNumber := t.caseFrameNumber,
        groups := AnalyzeGroups(t.groupTexts).value))
  {
    var gs := AnalyzeGroups(ParseTag(tag).groupTexts).value;
    assert [] + gs == gs;
    assert [tag][1..] == [];
  }

  lemma Regroup8(a: string, b: string, c: string, d: string, e: string, f: string, g: string, h: string)
    ensures a + (b + c + d + e + f + g + h) == a + b + c + d + e + f + g + h
  {
  }
}

=== FILE: runes.dfy ===
/**
 * Definitions of the library helpers the core calls on rune slices and
 * integers: Go's `strconv.Atoi`/`Itoa`, `unicode.IsDigit`, and the helpers of
 * the `lgo/runes` and `lgo/algo` packages (Index, Split, Permutations,
 * Combinations, Reverse). Each is given a definition together with the
 * contract the callers rely on.
 */
module Runes {

  datatype Option<T> = None | Some(value: T)

  /** A Go `(value, error)` pair: either a value or the error's message. */
  datatype Result<T> = Ok(value: T) | Err(message: string)

  // ---------------------------------------------------------------- Index

  /** `sub` occurs in `s` starting at position `i`. */
  predicate OccursAt(s: string, sub: string, i: int)
  {
    0 <= i && i + |sub| <= |s| && s[i..i + |sub|] == sub
  }

  /**
   * `runes.Index(s, sub, from)`: the first position at or after `from` where
   * `sub` occurs in `s`, or -1 when there is none.
   */
  function Index(s: string, sub: string, from: nat): (r: int)
    ensures r == -1 || (from <= r && OccursAt(s, sub, r))
    ensures r == -1 ==> forall i :: from <= i ==> !OccursAt(s, sub, i)
    ensures r != -1 ==> forall i :: from <= i < r ==> !OccursAt(s, sub, i)
    decreases |s| - from
  {
    if from + |sub| > |s| then -1
    else if s[from..from + |sub|] == sub then from
    else Index(s, sub, from + 1)
  }

  /** Searching a suffix of `pre + s` is searching `s`, shifted by `|pre|`. */
  lemma {:induction false} IndexShift(pre: string, s: string, sub: string, from: nat)
    ensures Index(pre + s, sub, |pre| + from) ==
      if Index(s, sub, from) == -1 then -1 else |pre| + Index(s, sub, from)
    decreases |s| - from
  {
    if from + |sub| <= |s| {
      assert (pre + s)[|pre| + from..|pre| + from + |sub|] == s[from..from + |sub|];
      if s[from..from + |sub|] != sub {
        IndexShift(pre, s, sub, from + 1);
      }
    }
  }

  /** The first occurrence of a rune is the first position holding it. */
  lemma IndexOfRune(s: string, c: char, k: nat)
    requires k < |s| && s[k] == c && c !in s[..k]
    ensures Index(s, [c], 0) == k
  {
    OccursAtRune(s, c, k);
    forall i | 0 <= i < k
      ensures !OccursAt(s, [c], i)
    {
      OccursAtRune(s, c, i);
      assert s[i] == s[..k][i];
    }
  }

  /** The middle and the end of a three-part concatenation, sliced back out. */
  lemma SliceConcat3(a: string, b: string, c: string)
    ensures (a + b + c)[|a|..|a| + |b|] == b && (a + b + c)[|a| + |b|..] == c
  {
  }

  /** The pieces of a five-part concatenation, sliced back out. */
  lemma Slices5(a: string, b: string, c: string, d: string, e: string)
    ensures var s := a + b + c + d + e; var i := |a| + |b|; var j := i + |c|; var k := j + |d|;
      s[..i] == a + b && s[i..j] == c && s[j..k] == d && s[k..] == e
  {
    var s := a + b + c + d + e;
    assert s == (a + b) + (c + (d + e));
  }

  /** `sub` occurs somewhere in `s` (Go's `strings.Contains`). */
  predicate Contains(s: string, sub: string)
  {
    exists i :: 0 <= i <= |s| - |sub| && OccursAt(s, sub, i)
  }

  lemma IndexFindsContains(s: string, sub: string)
    ensures Index(s, sub, 0) != -1 <==> Contains(s, sub)
  {
    var r := Index(s, sub, 0);
    if r != -1 {
      assert OccursAt(s, sub, r);
    }
  }

  /** A one-rune search hits exactly the positions holding that rune. */
  lemma OccursAtRune(s: string, c: char, i: int)
    ensures OccursAt(s, [c], i) <==> (0 <= i < |s| && s[i] == c)
  {
    if 0 <= i < |s| {
      assert s[i..i + 1] == [s[i]];
    }
  }

  lemma ContainsRune(s: string, c: char)
    ensures Contains(s, [c]) <==> c in s
  {
    if c in s {
      var i :| 0 <= i < |s| && s[i] == c;
      OccursAtRune(s, c, i);
    }
    if Contains(s, [c]) {
      var i :| 0 <= i <= |s| - 1 && OccursAt(s, [c], i);
      OccursAtRune(s, c, i);
    }
  }

  // ---------------------------------------------------------------- tags

  /** The outcome of looking for `open ... >` in an analyser line. */
  datatype TagSearch = Absent | Unclosed | Closed(value: string)

  /**
   * The idiom the parsers share: find the first `open` tag, then the first
   * '>' at or after it; the value is the text between the two.
   */
  function TagContent(s: string, open: string): (r: TagSearch)
    requires '>' !in open
    ensures r.Absent? <==> !Contains(s, open)
    ensures r.Unclosed? <==> Contains(s, open) && '>' !in s[Index(s, open, 0)..]
    ensures r.Closed? ==> '>' !in r.value
    ensures r.Closed? ==>
      var b := Index(s, open, 0);
      0 <= b && b + |open| + |r.value| < |s|
      && s[b + |open|..b + |open| + |r.value|] == r.value && s[b + |open| + |r.value|] == '>'
  {
    IndexFindsContains(s, open);
    var b := Index(s, open, 0);
    if b == -1 then Absent
    else
      var e := Index(s, ">", b);
      CloseAfterOpen(s, open, b, e);
      Closed'(s, open, b, e)
  }

  /** The second half of TagContent, once the open tag is at `b`. */
  function Closed'(s: string, open: string, b: nat, e: int): (r: TagSearch)
    requires OccursAt(s, open, b)
    requires e == Index(s, ">", b)
    requires e != -1 ==> b + |open| <= e
    ensures r.Unclosed? <==> '>' !in s[b..]
    ensures r.Closed? ==> '>' !in r.value
    ensures r.Closed? ==> b + |open| + |r.value| == e < |s| && s[b + |open|..e] == r.value && s[e] == '>'
    ensures !r.Absent?
  {
    if e == -1 then
      assert '>' !in s[b..] by {
        forall k | b <= k < |s| ensures s[k] != '>' {
          OccursAtRune(s, '>', k);
        }
      }
      Unclosed
    else
      OccursAtRune(s, '>', e);
      var v := s[b + |open|..e];
      assert '>' !in v by {
        forall k | b + |open| <= k < e ensures s[k] != '>' {
          OccursAtRune(s, '>', k);
        }
      }
      assert s[b..][e - b] == '>';
      Closed(v)
  }

  /** The first '>' after an open tag lies past the end of the tag. */
  lemma CloseAfterOpen(s: string, open: string, b: int, e: int)
    requires '>' !in open
    requires b != -1 ==> 0 <= b && OccursAt(s, open, b)
    requires b != -1 ==> e == Index(s, ">", b)
    ensures b != -1 && e != -1 ==> b + |open| <= e
  {
    if b != -1 && e != -1 {
      forall k | b <= k < b + |open|
        ensures !OccursAt(s, ">", k)
      {
        OccursAtRune(s, '>', k);
        assert s[k] == s[b..b + |open|][k - b] == open[k - b];
      }
    }
  }

  /** In `pre + open + v + ">" + rest` the first '>' from the tag is the one after `v`. */
  lemma CloseIndex(pre: string, open: string, v: string, rest: string)
    requires '>' !in open && '>' !in v
    ensures OccursAt(pre + open + v + ">" + rest, open, |pre|)
    ensures Index(pre + open + v + ">" + rest, ">", |pre|) == |pre| + |open| + |v|
    ensures (pre + open + v + ">" + rest)[|pre|..|pre| + |open| + |v|] == open + v
  {
    var s := pre + open + v + ">" + rest;
    var c := |pre| + |open| + |v|;
    assert s[|pre|..|pre| + |open|] == open;
    assert s[|pre|..c] == open + v;
    assert s[c] == '>';
    OccursAtRune(s, '>', c);
    forall k | |pre| <= k < c
      ensures !OccursAt(s, ">", k)
    {
      OccursAtRune(s, '>', k);
      assert s[k] == s[|pre|..c][k - |pre|];
    }
  }

  /** An occurrence at the start of `rest` is an occurrence in `s` once `s[b..]` is `head + rest`. */
  lemma OccursShift(s: string, b: nat, head: string, rest: string, sub: string)
    requires b <= |s| && s[b..] == head + rest && OccursAt(rest, sub, 0)
    ensures OccursAt(s, sub, b + |head|)
  {
    var i := b + |head|;
    assert s[i..i + |sub|] == s[b..][|head|..|head| + |sub|];
    assert (head + rest)[|head|..|head| + |sub|] == rest[..|sub|];
  }

  /** A position whose rune differs from the first rune of `sub` is passed over. */
  lemma IndexSkip(s: string, sub: string, i: nat)
    requires i < |s| && |sub| >= 1 && s[i] != sub[0]
    ensures Index(s, sub, i) == Index(s, sub, i + 1)
  {
    if i + |sub| <= |s| {
      assert s[i..i + |sub|][0] == s[i];
    }
  }

  /** A stretch without the first rune of `sub` is passed over as a whole. */
  lemma {:induction false} IndexSkipRun(s: string, sub: string, from: nat, to: nat)
    requires from <= to <= |s| && |sub| >= 1
    requires forall k :: from <= k < to ==> s[k] != sub[0]
    ensures Index(s, sub, from) == Index(s, sub, to)
    decreases |s| - from
  {
    if from < to {
      IndexSkip(s, sub, from);
      IndexSkipRun(s, sub, from + 1, to);
    }
  }

  /** A tag written as `pre open v > post` reads back as `v`. */
  lemma TagContentFormatted(pre: string, open: string, v: string, post: string)
    requires |open| >= 1 && '>' !in open && '>' !in v && open[0] !in pre
    ensures TagContent(pre + open + v + ">" + post, open) == Closed(v)
  {
    var s := pre + open + v + ">" + post;
    CloseIndex(pre, open, v, post);
    forall k | 0 <= k < |pre| ensures s[k] != open[0] {
      assert s[k] == pre[k];
    }
    IndexSkipRun(s, open, 0, |pre|);
    var c := |pre| + |open| + |v|;
    assert s[|pre| + |open|..c] == (open + v)[|open|..];
  }

  // ---------------------------------------------------------------- Split

  /** Joins `parts` with `sep` between neighbours; the inverse of Split. */
  function Join(parts: seq<string>, sep: char): string
    requires |parts| >= 1
  {
    if |parts| == 1 then parts[0] else parts[0] + [sep] + Join(parts[1..], sep)
  }

  /**
   * `runes.Split(s, sep)` for a one-rune separator: the maximal pieces of `s`
   * between separators, so an empty `s` gives one empty piece and `k`
   * separators give `k + 1` pieces.
   */
  function Split(s: string, sep: char): (r: seq<string>)
    ensures |r| >= 1
    ensures forall i :: 0 <= i < |r| ==> sep !in r[i]
  {
    if |s| == 0 then [""]
    else
      var rest := Split(s[1..], sep);
      assert s == [s[0]] + s[1..];
      if s[0] == sep then [""] + rest
      else [[s[0]] + rest[0]] + rest[1..]
  }

  lemma {:induction false} JoinSplit(s: string, sep: char)
    ensures Join(Split(s, sep), sep) == s
  {
    if |s| > 0 {
      JoinSplit(s[1..], sep);
      var rest := Split(s[1..], sep);
      if s[0] != sep {
        if |rest| == 1 {
          assert Join(Split(s, sep), sep) == [s[0]] + rest[0];
        } else {
          var r := Split(s, sep);
          assert r[1..] == rest[1..];
          assert Join(r, sep) == [s[0]] + rest[0] + [sep] + Join(rest[1..], sep);
        }
      }
    }
  }

  lemma SplitCons(c: char, s: string, sep: char)
    ensures Split([c] + s, sep) ==
      if c == sep then [""] + Split(s, sep) else [[c] + Split(s, sep)[0]] + Split(s, sep)[1..]
  {
    assert ([c] + s)[1..] == s;
  }

  /** A separator-free piece followed by a separator splits off as one part. */
  lemma {:induction false} SplitPiece(p: string, rest: string, sep: char)
    requires sep !in p
    ensures Split(p + [sep] + rest, sep) == [p] + Split(rest, sep)
  {
    if |p| == 0 {
      assert p + [sep] + rest == [sep] + rest;
      SplitCons(sep, rest, sep);
    } else {
      var q := p[1..];
      assert sep !in q by {
        assert forall k :: 0 <= k < |q| ==> q[k] == p[k + 1];
      }
      SplitPiece(q, rest, sep);
      assert p + [sep] + rest == [p[0]] + (q + [sep] + rest);
      SplitCons(p[0], q + [sep] + rest, sep);
      assert [p[0]] + q == p;
    }
  }

  lemma {:induction false} SplitJoin(parts: seq<string>, sep: char)
    requires |parts| >= 1
    requires forall i :: 0 <= i < |parts| ==> sep !in parts[i]
    ensures Split(Join(parts, sep), sep) == parts
  {
    if |parts| == 1 {
      SplitNoSep(parts[0], sep);
    } else {
      SplitJoin(parts[1..], sep);
      SplitPiece(parts[0], Join(parts[1..], sep), sep);
      assert [parts[0]] + parts[1..] == parts;
    }
  }

  lemma {:induction false} SplitNoSep(s: string, sep: char)
    requires sep !in s
    ensures Split(s, sep) == [s]
  {
    if |s| > 0 {
      assert sep !in s[1..] by {
        assert forall k :: 0 <= k < |s[1..]| ==> s[1..][k] == s[k + 1];
      }
      SplitNoSep(s[1..], sep);
      assert [s[0]] + s[1..] == s;
    }
  }

  // ---------------------------------------------------------------- digits

  /** `unicode.IsDigit`, restricted to ASCII and full-width decimal digits. */
  predicate IsDigit(c: char)
  {
    '0' <= c <= '9' || '０' <= c <= '９'
  }

  predicate IsAsciiDigit(c: char)
  {
    '0' <= c <= '9'
  }

  predicate AllAsciiDigits(s: string)
  {
    forall i :: 0 <= i < |s| ==> IsAsciiDigit(s[i])
  }

  /** Decimal value of a run of ASCII digits, most significant first. */
  function DigitsValue(s: string): nat
    requires AllAsciiDigits(s)
  {
    if |s| == 0 then 0
    else DigitsValue(s[..|s| - 1]) * 10 + (s[|s| - 1] as int - '0' as int)
  }

  /** The shortest decimal spelling of `n`. */
  function NatToDigits(n: nat): (r: string)
    ensures |r| >= 1 && AllAsciiDigits(r)
  {
    if n < 10 then [('0' as int + n) as char]
    else NatToDigits(n / 10) + [('0' as int + n % 10) as char]
  }

  lemma {:induction false} DigitsRoundTrip(n: nat)
    ensures DigitsValue(NatToDigits(n)) == n
  {
    if n >= 10 {
      DigitsRoundTrip(n / 10);
      var d := NatToDigits(n);
      assert d[..|d| - 1] == NatToDigits(n / 10);
    }
  }

  /**
   * `strconv.Atoi`: an optional `+` or `-` sign followed by one or more ASCII
   * digits; anything else is an error (None).
   */
  function Atoi(s: string): (r: Option<int>)
    ensures r.Some? ==> |s| >= 1
    ensures |s| >= 1 && AllAsciiDigits(s) ==> r == Some(DigitsValue(s))
  {
    if |s| == 0 then None
    else if s[0] == '-' || s[0] == '+' then
      var body := s[1..];
      if |body| >= 1 && AllAsciiDigits(body) then
        var v: int := DigitsValue(body);
        Some(if s[0] == '-' then -v else v)
      else None
    else if AllAsciiDigits(s) then Some(DigitsValue(s))
    else None
  }

  /** `strconv.Itoa`: decimal spelling, with a leading `-` for negatives. */
  function Itoa(n: int): (r: string)
    ensures |r| >= 1
    ensures forall i :: 0 <= i < |r| ==> IsAsciiDigit(r[i]) || r[i] == '-'
    ensures n >= 0 ==> AllAsciiDigits(r)
    ensures n < 0 ==> r[0] == '-'
  {
    if n >= 0 then NatToDigits(n) else "-" + NatToDigits(-n)
  }

  lemma AtoiItoa(n: int)
    ensures Atoi(Itoa(n)) == Some(n)
  {
    if n >= 0 {
      DigitsRoundTrip(n);
    } else {
      DigitsRoundTrip(-n);
      assert Itoa(n)[1..] == NatToDigits(-n);
    }
  }

  /** Atoi accepts nothing that is not a (signed) digit run. */
  lemma AtoiRejectsLetters(s: string)
    requires |s| >= 1 && !IsAsciiDigit(s[|s| - 1])
    ensures Atoi(s) == None
  {
  }

  // ---------------------------------------------------------------- algo

  /** `algo.Reverse`: the elements in the opposite order. */
  function Reverse<T>(s: seq<T>): (r: seq<T>)
    ensures |r| == |s|
    ensures forall i :: 0 <= i < |s| ==> r[i] == s[|s| - 1 - i]
  {
    if |s| == 0 then [] else Reverse(s[1..]) + [s[0]]
  }

  lemma ReverseReverse<T>(s: seq<T>)
    ensures Reverse(Reverse(s)) == s
  {
  }

  /** `s` without the element at position `i`. */
  function RemoveAt<T>(s: seq<T>, i: nat): (r: seq<T>)
    requires i < |s|
    ensures |r| == |s| - 1
    ensures multiset(r) + multiset{s[i]} == multiset(s)
  {
    assert s == s[..i] + [s[i]] + s[i + 1..];
    s[..i] + s[i + 1..]
  }

  function Factorial(n: nat): (r: nat)
    ensures r >= 1
  {
    if n == 0 then 1 else n * Factorial(n - 1)
  }

  /** `h` put in front of every sequence of `tails`. */
  function ConsAll(h: int, tails: seq<seq<int>>): (r: seq<seq<int>>)
    ensures |r| == |tails|
    ensures forall k :: 0 <= k < |tails| ==> r[k] == [h] + tails[k]
  {
    if |tails| == 0 then [] else [[h] + tails[0]] + ConsAll(h, tails[1..])
  }

  /**
   * `algo.Permutations`: every ordering of `s`. The enumeration picks each
   * position of `s` in turn as the first element, then permutes the rest, so
   * for `[0, 1]` it yields `[0, 1]` before `[1, 0]`.
   */
  function Permutations(s: seq<int>): (r: seq<seq<int>>)
    ensures |r| == Factorial(|s|)
    ensures forall e :: e in r ==> multiset(e) == multiset(s)
    decreases |s|, 1
  {
    if |s| == 0 then [[]] else PermutationsFrom(s, 0)
  }

  /** The permutations of `s` whose first element is taken from position `i` or later. */
  function PermutationsFrom(s: seq<int>, i: nat): (r: seq<seq<int>>)
    requires 1 <= |s| && i <= |s|
    ensures |r| == (|s| - i) * Factorial(|s| - 1)
    ensures forall e :: e in r ==> multiset(e) == multiset(s)
    decreases |s|, 0, |s| - i
  {
    if i == |s| then []
    else
      var tails := Permutations(RemoveAt(s, i));
      var heads := ConsAll(s[i], tails);
      assert forall e :: e in heads ==> multiset(e) == multiset(s) by {
        forall e | e in heads ensures multiset(e) == multiset(s) {
          var k :| 0 <= k < |heads| && heads[k] == e;
          assert tails[k] in tails;
        }
      }
      heads + PermutationsFrom(s, i + 1)
  }

  /** Where a rearrangement of `s` sits among its permutations. */
  lemma PermutationIndex(s: seq<int>, t: seq<int>) returns (j: nat)
    requires multiset(t) == multiset(s)
    ensures j < |Permutations(s)| && Permutations(s)[j] == t
  {
    PermutationsComplete(s, t);
    j :| j < |Permutations(s)| && Permutations(s)[j] == t;
  }

  /** Every reordering of `s` is enumerated by Permutations. */
  lemma {:induction false} PermutationsComplete(s: seq<int>, t: seq<int>)
    requires multiset(t) == multiset(s)
    ensures t in Permutations(s)
    decreases |s|, 1
  {
    if |s| > 0 {
      assert t[0] in multiset(t);
      var i :| 0 <= i < |s| && s[i] == t[0];
      PermutationsFromComplete(s, 0, i, t);
    } else {
      assert |t| == 0;
    }
  }

  lemma {:induction false} PermutationsFromComplete(s: seq<int>, j: nat, i: nat, t: seq<int>)
    requires 1 <= |s| && j <= i < |s|
    requires multiset(t) == multiset(s) && s[i] == t[0]
    ensures t in PermutationsFrom(s, j)
    decreases |s|, 0, |s| - j
  {
    var tails := Permutations(RemoveAt(s, j));
    assert PermutationsFrom(s, j) == ConsAll(s[j], tails) + PermutationsFrom(s, j + 1);
    if i == j {
      TailIsPermutation(s, j, t);
      PermutationsComplete(RemoveAt(s, j), t[1..]);
      var k :| 0 <= k < |tails| && tails[k] == t[1..];
      assert ConsAll(s[j], tails)[k] == t;
    } else {
      PermutationsFromComplete(s, j + 1, i, t);
    }
  }

  lemma TailIsPermutation(s: seq<int>, j: nat, t: seq<int>)
    requires j < |s| && |t| >= 1 && s[j] == t[0] && multiset(t) == multiset(s)
    ensures multiset(t[1..]) == multiset(RemoveAt(s, j))
    ensures t == [s[j]] + t[1..]
  {
    assert t == [t[0]] + t[1..];
    assert multiset(t) == multiset{t[0]} + multiset(t[1..]);
    var r := RemoveAt(s, j);
    var a, b := multiset(t[1..]), multiset(r);
    assert a + multiset{s[j]} == b + multiset{s[j]};
    forall y ensures a[y] == b[y] {
      assert (a + multiset{s[j]})[y] == (b + multiset{s[j]})[y];
    }
    assert a == b;
  }

  /**
   * `algo.Combinations`: the cartesian product of `lists`, one entry chosen
   * from each list, the last list varying fastest.
   */
  function Combinations(lists: seq<seq<int>>): (r: seq<seq<int>>)
    ensures |r| == ProductOfLengths(lists)
    ensures forall v :: v in r ==> IsChoice(v, lists)
  {
    if |lists| == 0 then [[]]
    else Prepend(lists[0], Combinations(lists[1..]), lists)
  }

  /** `v` picks one element of each list, in list order. */
  predicate IsChoice(v: seq<int>, lists: seq<seq<int>>)
  {
    |v| == |lists| && forall i :: 0 <= i < |v| ==> v[i] in lists[i]
  }

  function ProductOfLengths(lists: seq<seq<int>>): nat
  {
    if |lists| == 0 then 1 else |lists[0]| * ProductOfLengths(lists[1..])
  }

  lemma ChoiceCons(h: int, v: seq<int>, lists: seq<seq<int>>)
    requires |lists| >= 1 && h in lists[0] && IsChoice(v, lists[1..])
    ensures IsChoice([h] + v, lists)
  {
    var w := [h] + v;
    forall i | 0 <= i < |w| ensures w[i] in lists[i] {
      if i > 0 {
        assert w[i] == v[i - 1];
      }
    }
  }

  lemma ConsAllChoices(h: int, tails: seq<seq<int>>, lists: seq<seq<int>>)
    requires |lists| >= 1 && h in lists[0]
    requires forall v :: v in tails ==> IsChoice(v, lists[1..])
    ensures forall v :: v in ConsAll(h, tails) ==> IsChoice(v, lists)
  {
    forall v | v in ConsAll(h, tails) ensures IsChoice(v, lists) {
      var k :| 0 <= k < |tails| && ConsAll(h, tails)[k] == v;
      assert tails[k] in tails;
      ChoiceCons(h, tails[k], lists);
    }
  }

  /** Every head in `heads` followed by every tail, head-major. */
  function Prepend(heads: seq<int>, tails: seq<seq<int>>, lists: seq<seq<int>>): (r: seq<seq<int>>)
    requires |lists| >= 1 && forall h :: h in heads ==> h in lists[0]
    requires forall v :: v in tails ==> IsChoice(v, lists[1..])
    ensures |r| == |heads| * |tails|
    ensures forall v :: v in r ==> IsChoice(v, lists)
  {
    if |heads| == 0 then []
    else
      ConsAllChoices(heads[0], tails, lists);
      MulSucc(|heads|, |tails|);
      var a, b := ConsAll(heads[0], tails), Prepend(heads[1..], tails, lists);
      InConcat(a, b);
      a + b
  }

  lemma MulSucc(m: nat, n: nat)
    requires m > 0
    ensures m * n == n + (m - 1) * n
  {
  }

  lemma InConcat<T>(a: seq<T>, b: seq<T>)
    ensures forall v :: v in a + b <==> v in a || v in b
  {
  }

  lemma {:induction false} PrependComplete(heads: seq<int>, tails: seq<seq<int>>, lists: seq<seq<int>>, h: int, v: seq<int>)
    requires |lists| >= 1 && forall h :: h in heads ==> h in lists[0]
    requires forall v :: v in tails ==> IsChoice(v, lists[1..])
    requires h in heads && v in tails
    ensures [h] + v in Prepend(heads, tails, lists)
  {
    if heads[0] == h {
      var k :| 0 <= k < |tails| && tails[k] == v;
      assert ConsAll(h, tails)[k] == [h] + v;
    } else {
      PrependComplete(heads[1..], tails, lists, h, v);
    }
  }

  /** Where a choice from `lists` sits among the combinations. */
  lemma CombinationIndex(lists: seq<seq<int>>, v: seq<int>) returns (k: nat)
    requires IsChoice(v, lists)
    ensures k < |Combinations(lists)| && Combinations(lists)[k] == v
  {
    CombinationsComplete(lists, v);
    k :| k < |Combinations(lists)| && Combinations(lists)[k] == v;
  }

  /** Every choice of one entry per list is enumerated by Combinations. */
  lemma {:induction false} CombinationsComplete(lists: seq<seq<int>>, v: seq<int>)
    requires IsChoice(v, lists)
    ensures v in Combinations(lists)
  {
    if |lists| > 0 {
      var tail := v[1..];
      assert IsChoice(tail, lists[1..]) by {
        forall i | 0 <= i < |tail| ensures tail[i] in lists[1..][i] {
          assert tail[i] == v[i + 1];
        }
      }
      CombinationsComplete(lists[1..], tail);
      PrependComplete(lists[0], Combinations(lists[1..]), lists, v[0], tail);
      assert [v[0]] + tail == v;
    }
  }

  // ------------------------------------------------------------ sequences

  lemma ConcatAssoc<T>(a: seq<T>, b: seq<T>, c: seq<T>)
    ensures a + (b + c) == (a + b) + c
  {
  }

  lemma IndexLeft<T>(a: seq<T>, b: seq<T>, i: nat)
    requires i < |a|
    ensures (a + b)[i] == a[i]
  {
  }

  lemma IndexRight<T>(a: seq<T>, b: seq<T>, i: nat)
    requires i < |b|
    ensures |a| + i < |a + b| && (a + b)[|a| + i] == b[i]
  {
  }

  /** Strictly increasing. */
  predicate Ascending(xs: seq<int>)
  {
    forall i, j :: 0 <= i < j < |xs| ==> xs[i] < xs[j]
  }

  /** A number above every entry, appended, keeps a sequence ascending. */
  lemma AscendingSnoc(s: seq<int>, x: int)
    requires Ascending(s) && forall y :: y in s ==> y < x
    ensures Ascending(s + [x])
  {
    var r := s + [x];
    forall i, j | 0 <= i < j < |r| ensures r[i] < r[j] {
      assert r[i] == s[i];
      assert s[i] in s;
      if j < |s| { assert r[j] == s[j]; }
    }
  }
}

=== FILE: sentence.dfy ===
// Sentence: the analyser output cut into phrase groups, the dependency
// graph handed to the clause-ordering generator, and the orders kept by
// the case-analysis filter.

module Sentences {
  import opened Runes
  import Ph = Phrases
  import An = Anaphora

  // ---------------------------------------------------------------- Split

  /** A line the analyser ends its output with. */
  predicate IsEos(line: string)
  {
    |line| >= 3 && line[..3] == "EOS"
  }

  /** Some line before `i` starts a phrase ('*'), so lines are being collected. */
  predicate Enabled(lines: seq<string>, i: nat)
    requires i <= |lines|
  {
    exists j :: 0 <= j < i && |lines[j]| >= 1 && lines[j][0] == '*'
  }

  /** The lines Split keeps among the first `i`: those at or after the first '*' line that are not EOS lines. */
  function KeptUpTo(lines: seq<string>, i: nat): seq<string>
    requires i <= |lines|
  {
    if i == 0 then []
    else KeptUpTo(lines, i - 1) + (if Enabled(lines, i) && !IsEos(lines[i - 1]) then [lines[i - 1]] else [])
  }

  /** Every group opens with a '*' line, holds no other '*' line, and has no empty line. */
  predicate StarGroup(g: seq<string>)
  {
    |g| >= 1
    && (forall k :: 0 <= k < |g| ==> |g[k]| >= 1)
    && g[0][0] == '*'
    && forall k :: 1 <= k < |g| ==> g[k][0] != '*'
  }

  predicate StarGrouped(groups: seq<seq<string>>)
  {
    forall j :: 0 <= j < |groups| ==> StarGroup(groups[j])
  }

  /** The open group: empty before the first '*' line, otherwise a group in the making. */
  predicate OpenStar(phrase: seq<string>, enable: bool)
  {
    (enable <==> |phrase| >= 1) && (|phrase| >= 1 ==> StarGroup(phrase))
  }

  datatype SplitState = SplitState(enable: bool, phrase: seq<string>, ret: seq<seq<string>>)

  /** One line of Sentence.Split's loop: a '*' line closes the open group and enables collecting; an enabled non-EOS line joins the group. */
  function SplitStep(line: string, st: SplitState): SplitState
    requires |line| >= 1
  {
    var star := line[0] == '*';
    var ret := if star && |st.phrase| > 0 then st.ret + [st.phrase] else st.ret;
    var open := if star && |st.phrase| > 0 then [] else st.phrase;
    var enable := st.enable || star;
    SplitState(enable, if enable && !IsEos(line) then open + [line] else open, ret)
  }

  /** The loop of Sentence.Split from line `i` on; an empty line is an index panic. */
  function SplitFrom(lines: seq<string>, i: nat, st: SplitState): (r: Ph.Outcome<seq<seq<string>>>)
    requires i <= |lines|
    ensures r.Crashed? <==> exists j :: i <= j < |lines| && |lines[j]| == 0
    ensures !r.Failed?
    decreases |lines| - i
  {
    if i == |lines| then
      if |st.phrase| > 0 then Ph.Done(st.ret + [st.phrase]) else Ph.Done(st.ret)
    else if |lines[i]| == 0 then Ph.Crashed
    else SplitFrom(lines, i + 1, SplitStep(lines[i], st))
  }

  /**
   * Sentence.Split over the output's lines (the pieces runes.Split makes
   * of it at line feeds): the phrase groups, each opened by a '*' line.
   */
  function Split(lines: seq<string>): (r: Ph.Outcome<seq<seq<string>>>)
    ensures r.Crashed? <==> exists j :: 0 <= j < |lines| && |lines[j]| == 0
    ensures !r.Failed?
  {
    SplitFrom(lines, 0, SplitState(false, [], []))
  }

  lemma KeptStep(lines: seq<string>, i: nat)
    requires i < |lines| && |lines[i]| >= 1
    ensures Enabled(lines, i + 1) <==> Enabled(lines, i) || lines[i][0] == '*'
    ensures KeptUpTo(lines, i + 1) == KeptUpTo(lines, i) +
      (if (Enabled(lines, i) || lines[i][0] == '*') && !IsEos(lines[i]) then [lines[i]] else [])
  {
    if lines[i][0] == '*' {
      assert Enabled(lines, i + 1);
    }
    if Enabled(lines, i) {
      var j :| 0 <= j < i && |lines[j]| >= 1 && lines[j][0] == '*';
      assert Enabled(lines, i + 1);
    }
  }

  /** What Split's loop keeps true before line `i`. */
  predicate SplitInv(lines: seq<string>, i: nat, st: SplitState)
    requires i <= |lines|
  {
    st.enable == Enabled(lines, i)
    && Ph.Flatten(st.ret) + st.phrase == KeptUpTo(lines, i)
    && StarGrouped(st.ret) && OpenStar(st.phrase, st.enable)
  }

  lemma SplitStepKeeps(lines: seq<string>, i: nat, st: SplitState)
    requires i < |lines| && |lines[i]| >= 1 && SplitInv(lines, i, st)
    ensures SplitInv(lines, i + 1, SplitStep(lines[i], st))
  {
    KeptStep(lines, i);
    SplitStepFlatten(lines[i], st);
    SplitStepGroups(lines[i], st);
  }

  /** One step keeps the collected lines: those before, then the line when it is kept. */
  lemma SplitStepFlatten(line: string, st: SplitState)
    requires |line| >= 1
    ensures var st' := SplitStep(line, st);
      Ph.Flatten(st'.ret) + st'.phrase
        == Ph.Flatten(st.ret) + st.phrase + (if st'.enable && !IsEos(line) then [line] else [])
  {
    var star := line[0] == '*';
    if star && |st.phrase| > 0 {
      Ph.FlattenSnoc(st.ret, st.phrase);
    }
  }

  /** One step keeps every closed group and the open group well formed. */
  lemma SplitStepGroups(line: string, st: SplitState)
    requires |line| >= 1 && StarGrouped(st.ret) && OpenStar(st.phrase, st.enable)
    ensures StarGrouped(SplitStep(line, st).ret) && OpenStar(SplitStep(line, st).phrase, SplitStep(line, st).enable)
  {
    var star := line[0] == '*';
    var ret := if star && |st.phrase| > 0 then st.ret + [st.phrase] else st.ret;
    var open := if star && |st.phrase| > 0 then [] else st.phrase;
    assert StarGrouped(ret);
    if star {
      assert !IsEos(line);
      assert open + [line] == [line];
    }
  }

  lemma {:induction false} SplitFromProps(lines: seq<string>, i: nat, st: SplitState)
    requires i <= |lines| && SplitInv(lines, i, st)
    ensures var r := SplitFrom(lines, i, st);
      r.Done? ==> Ph.Flatten(r.value) == KeptUpTo(lines, |lines|) && StarGrouped(r.value)
    decreases |lines| - i
  {
    if i == |lines| {
      if |st.phrase| > 0 {
        Ph.FlattenSnoc(st.ret, st.phrase);
      } else {
        assert Ph.Flatten(st.ret) + st.phrase == Ph.Flatten(st.ret);
      }
    } else if |lines[i]| >= 1 {
      SplitStepKeeps(lines, i, st);
      SplitFromProps(lines, i + 1, SplitStep(lines[i], st));
    }
  }

  /**
   * Split keeps exactly the lines from the first '*' line on that are not
   * EOS lines, in order, and cuts them before each '*' line.
   */
  lemma SplitGroups(lines: seq<string>)
    ensures Split(lines).Done? ==>
      (Ph.Flatten(Split(lines).value) == KeptUpTo(lines, |lines|) && StarGrouped(Split(lines).value))
  {
    assert Ph.Flatten([]) + [] == KeptUpTo(lines, 0);
    SplitFromProps(lines, 0, SplitState(false, [], []));
  }

  /** A two-phrase output: the header line before the first '*' and the EOS line are dropped. */
  lemma SplitExample()
    ensures Split(["# S-ID:1", "* 1D", "+ 1D", "* -1D", "+ -1D", "EOS"])
      == Ph.Done([["* 1D", "+ 1D"], ["* -1D", "+ -1D"]])
  {
    var lines := ["# S-ID:1", "* 1D", "+ 1D", "* -1D", "+ -1D", "EOS"];
    var s3 := SplitState(true, ["* 1D", "+ 1D"], []);
    var s5 := SplitState(true, ["* -1D", "+ -1D"], [["* 1D", "+ 1D"]]);
    SplitExampleHead(lines, s3);
    SplitExampleBody(lines, s3, s5);
    assert IsEos(lines[5]) by { assert lines[5][..3] == "EOS"; }
    SplitFromStep(lines, 5, s5);
    assert s5.ret + [s5.phrase] == [["* 1D", "+ 1D"], ["* -1D", "+ -1D"]];
  }

  /** Split's loop on a non-empty line is its step, then the loop from the next line. */
  lemma SplitFromStep(lines: seq<string>, i: nat, st: SplitState)
    requires i < |lines| && |lines[i]| >= 1
    ensures SplitFrom(lines, i, st) == SplitFrom(lines, i + 1, SplitStep(lines[i], st))
  {
  }

  lemma SplitExampleHead(lines: seq<string>, s3: SplitState)
    requires lines == ["# S-ID:1", "* 1D", "+ 1D", "* -1D", "+ -1D", "EOS"]
    requires s3 == SplitState(true, ["* 1D", "+ 1D"], [])
    ensures SplitFrom(lines, 0, SplitState(false, [], [])) == SplitFrom(lines, 3, s3)
  {
    var s1 := SplitStep(lines[0], SplitState(false, [], []));
    assert s1 == SplitState(false, [], []);
    var s2 := SplitStep(lines[1], s1);
    assert s2 == SplitState(true, ["* 1D"], []) by { assert !IsEos(lines[1]); }
    assert SplitStep(lines[2], s2) == s3 by { assert !IsEos(lines[2]); }
    SplitFromStep(lines, 0, SplitState(false, [], []));
    SplitFromStep(lines, 1, s1);
    SplitFromStep(lines, 2, s2);
  }

  lemma SplitExampleBody(lines: seq<string>, s3: SplitState, s5: SplitState)
    requires lines == ["# S-ID:1", "* 1D", "+ 1D", "* -1D", "+ -1D", "EOS"]
    requires s3 == SplitState(true, ["* 1D", "+ 1D"], [])
    requires s5 == SplitState(true, ["* -1D", "+ -1D"], [["* 1D", "+ 1D"]])
    ensures SplitFrom(lines, 3, s3) == SplitFrom(lines, 5, s5)
  {
    var s4 := SplitStep(lines[3], s3);
    assert s4 == SplitState(true, ["* -1D"], [["* 1D", "+ 1D"]]) by { assert !IsEos(lines[3]); }
    assert SplitStep(lines[4], s4) == s5 by { assert !IsEos(lines[4]); }
    SplitFromStep(lines, 3, s3);
    SplitFromStep(lines, 4, s4);
  }

  // ---------------------------------------------------------------- parallel index

  /** Value `v` is listed under some key. */
  predicate Listed(pi: map<int, seq<int>>, v: int)
  {
    exists k :: k in pi && v in pi[k]
  }

  /** No value is listed twice, under one key or two. */
  predicate UniqueValues(pi: map<int, seq<int>>)
  {
    forall k1, k2, a, b ::
      (k1 in pi && k2 in pi && 0 <= a < |pi[k1]| && 0 <= b < |pi[k2]| && pi[k1][a] == pi[k2][b])
      ==> k1 == k2 && a == b
  }

  /**
   * One parallel phrase `n` with destination `d`: the list under `n`
   * moves to the end of the list under `d`, key `n` goes away, and `n`
   * joins the list under `d`.
   */
  function Relink(pi: map<int, seq<int>>, n: int, d: int): (r: map<int, seq<int>>)
    ensures d in r && |r[d]| >= 1 && r[d][|r[d]| - 1] == n
    ensures n != d ==> n !in r
    ensures forall k :: k in pi && k != n && k != d ==> k in r && r[k] == pi[k]
    ensures forall k :: k in r ==> k in pi || k == d
  {
    var removed := if n in pi then pi[n] else [];
    var rest := pi - {n};
    var before := if d in rest then rest[d] else [];
    rest[d := before + removed + [n]]
  }

  /** The values after relinking are the values before plus `n`. */
  lemma RelinkListed(pi: map<int, seq<int>>, n: int, d: int, v: int)
    ensures Listed(Relink(pi, n, d), v) <==> v == n || Listed(pi, v)
  {
    var r := Relink(pi, n, d);
    var removed := if n in pi then pi[n] else [];
    var before := if d in pi && d != n then pi[d] else [];
    assert r[d] == before + removed + [n];
    if Listed(pi, v) {
      var k :| k in pi && v in pi[k];
      if k != n && k != d {
        assert v in r[k];
      } else {
        assert v in r[d];
      }
    }
    if v == n {
      assert v in r[d];
    }
    if Listed(r, v) {
      var k :| k in r && v in r[k];
      if k != d {
        assert v in pi[k];
      } else if v != n {
        assert v in before || v in removed;
      }
    }
  }

  /** Relinking a fresh number keeps every value listed once. */
  lemma RelinkUnique(pi: map<int, seq<int>>, n: int, d: int)
    requires UniqueValues(pi) && !Listed(pi, n)
    ensures UniqueValues(Relink(pi, n, d))
  {
    var r := Relink(pi, n, d);
    var removed := if n in pi then pi[n] else [];
    var before := if d in pi && d != n then pi[d] else [];
    var line := before + removed + [n];
    assert r[d] == line;
    forall k1, k2, a, b | k1 in r && k2 in r && 0 <= a < |r[k1]| && 0 <= b < |r[k2]| && r[k1][a] == r[k2][b]
      ensures k1 == k2 && a == b
    {
      PlaceInRelinked(pi, n, d, k1, a);
      PlaceInRelinked(pi, n, d, k2, b);
    }
  }

  /** Where entry `a` under `k` after relinking came from: a place in the old map, or `n` itself at the end. */
  lemma PlaceInRelinked(pi: map<int, seq<int>>, n: int, d: int, k: int, a: nat)
    requires UniqueValues(pi) && !Listed(pi, n)
    requires k in Relink(pi, n, d) && a < |Relink(pi, n, d)[k]|
    ensures var r := Relink(pi, n, d);
      (r[k][a] == n && k == d && a == |r[d]| - 1)
      || (r[k][a] != n && exists k0, a0 :: (k0 in pi && 0 <= a0 < |pi[k0]| && pi[k0][a0] == r[k][a]
                                            && (k0 == k || (k == d && (k0 == n || k0 == d)))))
  {
    var r := Relink(pi, n, d);
    var removed := if n in pi then pi[n] else [];
    var before := if d in pi && d != n then pi[d] else [];
    assert r[d] == before + removed + [n];
    if k != d {
      assert k in pi && r[k] == pi[k];
      assert pi[k][a] in pi[k];
    } else if a == |r[d]| - 1 {
    } else if a < |before| {
      assert r[k][a] == pi[d][a] && pi[d][a] in pi[d];
    } else {
      assert r[k][a] == pi[n][a - |before|] && pi[n][a - |before|] in pi[n];
    }
  }

  /** Sentence.AnalyzeJumanKnp's ParallelIndex: each parallel phrase relinked in turn. */
  function ParallelIndex(ps: seq<Ph.Phrase>): map<int, seq<int>>
  {
    if |ps| == 0 then map[]
    else
      var pi := ParallelIndex(ps[..|ps| - 1]);
      var p := ps[|ps| - 1];
      if p.parallel then Relink(pi, p.number, p.destination) else pi
  }

  /** Some phrase of `ps` is parallel and numbered `v`. */
  predicate ParallelNumber(ps: seq<Ph.Phrase>, v: int)
  {
    exists i :: 0 <= i < |ps| && ps[i].parallel && ps[i].number == v
  }

  /** The listed values are exactly the numbers of the parallel phrases. */
  lemma {:induction false} ParallelIndexListed(ps: seq<Ph.Phrase>, v: int)
    ensures Listed(ParallelIndex(ps), v) <==> ParallelNumber(ps, v)
    decreases |ps|
  {
    if |ps| > 0 {
      var init := ps[..|ps| - 1];
      var p := ps[|ps| - 1];
      ParallelIndexListed(init, v);
      if p.parallel {
        RelinkListed(ParallelIndex(init), p.number, p.destination, v);
      }
      if ParallelNumber(init, v) {
        var i :| 0 <= i < |init| && init[i].parallel && init[i].number == v;
        assert ps[i] == init[i];
      }
      if ParallelNumber(ps, v) {
        var i :| 0 <= i < |ps| && ps[i].parallel && ps[i].number == v;
        if i < |init| {
          assert init[i] == ps[i];
        }
      }
    }
  }

  /** Phrases are numbered in increasing order, as Sentence numbers them by position. */
  predicate Increasing(ps: seq<Ph.Phrase>)
  {
    forall i, j :: 0 <= i < j < |ps| ==> ps[i].number < ps[j].number
  }

  /** With increasing numbers, every parallel phrase is listed exactly once. */
  lemma {:induction false} ParallelIndexUnique(ps: seq<Ph.Phrase>)
    requires Increasing(ps)
    ensures UniqueValues(ParallelIndex(ps))
    decreases |ps|
  {
    if |ps| > 0 {
      var init := ps[..|ps| - 1];
      var p := ps[|ps| - 1];
      ParallelIndexUnique(init);
      if p.parallel {
        ParallelIndexListed(init, p.number);
        forall i | 0 <= i < |init| ensures init[i].number < p.number {
          assert init[i] == ps[i];
        }
        assert !ParallelNumber(init, p.number);
        RelinkUnique(ParallelIndex(init), p.number, p.destination);
      }
    }
  }

  /** A parallel phrase numbered `n` with destination `d` and nothing else. */
  function ParallelPhrase(n: int, d: int): Ph.Phrase
  {
    Ph.Phrase([], n, false, [], d, "P", true, [])
  }

  /** Relinking moves the chain 0 → 1 → 2 of parallel phrases under 2's destination, in order. */
  lemma ParallelIndexChain(d: int)
    requires d > 2
    ensures ParallelIndex([ParallelPhrase(0, 1), ParallelPhrase(1, 2), ParallelPhrase(2, d)])
            == map[d := [0, 1, 2]]
  {
    var ps := [ParallelPhrase(0, 1), ParallelPhrase(1, 2), ParallelPhrase(2, d)];
    assert ps[..2][..1] == [ps[0]] && ps[..2] == [ps[0], ps[1]];
    assert [ps[0]][..0] == [];
    var pi1 := Relink(map[], 0, 1);
    assert ParallelIndex([ps[0]]) == pi1;
    assert pi1.Keys == {1} && pi1[1] == [0];
    var pi2 := Relink(pi1, 1, 2);
    assert ParallelIndex(ps[..2]) == pi2;
    assert pi2.Keys == {2} && pi2[2] == [0, 1];
    var pi3 := Relink(pi2, 2, d);
    assert ParallelIndex(ps) == pi3;
    assert pi3.Keys == {d} && pi3[d] == [0, 1, 2];
  }

  // ---------------------------------------------------------------- sub-index groups

  /**
   * The subindex groups: for each key of the parallel index, in the
   * order the map is walked (`keys`), its list followed by the key.
   */
  function SubIndex(pi: map<int, seq<int>>, keys: seq<int>): (r: seq<seq<int>>)
    requires forall i :: 0 <= i < |keys| ==> keys[i] in pi
    ensures |r| == |keys|
    ensures forall i :: 0 <= i < |r| ==>
      (|r[i]| >= 1 && r[i][|r[i]| - 1] == keys[i] && r[i][..|r[i]| - 1] == pi[keys[i]])
  {
    seq(|keys|, i requires 0 <= i < |keys| => pi[keys[i]] + [keys[i]])
  }

  /** With every value listed once and distinct keys, no phrase heads two groups' lists nor sits twice in one. */
  lemma SubIndexDisjoint(pi: map<int, seq<int>>, keys: seq<int>, g1: nat, g2: nat, a: nat, b: nat)
    requires forall i :: 0 <= i < |keys| ==> keys[i] in pi
    requires UniqueValues(pi)
    requires forall i, j :: 0 <= i < j < |keys| ==> keys[i] != keys[j]
    requires g1 < |keys| && g2 < |keys|
    requires a < |SubIndex(pi, keys)[g1]| - 1 && b < |SubIndex(pi, keys)[g2]| - 1
    requires SubIndex(pi, keys)[g1][a] == SubIndex(pi, keys)[g2][b]
    ensures g1 == g2 && a == b
  {
    var r := SubIndex(pi, keys);
    assert r[g1][a] == pi[keys[g1]][a];
    assert r[g2][b] == pi[keys[g2]][b];
  }

  // ---------------------------------------------------------------- dependency graph

  datatype Graph = Graph(mat: seq<seq<bool>>, init: seq<int>, zenkakuSpaceFirst: bool)

  /** Phrase `i` is an ordinary dependent of phrase `j`. */
  predicate Edge(ps: seq<Ph.Phrase>, i: nat, j: int)
    requires i < |ps|
  {
    !ps[i].parallel && ps[i].destination == j
  }

  /** Phrase `a` is parallel, has no destination, or points at a phrase of the sentence. */
  predicate DestinationOk(ps: seq<Ph.Phrase>, a: nat)
    requires a < |ps|
  {
    ps[a].parallel || ps[a].destination == -1 || 0 <= ps[a].destination < |ps|
  }

  /** Some non-parallel phrase has a destination that is neither -1 nor a phrase index. */
  predicate BadDestination(ps: seq<Ph.Phrase>)
  {
    exists i :: 0 <= i < |ps| && !DestinationOk(ps, i)
  }

  /** The first phrase is a lone full-width space. */
  predicate SpaceFirst(ps: seq<Ph.Phrase>)
  {
    |ps| > 0 && Ph.Surface(ps[0].basicPhrases) == "　"
  }

  /**
   * The adjacency matrix and initial order of Sentence.AnalyzeJumanKnp:
   * an edge from each non-parallel phrase to its destination, plus 0 → 1
   * when the sentence opens with a full-width space; an out-of-range
   * destination, or a leading space with no second phrase, is an index
   * panic.
   */
  method BuildGraph(ps: seq<Ph.Phrase>) returns (r: Ph.Outcome<Graph>)
    ensures !r.Failed?
    ensures r.Crashed? <==> BadDestination(ps) || (|ps| == 1 && SpaceFirst(ps))
    ensures r.Done? ==> var g := r.value;
      |g.mat| == |ps| && |g.init| == |ps| && (g.zenkakuSpaceFirst <==> SpaceFirst(ps))
      && (forall i, j :: 0 <= i < |ps| && 0 <= j < |ps| ==>
            |g.mat[i]| == |ps| && (g.mat[i][j] <==> Edge(ps, i, j) || (i == 0 && j == 1 && g.zenkakuSpaceFirst)))
      && (forall i :: 0 <= i < |ps| ==>
            g.init[i] == if i == 0 && g.zenkakuSpaceFirst then 1 else ps[i].destination)
  {
    var n := |ps|;
    var mat := seq(n, _ => seq(n, _ => false));
    var init: seq<int> := [];
    var zen := false;
    var i := 0;
    while i < n
      invariant 0 <= i <= n && |mat| == n && |init| == i
      invariant forall a :: 0 <= a < n ==> |mat[a]| == n
      invariant forall a :: 0 <= a < i ==> DestinationOk(ps, a)
      invariant zen <==> i > 0 && SpaceFirst(ps)
      invariant zen ==> n >= 2
      invariant forall a, b :: 0 <= a < n && 0 <= b < n ==>
                  (mat[a][b] <==> (a < i && Edge(ps, a, b)) || (a == 0 && b == 1 && zen))
      invariant forall a :: 0 <= a < i ==> init[a] == if a == 0 && zen then 1 else ps[a].destination
    {
      var ph := ps[i];
      if ph.destination != -1 && !ph.parallel {
        if !(0 <= ph.destination < n) {
          assert !DestinationOk(ps, i);
          return Ph.Crashed;
        }
        mat := mat[i := mat[i][ph.destination := true]];
      }
      init := init + [ph.destination];
      if Ph.Surface(ph.basicPhrases) == "　" && i == 0 {
        if n < 2 {
          return Ph.Crashed;
        }
        mat := mat[0 := mat[0][1 := true]];
        init := init[0 := 1];
        zen := true;
      }
      i := i + 1;
    }
    r := Ph.Done(Graph(mat, init, zen));
  }

  // ---------------------------------------------------------------- case-analysis filter

  /** A basic phrase id looked up in the sentence's id → phrase-number table; a missing id reads Go's zero value. */
  function PhraseOf(phraseOf: map<int, int>, id: int): int
  {
    if id in phraseOf then phraseOf[id] else 0
  }

  /** The pair [predicate's phrase, argument's phrase] recorded for argument group `g` of `term`. */
  function PairOf(term: An.PredicateTerm, g: nat, phraseOf: map<int, int>): seq<int>
    requires g < |term.groups|
  {
    [PhraseOf(phraseOf, term.entityId), PhraseOf(phraseOf, term.groups[g].entityId)]
  }

  /** caseAnalysisInvalidPatterns: one pair per argument group of each available predicate term, in order. */
  function InvalidPairs(terms: seq<An.PredicateTerm>, phraseOf: map<int, int>): (r: seq<seq<int>>)
    ensures forall q :: 0 <= q < |r| ==> |r[q]| == 2
  {
    if |terms| == 0 then []
    else
      InvalidPairs(terms[..|terms| - 1], phraseOf) + TermPairs(terms[|terms| - 1], phraseOf)
  }

  /** The pairs of one predicate term: one per argument group when the term is available, else none. */
  function TermPairs(t: An.PredicateTerm, phraseOf: map<int, int>): (r: seq<seq<int>>)
    ensures forall q :: 0 <= q < |r| ==> |r[q]| == 2
  {
    if t.isAvailable then seq(|t.groups|, g requires 0 <= g < |t.groups| => PairOf(t, g, phraseOf)) else []
  }

  /** Term `t` is available and one of its argument groups gives `pair`. */
  ghost predicate Gives(t: An.PredicateTerm, pair: seq<int>, phraseOf: map<int, int>)
  {
    t.isAvailable && exists g :: 0 <= g < |t.groups| && pair == PairOf(t, g, phraseOf)
  }

  ghost predicate SomeGives(terms: seq<An.PredicateTerm>, pair: seq<int>, phraseOf: map<int, int>)
  {
    exists i :: 0 <= i < |terms| && Gives(terms[i], pair, phraseOf)
  }

  lemma TermPairsMembers(t: An.PredicateTerm, phraseOf: map<int, int>, pair: seq<int>)
    ensures pair in TermPairs(t, phraseOf) <==> Gives(t, pair, phraseOf)
  {
    var r := TermPairs(t, phraseOf);
    if pair in r {
      var g :| 0 <= g < |r| && r[g] == pair;
    }
    if Gives(t, pair, phraseOf) {
      var g :| 0 <= g < |t.groups| && pair == PairOf(t, g, phraseOf);
      assert r[g] == pair;
    }
  }

  lemma SomeGivesSnoc(terms: seq<An.PredicateTerm>, pair: seq<int>, phraseOf: map<int, int>)
    requires |terms| > 0
    ensures SomeGives(terms, pair, phraseOf)
      <==> SomeGives(terms[..|terms| - 1], pair, phraseOf) || Gives(terms[|terms| - 1], pair, phraseOf)
  {
    var init := terms[..|terms| - 1];
    if SomeGives(terms, pair, phraseOf) {
      var i :| 0 <= i < |terms| && Gives(terms[i], pair, phraseOf);
      if i < |init| { assert init[i] == terms[i]; }
    }
    if SomeGives(init, pair, phraseOf) {
      var i :| 0 <= i < |init| && Gives(init[i], pair, phraseOf);
      assert terms[i] == init[i];
    }
  }

  lemma {:induction false} InvalidPairsGive(terms: seq<An.PredicateTerm>, phraseOf: map<int, int>, pair: seq<int>)
    ensures pair in InvalidPairs(terms, phraseOf) <==> SomeGives(terms, pair, phraseOf)
    decreases |terms|
  {
    if |terms| > 0 {
      var init := terms[..|terms| - 1];
      InvalidPairsGive(init, phraseOf, pair);
      TermPairsMembers(terms[|terms| - 1], phraseOf, pair);
      InConcat(InvalidPairs(init, phraseOf), TermPairs(terms[|terms| - 1], phraseOf));
      SomeGivesSnoc(terms, pair, phraseOf);
    }
  }

  /** A pair is recorded exactly when some available term has an argument group giving it. */
  lemma InvalidPairsMembers(terms: seq<An.PredicateTerm>, phraseOf: map<int, int>, pair: seq<int>)
    ensures pair in InvalidPairs(terms, phraseOf) <==>
      exists i, g :: 0 <= i < |terms| && terms[i].isAvailable && 0 <= g < |terms[i].groups|
                     && pair == PairOf(terms[i], g, phraseOf)
  {
    InvalidPairsGive(terms, phraseOf, pair);
    if SomeGives(terms, pair, phraseOf) {
      var i :| 0 <= i < |terms| && Gives(terms[i], pair, phraseOf);
      var g :| 0 <= g < |terms[i].groups| && pair == PairOf(terms[i], g, phraseOf);
    }
    if exists i, g :: 0 <= i < |terms| && terms[i].isAvailable && 0 <= g < |terms[i].groups|
                      && pair == PairOf(terms[i], g, phraseOf) {
      var i, g :| 0 <= i < |terms| && terms[i].isAvailable && 0 <= g < |terms[i].groups|
                  && pair == PairOf(terms[i], g, phraseOf);
      assert Gives(terms[i], pair, phraseOf);
    }
  }

  /** An order survives the filter: ValidateOrder accepts it and, after a leading space, it starts at phrase 0. */
  predicate Passes(order: seq<int>, invalid: seq<seq<int>>, zenkakuSpaceFirst: bool,
                   validate: (seq<int>, seq<seq<int>>) -> bool)
  {
    validate(order, invalid) && !(|order| > 0 && zenkakuSpaceFirst && order[0] != 0)
  }

  /** The orders whose flag is set, in order. */
  function Select(orders: seq<seq<int>>, flags: seq<bool>): seq<seq<int>>
    requires |flags| == |orders|
  {
    if |orders| == 0 then []
    else Select(orders[..|orders| - 1], flags[..|flags| - 1])
         + (if flags[|flags| - 1] then [orders[|orders| - 1]] else [])
  }

  lemma {:induction false} SelectMembers(orders: seq<seq<int>>, flags: seq<bool>, o: seq<int>)
    requires |flags| == |orders|
    ensures o in Select(orders, flags) <==> exists i :: 0 <= i < |orders| && flags[i] && orders[i] == o
    decreases |orders|
  {
    if |orders| > 0 {
      var n := |orders| - 1;
      SelectMembers(orders[..n], flags[..n], o);
      if exists i :: 0 <= i < |orders| && flags[i] && orders[i] == o {
        var i :| 0 <= i < |orders| && flags[i] && orders[i] == o;
        if i < n {
          assert orders[..n][i] == o && flags[..n][i];
        }
      }
      if exists i :: 0 <= i < n && flags[..n][i] && orders[..n][i] == o {
        var i :| 0 <= i < n && flags[..n][i] && orders[..n][i] == o;
        assert flags[i] && orders[i] == o;
      }
    }
  }

  /**
   * The filter closing Sentence.AnalyzeJumanKnp: CaseAnalysisResults
   * flags the orders that pass, and CaseAnalysisPatterns lists them.
   */
  method FilterOrders(orders: seq<seq<int>>, invalid: seq<seq<int>>, zenkakuSpaceFirst: bool,
                      validate: (seq<int>, seq<seq<int>>) -> bool)
    returns (results: seq<bool>, patterns: seq<seq<int>>)
    ensures |results| == |orders|
    ensures forall i :: 0 <= i < |orders| ==> (results[i] <==> Passes(orders[i], invalid, zenkakuSpaceFirst, validate))
    ensures patterns == Select(orders, results)
  {
    results := seq(|orders|, _ => false);
    patterns := [];
    var i := 0;
    while i < |orders|
      invariant 0 <= i <= |orders| && |results| == |orders|
      invariant forall a :: 0 <= a < i ==> (results[a] <==> Passes(orders[a], invalid, zenkakuSpaceFirst, validate))
      invariant forall a :: i <= a < |orders| ==> !results[a]
      invariant patterns == Select(orders[..i], results[..i])
    {
      var row := orders[i];
      assert orders[..i + 1][..i] == orders[..i];
      if validate(row, invalid) {
        if !(|row| > 0 && zenkakuSpaceFirst && row[0] != 0) {
          patterns := patterns + [row];
          results := results[i := true];
        }
      }
      assert results[..i + 1][..i] == results[..i];
      i := i + 1;
    }
    assert orders[..i] == orders && results[..i] == results;
  }

  /** Only passing orders are listed, and every passing order is. */
  lemma FilterOrdersMembers(orders: seq<seq<int>>, results: seq<bool>, invalid: seq<seq<int>>,
                            zenkakuSpaceFirst: bool, validate: (seq<int>, seq<seq<int>>) -> bool, o: seq<int>)
    requires |results| == |orders|
    requires forall i :: 0 <= i < |orders| ==> (results[i] <==> Passes(orders[i], invalid, zenkakuSpaceFirst, validate))
    ensures o in Select(orders, results) <==> o in orders && Passes(o, invalid, zenkakuSpaceFirst, validate)
  {
    SelectMembers(orders, results, o);
    if o in orders && Passes(o, invalid, zenkakuSpaceFirst, validate) {
      var i :| 0 <= i < |orders| && orders[i] == o;
      assert results[i];
    }
  }

  // ---------------------------------------------------------------- particle order

  /** The members of `group` in the order they appear in `order` (algo.Contains as sequence membership). */
  function Found(order: seq<int>, group: seq<int>): (r: seq<int>)
    ensures forall x :: x in r <==> x in order && x in group
    ensures |r| <= |order|
  {
    if |order| == 0 then []
    else Found(order[..|order| - 1], group) + (if order[|order| - 1] in group then [order[|order| - 1]] else [])
  }

  /** The first arrangement of a sub-pattern list equal to `f`. */
  function FirstMatch(f: seq<int>, pats: seq<seq<int>>): (r: Option<nat>)
    ensures r.Some? ==> r.value < |pats| && pats[r.value] == f && forall k :: 0 <= k < r.value ==> pats[k] != f
    ensures r.None? ==> f !in pats
  {
    if |pats| == 0 then None
    else if pats[0] == f then Some(0)
    else
      var t := FirstMatch(f, pats[1..]);
      if t.None? then (assert forall k :: 1 <= k < |pats| ==> pats[k] == pats[1..][k - 1]; None)
      else Some(t.value + 1)
  }

  /** The last position of `x` in `s`. */
  function LastIndex(s: seq<int>, x: int): (r: nat)
    requires x in s
    ensures r < |s| && s[r] == x && forall j :: r < j < |s| ==> s[j] != x
  {
    if s[|s| - 1] == x then |s| - 1 else LastIndex(s[..|s| - 1], x)
  }

  datatype Place = Place(group: nat, arrangement: nat, rank: nat)

  /**
   * ppi of Sentence.ParticleOrder after the first `i` groups: the members
   * found for a group whose found list equals one of its arrangements
   * are placed at (group, first such arrangement, position in the list);
   * a later group overwrites an earlier one.
   */
  function Locate(found: seq<seq<int>>, subPatterns: seq<seq<seq<int>>>, i: nat): (r: map<int, Place>)
    requires i <= |subPatterns| <= |found|
  {
    if i == 0 then map[]
    else
      var ppi := Locate(found, subPatterns, i - 1);
      var f := found[i - 1];
      match FirstMatch(f, subPatterns[i - 1])
      case None => ppi
      case Some(k) =>
        var keys := ppi.Keys + (set y | y in f);
        map x | x in keys :: if x in f then Place(i - 1, k, LastIndex(f, x)) else ppi[x]
  }

  /** Group `j` matched an arrangement and found `x`. */
  predicate Claims(found: seq<seq<int>>, subPatterns: seq<seq<seq<int>>>, j: nat, x: int)
    requires j < |subPatterns| <= |found|
  {
    FirstMatch(found[j], subPatterns[j]).Some? && x in found[j]
  }

  /** Some group before `i` matched an arrangement and found `x`. */
  ghost predicate ClaimedBefore(found: seq<seq<int>>, subPatterns: seq<seq<seq<int>>>, i: nat, x: int)
    requires i <= |subPatterns| <= |found|
  {
    exists j :: 0 <= j < i && Claims(found, subPatterns, j, x)
  }

  /**
   * `pl` places `x` at the last group before `i` that claims it, at that
   * group's first matching arrangement, at the last rank where it found `x`.
   */
  predicate PlacedBy(found: seq<seq<int>>, subPatterns: seq<seq<seq<int>>>, i: nat, x: int, pl: Place)
    requires i <= |subPatterns| <= |found|
  {
    pl.group < i && Claims(found, subPatterns, pl.group, x)
    && (forall j :: pl.group < j < i ==> !Claims(found, subPatterns, j, x))
    && pl.arrangement == FirstMatch(found[pl.group], subPatterns[pl.group]).value
    && pl.rank < |found[pl.group]| && found[pl.group][pl.rank] == x
    && (forall q :: pl.rank < q < |found[pl.group]| ==> found[pl.group][q] != x)
  }

  /** A phrase is placed exactly when some matched group found it, and it sits at the last such group's slot. */
  lemma {:induction false} LocateSpec(found: seq<seq<int>>, subPatterns: seq<seq<seq<int>>>, i: nat, x: int)
    requires i <= |subPatterns| <= |found|
    ensures x in Locate(found, subPatterns, i) <==> ClaimedBefore(found, subPatterns, i, x)
    ensures x in Locate(found, subPatterns, i) ==> PlacedBy(found, subPatterns, i, x, Locate(found, subPatterns, i)[x])
    decreases i
  {
    if i > 0 {
      LocateSpec(found, subPatterns, i - 1, x);
      if FirstMatch(found[i - 1], subPatterns[i - 1]).None? {
        LocateUnmatched(found, subPatterns, i, x);
      } else {
        LocateMatched(found, subPatterns, i, x);
      }
    }
  }

  /** A group that matched no arrangement leaves the placements as they were. */
  lemma LocateUnmatched(found: seq<seq<int>>, subPatterns: seq<seq<seq<int>>>, i: nat, x: int)
    requires 0 < i <= |subPatterns| <= |found| && FirstMatch(found[i - 1], subPatterns[i - 1]).None?
    requires x in Locate(found, subPatterns, i - 1) <==> ClaimedBefore(found, subPatterns, i - 1, x)
    requires x in Locate(found, subPatterns, i - 1)
      ==> PlacedBy(found, subPatterns, i - 1, x, Locate(found, subPatterns, i - 1)[x])
    ensures x in Locate(found, subPatterns, i) <==> ClaimedBefore(found, subPatterns, i, x)
    ensures x in Locate(found, subPatterns, i) ==> PlacedBy(found, subPatterns, i, x, Locate(found, subPatterns, i)[x])
  {
    assert Locate(found, subPatterns, i) == Locate(found, subPatterns, i - 1);
    assert !Claims(found, subPatterns, i - 1, x);
    if ClaimedBefore(found, subPatterns, i, x) {
      var j :| 0 <= j < i && Claims(found, subPatterns, j, x);
      assert j < i - 1;
    }
  }

  /** A group that matched places every member it found, over any earlier placement. */
  lemma LocateMatched(found: seq<seq<int>>, subPatterns: seq<seq<seq<int>>>, i: nat, x: int)
    requires 0 < i <= |subPatterns| <= |found| && FirstMatch(found[i - 1], subPatterns[i - 1]).Some?
    requires x in Locate(found, subPatterns, i - 1) <==> ClaimedBefore(found, subPatterns, i - 1, x)
    requires x in Locate(found, subPatterns, i - 1)
      ==> PlacedBy(found, subPatterns, i - 1, x, Locate(found, subPatterns, i - 1)[x])
    ensures x in Locate(found, subPatterns, i) <==> ClaimedBefore(found, subPatterns, i, x)
    ensures x in Locate(found, subPatterns, i) ==> PlacedBy(found, subPatterns, i, x, Locate(found, subPatterns, i)[x])
  {
    if x in found[i - 1] {
      LocateMatchedHere(found, subPatterns, i, x);
    } else {
      LocateMatchedEarlier(found, subPatterns, i, x);
    }
  }

  /** A position the matched group `i - 1` found is placed there. */
  lemma LocateMatchedHere(found: seq<seq<int>>, subPatterns: seq<seq<seq<int>>>, i: nat, x: int)
    requires 0 < i <= |subPatterns| <= |found| && FirstMatch(found[i - 1], subPatterns[i - 1]).Some?
    requires x in found[i - 1]
    ensures x in Locate(found, subPatterns, i) && ClaimedBefore(found, subPatterns, i, x)
    ensures PlacedBy(found, subPatterns, i, x, Locate(found, subPatterns, i)[x])
  {
    var f := found[i - 1];
    var r := Locate(found, subPatterns, i);
    var k := FirstMatch(f, subPatterns[i - 1]).value;
    assert Claims(found, subPatterns, i - 1, x);
    assert r[x] == Place(i - 1, k, LastIndex(f, x));
  }

  /** A position the matched group `i - 1` did not find keeps its earlier placing. */
  lemma LocateMatchedEarlier(found: seq<seq<int>>, subPatterns: seq<seq<seq<int>>>, i: nat, x: int)
    requires 0 < i <= |subPatterns| <= |found| && FirstMatch(found[i - 1], subPatterns[i - 1]).Some?
    requires x !in found[i - 1]
    requires x in Locate(found, subPatterns, i - 1) <==> ClaimedBefore(found, subPatterns, i - 1, x)
    requires x in Locate(found, subPatterns, i - 1)
      ==> PlacedBy(found, subPatterns, i - 1, x, Locate(found, subPatterns, i - 1)[x])
    ensures x in Locate(found, subPatterns, i) <==> ClaimedBefore(found, subPatterns, i, x)
    ensures x in Locate(found, subPatterns, i) ==> PlacedBy(found, subPatterns, i, x, Locate(found, subPatterns, i)[x])
  {
    var ppi := Locate(found, subPatterns, i - 1);
    var r := Locate(found, subPatterns, i);
    assert !Claims(found, subPatterns, i - 1, x);
    assert x in r <==> x in ppi;
    if x in r {
      assert r[x] == ppi[x];
    }
    if ClaimedBefore(found, subPatterns, i, x) {
      var j :| 0 <= j < i && Claims(found, subPatterns, j, x);
      assert j < i - 1;
    }
  }

  /** The phrase for one position: the parallel copy at its placed slot, or the original phrase; out of range is an index panic. */
  function PhraseAt(x: int, ppi: map<int, Place>, parallel: seq<seq<seq<Ph.Phrase>>>, phrases: seq<Ph.Phrase>)
    : Option<Ph.Phrase>
  {
    if x in ppi then
      var pl := ppi[x];
      if pl.group < |parallel| && pl.arrangement < |parallel[pl.group]|
         && pl.rank < |parallel[pl.group][pl.arrangement]|
      then Some(parallel[pl.group][pl.arrangement][pl.rank]) else None
    else if 0 <= x < |phrases| then Some(phrases[x]) else None
  }

  function PhrasesAt(order: seq<int>, ppi: map<int, Place>, parallel: seq<seq<seq<Ph.Phrase>>>,
                     phrases: seq<Ph.Phrase>): (r: Option<seq<Ph.Phrase>>)
    ensures r.Some? <==> forall p :: 0 <= p < |order| ==> PhraseAt(order[p], ppi, parallel, phrases).Some?
    ensures r.Some? ==>
      (|r.value| == |order|
       && forall p :: 0 <= p < |order| ==> r.value[p] == PhraseAt(order[p], ppi, parallel, phrases).value)
  {
    if |order| == 0 then Some([])
    else
      var head := PhrasesAt(order[..|order| - 1], ppi, parallel, phrases);
      var last := PhraseAt(order[|order| - 1], ppi, parallel, phrases);
      assert forall p :: 0 <= p < |order| - 1 ==> order[..|order| - 1][p] == order[p];
      if head.None? || last.None? then None
      else Some(head.value + [last.value])
  }

  /**
   * Sentence.ParticleOrder for one order: each position takes the
   * parallel copy when a matched sub-pattern group placed its phrase,
   * and the phrase itself otherwise.
   */
  function ParticleRow(order: seq<int>, subIndex: seq<seq<int>>, subPatterns: seq<seq<seq<int>>>,
                       parallel: seq<seq<seq<Ph.Phrase>>>, phrases: seq<Ph.Phrase>): (r: Option<seq<Ph.Phrase>>)
    ensures r.Some? ==> |r.value| == |order|
  {
    if |subPatterns| > |subIndex| then None
    else PhrasesAt(order, Locate(FoundAll(order, subIndex), subPatterns, |subPatterns|), parallel, phrases)
  }

  /** found of Sentence.ParticleOrder: for each sub-index group, its members in the order's order. */
  function FoundAll(order: seq<int>, subIndex: seq<seq<int>>): (r: seq<seq<int>>)
    ensures |r| == |subIndex| && forall i :: 0 <= i < |subIndex| ==> r[i] == Found(order, subIndex[i])
  {
    seq(|subIndex|, i requires 0 <= i < |subIndex| => Found(order, subIndex[i]))
  }

  /** With no group matched, every position keeps its own phrase. */
  lemma ParticleRowPlain(order: seq<int>, subIndex: seq<seq<int>>, subPatterns: seq<seq<seq<int>>>,
                         parallel: seq<seq<seq<Ph.Phrase>>>, phrases: seq<Ph.Phrase>)
    requires |subPatterns| <= |subIndex|
    requires forall j :: 0 <= j < |subPatterns| ==> Found(order, subIndex[j]) !in subPatterns[j]
    requires forall p :: 0 <= p < |order| ==> 0 <= order[p] < |phrases|
    ensures var r := ParticleRow(order, subIndex, subPatterns, parallel, phrases);
      r.Some? && |r.value| == |order| && forall p :: 0 <= p < |order| ==> r.value[p] == phrases[order[p]]
  {
    var found := FoundAll(order, subIndex);
    var ppi := Locate(found, subPatterns, |subPatterns|);
    forall x ensures x !in ppi {
      LocateSpec(found, subPatterns, |subPatterns|, x);
    }
    var r := PhrasesAt(order, ppi, parallel, phrases);
    assert ParticleRow(order, subIndex, subPatterns, parallel, phrases) == r;
    assert forall p :: 0 <= p < |order| ==> PhraseAt(order[p], ppi, parallel, phrases) == Some(phrases[order[p]]);
    assert r.Some?;
  }

  /** Where a member of a matched group is placed: its group, the first matching arrangement, its last rank. */
  lemma PlacedAt(order: seq<int>, subIndex: seq<seq<int>>, subPatterns: seq<seq<seq<int>>>,
                 j: nat, k: nat, f: nat, x: int)
    requires |subPatterns| <= |subIndex| && j < |subPatterns|
    requires k < |subPatterns[j]| && Found(order, subIndex[j]) == subPatterns[j][k]
    requires forall k' :: 0 <= k' < k ==> subPatterns[j][k'] != subPatterns[j][k]
    requires f < |subPatterns[j][k]| && subPatterns[j][k][f] == x
    requires forall f' :: f < f' < |subPatterns[j][k]| ==> subPatterns[j][k][f'] != x
    requires forall j' :: j < j' < |subPatterns| ==> x !in subIndex[j']
    ensures var ppi := Locate(FoundAll(order, subIndex), subPatterns, |subPatterns|);
      x in ppi && ppi[x] == Place(j, k, f)
  {
    var found := FoundAll(order, subIndex);
    var ppi := Locate(found, subPatterns, |subPatterns|);
    assert found[j] == subPatterns[j][k];
    assert FirstMatch(found[j], subPatterns[j]) == Some(k);
    assert Claims(found, subPatterns, j, x);
    LocateSpec(found, subPatterns, |subPatterns|, x);
    var pl := ppi[x];
    assert x in found[pl.group] && x in subIndex[pl.group];
    assert pl.group == j;
    assert pl.arrangement == k;
    assert found[j][f] == x;
    assert pl.rank == f;
  }

  /** A matched group's f-th found member takes copy f of the matching arrangement, unless a later group holds it too. */
  lemma ParticleRowParallel(order: seq<int>, subIndex: seq<seq<int>>, subPatterns: seq<seq<seq<int>>>,
                            parallel: seq<seq<seq<Ph.Phrase>>>, phrases: seq<Ph.Phrase>,
                            p: nat, j: nat, k: nat, f: nat)
    requires |subPatterns| <= |subIndex|
    requires ParticleRow(order, subIndex, subPatterns, parallel, phrases).Some?
    requires p < |order| && j < |subPatterns|
    requires k < |subPatterns[j]| && Found(order, subIndex[j]) == subPatterns[j][k]
    requires forall k' :: 0 <= k' < k ==> subPatterns[j][k'] != subPatterns[j][k]
    requires f < |subPatterns[j][k]| && subPatterns[j][k][f] == order[p]
    requires forall f' :: f < f' < |subPatterns[j][k]| ==> subPatterns[j][k][f'] != order[p]
    requires forall j' :: j < j' < |subPatterns| ==> order[p] !in subIndex[j']
    ensures j < |parallel| && k < |parallel[j]| && f < |parallel[j][k]|
      && ParticleRow(order, subIndex, subPatterns, parallel, phrases).value[p] == parallel[j][k][f]
  {
    var ppi := Locate(FoundAll(order, subIndex), subPatterns, |subPatterns|);
    var r := PhrasesAt(order, ppi, parallel, phrases);
    assert ParticleRow(order, subIndex, subPatterns, parallel, phrases) == r;
    PlacedAt(order, subIndex, subPatterns, j, k, f, order[p]);
    assert PhraseAt(order[p], ppi, parallel, phrases).Some?;
  }
}

=== FILE: shuffle.dfy ===
/**
 * `Pattern.Shuffle` of pattern.go. Each group of parallel phrases listed in
 * `SubIndex` is compressed into a single root node, the order search of
 * module Patterns runs on the reduced matrix, and every root order is
 * expanded back: a group's root is replaced by every permutation of the
 * group, any other node is appended to every partial order. Finally each
 * order is reversed.
 */
module Shuffles {
  import opened Runes
  import opened Patterns

  /** The fields of the source's `Pattern` that the shuffle reads or writes. */
  datatype Pattern = Pattern(
    matrix: seq<seq<bool>>,
    length: int,
    initialOrder: seq<int>,
    orders: seq<seq<int>>,
    subIndex: seq<seq<int>>,
    subPatterns: seq<seq<seq<int>>>)

  // -------------------------------------------------------------- compression

  /** The first group, at `ri` or later, that lists node `i`. */
  function GroupFrom(si: seq<seq<int>>, i: int, ri: nat): (r: Option<nat>)
    requires ri <= |si|
    ensures r.Some? ==> ri <= r.value < |si| && i in si[r.value]
    ensures forall q :: ri <= q < |si| && (r.None? || q < r.value) ==> i !in si[q]
    decreases |si| - ri
  {
    if ri == |si| then None
    else if i in si[ri] then Some(ri)
    else GroupFrom(si, i, ri + 1)
  }

  /** The group node `i` is compressed into: the first group listing it. */
  function GroupOf(si: seq<seq<int>>, i: int): (r: Option<nat>)
    ensures r.Some? ==> r.value < |si| && i in si[r.value]
    ensures forall q :: 0 <= q < |si| && (r.None? || q < r.value) ==> i !in si[q]
  {
    GroupFrom(si, i, 0)
  }

  /** Node `i` stands for itself or is the lowest node of its group. */
  predicate IsRoot(si: seq<seq<int>>, i: int)
  {
    GroupOf(si, i).None? || forall j :: 0 <= j < i ==> GroupOf(si, j) != GroupOf(si, i)
  }

  /** Root `x` represents node `i`: `i` itself when ungrouped, else a member of `i`'s group. */
  predicate Represents(si: seq<seq<int>>, i: int, x: int)
  {
    if GroupOf(si, i).None? then x == i else GroupOf(si, x) == GroupOf(si, i)
  }

  /**
   * The state of the compression loop: the root nodes in order, the root
   * position of each group (-1 before its first member), the group of each
   * group root, the root position of each node visited, and whether it is
   * grouped.
   */
  datatype Compression = Compression(
    rootmat: seq<int>,
    compressed: seq<int>,
    revcompressed: map<int, int>,
    revrootmat: seq<int>,
    revsubpatflag: seq<bool>)

  /**
   * One pass of the compression loop over node `i`. A later member of a
   * group is given the position of the most recently added root when
   * `corrected` is false (as the source does), and the position of its
   * group's root when it is true.
   */
  function Step(si: seq<seq<int>>, st: Compression, i: int, corrected: bool): (r: Compression)
    requires |st.compressed| == |si|
    ensures |r.compressed| == |si|
    ensures |r.revrootmat| == |st.revrootmat| + 1 && |r.revsubpatflag| == |st.revsubpatflag| + 1
  {
    match GroupOf(si, i)
    case None =>
      st.(rootmat := st.rootmat + [i],
          revrootmat := st.revrootmat + [|st.rootmat|],
          revsubpatflag := st.revsubpatflag + [false])
    case Some(ri) =>
      if st.compressed[ri] == -1 then
        st.(rootmat := st.rootmat + [i],
            compressed := st.compressed[ri := |st.rootmat|],
            revcompressed := st.revcompressed[i := ri],
            revrootmat := st.revrootmat + [|st.rootmat|],
            revsubpatflag := st.revsubpatflag + [true])
      else
        st.(revrootmat := st.revrootmat + [if corrected then st.compressed[ri] else |st.rootmat| - 1],
            revsubpatflag := st.revsubpatflag + [true])
  }

  /** `k` groups without a root position yet. */
  function Unset(k: nat): (r: seq<int>)
    ensures |r| == k && forall ri :: 0 <= ri < k ==> r[ri] == -1
  {
    if k == 0 then [] else Unset(k - 1) + [-1]
  }

  /** The compression loop after visiting nodes `0 .. n-1`. */
  function Compress(si: seq<seq<int>>, n: nat, corrected: bool): (r: Compression)
    ensures |r.compressed| == |si| && |r.revrootmat| == n && |r.revsubpatflag| == n
  {
    if n == 0 then Compression([], Unset(|si|), map[], [], [])
    else Step(si, Compress(si, n - 1, corrected), n - 1, corrected)
  }

  /** What the corrected compression loop keeps true after visiting nodes `0 .. n-1`. */
  ghost predicate Compressed(si: seq<seq<int>>, n: nat, st: Compression)
  {
    |st.compressed| == |si| && |st.revrootmat| == n && |st.revsubpatflag| == n
    && RootsListed(si, n, st.rootmat) && GroupsPlaced(si, n, st) && NodesPlaced(si, n, st)
    && RootsGrouped(si, st)
  }

  /** The roots are the root nodes below `n`, ascending. */
  ghost predicate RootsListed(si: seq<seq<int>>, n: nat, rootmat: seq<int>)
  {
    (forall x :: x in rootmat <==> 0 <= x < n && IsRoot(si, x)) && Ascending(rootmat)
  }

  /** A group has a root position exactly when one of its members is below `n`. */
  ghost predicate GroupsPlaced(si: seq<seq<int>>, n: nat, st: Compression)
    requires |st.compressed| == |si|
  {
    (forall ri :: 0 <= ri < |si| ==>
       (st.compressed[ri] == -1 <==> forall j :: 0 <= j < n ==> GroupOf(si, j) != Some(ri)))
    && (forall ri :: 0 <= ri < |si| && st.compressed[ri] != -1 ==>
          0 <= st.compressed[ri] < |st.rootmat| && GroupOf(si, st.rootmat[st.compressed[ri]]) == Some(ri))
  }

  /** Every node below `n` is flagged when grouped and points at the root that represents it. */
  ghost predicate NodesPlaced(si: seq<seq<int>>, n: nat, st: Compression)
    requires |st.revrootmat| == n && |st.revsubpatflag| == n
  {
    (forall i :: 0 <= i < n ==> (st.revsubpatflag[i] <==> GroupOf(si, i).Some?))
    && (forall i :: 0 <= i < n ==>
          0 <= st.revrootmat[i] < |st.rootmat| && Represents(si, i, st.rootmat[st.revrootmat[i]]))
  }

  /** The group of each group root is recorded. */
  ghost predicate RootsGrouped(si: seq<seq<int>>, st: Compression)
  {
    (forall x :: x in st.revcompressed <==> x in st.rootmat && GroupOf(si, x).Some?)
    && (forall x :: x in st.revcompressed ==> GroupOf(si, x) == Some(st.revcompressed[x]))
  }

  /** The corrected compression loop keeps its invariant over one more node. */
  lemma StepKeeps(si: seq<seq<int>>, n: nat, st: Compression)
    requires Compressed(si, n, st)
    ensures Compressed(si, n + 1, Step(si, st, n, true))
  {
    forall k | 0 <= k < |st.rootmat|
      ensures st.rootmat[k] < n
    {
      assert st.rootmat[k] in st.rootmat;
    }
    match GroupOf(si, n)
    case None => StepUngrouped(si, n, st);
    case Some(ri) =>
      if st.compressed[ri] == -1 {
        StepFirstMember(si, n, st, ri);
      } else {
        StepLaterMember(si, n, st, ri);
      }
  }

  lemma StepUngrouped(si: seq<seq<int>>, n: nat, st: Compression)
    requires Compressed(si, n, st) && GroupOf(si, n).None?
    requires forall k :: 0 <= k < |st.rootmat| ==> st.rootmat[k] < n
    ensures Compressed(si, n + 1, Step(si, st, n, true))
  {
    var r := Step(si, st, n, true);
    assert r.rootmat == st.rootmat + [n];
    assert RootsListed(si, n + 1, r.rootmat);
    assert GroupsPlaced(si, n + 1, r);
    forall i | 0 <= i < n
      ensures r.rootmat[r.revrootmat[i]] == st.rootmat[st.revrootmat[i]]
    {
    }
    assert NodesPlaced(si, n + 1, r);
    assert RootsGrouped(si, r);
  }

  /** The state after the first member `n` of group `ri` becomes the group's root. */
  function FirstMember(st: Compression, n: nat, ri: nat): Compression
    requires ri < |st.compressed|
  {
    st.(rootmat := st.rootmat + [n],
        compressed := st.compressed[ri := |st.rootmat|],
        revcompressed := st.revcompressed[n := ri],
        revrootmat := st.revrootmat + [|st.rootmat|],
        revsubpatflag := st.revsubpatflag + [true])
  }

  /** The state after a later member `n` of group `ri` is pointed at the group's root. */
  function LaterMember(st: Compression, ri: nat): Compression
    requires ri < |st.compressed|
  {
    st.(revrootmat := st.revrootmat + [st.compressed[ri]], revsubpatflag := st.revsubpatflag + [true])
  }

  lemma StepFirstMember(si: seq<seq<int>>, n: nat, st: Compression, ri: nat)
    requires Compressed(si, n, st) && GroupOf(si, n) == Some(ri) && st.compressed[ri] == -1
    requires forall k :: 0 <= k < |st.rootmat| ==> st.rootmat[k] < n
    ensures Compressed(si, n + 1, Step(si, st, n, true))
  {
    var r := FirstMember(st, n, ri);
    assert Step(si, st, n, true) == r;
    FirstMemberListed(si, n, st, ri);
    FirstMemberGroups(si, n, st, ri);
    FirstMemberNodes(si, n, st, ri);
    assert RootsGrouped(si, r);
  }

  lemma FirstMemberListed(si: seq<seq<int>>, n: nat, st: Compression, ri: nat)
    requires |st.compressed| == |si| && RootsListed(si, n, st.rootmat) && GroupsPlaced(si, n, st)
    requires forall k :: 0 <= k < |st.rootmat| ==> st.rootmat[k] < n
    requires GroupOf(si, n) == Some(ri) && st.compressed[ri] == -1
    ensures RootsListed(si, n + 1, FirstMember(st, n, ri).rootmat)
  {
    assert IsRoot(si, n);
  }

  lemma FirstMemberGroups(si: seq<seq<int>>, n: nat, st: Compression, ri: nat)
    requires |st.compressed| == |si| && GroupsPlaced(si, n, st)
    requires GroupOf(si, n) == Some(ri) && st.compressed[ri] == -1
    ensures GroupsPlaced(si, n + 1, FirstMember(st, n, ri))
  {
    var r := FirstMember(st, n, ri);
    forall q | 0 <= q < |si| && r.compressed[q] != -1
      ensures 0 <= r.compressed[q] < |r.rootmat| && GroupOf(si, r.rootmat[r.compressed[q]]) == Some(q)
    {
      if q != ri {
        assert r.compressed[q] == st.compressed[q];
      }
    }
  }

  lemma FirstMemberNodes(si: seq<seq<int>>, n: nat, st: Compression, ri: nat)
    requires |st.compressed| == |si| && |st.revrootmat| == n && |st.revsubpatflag| == n && NodesPlaced(si, n, st)
    requires GroupOf(si, n) == Some(ri) && st.compressed[ri] == -1
    ensures NodesPlaced(si, n + 1, FirstMember(st, n, ri))
  {
    var r := FirstMember(st, n, ri);
    forall i | 0 <= i < n
      ensures r.rootmat[r.revrootmat[i]] == st.rootmat[st.revrootmat[i]]
    {
    }
  }

  lemma StepLaterMember(si: seq<seq<int>>, n: nat, st: Compression, ri: nat)
    requires Compressed(si, n, st) && GroupOf(si, n) == Some(ri) && st.compressed[ri] != -1
    requires forall k :: 0 <= k < |st.rootmat| ==> st.rootmat[k] < n
    ensures Compressed(si, n + 1, Step(si, st, n, true))
  {
    var r := LaterMember(st, ri);
    assert Step(si, st, n, true) == r;
    LaterMemberListed(si, n, st, ri);
    LaterMemberNodes(si, n, st, ri);
    assert GroupsPlaced(si, n + 1, r);
    assert RootsGrouped(si, r);
  }

  lemma LaterMemberListed(si: seq<seq<int>>, n: nat, st: Compression, ri: nat)
    requires |st.compressed| == |si| && RootsListed(si, n, st.rootmat) && GroupsPlaced(si, n, st)
    requires GroupOf(si, n) == Some(ri) && st.compressed[ri] != -1
    ensures RootsListed(si, n + 1, LaterMember(st, ri).rootmat)
  {
    var j :| 0 <= j < n && GroupOf(si, j) == Some(ri);
    assert !IsRoot(si, n);
  }

  lemma LaterMemberNodes(si: seq<seq<int>>, n: nat, st: Compression, ri: nat)
    requires |st.compressed| == |si| && |st.revrootmat| == n && |st.revsubpatflag| == n
    requires GroupsPlaced(si, n, st) && NodesPlaced(si, n, st)
    requires GroupOf(si, n) == Some(ri) && st.compressed[ri] != -1
    ensures NodesPlaced(si, n + 1, LaterMember(st, ri))
  {
    var r := LaterMember(st, ri);
    assert Represents(si, n, st.rootmat[st.compressed[ri]]);
    forall i | 0 <= i < n + 1
      ensures 0 <= r.revrootmat[i] < |r.rootmat| && Represents(si, i, r.rootmat[r.revrootmat[i]])
    {
      if i < n {
        assert r.revrootmat[i] == st.revrootmat[i];
      }
    }
  }

  /** The corrected compression loop's invariant after nodes `0 .. n-1`. */
  lemma {:induction false} CompressSpec(si: seq<seq<int>>, n: nat)
    ensures Compressed(si, n, Compress(si, n, true))
  {
    if n > 0 {
      CompressSpec(si, n - 1);
      StepKeeps(si, n - 1, Compress(si, n - 1, true));
    }
  }

  /**
   * As written, a later member of a group that is not contiguous with its
   * root is placed at the most recent root: with the group {0, 2} over three
   * nodes, node 2 is placed at node 1, which is not in its group.
   */
  lemma RootPositionAsWritten()
    ensures Compress([[0, 2]], 3, false).rootmat == [0, 1]
    ensures Compress([[0, 2]], 3, false).revrootmat == [0, 1, 1]
    ensures !Represents([[0, 2]], 2, 1)
  {
    var si := [[0, 2]];
    assert GroupOf(si, 0) == Some(0) && GroupOf(si, 1) == None && GroupOf(si, 2) == Some(0);
  }

  /** Corrected, node 2 is placed at its group's root, node 0. */
  lemma RootPositionCorrected()
    ensures Compress([[0, 2]], 3, true).revrootmat == [0, 1, 0]
    ensures Represents([[0, 2]], 2, 0)
  {
    var si := [[0, 2]];
    assert GroupOf(si, 0) == Some(0) && GroupOf(si, 1) == None && GroupOf(si, 2) == Some(0);
  }

  // ----------------------------------------------------------- reduced matrix

  /** An `nr` by `nr` matrix. */
  predicate Square(m: seq<seq<bool>>, nr: nat)
  {
    |m| == nr && forall a :: 0 <= a < nr ==> |m[a]| == nr
  }

  /** The `nr` by `nr` matrix without edges. */
  function Blank(nr: nat): (r: seq<seq<bool>>)
    ensures Square(r, nr) && forall a, b :: 0 <= a < nr && 0 <= b < nr ==> !r[a][b]
  {
    if nr == 0 then [] else
      var row := seq(nr, _ => false);
      seq(nr, _ => row)
  }

  /** Every position in `pos` is a row of an `nr` by `nr` matrix. */
  predicate Within(pos: seq<int>, nr: nat)
  {
    forall j :: 0 <= j < |pos| ==> 0 <= pos[j] < nr
  }

  /** The cell (a, b) set. */
  function Mark(m: seq<seq<bool>>, a: nat, b: nat): (r: seq<seq<bool>>)
    requires Square(m, |m|) && a < |m| && b < |m|
    ensures Square(r, |m|)
    ensures forall x, y :: 0 <= x < |m| && 0 <= y < |m| ==> (r[x][y] <==> m[x][y] || (x == a && y == b))
  {
    m[a := m[a][b := true]]
  }

  /** The edges `i -> k`, `k < kn`, of row `i` carried over to root row `pos[i]`. */
  function MarkRow(acc: seq<seq<bool>>, m: seq<seq<bool>>, pos: seq<int>, i: nat, kn: nat): (r: seq<seq<bool>>)
    requires Square(acc, |acc|) && Within(pos, |acc|)
    requires i < |m| && i < |pos| && kn <= |m[i]| <= |pos|
    ensures Square(r, |acc|)
  {
    if kn == 0 then acc
    else
      var prev := MarkRow(acc, m, pos, i, kn - 1);
      if m[i][kn - 1] then Mark(prev, pos[i], pos[kn - 1]) else prev
  }

  /** The edges of rows `0 .. n-1` carried over to the root rows. */
  function MarkRows(acc: seq<seq<bool>>, m: seq<seq<bool>>, pos: seq<int>, n: nat): (r: seq<seq<bool>>)
    requires Square(acc, |acc|) && Within(pos, |acc|)
    requires n <= |m| <= |pos| && forall i :: 0 <= i < |m| ==> |m[i]| <= |pos|
    ensures Square(r, |acc|)
  {
    if n == 0 then acc
    else MarkRow(MarkRows(acc, m, pos, n - 1), m, pos, n - 1, |m[n - 1]|)
  }

  /** Some original edge `i -> k` joins a node placed at `a` to a node placed at `b`. */
  ghost predicate Linked(m: seq<seq<bool>>, pos: seq<int>, n: nat, a: int, b: int)
    requires n <= |m| <= |pos| && forall i :: 0 <= i < |m| ==> |m[i]| <= |pos|
  {
    exists i, k :: 0 <= i < n && 0 <= k < |m[i]| && m[i][k] && pos[i] == a && pos[k] == b
  }

  lemma {:induction false} MarkRowSpec(acc: seq<seq<bool>>, m: seq<seq<bool>>, pos: seq<int>, i: nat, kn: nat, a: nat, b: nat)
    requires Square(acc, |acc|) && Within(pos, |acc|)
    requires i < |m| && i < |pos| && kn <= |m[i]| <= |pos|
    requires a < |acc| && b < |acc|
    ensures MarkRow(acc, m, pos, i, kn)[a][b] <==>
      acc[a][b] || (pos[i] == a && exists k :: 0 <= k < kn && m[i][k] && pos[k] == b)
  {
    if kn > 0 {
      MarkRowSpec(acc, m, pos, i, kn - 1, a, b);
    }
  }

  lemma {:induction false} MarkRowsSpec(acc: seq<seq<bool>>, m: seq<seq<bool>>, pos: seq<int>, n: nat, a: nat, b: nat)
    requires Square(acc, |acc|) && Within(pos, |acc|)
    requires n <= |m| <= |pos| && forall i :: 0 <= i < |m| ==> |m[i]| <= |pos|
    requires a < |acc| && b < |acc|
    ensures MarkRows(acc, m, pos, n)[a][b] <==> acc[a][b] || Linked(m, pos, n, a, b)
  {
    if n > 0 {
      MarkRowsSpec(acc, m, pos, n - 1, a, b);
      MarkRowSpec(MarkRows(acc, m, pos, n - 1), m, pos, n - 1, |m[n - 1]|, a, b);
      if Linked(m, pos, n, a, b) && !Linked(m, pos, n - 1, a, b) {
        var i, k :| 0 <= i < n && 0 <= k < |m[i]| && m[i][k] && pos[i] == a && pos[k] == b;
        assert i == n - 1;
      }
    }
  }

  /**
   * The reduced matrix of the loop over every original edge: an `nr` by
   * `nr` matrix with an edge `a -> b` exactly when some original edge joins
   * a node placed at root `a` to one placed at root `b`.
   */
  function Reduce(m: seq<seq<bool>>, pos: seq<int>, nr: nat): (r: seq<seq<bool>>)
    requires |m| <= |pos| && forall i :: 0 <= i < |m| ==> |m[i]| <= |pos|
    requires Within(pos, nr)
    ensures Square(r, nr)
  {
    MarkRows(Blank(nr), m, pos, |m|)
  }

  lemma ReduceSpec(m: seq<seq<bool>>, pos: seq<int>, nr: nat, a: nat, b: nat)
    requires |m| <= |pos| && forall i :: 0 <= i < |m| ==> |m[i]| <= |pos|
    requires Within(pos, nr) && a < nr && b < nr
    ensures Reduce(m, pos, nr)[a][b] <==> Linked(m, pos, |m|, a, b)
  {
    MarkRowsSpec(Blank(nr), m, pos, |m|, a, b);
  }

  // ------------------------------------------------------------ terminal roots

  /** The row has no edge. */
  predicate Sink(row: seq<bool>)
  {
    forall j :: 0 <= j < |row| ==> !row[j]
  }

  /** The scan for an edge in `row` from column `j` on, stopping at the first one. */
  function HasEdgeFrom(row: seq<bool>, j: nat): bool
    requires j <= |row|
    decreases |row| - j
  {
    j < |row| && (row[j] || HasEdgeFrom(row, j + 1))
  }

  lemma {:induction false} HasEdgeFromSpec(row: seq<bool>, j: nat)
    requires j <= |row|
    ensures HasEdgeFrom(row, j) <==> exists c :: j <= c < |row| && row[c]
    decreases |row| - j
  {
    if j < |row| {
      HasEdgeFromSpec(row, j + 1);
    }
  }

  /** The roots among `0 .. n-1` with no outgoing edge, in order. */
  function Ends(mat: seq<seq<bool>>, n: nat): (r: seq<int>)
    requires n <= |mat|
    ensures Ascending(r)
    ensures forall x :: x in r <==> 0 <= x < n && Sink(mat[x])
  {
    if n == 0 then []
    else
      var prev := Ends(mat, n - 1);
      assert forall k :: 0 <= k < |prev| ==> prev[k] in prev;
      HasEdgeFromSpec(mat[n - 1], 0);
      if !HasEdgeFrom(mat[n - 1], 0) then prev + [n - 1] else prev
  }

  // ------------------------------------------------------------------ routes

  /** The route seed of an end: the end, then -1 in every other position. */
  function Seed(end: int, n: nat): (r: seq<int>)
    requires n >= 1
    ensures |r| == n && r[0] == end && forall k :: 1 <= k < n ==> r[k] == -1
  {
    [end] + seq(n - 1, _ => -1)
  }

  /** The routes from every end, in the order of the ends. */
  function EndRoutes(ends: seq<int>, mat: seq<seq<bool>>): (r: seq<seq<int>>)
    requires Square(mat, |mat|) && forall e :: e in ends ==> 0 <= e < |mat|
    ensures |r| >= |ends|
    ensures forall t :: t in r ==> |t| == |mat| && |t| >= 1 && t[0] in ends
  {
    if |ends| == 0 then []
    else
      assert ends[0] in ends;
      var first := Routes(Seed(ends[0], |mat|), 0, mat);
      assert forall e :: e in ends[1..] ==> e in ends;
      first + EndRoutes(ends[1..], mat)
  }

  // ----------------------------------------------------------------- restore

  /** Every entry of every row is a position below `n`. */
  predicate Indexes(rows: seq<seq<int>>, n: nat)
  {
    forall i, o :: 0 <= i < |rows| && 0 <= o < |rows[i]| ==> 0 <= rows[i][o] < n
  }

  /** One root order read through `rootmat`: positions become nodes. */
  function RealizeRow(row: seq<int>, rootmat: seq<int>): (r: seq<int>)
    requires forall o :: 0 <= o < |row| ==> 0 <= row[o] < |rootmat|
    ensures |r| == |row| && forall o :: 0 <= o < |row| ==> r[o] == rootmat[row[o]]
  {
    if |row| == 0 then [] else [rootmat[row[0]]] + RealizeRow(row[1..], rootmat)
  }

  /** The root orders read through `rootmat`. */
  function Realize(rows: seq<seq<int>>, rootmat: seq<int>): (r: seq<seq<int>>)
    requires Indexes(rows, |rootmat|)
    ensures |r| == |rows| && forall i :: 0 <= i < |rows| ==> r[i] == RealizeRow(rows[i], rootmat)
  {
    if |rows| == 0 then []
    else
      assert forall i, o :: 0 <= i < |rows[1..]| && 0 <= o < |rows[1..][i]| ==> rows[1..][i][o] == rows[i + 1][o];
      [RealizeRow(rows[0], rootmat)] + Realize(rows[1..], rootmat)
  }

  /** `x` appended to every partial order, or the first order `[x]` when there is none. */
  function Extend(out: seq<seq<int>>, x: int): (r: seq<seq<int>>)
    ensures |out| > 0 ==> |r| == |out| && forall u :: 0 <= u < |out| ==> r[u] == out[u] + [x]
    ensures |out| == 0 ==> r == [[x]]
  {
    if |out| == 0 then [[x]]
    else if |out| == 1 then [out[0] + [x]]
    else Extend(out[..|out| - 1], x) + [out[|out| - 1] + [x]]
  }

  /**
   * A group's permutations joined to the partial orders. As written
   * (`corrected` false) there is nothing to join to before the first
   * order exists, so the group is lost; corrected, the permutations
   * start the orders.
   */
  function Join(out: seq<seq<int>>, pat: seq<seq<int>>, corrected: bool): (r: seq<seq<int>>)
  {
    if corrected && |out| == 0 then pat else AppendPattern(out, pat)
  }

  /**
   * The restore loop over one realized order: a flagged node is replaced by
   * its group's permutations, any other node is appended. A node outside
   * the flags or a group outside the sub-patterns is an index panic; a node
   * missing from `revc` reads group 0, as a Go map does.
   */
  function Unfold(out: seq<seq<int>>, order: seq<int>, flags: seq<bool>, revc: map<int, int>,
                  sp: seq<seq<seq<int>>>, corrected: bool): (r: Run<seq<seq<int>>>)
    ensures !r.Error? && !r.OutOfFuel?
    decreases |order|
  {
    if |order| == 0 then Value(out)
    else
      var x := order[0];
      if !(0 <= x < |flags|) then Panic
      else if flags[x] then
        var g := if x in revc then revc[x] else 0;
        if !(0 <= g < |sp|) then Panic
        else Unfold(Join(out, sp[g], corrected), order[1..], flags, revc, sp, corrected)
      else Unfold(Extend(out, x), order[1..], flags, revc, sp, corrected)
  }

  /** The nodes an order stands for: a group root stands for its whole group. */
  ghost function Contents(order: seq<int>, flags: seq<bool>, revc: map<int, int>, si: seq<seq<int>>): multiset<int>
    requires Plan(order, flags, revc, si)
  {
    if |order| == 0 then multiset{}
    else
      var x := order[0];
      assert x in order;
      assert forall y :: y in order[1..] ==> y in order;
      (if flags[x] then multiset(si[revc[x]]) else multiset{x}) + Contents(order[1..], flags, revc, si)
  }

  /** Every node of the order is flagged or not, and every flagged node names a group. */
  predicate Plan(order: seq<int>, flags: seq<bool>, revc: map<int, int>, si: seq<seq<int>>)
  {
    forall x :: x in order ==> 0 <= x < |flags| && (flags[x] ==> x in revc && 0 <= revc[x] < |si|)
  }

  /** Each group's sub-patterns are the orderings of the group's nodes, at least one. */
  ghost predicate Orderings(sp: seq<seq<seq<int>>>, si: seq<seq<int>>)
  {
    |sp| == |si| && forall g :: 0 <= g < |si| ==> |sp[g]| >= 1 && forall e :: e in sp[g] ==> multiset(e) == multiset(si[g])
  }

  /**
   * Corrected, the restore loop yields at least one order once it has met a
   * node, and every order holds exactly the nodes the root order stands for.
   */
  lemma {:induction false} UnfoldSpec(out: seq<seq<int>>, order: seq<int>, flags: seq<bool>, revc: map<int, int>,
                                      sp: seq<seq<seq<int>>>, si: seq<seq<int>>, m: multiset<int>)
    requires Plan(order, flags, revc, si) && Orderings(sp, si)
    requires |out| == 0 ==> m == multiset{}
    requires forall row :: row in out ==> multiset(row) == m
    ensures Unfold(out, order, flags, revc, sp, true).Value?
    ensures |out| > 0 || |order| > 0 ==> |Unfold(out, order, flags, revc, sp, true).value| > 0
    ensures forall row :: row in Unfold(out, order, flags, revc, sp, true).value ==>
      multiset(row) == m + Contents(order, flags, revc, si)
    decreases |order|
  {
    if |order| > 0 {
      var x := order[0];
      assert x in order;
      assert forall y :: y in order[1..] ==> y in order;
      if flags[x] {
        var g := revc[x];
        var next := Join(out, sp[g], true);
        forall row | row in next
          ensures multiset(row) == m + multiset(si[g])
        {
          if |out| > 0 {
            AppendPatternMembers(out, sp[g], row);
            var a, b :| 0 <= a < |out| && 0 <= b < |sp[g]| && row == out[a] + sp[g][b];
            assert out[a] in out && sp[g][b] in sp[g];
          }
        }
        UnfoldSpec(next, order[1..], flags, revc, sp, si, m + multiset(si[g]));
      } else {
        var next := Extend(out, x);
        forall row | row in next
          ensures multiset(row) == m + multiset{x}
        {
          if |out| > 0 {
            var u :| 0 <= u < |next| && next[u] == row;
            assert out[u] in out;
          }
        }
        UnfoldSpec(next, order[1..], flags, revc, sp, si, m + multiset{x});
      }
    }
  }

  /** Once a partial order exists, the source's restore loop and the corrected one agree. */
  lemma {:induction false} UnfoldAgrees(out: seq<seq<int>>, order: seq<int>, flags: seq<bool>, revc: map<int, int>,
                                        sp: seq<seq<seq<int>>>)
    requires |out| > 0 && forall g :: 0 <= g < |sp| ==> |sp[g]| >= 1
    ensures Unfold(out, order, flags, revc, sp, false) == Unfold(out, order, flags, revc, sp, true)
    decreases |order|
  {
    if |order| > 0 {
      var x := order[0];
      if 0 <= x < |flags| {
        if flags[x] {
          var g := if x in revc then revc[x] else 0;
          if 0 <= g < |sp| {
            UnfoldAgrees(AppendPattern(out, sp[g]), order[1..], flags, revc, sp);
          }
        } else {
          UnfoldAgrees(Extend(out, x), order[1..], flags, revc, sp);
        }
      }
    }
  }

  /**
   * As written, an order that starts with a group root loses the group:
   * the loop starts from no partial order, and joining a group to no order
   * yields none. An order of the group alone restores to nothing, and a
   * plain node after it starts a fresh order without the group's nodes.
   * Corrected, the group's permutations start the orders.
   */
  lemma RestoreDropsLeadingGroup(x: int, flags: seq<bool>, revc: map<int, int>, sp: seq<seq<seq<int>>>)
    requires 0 <= x < |flags| && flags[x] && x in revc && 0 <= revc[x] < |sp| && |sp[revc[x]]| >= 1
    ensures Unfold([], [x], flags, revc, sp, false) == Value([])
    ensures forall y :: 0 <= y < |flags| && !flags[y] ==> Unfold([], [x, y], flags, revc, sp, false) == Value([[y]])
    ensures Unfold([], [x], flags, revc, sp, true) == Value(sp[revc[x]]) && |sp[revc[x]]| >= 1
  {
    assert [x][1..] == [];
    forall y | 0 <= y < |flags| && !flags[y]
      ensures Unfold([], [x, y], flags, revc, sp, false) == Value([[y]])
    {
      UnfoldDropsThenAppends(x, y, flags, revc, sp);
    }
  }

  /** As written, a leading group restores to nothing, so the node after it starts afresh. */
  lemma UnfoldDropsThenAppends(x: int, y: int, flags: seq<bool>, revc: map<int, int>, sp: seq<seq<seq<int>>>)
    requires 0 <= x < |flags| && flags[x] && x in revc && 0 <= revc[x] < |sp|
    requires 0 <= y < |flags| && !flags[y]
    ensures Unfold([], [x, y], flags, revc, sp, false) == Value([[y]])
  {
    assert [x, y][1..] == [y] && [y][1..] == [];
    assert Join([], sp[revc[x]], false) == [];
    calc {
      Unfold([], [x, y], flags, revc, sp, false);
      Unfold([], [y], flags, revc, sp, false);
      Unfold(Extend([], y), [], flags, revc, sp, false);
    }
  }

  /** The restore loop over every realized order, the orders of each appended in turn. */
  function RestoreAll(orders: seq<seq<int>>, flags: seq<bool>, revc: map<int, int>,
                      sp: seq<seq<seq<int>>>, corrected: bool): (r: Run<seq<seq<int>>>)
    ensures !r.Error? && !r.OutOfFuel?
  {
    if |orders| == 0 then Value([])
    else
      match Unfold([], orders[0], flags, revc, sp, corrected)
      case Value(first) =>
        (match RestoreAll(orders[1..], flags, revc, sp, corrected)
         case Value(rest) => Value(first + rest)
         case _ => Panic)
      case _ => Panic
  }

  /** Corrected, every restored order holds exactly the nodes of some realized order. */
  lemma {:induction false} RestoreAllSpec(orders: seq<seq<int>>, flags: seq<bool>, revc: map<int, int>,
                                          sp: seq<seq<seq<int>>>, si: seq<seq<int>>)
    requires forall j :: 0 <= j < |orders| ==> Plan(orders[j], flags, revc, si)
    requires Orderings(sp, si)
    ensures RestoreAll(orders, flags, revc, sp, true).Value?
    ensures forall row :: row in RestoreAll(orders, flags, revc, sp, true).value ==>
      exists j :: 0 <= j < |orders| && multiset(row) == Contents(orders[j], flags, revc, si)
  {
    if |orders| > 0 {
      UnfoldSpec([], orders[0], flags, revc, sp, si, multiset{});
      RestoreAllSpec(orders[1..], flags, revc, sp, si);
      var first := Unfold([], orders[0], flags, revc, sp, true).value;
      var rest := RestoreAll(orders[1..], flags, revc, sp, true).value;
      forall row | row in first + rest
        ensures exists j :: 0 <= j < |orders| && multiset(row) == Contents(orders[j], flags, revc, si)
      {
        if row in first {
          assert multiset(row) == multiset{} + Contents(orders[0], flags, revc, si);
        } else {
          var j :| 0 <= j < |orders[1..]| && multiset(row) == Contents(orders[1..][j], flags, revc, si);
          assert orders[1..][j] == orders[j + 1];
        }
      }
    }
  }

  /** Every order reversed. */
  function ReverseAll(rows: seq<seq<int>>): (r: seq<seq<int>>)
    ensures |r| == |rows| && forall i :: 0 <= i < |rows| ==> r[i] == Reverse(rows[i])
  {
    if |rows| == 0 then [] else [Reverse(rows[0])] + ReverseAll(rows[1..])
  }

  lemma {:induction false} ReverseMultiset(s: seq<int>)
    ensures multiset(Reverse(s)) == multiset(s)
  {
    if |s| > 0 {
      ReverseMultiset(s[1..]);
      assert Reverse(s) == Reverse(s[1..]) + [s[0]];
      assert s == [s[0]] + s[1..];
    }
  }

  /** The sub-patterns: every ordering of every group. */
  function SubPatterns(si: seq<seq<int>>): (r: seq<seq<seq<int>>>)
    ensures Orderings(r, si)
    ensures forall g :: 0 <= g < |si| ==> |r[g]| == Factorial(|si[g]|)
  {
    if |si| == 0 then []
    else [Permutations(si[0])] + SubPatterns(si[1..])
  }

  /** Every ordering of a group's nodes is among its sub-patterns. */
  lemma SubPatternsComplete(si: seq<seq<int>>, g: nat, e: seq<int>)
    requires g < |si| && multiset(e) == multiset(si[g])
    ensures e in SubPatterns(si)[g]
  {
    SubPatternsAt(si, g);
    PermutationsComplete(si[g], e);
  }

  lemma {:induction false} SubPatternsAt(si: seq<seq<int>>, g: nat)
    requires g < |si|
    ensures SubPatterns(si)[g] == Permutations(si[g])
  {
    if g > 0 {
      SubPatternsAt(si[1..], g - 1);
    }
  }

  // ----------------------------------------------------------------- shuffle

  /** Some row of the matrix is longer than the matrix, so its column index overruns the node table. */
  predicate Overlong(m: seq<seq<bool>>)
  {
    exists i :: 0 <= i < |m| && |m[i]| > |m|
  }

  /** Every position recorded in `st` names one of its roots. */
  predicate InRoots(st: Compression)
  {
    Within(st.revrootmat, |st.rootmat|)
    && forall ri :: 0 <= ri < |st.compressed| ==> st.compressed[ri] == -1 || 0 <= st.compressed[ri] < |st.rootmat|
  }

  /**
   * Whichever way later group members are placed, every node visited gets
   * the position of a root already listed, and every group placed so far
   * has one.
   */
  lemma {:induction false} CompressWithin(si: seq<seq<int>>, n: nat, corrected: bool)
    ensures InRoots(Compress(si, n, corrected))
  {
    if n > 0 {
      var prev := Compress(si, n - 1, corrected);
      CompressWithin(si, n - 1, corrected);
      StepWithin(si, prev, n - 1, corrected);
    }
  }

  /** One pass of the loop keeps every position it records within the roots. */
  lemma StepWithin(si: seq<seq<int>>, st: Compression, i: int, corrected: bool)
    requires |st.compressed| == |si| && InRoots(st)
    ensures InRoots(Step(si, st, i, corrected))
  {
    var r := Step(si, st, i, corrected);
    assert forall j :: 0 <= j < |st.revrootmat| ==> r.revrootmat[j] == st.revrootmat[j];
  }

  /** The matrix over root positions: an edge wherever an original edge joins the roots' nodes. */
  function ReducedMatrix(p: Pattern, corrected: bool): (r: seq<seq<bool>>)
    requires !Overlong(p.matrix)
    ensures Square(r, |Compress(p.subIndex, |p.matrix|, corrected).rootmat|)
  {
    var st := Compress(p.subIndex, |p.matrix|, corrected);
    CompressWithin(p.subIndex, |p.matrix|, corrected);
    Reduce(p.matrix, st.revrootmat, |st.rootmat|)
  }

  /** The routes from every terminal root of the reduced matrix. */
  function ShuffleRoutes(p: Pattern, corrected: bool): (r: seq<seq<int>>)
    requires !Overlong(p.matrix)
    ensures Headed(r)
  {
    var mat := ReducedMatrix(p, corrected);
    var routes := EndRoutes(Ends(mat, |mat|), mat);
    assert forall k :: 0 <= k < |routes| ==> routes[k] in routes;
    routes
  }

  /**
   * `Shuffle`: the orders of every group-wise shuffle of the phrases,
   * appended to the existing orders, every order then reversed. Fails when
   * the length disagrees with the matrix or no route exists. With
   * `corrected` false it places later group members and restores leading
   * groups as the source does; with `corrected` true as evidently intended.
   */
  function Shuffle(p: Pattern, fuel: nat, corrected: bool): (r: Run<Pattern>)
    ensures p.length != |p.matrix| ==> r == Error("Length and Matrix length do not match")
    ensures r.Error? ==> r.message == "Length and Matrix length do not match" || r.message == "Pattern.Routes length is 0"
    ensures r.Value? ==> (r.value.matrix == p.matrix && r.value.length == p.length
                          && r.value.initialOrder == p.initialOrder && r.value.subIndex == p.subIndex)
    ensures r.Value? ==> Orderings(r.value.subPatterns, p.subIndex)
    ensures r.Value? ==> (|r.value.orders| >= |p.orders|
                          && forall i :: 0 <= i < |p.orders| ==> r.value.orders[i] == Reverse(p.orders[i]))
  {
    if p.length != |p.matrix| then Error("Length and Matrix length do not match")
    else if Overlong(p.matrix) then Panic
    else
      var st := Compress(p.subIndex, |p.matrix|, corrected);
      var sps := SubPatterns(p.subIndex);
      var routes := ShuffleRoutes(p, corrected);
      if |routes| == 0 then Error("Pattern.Routes length is 0")
      else Reordered(p, st, sps, routes, fuel, corrected)
  }

  /**
   * The shuffle once routes exist: the root orders merged from the routes,
   * read back through the root table, groups restored, appended to the
   * existing orders and every order reversed. Only the sub-patterns and
   * the orders change.
   */
  function Reordered(p: Pattern, st: Compression, sps: seq<seq<seq<int>>>, routes: seq<seq<int>>, fuel: nat,
                     corrected: bool): (r: Run<Pattern>)
    requires Headed(routes)
    ensures !r.Error?
    ensures r.Value? ==> r.value == p.(subPatterns := sps, orders := r.value.orders)
    ensures r.Value? ==> (|r.value.orders| >= |p.orders|
                          && forall i :: 0 <= i < |p.orders| ==> r.value.orders[i] == Reverse(p.orders[i]))
  {
    match CalculatePattern(routes, fuel)
    case Value(rootorders) =>
      if !Indexes(rootorders, |st.rootmat|) then Panic
      else
        (match RestoreAll(Realize(rootorders, st.rootmat), st.revsubpatflag, st.revcompressed, sps, corrected)
         case Value(out) => Value(p.(subPatterns := sps, orders := ReverseAll(p.orders + out)))
         case _ => Panic)
    case Error(m) => Error(m)
    case Panic => Panic
    case OutOfFuel => OutOfFuel
  }

  /** The nodes placed at root `a` reach the nodes of some root below `nr` by an original edge. */
  ghost predicate Leaves(m: seq<seq<bool>>, pos: seq<int>, nr: nat, a: int)
    requires |m| <= |pos| && forall i :: 0 <= i < |m| ==> |m[i]| <= |pos|
  {
    exists b :: 0 <= b < nr && Linked(m, pos, |m|, a, b)
  }

  /**
   * With a matching length and no overlong row, the shuffle finds no route
   * exactly when every root of the reduced matrix has an outgoing edge, that
   * is, when every root's nodes reach some root's nodes by an original edge.
   * This holds for the compression as written and as corrected alike.
   */
  lemma ShuffleNoRoutes(p: Pattern, fuel: nat, corrected: bool)
    requires p.length == |p.matrix| && !Overlong(p.matrix)
    ensures var st := Compress(p.subIndex, |p.matrix|, corrected);
      Shuffle(p, fuel, corrected) == Error("Pattern.Routes length is 0") <==>
        forall a :: 0 <= a < |st.rootmat| ==> Leaves(p.matrix, st.revrootmat, |st.rootmat|, a)
  {
    ShuffleErrorIffNoRoute(p, fuel, corrected);
    NoRouteIffNoEnd(p, corrected);
    NoEndIffAllLeave(p, corrected);
  }

  /** No root of the reduced matrix is terminal exactly when every root's nodes reach some root's nodes. */
  lemma NoEndIffAllLeave(p: Pattern, corrected: bool)
    requires !Overlong(p.matrix)
    ensures var st := Compress(p.subIndex, |p.matrix|, corrected);
      |Ends(ReducedMatrix(p, corrected), |ReducedMatrix(p, corrected)|)| == 0 <==>
        forall a :: 0 <= a < |st.rootmat| ==> Leaves(p.matrix, st.revrootmat, |st.rootmat|, a)
  {
    var st := Compress(p.subIndex, |p.matrix|, corrected);
    var mat := ReducedMatrix(p, corrected);
    var ends := Ends(mat, |mat|);
    forall a | 0 <= a < |st.rootmat|
      ensures a in ends <==> !Leaves(p.matrix, st.revrootmat, |st.rootmat|, a)
    {
      EndIffStays(p, a, corrected);
    }
    if |ends| > 0 {
      assert ends[0] in ends;
    }
  }

  /** With a matching length and no overlong row, the "no route" error is reported exactly when no route is found. */
  lemma ShuffleErrorIffNoRoute(p: Pattern, fuel: nat, corrected: bool)
    requires p.length == |p.matrix| && !Overlong(p.matrix)
    ensures Shuffle(p, fuel, corrected) == Error("Pattern.Routes length is 0") <==> |ShuffleRoutes(p, corrected)| == 0
  {
    var routes := ShuffleRoutes(p, corrected);
    if |routes| != 0 {
      assert !CalculatePattern(routes, fuel).Error?;
    }
  }

  /** The routes start at the terminal roots, one route at least from each. */
  lemma NoRouteIffNoEnd(p: Pattern, corrected: bool)
    requires !Overlong(p.matrix)
    ensures |ShuffleRoutes(p, corrected)| == 0 <==> |Ends(ReducedMatrix(p, corrected), |ReducedMatrix(p, corrected)|)| == 0
  {
  }

  /** A root is terminal in the reduced matrix exactly when its nodes reach no root's nodes. */
  lemma EndIffStays(p: Pattern, a: nat, corrected: bool)
    requires !Overlong(p.matrix) && a < |Compress(p.subIndex, |p.matrix|, corrected).rootmat|
    ensures var st := Compress(p.subIndex, |p.matrix|, corrected);
      Sink(ReducedMatrix(p, corrected)[a]) <==> !Leaves(p.matrix, st.revrootmat, |st.rootmat|, a)
  {
    var st := Compress(p.subIndex, |p.matrix|, corrected);
    CompressWithin(p.subIndex, |p.matrix|, corrected);
    var mat := ReducedMatrix(p, corrected);
    forall b | 0 <= b < |st.rootmat|
      ensures mat[a][b] <==> Linked(p.matrix, st.revrootmat, |p.matrix|, a, b)
    {
      ReduceSpec(p.matrix, st.revrootmat, |st.rootmat|, a, b);
    }
  }

  /** The steps a successful shuffle went through, each succeeding. */
  lemma ShuffleValue(p: Pattern, fuel: nat)
    requires Shuffle(p, fuel, true).Value?
    ensures p.length == |p.matrix| && !Overlong(p.matrix)
    ensures CalculatePattern(ShuffleRoutes(p, true), fuel).Value?
    ensures var st := Compress(p.subIndex, |p.matrix|, true);
      var rootorders := CalculatePattern(ShuffleRoutes(p, true), fuel).value;
      var restored := RestoreAll(Realize(rootorders, st.rootmat), st.revsubpatflag, st.revcompressed,
                                 SubPatterns(p.subIndex), true);
      Indexes(rootorders, |st.rootmat|) && restored.Value?
      && Shuffle(p, fuel, true).value.orders == ReverseAll(p.orders + restored.value)
  {
  }

  /** Every root order read through the root table names only placed nodes, and groups that exist. */
  lemma RealizedPlans(rows: seq<seq<int>>, st: Compression, si: seq<seq<int>>, n: nat)
    requires Compressed(si, n, st) && Indexes(rows, |st.rootmat|)
    ensures forall j :: 0 <= j < |rows| ==> Plan(Realize(rows, st.rootmat)[j], st.revsubpatflag, st.revcompressed, si)
  {
    var realized := Realize(rows, st.rootmat);
    forall j | 0 <= j < |realized|
      ensures Plan(realized[j], st.revsubpatflag, st.revcompressed, si)
    {
      forall x | x in realized[j]
        ensures 0 <= x < |st.revsubpatflag|
        ensures st.revsubpatflag[x] ==> x in st.revcompressed && 0 <= st.revcompressed[x] < |si|
      {
        var o :| 0 <= o < |realized[j]| && realized[j][o] == x;
        assert x in st.rootmat;
      }
    }
  }

  /** Each restored order holds exactly the nodes of one root order, read through the root table. */
  lemma RestoredOrigin(rootorders: seq<seq<int>>, st: Compression, si: seq<seq<int>>, n: nat,
                       sps: seq<seq<seq<int>>>, out: seq<seq<int>>, q: nat) returns (j: nat)
    requires Compressed(si, n, st) && Indexes(rootorders, |st.rootmat|) && Orderings(sps, si)
    requires RestoreAll(Realize(rootorders, st.rootmat), st.revsubpatflag, st.revcompressed, sps, true) == Value(out)
    requires q < |out|
    ensures j < |rootorders|
    ensures Plan(RealizeRow(rootorders[j], st.rootmat), st.revsubpatflag, st.revcompressed, si)
    ensures multiset(out[q]) == Contents(RealizeRow(rootorders[j], st.rootmat), st.revsubpatflag, st.revcompressed, si)
  {
    var realized := Realize(rootorders, st.rootmat);
    RealizedPlans(rootorders, st, si, n);
    RestoreAllSpec(realized, st.revsubpatflag, st.revcompressed, sps, si);
    assert out[q] in out;
    j :| 0 <= j < |realized| && multiset(out[q]) == Contents(realized[j], st.revsubpatflag, st.revcompressed, si);
    assert Plan(realized[j], st.revsubpatflag, st.revcompressed, si);
  }

  /** An order appended after the `prior` ones is the reversal of a restored root order. */
  lemma AddedOrder(orders: seq<seq<int>>, prior: seq<seq<int>>, out: seq<seq<int>>, rootorders: seq<seq<int>>,
                   st: Compression, si: seq<seq<int>>, n: nat, sps: seq<seq<seq<int>>>, i: nat) returns (j: nat)
    requires orders == ReverseAll(prior + out) && |prior| <= i < |orders|
    requires Compressed(si, n, st) && Indexes(rootorders, |st.rootmat|) && Orderings(sps, si)
    requires RestoreAll(Realize(rootorders, st.rootmat), st.revsubpatflag, st.revcompressed, sps, true) == Value(out)
    ensures j < |rootorders|
    ensures Plan(RealizeRow(rootorders[j], st.rootmat), st.revsubpatflag, st.revcompressed, si)
    ensures multiset(orders[i]) == Contents(RealizeRow(rootorders[j], st.rootmat), st.revsubpatflag, st.revcompressed, si)
  {
    var q := i - |prior|;
    var row := out[q];
    assert (prior + out)[i] == row;
    assert orders[i] == Reverse(row);
    ReverseMultiset(row);
    j := RestoredOrigin(rootorders, st, si, n, sps, out, q);
    assert multiset(orders[i]) == multiset(out[q]);
  }

  /**
   * Every order the shuffle adds is the reversal of an order holding exactly
   * the nodes one root order stands for, each group root standing for all
   * the nodes of its group; that root order covers every root on the routes.
   */
  lemma ShuffleOrders(p: Pattern, fuel: nat, i: nat)
    requires Shuffle(p, fuel, true).Value? && |p.orders| <= i < |Shuffle(p, fuel, true).value.orders|
    ensures var st := Compress(p.subIndex, |p.matrix|, true);
      var rootorders := CalculatePattern(ShuffleRoutes(p, true), fuel).value;
      Indexes(rootorders, |st.rootmat|)
      && exists j :: 0 <= j < |rootorders| && Covers(rootorders[j], ShuffleRoutes(p, true))
           && Plan(RealizeRow(rootorders[j], st.rootmat), st.revsubpatflag, st.revcompressed, p.subIndex)
           && multiset(Shuffle(p, fuel, true).value.orders[i])
              == Contents(RealizeRow(rootorders[j], st.rootmat), st.revsubpatflag, st.revcompressed, p.subIndex)
  {
    var n := |p.matrix|;
    var st := Compress(p.subIndex, n, true);
    ShuffleValue(p, fuel);
    CompressSpec(p.subIndex, n);
    var rootorders := CalculatePattern(ShuffleRoutes(p, true), fuel).value;
    var sps := SubPatterns(p.subIndex);
    var out := RestoreAll(Realize(rootorders, st.rootmat), st.revsubpatflag, st.revcompressed, sps, true).value;
    var j := AddedOrder(Shuffle(p, fuel, true).value.orders, p.orders, out, rootorders, st, p.subIndex, n, sps, i);
    assert rootorders[j] in rootorders;
  }
}

=== FILE: system.dfy ===
/** The two helpers of system.go the core uses: Indent and MaybeYes. */
module SystemUtil {

  /** A string of `n` spaces. */
  function Spaces(n: nat): (r: string)
    ensures |r| == n && forall k :: 0 <= k < n ==> r[k] == ' '
  {
    if n == 0 then "" else Spaces(n - 1) + " "
  }

  /** Indent: two spaces per level; no indentation for a level of zero or below. */
  method Indent(i: int) returns (r: string)
    ensures r == Spaces(2 * (if i > 0 then i else 0))
  {
    r := "";
    var level := i;
    while level > 0
      invariant i > 0 ==> 0 <= level <= i
      invariant i <= 0 ==> level == i
      invariant r == Spaces(2 * (if i > 0 then i - level else 0))
    {
      r := r + "  ";
      level := level - 1;
    }
  }

  /** Indent(i + 1) is Indent(i) with one more level. */
  lemma IndentStep(i: nat)
    ensures Spaces(2 * (i + 1)) == Spaces(2 * i) + "  "
  {
  }

  /** MaybeYes: the answers taken as "yes"; the comparison is case-sensitive. */
  predicate MaybeYes(a: string)
  {
    a == "" || a == "Y" || a == "y" || a == "yes" || a == "YES"
  }

  lemma MaybeYesCaseSensitive()
    ensures !MaybeYes("Yes") && !MaybeYes("n") && MaybeYes("")
  {
  }
}

=== FILE: wordnet.dfy ===
/**
 * The pure parts of the WordNet synonym lookup (wordnet.go): the recorded
 * answer codec, result copying, the link list and the two selection rules
 * applied inside GetSynonyms. The SQLite queries are not modelled.
 */
module WordNets {
  import Runes
  import WP = WordNetParts
  import WL = WordNetLinks

  /** What the user chose for one synset: nothing, every link, or synonyms only. */
  type WordNetAnswer = int

  const WNANone: WordNetAnswer := 0
  const WNAAll: WordNetAnswer := 1
  const WNASynonyms: WordNetAnswer := 2

  predicate IsAnswer(a: WordNetAnswer)
  {
    WNANone <= a <= WNASynonyms
  }

  /** WordNetAnswer.String; any other value is fatal in the source, None here. */
  function AnswerString(a: WordNetAnswer): (r: Runes.Option<string>)
    ensures r.Some? <==> IsAnswer(a)
    ensures r.Some? ==> r.value in {"", "all", "synonyms"}
  {
    if a == WNANone then Runes.Some("")
    else if a == WNAAll then Runes.Some("all")
    else if a == WNASynonyms then Runes.Some("synonyms")
    else Runes.None
  }

  /** NewWordNetAnswer: an unknown text is read as no answer. */
  function NewWordNetAnswer(s: string): (a: WordNetAnswer)
    ensures IsAnswer(a)
    ensures a == WNAAll <==> s == "all"
    ensures a == WNASynonyms <==> s == "synonyms"
  {
    if s == "" then WNANone
    else if s == "all" then WNAAll
    else if s == "synonyms" then WNASynonyms
    else WNANone
  }

  lemma NewWordNetAnswerString(a: WordNetAnswer)
    requires IsAnswer(a)
    ensures AnswerString(a).Some? && NewWordNetAnswer(AnswerString(a).value) == a
  {
  }

  datatype WordNetResult = WordNetResult(
    surface: string,
    link: WL.WordNetLink,
    language: string,
    part: WP.WordNetPart,
    kana: string,
    hasKana: bool,
    hasInflection: bool,
    inflectionSurface: string,
    inflectionType: string,
    inflectionForm: string,
    hasPolite: bool,
    politeSurface: string,
    hasPoliteKana: bool,
    politeKana: string)

  /**
   * WordNetResult.Copy: everything up to the inflection fields is copied; the
   * polite fields are left at their zero values.
   */
  function Copy(w: WordNetResult): (r: WordNetResult)
    ensures r.surface == w.surface && r.link == w.link && r.language == w.language && r.part == w.part
    ensures r.kana == w.kana && r.hasKana == w.hasKana
    ensures r.hasInflection == w.hasInflection && r.inflectionSurface == w.inflectionSurface
    ensures r.inflectionType == w.inflectionType && r.inflectionForm == w.inflectionForm
    ensures !r.hasPolite && r.politeSurface == [] && !r.hasPoliteKana && r.politeKana == []
  {
    w.(hasPolite := false, politeSurface := [], hasPoliteKana := false, politeKana := [])
  }

  /** A result without polite forms survives Copy unchanged; copying twice is copying once. */
  lemma CopyFaithful(w: WordNetResult)
    ensures !w.hasPolite && w.politeSurface == [] && !w.hasPoliteKana && w.politeKana == [] ==> Copy(w) == w
    ensures Copy(Copy(w)) == Copy(w)
  {
  }

  /** GetWordNetLinkList: every link kind once, in declaration order. */
  method GetWordNetLinkList() returns (r: seq<WL.WordNetLink>)
    ensures |r| == WL.WNEnd
    ensures forall i :: 0 <= i < |r| ==> r[i] == i
    ensures forall l :: 0 <= l < WL.WNEnd ==> l in r
  {
    r := [];
    var i := 0;
    while i < WL.WNEnd
      invariant 0 <= i <= WL.WNEnd
      invariant |r| == i
      invariant forall j :: 0 <= j < i ==> r[j] == j
    {
      r := r + [i];
      i := i + 1;
    }
    forall l | 0 <= l < WL.WNEnd
      ensures l in r
    {
      assert r[l] == l;
    }
  }

  /** Every name NewWordNetLink accepts is a valid index into the link list. */
  lemma AcceptedLinkIsListed(t: string, list: seq<WL.WordNetLink>)
    requires |list| == WL.WNEnd && forall i :: 0 <= i < |list| ==> list[i] == i
    requires WL.NewWordNetLink(t).Some?
    ensures 0 <= WL.NewWordNetLink(t).value < |list| && list[WL.NewWordNetLink(t).value] == WL.NewWordNetLink(t).value
  {
  }

  /** The endings of verbs in dictionary form (the u-row). */
  const UEndings := "うくすつぬふむゆる"

  /**
   * The する rule: for a verb or adverb lookup, a synonym whose last rune is
   * not a u-row ending is taken to be a noun and gets "する" appended. The
   * source indexes the last rune, so the surface must be non-empty.
   */
  function VerbSurface(part: WP.WordNetPart, surface: string): (r: string)
    requires |surface| >= 1
    ensures r == surface || r == surface + "する"
    ensures r == surface + "する" <==>
      (part == WP.WNVerbPart || part == WP.WNAdverbPart) && surface[|surface| - 1] !in UEndings
  {
    Runes.ContainsRune(UEndings, surface[|surface| - 1]);
    if (part == WP.WNVerbPart || part == WP.WNAdverbPart) && !Runes.Contains(UEndings, [surface[|surface| - 1]]) then
      surface + "する"
    else
      surface
  }

  /** After the rule a verb or adverb synonym always ends in a u-row rune. */
  lemma VerbSurfaceEndsInU(part: WP.WordNetPart, surface: string)
    requires |surface| >= 1
    requires part == WP.WNVerbPart || part == WP.WNAdverbPart
    ensures VerbSurface(part, surface)[|VerbSurface(part, surface)| - 1] in UEndings
  {
    var r := VerbSurface(part, surface);
    if r != surface {
      assert r[|r| - 1] == 'る';
    }
  }

  /** The selection made by the synset list for one synset of one basic phrase. */
  datatype Selection = Skip | Use(answer: WordNetAnswer)

  /**
   * The synset-list rule of GetSynonyms: with the list in use and an entry
   * for the phrase, the synset's recorded answer is used and a synset that is
   * unlisted (or recorded as no answer) is skipped; otherwise nothing is
   * recorded yet.
   */
  function SelectSynset(useSynsetList: bool, synsetList: map<int, map<string, WordNetAnswer>>,
                        id: int, synset: string): (r: Selection)
    ensures r == Skip <==>
      useSynsetList && id in synsetList && (synset !in synsetList[id] || synsetList[id][synset] == WNANone)
    ensures r.Use? && r.answer != WNANone ==>
      useSynsetList && id in synsetList && synset in synsetList[id] && synsetList[id][synset] == r.answer
    ensures r.Use? && (!useSynsetList || id !in synsetList) ==> r.answer == WNANone
  {
    if useSynsetList && id in synsetList then
      var answer := if synset in synsetList[id] then synsetList[id][synset] else WNANone;
      if answer == WNANone then Skip else Use(answer)
    else
      Use(WNANone)
  }

  /** The links queried for a synset: a synonyms-only answer keeps only WNSynonym. */
  function LinksFor(answer: WordNetAnswer, links: seq<WL.WordNetLink>): (r: seq<WL.WordNetLink>)
    ensures answer != WNASynonyms ==> r == links
    ensures answer == WNASynonyms ==> forall i :: 0 <= i < |r| ==> r[i] == WL.WNSynonym
    ensures answer == WNASynonyms ==> |r| == multiset(links)[WL.WNSynonym]
  {
    if answer != WNASynonyms then links
    else if links == [] then []
    else
      assert links == [links[0]] + links[1..];
      (if links[0] == WL.WNSynonym then [links[0]] else []) + LinksFor(answer, links[1..])
  }

  /** Under a synonyms-only answer, WNSynonym is queried exactly when it was asked for. */
  lemma {:induction false} LinksForKeepsSynonym(links: seq<WL.WordNetLink>)
    ensures WL.WNSynonym in LinksFor(WNASynonyms, links) <==> WL.WNSynonym in links
  {
    assert WL.WNSynonym in links <==> multiset(links)[WL.WNSynonym] > 0;
    var r := LinksFor(WNASynonyms, links);
    if |r| > 0 {
      assert r[0] == WL.WNSynonym;
    }
  }
}

=== FILE: wordnet_link.dfy ===
/** WordNet link kinds (wordnet_link.go). */
module WordNetLinks {
  import Runes

  type WordNetLink = int

  const WNSynonym: WordNetLink := 0
  const WNHype: WordNetLink := 1
  const WNHypo: WordNetLink := 2
  const WNMprt: WordNetLink := 3
  const WNHprt: WordNetLink := 4
  const WNHmem: WordNetLink := 5
  const WNMmem: WordNetLink := 6
  const WNMsub: WordNetLink := 7
  const WNHsub: WordNetLink := 8
  const WNDmnc: WordNetLink := 9
  const WNDmtc: WordNetLink := 10
  const WNDmnu: WordNetLink := 11
  const WNDmtu: WordNetLink := 12
  const WNDmnr: WordNetLink := 13
  const WNDmtr: WordNetLink := 14
  const WNInst: WordNetLink := 15
  const WNHasi: WordNetLink := 16
  const WNEnta: WordNetLink := 17
  const WNCaus: WordNetLink := 18
  const WNAlso: WordNetLink := 19
  const WNAttr: WordNetLink := 20
  const WNSim: WordNetLink := 21
  const WNEnd: WordNetLink := 22

  /** The constants in declaration order, so that the i-th has value i. */
  const Declared: seq<WordNetLink> := [WNSynonym, WNHype, WNHypo, WNMprt, WNHprt, WNHmem,
    WNMmem, WNMsub, WNHsub, WNDmnc, WNDmtc, WNDmnu, WNDmtu, WNDmnr, WNDmtr, WNInst,
    WNHasi, WNEnta, WNCaus, WNAlso, WNAttr, WNSim]

  lemma ConstantsConsecutive()
    ensures |Declared| == WNEnd
    ensures forall i :: 0 <= i < |Declared| ==> Declared[i] == i
  {
  }

  /**
   * NewWordNetLink: "synonyms", "hype" and "hypo" name a link; any other name
   * is fatal in the source, which is None here.
   */
  function NewWordNetLink(t: string): (r: Runes.Option<WordNetLink>)
    ensures r.Some? <==> t in {"synonyms", "hype", "hypo"}
    ensures r.Some? ==> 0 <= r.value < WNEnd
  {
    if t == "synonyms" then Runes.Some(WNSynonym)
    else if t == "hype" then Runes.Some(WNHype)
    else if t == "hypo" then Runes.Some(WNHypo)
    else Runes.None
  }

  lemma NewWordNetLinkDistinct(a: string, b: string)
    requires NewWordNetLink(a).Some? && NewWordNetLink(b).Some?
    ensures NewWordNetLink(a) == NewWordNetLink(b) <==> a == b
  {
  }
}

=== FILE: wordnet_part.dfy ===
/** WordNet parts of speech (wordnet_part.go) and the mapping from Parts. */
module WordNetParts {
  import P = Parts

  type WordNetPart = int

  const WNUnknownPart: WordNetPart := 0
  const WNVerbPart: WordNetPart := 1
  const WNAdjectivePart: WordNetPart := 2
  const WNNounPart: WordNetPart := 3
  const WNAdverbPart: WordNetPart := 4
  const WNPartEnd: WordNetPart := 5

  /** The database code of a part: v, a, n, r; anything else is "unknown". */
  function String(w: WordNetPart): (s: string)
    ensures s in {"v", "a", "n", "r", "unknown"}
    ensures s == "unknown" <==> !(WNVerbPart <= w <= WNAdverbPart)
  {
    if w == WNUnknownPart then "unknown"
    else if w == WNVerbPart then "v"
    else if w == WNAdjectivePart then "a"
    else if w == WNNounPart then "n"
    else if w == WNAdverbPart then "r"
    else "unknown"
  }

  function NewWordNetPart(s: string): (w: WordNetPart)
    ensures WNUnknownPart <= w <= WNAdverbPart
    ensures w == WNUnknownPart <==> s !in {"v", "a", "n", "r"}
  {
    if s == "v" then WNVerbPart
    else if s == "a" then WNAdjectivePart
    else if s == "n" then WNNounPart
    else if s == "r" then WNAdverbPart
    else WNUnknownPart
  }

  /** The four real parts round-trip; every other value comes back as unknown. */
  lemma NewWordNetPartString(w: WordNetPart)
    ensures NewWordNetPart(String(w)) == if WNVerbPart <= w <= WNAdverbPart then w else WNUnknownPart
  {
  }

  lemma StringNewWordNetPart(s: string)
    requires s in {"v", "a", "n", "r"}
    ensures String(NewWordNetPart(s)) == s
  {
  }

  /**
   * ToWordNetPart: verbs, nouns and adverbs keep their class; adjectives,
   * adjectival verbs and adnominals are adjectives; the rest is unknown.
   */
  function ToWordNetPart(p: P.Part): (w: WordNetPart)
    ensures w == WNVerbPart <==> p == P.VerbPart
    ensures w == WNNounPart <==> p == P.NounPart
    ensures w == WNAdverbPart <==> p == P.AdverbPart
    ensures w == WNAdjectivePart <==> p in {P.AdjectivePart, P.AdjectiveVerbPart, P.AdnominalPart}
    ensures w in {WNUnknownPart, WNVerbPart, WNAdjectivePart, WNNounPart, WNAdverbPart}
  {
    if p == P.VerbPart then WNVerbPart
    else if p == P.AdjectivePart then WNAdjectivePart
    else if p == P.AdjectiveVerbPart then WNAdjectivePart
    else if p == P.NounPart then WNNounPart
    else if p == P.AdnominalPart then WNAdjectivePart
    else if p == P.AdverbPart then WNAdverbPart
    else WNUnknownPart
  }

  /** The code looked up for a part names the same part again. */
  lemma ToWordNetPartCode(p: P.Part)
    ensures NewWordNetPart(String(ToWordNetPart(p))) == ToWordNetPart(p)
  {
  }
}
